=== FILE: README.md ===
# DataEncoding in Dafny

A model of the encoders and decoders of the C# library DataEncoding, for four formats:

- **DER** (Distinguished Encoding Rules, ITU-T X.690):
  - `DERDataType`: identifier octets and tag numbers;
  - the length field of `DERBase`;
  - `DERGeneric`: leaf nodes with raw content;
  - `DERSequence`: a SEQUENCE of nodes;
  - `DERBase.FromEncoded`: the dispatching decoder.
- **XML**:
  - `XMLString`: text nodes, entity escaping and numeric character references;
  - the static text helpers of `XMLBase`;
  - `XMLAttribute`;
  - `XMLElement`, with the shared opening-tag decoder `CommonDecoder`;
  - the name-based lookups of the attribute and content collections.
- **JSON**:
  - `JSONString`, `JSONBool` and `JSONNull`;
  - the container types `JSONArray` and `JSONObject`;
  - `JSONNameValuePair` and `JSONNameValuePairCollection`;
  - the text helpers of `JSONFunctions`: `Minify`, `Beautify`, the next-value finder `GetDatatype`, and the bracket matchers `FindObjectEnd` and `FindArrayEnd`.
- **PEM** (RFC 7468 textual encoding):
  - `PEMBlock`, which Base64-encodes content between `-----BEGIN label-----` and `-----END label-----` lines;
  - `PEMBlockDER`;
  - `PEMSuperBlock` and `PEMSuperBlockDER`, which hold a list of blocks.

## How the model is built

Every encoder and decoder is a pure function. Objects and their mutable properties become immutable datatypes.

A C# exception becomes `Fail(e)` of the `Result` type in `common.dfy`, with the exception's kind as `e`. For example:
- indexing past an array or string is `IndexOutOfRange`;
- `Substring` or `Remove` with bad bounds is `ArgumentOutOfRange`;
- dereferencing null is `NullReference`.

A loop of the source that never ends on some input becomes `Fail(Diverges)`.

Where the source computes with a C# `int`, the model reduces the exact value into the signed 32-bit range. `Common.Wrap32` and `Common.WrapInt32` do this.

Where the source has a defect, two things are modelled:
- the code as written, which the operations use;
- a corrected definition next to it, with the intended property proved about it.

The `## Findings` table lists these pairs.

The modules follow the source files:

| module | file | models |
|---|---|---|
| `Common` | `common.dfy` | results and errors, octets, `int` wrap-around |
| `Text` | `text.dfy` | `IndexOf`, `Substring`, `Remove` and `Trim` |
| `Lists` | `lists.dfy` | the first-match `Remove` of a list |
| `ParseNumbers` | `parse_numbers.dfy` | `Convert.ToInt32(s, radix)` and `Convert.ToString(n, 16)` |
| `DerTag` | `der_tag.dfy` | `DERDataType` |
| `TagFixed` | `der_tag_fixed.dfy` | a corrected tag codec |
| `DerLength` | `der_length.dfy` | `DERBase.EncodeLength` and `DERBase.DecodeLength` |
| `Der` | `der_node.dfy` | `DERGeneric`, `DERSequence` and `DERBase.FromEncoded` |
| `DispatchFixed` | `der_dispatch.dfy` | a corrected dispatch of `DERBase.FromEncoded` |
| `DerExamples` | `der_examples.dfy` | the DER unit tests |
| `XmlString` | `xml_string.dfy` | `XMLString` |
| `XmlBase` | `xml_base.dfy` | the static helpers of `XMLBase` |
| `XmlAttribute` | `xml_attribute.dfy` | `XMLAttribute` and `XMLAttributeCollection` |
| `XmlContent` | `xml_content.dfy` | `XMLContentCollection` |
| `XmlElement` | `xml_element.dfy` | `XMLElement` and `XMLBase.CommonDecoder` |
| `XmlExamples` | `xml_examples.dfy` | the XML unit tests |
| `JsonValue` | `json_value.dfy` | the JSON node types |
| `JsonFunctions` | `json_functions.dfy` | `JSONFunctions` |
| `JsonScalar` | `json_scalar.dfy` | `JSONString`, `JSONBool` and `JSONNull` |
| `JsonContainer` | `json_container.dfy` | the decoders of `JSONArray`, `JSONObject` and `JSONNameValuePair` |
| `JsonCollection` | `json_collection.dfy` | `JSONNameValuePairCollection` |
| `JsonEncoded` | `json_encoded.dfy` | properties of encoded JSON text |
| `JsonExamples` | `json_examples.dfy` | the JSON unit tests |
| `Base64` | `pem_base64.dfy` | `Convert.ToBase64String` and `Convert.FromBase64String` |
| `PemBlock` | `pem_block.dfy` | `PEMBlock` |
| `PemSuperBlock` | `pem_super.dfy` | `PEMSuperBlock` |
| `PemDer` | `pem_der.dfy` | `PEMBlockDER` and `PEMSuperBlockDER` |
| `PemExamples` | `pem_examples.dfy` | the PEM unit tests |

## Model

| member | source | states |
|---|---|---|
| Common.Wrap32 | DER/DERBase.cs:137-144 | an unsigned 32-bit pattern read as a C# `int` is itself below 2^31 and 2^32 less from there on |
| Common.WrapInt32 | DER/DERSequence.cs:73 | unchecked `int` arithmetic leaves a value congruent to the exact one modulo 2^32, equal to it inside the `int` range |
| DerTag.ScanFindsTerminator | DER/DERDataType.cs:138-142 | the continuation scan stops at the first octet with bit 8 clear, and runs off the end exactly when there is none |
| DerTag.ToInt | DER/DERDataType.cs:132-156 | a tag number is read exactly when the leading octet's low five bits are not all ones, and it is those five bits; the high-tag branch always throws |
| DerTag.Decode | DER/DERDataType.cs:66-72 | a decoded identifier keeps the single octet it was read from |
| DerTag.LowTagOctet | DER/DERDataType.cs:187 | the octet of a low tag number packs class, constructed flag and number into disjoint bit fields, and unpacking recovers each |
| DerTag.DecodeLowTag | DER/DERDataType.cs:66-72 | decoding a low-tag octet gives class from bits 8-7, primitive when bit 6 is clear, and number and data type from bits 5-1 |
| DerTag.LowTagRoundTrip | DER/DERDataType.cs:56-72 | the octet written for a tag number from 0 to 30, wherever it sits, decodes to the object the number constructor builds |
| DerTag.TwoOctetHighTag | DER/DERDataType.cs:160-185 | tag numbers 31 to 127 are written as the marker octet followed by the number |
| DerTag.TypeNumberSetter | DER/DERDataType.cs:81-91 | setting the number keeps the data type in step (the number up to 36, `Unknown` above) and rewrites the octets |
| DerTag.DataTypeSetter | DER/DERDataType.cs:98-112 | `Unknown` clears the number to -1 and the octets to null; any other data type sets the number to match |
| DerTag.SettersAgree | DER/DERDataType.cs:81-112 | for the named types 0 to 36 the number setter and the data-type setter leave the same state |
| DerTag.TypeBytesSetterInverse | DER/DERDataType.cs:119-129 | storing the octets of a low tag number recovers the state the number setter gives |
| TagFixed.Base128RoundTrip | DER/DERDataType.cs:165-169 | the base-128 digits of a number read back as the number |
| TagFixed.LowTagsAgree | DER/DERDataType.cs:155-187 | the corrected codec writes and reads tag numbers up to 30 exactly as the source does |
| TagFixed.HighTagShape | DER/DERDataType.cs:160-185 | the corrected high-tag form has the marker octet and base-128 digits, bit 8 set on all but the last digit, and no leading zero digit |
| TagFixed.NumberRoundTrip | DER/DERDataType.cs:132-188 | with the corrected codec, every non-negative tag number is read back from its identifier octets wherever they sit |
| DerLength.BigEndianRoundTrip | DER/DERBase.cs:95-98 | `k` big-endian octets written from a value below 256^k read back as that value (also lines 139-142) |
| DerLength.FromBigEndian32 | DER/DERBase.cs:137-144 | a magnitude of up to four octets read as an `int` is the unsigned value below 2^31, and that value minus 2^32 from there on |
| DerLength.EncodeLength | DER/DERBase.cs:70-105 | encoding refuses exactly the negative lengths, and a length below 128 is its own single octet |
| DerLength.LongFormShape | DER/DERBase.cs:80-103 | from 128 upwards: a marker octet `0x80 + k`, then `k` magnitude octets with no leading zero that read back as the length |
| DerLength.LongForm | DER/DERBase.cs:82-91 | the magnitude octet count is the least that holds the length |
| DerLength.DecodeLength | DER/DERBase.cs:121-147 | a decoded length field lies inside the input and occupies 1 to 5 octets |
| DerLength.DecodeLengthForms | DER/DERBase.cs:121-147 | the short form is its own value; markers 0x80 and above 0x84 are refused as not supported; a long form past the input fails; otherwise the counted octets are read as an `int` |
| DerLength.LengthRoundTrip | DER/DERBase.cs:70-147 | every non-negative length decodes from its own encoding, whatever surrounds it, occupying exactly the encoded octets |
| DerLength.LongFormOctets | DER/DERBase.cs:80-103 | a long form is the marker `0x80 + BytesNeeded` followed by that many big-endian octets |
| DerLength.OneOctetMagnitude | DER/DERBase.cs:76-85 | up to 127 a length is one octet; 128 to 255 take the marker 0x81 and one magnitude octet |
| DerLength.LengthBoundaries | DER/DERBase.cs:84-91 | 256 takes two magnitude octets and 16777216 takes four |
| DerLength.RejectedLengthForms | DER/DERBase.cs:131-134 | the indefinite marker 0x80 and a count above four octets are refused as not supported |
| DerLength.LenientAndWrappingForms | DER/DERBase.cs:137-144 | a long form that is not minimal is still read, and a four-octet magnitude with its top bit set comes back as a negative `int` |
| Der.Assemble | DER/DERGeneric.cs:38-45 | the result array holds identifier, length octets and value in order; when the declared value length matches, it is exactly their concatenation |
| Der.EncodeMeaning | DER/DERGeneric.cs:36-46 | encoding succeeds exactly when every tag in the tree has identifier octets and the encoding fits a C# array; it then yields the reference serialization and each sequence records its value length |
| Der.EncodeAllMeaning | DER/DERSequence.cs:26-35 | children encode when each is identified and their encodings fit, giving the concatenation of their encodings |
| Der.FromEncoded | DER/DERBase.cs:53-59 | a decoded node ends at least two octets after its start and not past the input |
| Der.DecodeChildren | DER/DERSequence.cs:72-78 | the children loop only moves forward and stays inside the input |
| Der.EncodeDecode | DER/DERBase.cs:53-59 | the encoding of a well-tagged node, wherever it sits in an array, decodes to the node as encoding left it, ending right after it |
| Der.RoundTrip | DER/DERSequence.cs:58-80 | the reference serialization of a well-tagged node decodes to its encoded state, ending right after it, whether decoding is strict or not |
| Der.ChildrenRoundTrip | DER/DERSequence.cs:72-76 | serialized well-tagged children decode, between their first octet and their end, to the children in their encoded state |
| Der.FromEncodedDispatch | DER/DERBase.cs:149-161 | decoding reads the identifier, then takes the sequence decoder when the data type is SEQUENCE and the generic decoder otherwise; an unreadable identifier fails with its error |
| Der.DispatchByNumber | DER/DERBase.cs:154-157 | the class chosen depends only on the low five bits of the first octet being 16 |
| Der.GenericContent | DER/DERGeneric.cs:48-63 | a decoded generic node holds exactly the octets before where decoding stopped, as many as its length field states |
| Der.SequenceExtent | DER/DERSequence.cs:66-78 | a decoded sequence keeps the length its field states; decoded strictly, it ends exactly that many octets after the length field |
| Der.StrictAgreesWithLax | DER/DERSequence.cs:72-78 | strict decoding only narrows the source's decoding: whatever it accepts, the source accepts with the same result |
| Der.EncodeStable | DER/DERSequence.cs:24-56 | re-encoding the state that encoding leaves gives the same octets and the same state |
| Der.NormalStable | DER/DERSequence.cs:53 | recording the value lengths changes neither the serialization nor identification, and is idempotent |
| Der.LowTagIsConstructed | DER/DERDataType.cs:56-59 | a low tag is exactly one the number constructor builds for numbers 0 to 30 in the four classes |
| Der.ConstructorsWellTagged | DER/DERGeneric.cs:13-17 | the number constructor gives a well-tagged generic node for every low number but 16; the sequence constructor gives a well-tagged sequence of well-tagged children |
| Der.LengthWrapSkipsChildren | DER/DERSequence.cs:73 | a declared length of 2^31 - 1 wraps the loop bound negative, so six octets decode to an empty SEQUENCE; strict decoding refuses them |
| Der.MisreadEncoding | DER/DERGeneric.cs:36-46 | a primitive context-specific generic node numbered 16 (identifier `0x90`) holding `05 00` encodes to `90 02 05 00` |
| Der.DispatchIgnoresClass | DER/DERBase.cs:149-161 | dispatch reads the tag number only: the primitive context-specific tag 16 of `90 02 05 00` is read as a SEQUENCE, and its content as the NULL it spells |
| DispatchFixed.DecodeFixed | DER/DERBase.cs:149-161 | with the corrected dispatch a decoded node still ends at least two octets after its start and not past the input |
| DispatchFixed.ConstructorsFixedTagged | DER/DERGeneric.cs:13-17 | the number constructor gives a node the corrected dispatch accepts, for every class and number up to 30, exactly when it does not build the SEQUENCE identifier `0x30`; the sequence constructor gives one whenever its children are |
| DispatchFixed.FixedEncodeDecode | DER/DERBase.cs:53-59 | with the corrected dispatch, the encoding of every accepted node, generic nodes numbered 16 included, decodes wherever it sits to the node as encoding left it, ending right after it |
| DispatchFixed.FixedRoundTrip | DER/DERSequence.cs:58-80 | with the corrected dispatch, the reference serialization of an accepted node decodes to its encoded state, ending right after it |
| DispatchFixed.FixedChildrenRoundTrip | DER/DERSequence.cs:72-76 | with the corrected dispatch, serialized accepted children decode to the children in their encoded state |
| DispatchFixed.GenericDecodesBack | DER/DERBase.cs:149-161 | with the corrected dispatch, every generic node the number constructor builds, in any class and with any number up to 30 except the SEQUENCE identifier, decodes back from its encoding |
| DispatchFixed.SixteenNeverReadBack | DER/DERBase.cs:154-157 | as written, no generic node numbered 16 is read back: decoding its encoding fails or yields a SEQUENCE, strict or not |
| DispatchFixed.PrimitiveSixteenEncoding | DER/DERGeneric.cs:36-46 | a primitive context-specific generic node numbered 16 holding one zero octet encodes to `90 01 00` |
| DispatchFixed.PrimitiveSixteenFails | DER/DERBase.cs:154-157 | as written, `90 01 00` goes to the SEQUENCE decoder, which reads the zero octet as a child's identifier and fails for want of its length octet, strict or not |
| DispatchFixed.PrimitiveSixteenDecodesFixed | DER/DERBase.cs:149-161 | the corrected dispatch reads `90 01 00` back to that generic node, ending at 3 |
| DerExamples.SerializeUniversal | DER/DERGeneric.cs:13-46 | a universal primitive node with a low number and short content serializes to number, length and content, and encoding leaves it unchanged |
| DerExamples.IntegerEncoding | Tests/DerTests.cs:10-13 | the INTEGER 1 over four octets encodes to `[2, 4, 0, 0, 0, 1]` |
| DerExamples.EndOfContentEncoding | Tests/DerTests.cs:15-18 | an end-of-contents node with no content encodes to `[0, 0]` |
| DerExamples.ExampleSerialized | Tests/DerTests.cs:24-31 | the sequence of INTEGER, BOOLEAN and NULL serializes to the thirteen reference octets |
| DerExamples.SequenceEncoding | Tests/DerTests.cs:22-34 | that sequence encodes to `[0x30, 11, 2, 4, 0, 0, 0, 1, 1, 1, 1, 5, 0]` and records 11 value octets |
| DerExamples.SequenceDecoding | Tests/DerTests.cs:38-54 | those thirteen octets decode to a SEQUENCE of the three nodes, ending at 13 |
| DerTag.HighTagLacksContinuationBit | DER/DERDataType.cs:165-169 | from 128 upwards the number is written as two or more digit octets, none of them with bit 8 set |
| DerTag.HighTagNeverDecodes | DER/DERDataType.cs:134-150 | no identifier in the high-tag form decodes, whatever follows the marker octet |
| DerTag.HighTagRoundTripFails | DER/DERDataType.cs:132-188 | a tag the class builds with a number above 30 cannot be read back by the class |
| TagFixed.DecodeFixed | DER/DERDataType.cs:66-72 | the corrected identifier decoder reads only octets inside the input |
| TagFixed.TagRoundTrip | DER/DERDataType.cs:56-72 | with the corrected codec, the identifier of any tag number decodes to the object the number constructor builds, octets included (also lines 132-188) |
| TagFixed.FixedSucceedsWhereSourceFails | DER/DERDataType.cs:132-188 | for every number above 30 the source's round trip fails and the corrected one succeeds |
| Der.SequenceOverrun | DER/DERSequence.cs:72-78 | a SEQUENCE declaring one value octet whose child takes three still decodes, ending two octets past its declared end |
| Der.StrictRefusesOverrun | DER/DERSequence.cs:72-78 | with the end check, that SEQUENCE is refused |
| Der.StrictSequenceAgrees | DER/DERSequence.cs:58-80 | whatever sequence the checked decoder accepts, the source's decoder accepts with the same result |
| XmlString.Escape | XML/XMLString.cs:84-107 | escaped text holds none of the markup characters `<`, `>`, `'` and `"` |
| XmlString.CodeUnit | XML/XMLString.cs:188-195 | the `(char)` cast keeps the low 16 bits of the value |
| XmlString.UnescapeUnicode | XML/XMLString.cs:173-206 | a character reference read at `start` always runs through the first `;` after `&#`, and takes at least three characters |
| XmlString.DecodeAt | XML/XMLString.cs:32-37 | the instance decoder decodes the whole text whatever the start, reports the end of the text, and fails exactly when the static decoder fails |
| XmlString.UnescapePlain | XML/XMLString.cs:149-150 | text without `&` passes through unescaping unchanged, in front of whatever follows |
| XmlString.UnescapeNamed | XML/XMLString.cs:134-140 | each of the five named entities becomes its character, and reading resumes after its `;` |
| XmlString.UnescapeUnterminated | XML/XMLString.cs:146-147 | an `&` with no `;` after it is refused with `ArgumentException` |
| XmlString.UnescapeUnknown | XML/XMLString.cs:141-142 | an entity name outside the five is refused with `ArgumentException` |
| XmlString.UnescapeHex | XML/XMLString.cs:127-131 | a hexadecimal character reference becomes the character its value codes, and reading resumes after its `;` (also lines 183-188) |
| XmlString.UnescapeStep | XML/XMLString.cs:88-103 | every character other than a control character comes back from its replacement, in front of whatever follows (also lines 118-151) |
| XmlString.EscapeRoundTrip | XML/XMLString.cs:84-154 | unescaping undoes escaping on text without control characters |
| XmlString.EscapedIsBare | XML/XMLString.cs:58-61 | escaped text holds no `<!--` and no `<?`, so comment and declaration removal leave it unchanged |
| XmlString.DecodeEncode | XML/XMLString.cs:48-61 | the public `Decode` undoes the public `Encode` on text without control characters |
| XmlString.DecodeWithoutMarkup | XML/XMLString.cs:58-61 | text without `<` decodes as unescaping alone reads it |
| XmlString.ControlEscape | XML/XMLString.cs:98-99 | U+0001 escapes to `&#x1`, with no `;` (also lines 161-164) |
| XmlString.EscapeFixedAgrees | XML/XMLString.cs:84-107 | on text without control characters the corrected escape is the source's escape |
| XmlString.EscapeConcat | XML/XMLString.cs:88-104 | escaping works character by character: the escape of a concatenation is the concatenation of the escapes |
| XmlString.EscapeAvoids | XML/XMLString.cs:88-104 | escaping introduces no character other than those of the five entities and their delimiters |
| XmlString.EscapeEnds | XML/XMLString.cs:88-104 | the escape of a text starts with `&` or its first character, and ends with `;` or its last |
| XmlString.EscapeNoShorter | XML/XMLString.cs:84-107 | escaping never shortens a text |
| XmlString.EscapeUnchanged | XML/XMLString.cs:84-107 | escaping leaves a text as it is exactly when every character is plain |
| ParseNumbers.StringToInt | XML/XMLString.cs:188-195 | `Convert.ToInt32` refuses the empty text, and accepts only a text with a digit of its radix |
| ParseNumbers.ToHex | XML/XMLString.cs:163 | `Convert.ToString(n, 16)` writes lower-case hexadecimal digits with no leading zero |
| ParseNumbers.HexRoundTrip | XML/XMLString.cs:163-188 | the hexadecimal text written for a value below 2^31 reads back as that value |
| XmlBase.RemoveComments | XML/XMLBase.cs:235-254 | a result holds no `<!--`; a failure is `Remove` throwing or the loop never ending |
| XmlBase.NoCommentUnchanged | XML/XMLBase.cs:237-253 | text without `<!--` is left as it is |
| XmlBase.CommentRemoved | XML/XMLBase.cs:239-251 | a comment that starts at the first `<!--` and ends at the first `-->` is removed with its delimiters, and the rest is processed in turn |
| XmlBase.StrayCloserDiverges | XML/XMLBase.cs:242-251 | a stray `-->` before a comment makes the loop repeat for ever, because the closing search starts at the beginning of the text |
| XmlBase.RemoveDeclarations | XML/XMLBase.cs:256-279 | a result holds no `<?`; the only failure is `ArgumentException` |
| XmlBase.NoDeclarationUnchanged | XML/XMLBase.cs:261-278 | text without `<?` is left as it is |
| XmlBase.DeclarationRemoved | XML/XMLBase.cs:260-276 | a declaration is removed through its first `>`, and what follows is processed in turn |
| XmlBase.UnclosedDeclaration | XML/XMLBase.cs:266-273 | a `<?` with no `>` after it is refused with `ArgumentException` |
| XmlBase.CountFromEnd | XML/XMLBase.cs:293-302 | the count is the length of the longest run of `character` that ends the text |
| XmlBase.MultiplyString | XML/XMLBase.cs:281-291 | the pattern repeated `count` times, nothing for a count of zero or less |
| XmlBase.RemoveCommentsFixed | XML/XMLBase.cs:235-254 | the corrected comment removal never loops: a result holds no `<!--`, and the only failure is `ArgumentException` |
| XmlBase.CommentRemovedFixed | XML/XMLBase.cs:240-247 | with the correction, a comment is removed through the first `-->` after its own `<!--`, whatever precedes it |
| XmlBase.UnclosedCommentRefused | XML/XMLBase.cs:245-250 | with the correction, a comment with no `-->` after it is refused with `ArgumentException`, as the dead branch intends |
| XmlAttribute.RoundTrip | XML/XMLAttribute.cs:43-77 | decoding the encoding of an attribute gives it back when its name is valid and neither part has control characters |
| XmlAttribute.TrimEscaped | XML/XMLAttribute.cs:58 | trimming leaves the escape of a valid name unchanged |
| XmlAttribute.EqualsAt | XML/XMLAttribute.cs:45-54 | in an encoded attribute, the first `=` is the one right after the escaped name |
| XmlAttribute.QuotesAt | XML/XMLAttribute.cs:60-67 | the value lies between the first two quotes after the `=` |
| XmlAttribute.NoEquals | XML/XMLAttribute.cs:54-76 | text without `=` is refused with `ArgumentException` |
| XmlAttribute.MissingQuote | XML/XMLAttribute.cs:60-73 | after the `=`, a missing opening quote and a missing closing quote are both refused with `ArgumentException` |
| XmlAttribute.Find | XML/XMLAttributeCollection.cs:93-102 | the answer is the first attribute with that name, and there is none exactly when no attribute has it |
| XmlAttribute.FindValue | XML/XMLAttributeCollection.cs:112-115 | there is a value exactly when `Find` finds an attribute, and then it is that attribute's value |
| XmlAttribute.Remove | XML/XMLAttributeCollection.cs:121-131 | only the first attribute with that name goes and the rest keep their order; nothing changes when there is none |
| XmlAttribute.AddThenFind | XML/XMLAttributeCollection.cs:51 | `Add` appends: an attribute added under a new name is found, and an existing name keeps its first attribute (also lines 93-102) |
| Lists.RemoveFirstMeaning | XML/XMLAttributeCollection.cs:121-131 | removal by name takes out exactly the item that the first-match search finds and keeps the others in order; it changes nothing when no item matches |
| Lists.RemoveThenFind | XML/XMLContentCollection.cs:108-118 | after removal, the search finds the next matching item, if any |
| Lists.AppendThenFind | XML/XMLContentCollection.cs:48 | appending does not change the first match when there is one; otherwise the new item is found exactly when it matches |
| XmlContent.Find | XML/XMLContentCollection.cs:90-102 | the answer is the first element with that name, skipping text items; there is none exactly when no element has it |
| XmlContent.Remove | XML/XMLContentCollection.cs:108-118 | the first item of either kind with that name goes and the others keep their order; nothing changes when no item has it |
| XmlContent.RemoveTakesFound | XML/XMLContentCollection.cs:90-118 | when the first item with the name is an element, `Remove` takes out exactly the element `Find` returns |
| XmlContent.RemoveTakesText | XML/XMLContentCollection.cs:94-112 | when a text item carries the name ahead of an element, `Find` returns the element but `Remove` takes the text |
| XmlContent.AddThenFind | XML/XMLContentCollection.cs:48 | an appended element is found under its name unless an element of that name was already there (also lines 90-102) |
| XmlElement.NameEnd | XML/XMLBase.cs:186-194 | the raw tag name stops at the first space or `/`, or at the end of the tag |
| XmlElement.Locate | XML/XMLBase.cs:172-182 | a located opening tag is non-empty, its `>` lies inside the text, and the raw name is a prefix of the tag |
| XmlElement.AttributesBare | XML/XMLElement.cs:38-41 | attribute text holds no angle brackets |
| XmlElement.ScanRoundTrip | XML/XMLBase.cs:197-212 | the attribute scan cuts out exactly the encoded attributes of a tag, in order, when nothing after them holds a quote |
| XmlElement.DecodeEncodings | XML/XMLBase.cs:208 | decoding the attribute encodings one by one gives the attributes back |
| XmlElement.AttributesRoundTrip | XML/XMLBase.cs:197-212 | the attribute loop reads back every attribute of the tag, in order |
| XmlElement.SelfClosingRoundTrip | XML/XMLBase.cs:170-218 | the opening-tag decoder reads a self-closing encoding back as its name and attributes, no content, and an end just past the tag |
| XmlElement.ContentRoundTrip | XML/XMLBase.cs:170-226 | the opening-tag decoder reads an encoding with content back as its name, its attributes, the content text exactly, and an end just past the closing tag |
| XmlElement.ElementWithoutContentRoundTrip | XML/XMLElement.cs:60-98 | an element without content comes back whole through `XMLElement.Decode`, and decoding ends after its encoding |
| XmlElement.DecodeIntoAppends | XML/XMLBase.cs:195-208 | decoding into an element that already holds attributes and content succeeds exactly when decoding a fresh one does, keeps what it held in front and adds what was read; into an empty element it is the fresh decode, as the `Content.Add` calls of `XMLElement.Decode` do |
| XmlElement.ElementRoundTrip | XML/XMLElement.cs:34-98 | an element with content comes back whole when the content reader reads the content text back as the items |
| XmlExamples.SimpleEncoding | Tests/XmlTests.cs:9-19 | the element `top` with two attributes and a text item encodes to `<top one="1" two="2">555</top>` |
| XmlExamples.TreeEncoding | Tests/XmlTests.cs:22-44 | the tree of `top`, `first` and an empty `second` encodes to the expected single line |
| XmlExamples.SameNameNesting | XML/XMLBase.cs:221-225 | a nested element with the same name cuts the content short: the first `</a` ends it |
| XmlString.ControlCharacterLost | XML/XMLString.cs:98-99 | a control character alone is written as `&#x1` without `;` and cannot be read back; followed by `;` it comes back without that `;` (also lines 161-164) |
| XmlString.SwallowedSemicolon | XML/XMLString.cs:122 | a reference takes the first `;` after it as its terminator (also lines 183-189) |
| XmlString.UnterminatedReference | XML/XMLString.cs:146-147 | `&#x1` with no `;` after it is refused |
| XmlString.EscapeFixed | XML/XMLString.cs:84-107 | the corrected escape leaves no `<`, `>`, `'` or `"` |
| XmlString.EscapeFixedRoundTrip | XML/XMLString.cs:84-154 | every string, control characters included, is unescaped back from its corrected escape |
| XmlString.DecodeEncodeFixed | XML/XMLString.cs:32-61 | every string is decoded back from its corrected escape through the public `Decode` |
| XmlBase.OpenCommentAtTwoDiverges | XML/XMLBase.cs:237-253 | an unclosed `<!--` at index 2 makes the source loop forever |
| XmlBase.OpenCommentLaterThrows | XML/XMLBase.cs:243-247 | an unclosed `<!--` further on makes `Remove` throw out of range |
| XmlBase.FixedRefusesOpenComments | XML/XMLBase.cs:243-250 | with the correction, an unclosed `<!--` at index 2 or 3 is refused rather than looping or throwing out of range |
| XmlBase.FixedPassesStrayCloser | XML/XMLBase.cs:243-250 | with the correction, a `-->` before the first `<!--` is kept and the comment after it is removed |
| XmlAttribute.MissingOpeningQuote | XML/XMLAttribute.cs:52-77 | an attribute with no quote after `=` is refused |
| XmlAttribute.MissingClosingQuote | XML/XMLAttribute.cs:52-77 | an attribute with only one quote after `=` is refused |
| XmlContent.RemoveFixed | XML/XMLContentCollection.cs:104-118 | the corrected `Remove(name)` takes out the element `Find` returns, keeping the others in order, and nothing when there is none |
| XmlContent.RemoveFixedAgrees | XML/XMLContentCollection.cs:108-118 | when the first item with the name is an element, the corrected removal is the source's |
| XmlContent.RemoveFixedThenFind | XML/XMLContentCollection.cs:90-118 | after the corrected removal, `Find` gives the next element with the name |
| XmlContent.FixedKeepsText | XML/XMLContentCollection.cs:104-118 | on the items where the source takes the text, the corrected removal takes the element |
| Text.FindChar | XML/XMLString.cs:122 | `IndexOf(char, from)` gives the first position from `from` holding the character, none when there is none |
| Text.Find | XML/XMLBase.cs:242-243 | `IndexOf(string, from)` gives the first position from `from` where the pattern occurs, none when there is none |
| Text.Substring | XML/XMLAttribute.cs:52-77 | `Substring(start, length)` has `length` characters |
| Text.SubstringSlice | XML/XMLAttribute.cs:52-77 | built character by character, `Substring(start, length)` is the slice of that length from `start` |
| Text.FindContains | XML/XMLBase.cs:242 | `IndexOf(string)` finds the pattern exactly when the text contains it |
| Text.Remove | XML/XMLBase.cs:247 | `Remove(start, count)` keeps what is before `start` and after the removed run |
| Text.Trim | XML/XMLAttribute.cs:52-77 | `Trim` leaves no white space at either end |
| Text.TrimUnchanged | XML/XMLAttribute.cs:52-77 | text without white space at either end trims to itself |
| JsonValue.NameGetSet | JSON/JSONNameValuePair.cs:7-21 | a new pair has no name; after the `Name` setter the getter returns the name last set, and the value is untouched |
| JsonValue.TrailingJoin | JSON/JSONArray.cs:22-25 | the `foreach` that appends each encoding and a comma gives the comma-joined encodings followed by one comma |
| JsonValue.BracketedJoin | JSON/JSONArray.cs:18-31 | removing the last comma and closing gives the encodings joined by commas between the brackets, and the two brackets alone when there are none |
| JsonValue.CleanEncodes | JSON/JSONObject.cs:20-35 | a value whose names and values are all present always encodes |
| JsonValue.CleanItemsEncode | JSON/JSONArray.cs:22-25 | the items of an array each encode, one encoding per item |
| JsonValue.CleanPairsEncode | JSON/JSONObject.cs:24-27 | the pairs of an object each encode, one encoding per pair |
| JsonValue.CleanPairEncodes | JSON/JSONNameValuePair.cs:25-28 | a pair with a name and a value encodes |
| JsonValue.MissingPartFails | JSON/JSONNameValuePair.cs:25-28 | a pair without a name or without a value throws a null reference when written, and so does an object holding one |
| JsonFunctions.MinifyAppend | JSON/JSONFunctions.cs:114-150 | minifying a text in two pieces is minifying the whole, the second piece starting from the character and string state the first leaves |
| JsonFunctions.SamePrev | JSON/JSONFunctions.cs:121-130 | of the previous character only whether it is a backslash affects the result and the string state |
| JsonFunctions.BlankRun | JSON/JSONFunctions.cs:134-139 | spaces, line feeds, carriage returns and tabs outside strings are all dropped and leave the state outside a string |
| JsonFunctions.SkipBlank | JSON/JSONFunctions.cs:134-139 | blank text before the rest minifies to the rest alone |
| JsonFunctions.KeepFirst | JSON/JSONFunctions.cs:132-146 | a character inside a string or not blank is kept, and minifying goes on from it |
| JsonFunctions.BreakAfter | JSON/JSONFunctions.cs:66-78 | the line break and tabs `Beautify` puts after an opening bracket or a comma vanish under `Minify` |
| JsonFunctions.BreakBefore | JSON/JSONFunctions.cs:71-75 | the line break and tabs `Beautify` puts before a closing bracket vanish under `Minify` |
| JsonFunctions.SpaceAfterColon | JSON/JSONFunctions.cs:79-81 | the space `Beautify` puts after a colon vanishes under `Minify` |
| JsonFunctions.MinifyBeautifyFrom | JSON/JSONFunctions.cs:43-150 | from any state, minifying the beautified text gives the minified original, when the line break is blank |
| JsonFunctions.MinifyBeautify | JSON/JSONFunctions.cs:43-150 | `Minify(Beautify(json))` is `Minify(json)` for every text, when the line break is blank |
| JsonFunctions.GetDatatype | JSON/JSONFunctions.cs:158-190 | the kind and position of the first place at or after `start` where a value starts, none when there is no such place, a failure when a too-short `Substring` throws first or the start is negative |
| JsonFunctions.FirstValue | JSON/JSONFunctions.cs:160-186 | past any places where no value starts, the first where one does is returned with its kind |
| JsonFunctions.SkipsBlank | JSON/JSONFunctions.cs:181-184 | no value starts at a blank character |
| JsonScalar.IndexOfChar | JSON/JSONString.cs:29 | `IndexOf(char, start)` throws exactly for a start outside the text and otherwise finds the first occurrence |
| JsonScalar.DecodeString | JSON/JSONString.cs:27-40 | a decoded string is the text strictly between the first quote from `start` and the next quote, and decoding ends past the second quote; a start outside the text is out of range and a missing quote an argument error |
| JsonScalar.StringRoundTrip | JSON/JSONString.cs:18-40 | a string without quotes, written after text without quotes, reads back as itself and decoding ends just past it |
| JsonScalar.UnclosedString | JSON/JSONString.cs:30-35 | text with no quote, or only an opening one, is refused |
| JsonScalar.FindEndOfString | JSON/JSONString.cs:42-51 | the first quote from `start` (and not at 0) without a backslash before it, none when there is no such quote |
| JsonScalar.EscapedQuoteSkipped | JSON/JSONString.cs:46 | a quote after a backslash does not end the string, the next bare quote does |
| JsonScalar.FindTrueFalse | JSON/JSONBool.cs:27 | `IndexOfAny` finds the first `t` or `f` from the start, none when there is none |
| JsonScalar.DecodeBool | JSON/JSONBool.cs:25-44 | a decoded boolean is the word `true` or `false` at the first `t` or `f` from `start`, and decoding ends past it |
| JsonScalar.BoolRoundTrip | JSON/JSONBool.cs:17-44 | `true` and `false`, after text without `t` or `f`, read back as themselves and decoding ends just past them |
| JsonScalar.BoolFailures | JSON/JSONBool.cs:31-43 | text too short for the four- or five-character comparison throws out of range even where no word is there; long enough text without either word is refused |
| JsonScalar.DecodeNull | JSON/JSONNull.cs:15-25 | decoding ends past the first `null` from `start`; a start outside the text is out of range, and no `null` is refused |
| JsonScalar.NullAfterBlanks | JSON/JSONNull.cs:10-25 | `null` after spaces is read and decoding ends just past it |
| JsonScalar.DecodePair | JSON/JSONNameValuePair.cs:30-47 | a decoded pair has a name and a value, and on any failure the pair is left as it was |
| JsonScalar.PairDecoded | JSON/JSONNameValuePair.cs:32-46 | the value is read from just past the name's closing quote; when none is found the pair is refused unchanged, otherwise it holds the name and the value read |
| JsonScalar.PairRoundTrip | JSON/JSONNameValuePair.cs:25-47 | a written pair reads back as itself, given a value reader that reads the value's encoding |
| JsonContainer.EndInFirst | JSON/JSONObject.cs:72-91 | the bracket scan stops at the first closing bracket at depth zero outside strings, and nowhere when there is none |
| JsonContainer.FindEnd | JSON/JSONObject.cs:67-94 | `FindObjectEnd` and `FindArrayEnd` return a closing bracket at or after `start`, or none |
| JsonContainer.FindEndFirst | JSON/JSONArray.cs:68-95 | the end found is the first closing bracket at depth zero outside strings from `start`, and there is none when none is found |
| JsonContainer.ScanAppend | JSON/JSONObject.cs:72-91 | scanning two pieces in turn is scanning their join |
| JsonContainer.NoCloseNoEnd | JSON/JSONObject.cs:93 | text without a closing bracket never ends the scan |
| JsonContainer.PairsComplete | JSON/JSONObject.cs:49-62 | the pair loop stops when no quote is left, and every pair it reads has a name and a value |
| JsonContainer.Frame | JSON/JSONObject.cs:39-47 | the frame is an opening bracket at or after `start` and a later closing bracket; a start outside the text is out of range, a missing bracket an argument error |
| JsonContainer.FrameFound | JSON/JSONArray.cs:35-42 | the frame opens at the first opening bracket from `start` and closes where the scan after it stops; with no opening bracket it is refused |
| JsonContainer.Unclosed | JSON/JSONObject.cs:43-45 | an opening bracket with no closing bracket after it is refused |
| JsonContainer.DecodeObject | JSON/JSONObject.cs:37-65 | decoding an object keeps the pairs it had and adds those read, and ends past the closing brace; framing failures are passed on |
| JsonContainer.DecodeArray | JSON/JSONArray.cs:33-66 | decoding an array keeps the items it had and adds those read, and ends past the closing bracket; framing failures are passed on |
| JsonCollection.IndexOf | JSON/JSONNameValuePairCollection.cs:155-164 | the first position holding the name, -1 exactly when no pair has it |
| JsonCollection.Contains | JSON/JSONNameValuePairCollection.cs:127-136 | true exactly when some pair has the name |
| JsonCollection.ContainsIndexOf | JSON/JSONNameValuePairCollection.cs:127-164 | a name is contained exactly when it has an index |
| JsonCollection.Find | JSON/JSONNameValuePairCollection.cs:171-176 | a pair is found exactly when the name is contained, and it is the first pair with that name |
| JsonCollection.FindValue | JSON/JSONNameValuePairCollection.cs:183-188 | the value of the pair found, null when there is none |
| JsonCollection.Add | JSON/JSONNameValuePairCollection.cs:52 | the pair goes at the end and the others stay |
| JsonCollection.AddThenIndexOf | JSON/JSONNameValuePairCollection.cs:52 | after `Add` a name already there keeps its index, and a new name is found at the added pair exactly when it carries it (also lines 155-164) |
| JsonCollection.Insert | JSON/JSONNameValuePairCollection.cs:87 | an index outside 0 to `Count` is out of range; otherwise the pair goes there and the later ones move up |
| JsonCollection.RemoveAt | JSON/JSONNameValuePairCollection.cs:66 | an index that names no pair is out of range; otherwise the later pairs move down |
| JsonCollection.InsertThenRemoveAt | JSON/JSONNameValuePairCollection.cs:66-87 | removing what was just inserted gives the list back |
| JsonCollection.RemoveRange | JSON/JSONNameValuePairCollection.cs:75 | a negative index or count is out of range, a range past the end an argument error, otherwise exactly those pairs go |
| JsonCollection.RemoveRangeSpecialCases | JSON/JSONNameValuePairCollection.cs:66-80 | a range of one is `RemoveAt` and the whole list is `Clear` |
| JsonCollection.Clear | JSON/JSONNameValuePairCollection.cs:80 | nothing is left |
| JsonCollection.Remove | JSON/JSONNameValuePairCollection.cs:142-148 | the first pair with the name goes, and nothing changes when there is none |
| JsonCollection.RemoveOnlyFirst | JSON/JSONNameValuePairCollection.cs:142-148 | only the first pair with the name goes; the others keep their order |
| JsonCollection.RemoveThenIndexOf | JSON/JSONNameValuePairCollection.cs:142-164 | after `Remove` the name is found at its next pair, if any |
| JsonCollection.Reverse | JSON/JSONNameValuePairCollection.cs:99 | the pairs in the opposite order |
| JsonCollection.ReverseTwice | JSON/JSONNameValuePairCollection.cs:99 | reversing twice gives the list back |
| JsonEncoded.QuoteInert | JSON/JSONString.cs:18-24 | a quoted string without quotes or backslashes leaves the string and bracket state where it found it |
| JsonEncoded.BracketInert | JSON/JSONArray.cs:18-31 | a balanced body between brackets of either kind leaves the scan state where it found it |
| JsonEncoded.EncodedInert | JSON/JSONObject.cs:20-35 | every encoding of a value with all names and values present leaves the scan state where it found it |
| JsonEncoded.MinifyEncoded | JSON/JSONFunctions.cs:114-150 | `Minify` gives such an encoding back unchanged |
| JsonEncoded.ScanToClose | JSON/JSONObject.cs:67-94 | the scan from just after an opening bracket stops at the bracket that closes an inert body, whatever follows |
| JsonEncoded.ObjectFramed | JSON/JSONObject.cs:39-47 | an encoded object after text without a brace is framed exactly |
| JsonEncoded.ObjectFraming | JSON/JSONObject.cs:37-65 | decoding an encoded object reads pairs from exactly its encoding and ends just past it |
| JsonEncoded.ArrayFraming | JSON/JSONArray.cs:33-66 | decoding an encoded array reads items from exactly the joined item encodings and ends just past it |
| JsonEncoded.EncodedKind | JSON/JSONFunctions.cs:158-190 | after blanks, an encoded value is found where it starts and classified as the kind it is |
| JsonExamples.OuterEncoding | Tests/JsonTests.cs:53-71 | the example array encodes to `["aaa",5,null,[5,{"aa":false}]]` |
| JsonExamples.ObjEncoding | Tests/JsonTests.cs:75-93 | the example object encodes to `{"a":"aaa","b":5,"c":null,"x":[5,{"aa":false}]}` |
| JsonExamples.SerializeArray | Tests/JsonTests.cs:53-71 | the minified encoding of the example array is the expected text |
| JsonExamples.SerializeObject | Tests/JsonTests.cs:75-93 | the minified encoding of the example object is the expected text |
| Base64.Char | PEM/PEMBlock.cs:31 | each 6-bit value has its own alphabet character, which reads back as the value |
| Base64.Group | PEM/PEMBlock.cs:31 | one group of one to three octets is four Base64 characters, padding included |
| Base64.Encode | PEM/PEMBlock.cs:31 | `Convert.ToBase64String` writes four characters per started group of three octets, all from the alphabet or `=` |
| Base64.GroupRoundTrip | PEM/PEMBlock.cs:31-67 | a group reads back from its four characters |
| Base64.RoundTrip | PEM/PEMBlock.cs:31-67 | every octet string reads back from its Base64 text |
| PemBlock.Upper | PEM/PEMBlock.cs:31 | `ToUpper` keeps the length, changes exactly the lower-case letters, and leaves none |
| PemBlock.TrimSpaces | PEM/PEMBlock.cs:51 | `Trim(' ')` leaves no space at either end |
| PemBlock.TrimSpacesMeaning | PEM/PEMBlock.cs:51 | trimming removes a run of spaces at each end and nothing else |
| PemBlock.TrimSpacesUnchanged | PEM/PEMBlock.cs:51 | text without a space at either end trims to itself |
| PemBlock.NormalizeLineLength | PEM/PEMBlock.cs:82-96 | a line break is inserted at every multiple of 64 below the length, from the last one down |
| PemBlock.FoldShape | PEM/PEMBlock.cs:82-96 | the folded text is the text cut into lines in order, every line but the last exactly 64 characters and the last 1 to 64; text of at most 64 characters is unchanged |
| PemBlock.StripMeaning | PEM/PEMBlock.cs:63 | removing `\n` and `\r` leaves no line break, and leaves text without one unchanged |
| PemBlock.StripConcat | PEM/PEMBlock.cs:63 | the removal works piece by piece |
| PemBlock.StripFold | PEM/PEMBlock.cs:63-96 | removing line breaks from the folded text gives the text back when the line break is made of `\n` and `\r` |
| PemBlock.FindEither | PEM/PEMBlock.cs:36-46 | the first `-----BEGIN ` from the start, otherwise the first `----- BEGIN `, and which of the two was found |
| PemBlock.Decode | PEM/PEMBlock.cs:34-75 | decoding fails without a BEGIN marker, and otherwise reads the label right after the marker found |
| PemBlock.DecodeLabel | PEM/PEMBlock.cs:49-51 | the label is the trimmed text up to the next `-----`; without one, `Substring` throws out of range |
| PemBlock.DecodeBody | PEM/PEMBlock.cs:53-74 | the body runs to the END marker, its line breaks removed, and must read as Base64; decoding ends after the closing dashes of the END line, and at 4 when there are none |
| PemBlock.DecodePayload | PEM/PEMBlock.cs:62-74 | the content is the Base64 reading of the body without line breaks; otherwise the decoding is refused |
| PemBlock.DecodeStrict | PEM/PEMBlock.cs:34-75 | the corrected decoder refuses exactly the blocks whose END line lacks its closing dashes (the source's end index 4); every other result, success or failure, is the source's |
| PemBlock.FramedStrips | PEM/PEMBlock.cs:31-63 | the framed, folded Base64 body strips back to the Base64 text |
| PemBlock.DecodeAt | PEM/PEMBlock.cs:31-75 | a block framed where the search finds it reads back with its label upper-cased and its content, and decoding ends right after the END line's dashes |
| PemBlock.LabelDashes | PEM/PEMBlock.cs:49-51 | when a label has no run of five `-` and does not end in `-`, the first `-----` searched for from its start, or from a `-`-free text before it, is the one right after it |
| PemBlock.UpperPlain | PEM/PEMBlock.cs:31 | the label that encoding upper-cases stays a label free of five-dash runs, of a trailing `-` and of spaces at either end |
| PemBlock.RoundTrip | PEM/PEMBlock.cs:29-75 | a block whose label has no run of five `-`, no `-` at its end and no space at either end comes back from its encoding, whatever follows, label upper-cased; decoding ends just before the final line break |
| PemSuperBlock.Encode | PEM/PEMSuperBlock.cs:25-35 | the block encodings with one line break after each, minus the last; with no block `Remove` throws |
| PemSuperBlock.EncodeSeparated | PEM/PEMSuperBlock.cs:25-35 | a super block with blocks encodes to its block encodings with one line break between each two |
| PemSuperBlock.Decode | PEM/PEMSuperBlock.cs:37-60 | decoding adds the blocks read in turn to those already held, and returns where the last one ended, or the start when none is read |
| PemSuperBlock.DecodeFixed | PEM/PEMSuperBlock.cs:37-60 | the same loop with the corrected block decoder |
| PemSuperBlock.Scan | PEM/PEMSuperBlock.cs:43-57 | the loop stops when neither marker is found; a block ending at 4 sends it back to 4, where it repeats forever |
| PemSuperBlock.DecodedAll | PEM/PEMBlock.cs:31-51 | each block comes back with its label upper-cased |
| PemSuperBlock.ScanAll | PEM/PEMSuperBlock.cs:43-57 | the loop over the encoding of a super block reads back every block in order and stops before the final line break |
| PemSuperBlock.RoundTrip | PEM/PEMSuperBlock.cs:25-60 | a super block with blocks comes back from its encoding, labels upper-cased, with either block decoder |
| PemSuperBlock.IndexOf | PEM/PEMSuperBlock.cs:70-81 | the first block whose label equals the upper-cased label asked for, -1 when there is none |
| PemSuperBlock.FindBlock | PEM/PEMSuperBlock.cs:91-96 | the block `IndexOf` finds, none when it finds none |
| PemSuperBlock.IndexOfFixed | PEM/PEMSuperBlock.cs:70-81 | the corrected lookup compares both labels upper-cased and finds the first block matching up to case |
| PemDer.FromBlock | PEM/PEMBlockDER.cs:13-19 | a DER block made from a plain block keeps its label and content and holds the content read as a SEQUENCE |
| PemDer.ContentDer | PEM/PEMBlockDER.cs:30-44 | the getter gives the stored SEQUENCE, or reads one from the content and keeps it; missing content throws |
| PemDer.Encode | PEM/PEMBlockDER.cs:46-51 | it succeeds exactly when `ContentDER` is read and DER-encoded; the content then becomes that encoding and the SEQUENCE its encoded state, the text is the plain block's, and a failure of either step is the call's |
| PemDer.EncodeMeaning | PEM/PEMBlockDER.cs:46-51 | `Encode` succeeds exactly when `ContentDER` is read, every tag in it has identifier octets and its encoding fits an `int`; the content is then the reference encoding of the SEQUENCE |
| PemDer.Decode | PEM/PEMBlockDER.cs:53-63 | the plain block is read, then its content as a SEQUENCE; either failure is the call's |
| PemDer.RoundTrip | PEM/PEMBlockDER.cs:21-63 | a DER block made from a label and a SEQUENCE comes back from its encoding with the label upper-cased and the SEQUENCE as encoding left it |
| PemDer.EncodeSuper | PEM/PEMSuperBlockDER.cs:23-33 | the DER super block writes its block encodings as the plain super block does; with no block `Remove` throws |
| PemDer.EncodeSuperPlain | PEM/PEMSuperBlockDER.cs:23-33 | it writes exactly what the plain super block of the resulting plain blocks writes |
| PemDer.DecodeSuper | PEM/PEMSuperBlockDER.cs:35-58 | decoding adds the DER blocks read in turn to those held and returns where the loop stopped |
| PemDer.DecodeSuperPlain | PEM/PEMSuperBlockDER.cs:35-58 | it reads the same plain blocks, up to the same index, as decoding a plain super block |
| PemDer.IndexOf | PEM/PEMSuperBlockDER.cs:68-79 | the first DER block whose label equals the upper-cased label asked for, -1 when there is none |
| PemDer.FindBlock | PEM/PEMSuperBlockDER.cs:89-94 | the DER block `IndexOf` finds, none when it finds none |
| PemDer.BaseLookupThrows | PEM/PEMSuperBlockDER.cs:8-21 | through a `PEMSuperBlock` reference the inherited lookup runs on the inherited list, which the constructors leave null, so it throws |
| PemExamples.ExampleEncoding | Tests/PemTests.cs:9-24 | the plain block of the example encodes to the expected text |
| PemExamples.Serialization | Tests/PemTests.cs:9-24 | the DER block labelled TEST encodes to the expected text, leaving the thirteen octets as its content |
| PemExamples.Deserialization | Tests/PemTests.cs:28-48 | the expected text decodes as a plain and as a DER block, label TEST, the thirteen octets, ending at 60, the octets reading as DER up to 13 |
| PemSuperBlock.LowerCaseHidden | PEM/PEMSuperBlock.cs:70-81 | a block whose label holds a lower-case letter is never found, under any label |
| PemSuperBlock.LowerCaseWitness | PEM/PEMSuperBlock.cs:70-81 | the text `-----BEGIN test-----` + newline + `-----END test-----` decodes, as a block and as a super block, to one block labelled `test`, and looking up `test` in that super block gives -1 |
| PemSuperBlock.FixedFindsEvery | PEM/PEMSuperBlock.cs:70-81 | with the corrected lookup every block is found by its own label, at its position or at an earlier block labelled the same up to case |
| PemExamples.UndashedEndsAtFour | PEM/PEMBlock.cs:74 | a block whose END line lacks its closing dashes, read from 0 or 4, ends at 4 |
| PemExamples.UndashedDiverges | PEM/PEMSuperBlock.cs:43-57 | the super block reads that block, starts over from 4 and repeats forever; the corrected decoder refuses it |
| PemExamples.UndashedRefused | PEM/PEMBlock.cs:54-74 | the corrected block decoder refuses that block |
| PemExamples.DeserializationPlain | Tests/PemTests.cs:36-40 | the test text decodes as a plain block labelled TEST holding the thirteen octets and ending at 60 |
| PemExamples.DeserializationDer | PEM/PEMBlockDER.cs:53-63 | the test text decodes as a DER block whose octets read as the test's SEQUENCE |
| PemDer.ScanDer | PEM/PEMSuperBlockDER.cs:41-55 | the loop of the DER super block stops when neither marker is found and repeats forever where the plain loop does |
| PemDer.BaseIndexOf | PEM/PEMSuperBlock.cs:70-81 | through a `PEMSuperBlock` reference the inherited lookup runs on the inherited list |

## Left out

- `Reflection/` (the reflection-based serializers, their attributes, adapters and exceptions): glue over the .NET type system, with a static cache and `BitConverter` byte order, outside the four codecs.
- `JSONNumber`: it parses and prints `double` values with the culture-dependent `Convert.ToDouble` and `Math.Pow`. A number is held as its text (`JsonValue.Number`), which `Encode` writes as it is.
- `JSONDecoder` and `JSONFunctions.DecodeString` (JSON/JSONFunctions.cs:17-36): they dispatch through `JSONNumber` and through `JSONBase.GetDatatype`/`JSONBase.FromEncoded`, which JSON/JSONBase.cs does not define.
- The element loop of `JSONArray.Decode` (JSON/JSONArray.cs:47-57) and the value dispatch of `JSONNameValuePair.Decode` (JSON/JSONNameValuePair.cs:35-38): for the same reason, each is a parameter, `read` in `JsonContainer.DecodeArray` and a `ValueReader` in `JsonScalar.DecodePair`.
- JsonContainer.DecodeObject: `Content.Add(pair)` runs before the next pair is read (JSON/JSONObject.cs:58-60), so after a later failure the source's object keeps the pairs read so far; the model's failure carries no object and does not say which pairs were added.
- JsonContainer.PairsComplete: it requires `Forward(read)`, a value reader that ends past where it starts, and so does `JsonContainer.DecodeObject`. This holds for the string, boolean, null and container decoders. It excludes a `JSONNumber.Decode` that does not advance, on which the source's pair loop would not end.
- `XMLBase.Beautify` and `XMLBase.Minify` (XML/XMLBase.cs:52-156): a whitespace pretty-printer with unguarded neighbour indexing and no stated result.
- The content loop of `XMLElement.Decode` (XML/XMLElement.cs:66-95): it is the parameter `readContent` of `XmlElement.DecodeElement`; the framing around it, the self-closing path and the errors are modelled.
- XmlElement.DecodeElement: it decodes into a fresh element, as `XMLElement.FromEncoded` does. Decoding into an element that already holds attributes and content is `XmlElement.DecodeInto`, which adds to them. When a later step fails, the source's element keeps the name and attributes already set (XML/XMLBase.cs:195-208). The model's failure carries no element.
- PemSuperBlock.Scan: `Blocks.Add` runs after each block is read (PEM/PEMSuperBlock.cs:56). When a later block fails, the source's super block keeps the blocks added so far. The model's failure carries no super block. `PemSuperBlock.Decode` and `PemSuperBlock.DecodeFixed` inherit this.
- PemDer.ScanDer: the same for the DER super block (PEM/PEMSuperBlockDER.cs:54). `PemDer.DecodeSuper` inherits it.
- Der.RoundTrip: it covers well-tagged trees, which leave out generic nodes numbered 16. The source's dispatch never reads those back (see `## Findings`). `DispatchFixed.FixedRoundTrip` covers them under the corrected dispatch.
- DispatchFixed.DecodeFixed: a generic node built with the universal class, the constructed flag and number 16 has the SEQUENCE identifier `0x30`. The corrected dispatch reads it as a SEQUENCE, since its octets cannot be told apart from one.
- PemBlock.RoundTrip: a label holding five `-` in a row, or ending in `-`, is cut at the first `-----` by `Decode` (PEM/PEMBlock.cs:49-51) and does not come back, so such labels are outside the round trip.
- XmlString.CodeUnit: a character reference to a surrogate code unit (0xD800 to 0xDFFF, XML/XMLString.cs:183-195) is `Fail(LoneSurrogate)`. The source's `(char)` cast yields the lone UTF-16 code unit and decoding succeeds, but a Dafny `char` cannot hold a lone surrogate.
- XmlString.Decode: through `CodeUnit`, a hexadecimal or decimal reference to a surrogate code unit fails where the source decodes it; the other references decode as in the source.
- Text.Find: `IndexOf` compares character by character. .NET's `string.IndexOf(string)` (XML/XMLBase.cs:242-243,263; JSON/JSONNull.cs:17; the PEM marker searches) compares by the current culture and skips ignorable code points; that matching is abstracted away.
- PemBlock.Upper: `ToUpper` changes the ASCII letters only; the culture's case mapping of other letters is not modelled.
- Base64 decoding (`Convert.FromBase64String`): the PEM decoders take the decoder as a parameter (`Base64.Decoder`). `Base64.Decode` is a reference decoder that reads back what `Base64.Encode` writes; the whitespace and padding leniency of the .NET decoder is not modelled.
- `Environment.NewLine`: a parameter `nl` of the PEM and JSON functions. `JsonFunctions.MinifyBeautify` holds for a line break made of blanks, which both `"\n"` and `"\r\n"` are.
- A null `BlockLabel` or `Content` of a `PEMBlock`: a block always has a label and content, so the null dereferences of `PEMBlock.Encode` are not modelled; `PemDer.ContentDer` does model reading a null `Content`.
- PemDer.ContentDer: the getter stores `new DERSequence()` in the field before it decodes `Content` into it (PEM/PEMBlockDER.cs:34-38). When that decode throws, on a null or non-DER `Content`, the field keeps the sequence as far as the decode filled it, so a second read of `ContentDER`, and `Encode`, succeed with it. The model's failure carries no block, and the state of a partly decoded sequence is not modelled, so a second read fails again.
- JsonValue.Encode: a string value always holds text. A `JSONString` whose `Content` is null, as `new JSONString()` leaves it (JSON/JSONString.cs:7), encodes to `""` through `String.Format` (JSON/JSONString.cs:20), which is what `Str("")` encodes to. So does the name of `new JSONNameValuePair(null, v)` (JSON/JSONNameValuePair.cs:10-19, 27), which `SetName(p, "")` stands for. The model does not tell the null the `Name` getter then returns from the empty string.
- XmlAttribute.Encode: an attribute always has a name and a value. A default `XMLAttribute`, or one whose `Name` or `Value` is null (XML/XMLAttribute.cs:15-20), throws a `NullReferenceException` in the `foreach` of `XMLString.Escape` (XML/XMLString.cs:88) when encoded (XML/XMLAttribute.cs:45); that failure is not modelled, and `XmlString.Escape` never receives a null string.
- `PEMBlock.FromEncoded`, `DERBase.FromEncoded` and `XMLAttribute.FromEncoded` return the decoded object and the end index together, in place of the `out` parameter.
- The collection methods that only forward to `List<T>` (`Contains(item)`, `IndexOf(item)`, `Remove(item)`, `ToArray`, the enumerators): not modelled apart from `Insert`, `RemoveAt`, `RemoveRange`, `Clear` and `Reverse`.
- Test expectations the code does not meet or does not compile against, which are not modelled: `element.Decode(string)` and `GetXMLString` (Tests/XmlTests.cs:52, 62), `Content.Add(name, value)` (Tests/JsonTests.cs:64, where the example lemmas use the pair constructor), and the escape expectations for JSON strings (Tests/JsonTests.cs:41-42, 145-146), since `JSONString.Encode` does not escape.
- Loops that never end on some input are `Fail(Diverges)`, detected where the loop comes back to a state it was in: a `Remove` of zero characters in `XMLBase.RemoveComments`, and the PEM scans returning to the index 4. Running out of memory while the PEM scans add blocks is not modelled.

## Findings

Each row has two halves. The as-written member models the source's code and exhibits the discrepancy. The corrected member states the evidently intended property, and it is proved.

| source | as written | input that shows it | evidently intended | confidence | as-written member | corrected member |
|---|---|---|---|---|---|---|
| DER/DERDataType.cs:165-169 | For a high tag number, each base-128 digit is written without the continuation bit on any but the last | tag number 128 encodes its number as `[0x01, 0x00]` and not `[0x81, 0x00]` | every digit but the last carries bit 8, as section 8.1.2.4.2 of ITU-T X.690 requires | not executed | DerTag.HighTagLacksContinuationBit | TagFixed.HighTagShape, TagFixed.TagRoundTrip |
| DER/DERDataType.cs:134-150 | Decoding a high-tag-number identifier reads from a negative index | the octets `[0x1F, 0x1F]` (tag number 31) fail | the identifier decodes, and encoding then decoding gives the tag back | not executed | DerTag.HighTagNeverDecodes, DerTag.HighTagRoundTripFails | TagFixed.NumberRoundTrip, TagFixed.FixedSucceedsWhereSourceFails |
| DER/DERSequence.cs:72-78 | The child loop stops only when a child ends at or past the declared end, so the last child can overrun the sequence's length | `[0x30, 0x01, 0x02, 0x01, 0x07]` decodes as a one-child sequence of length 1 whose child takes three octets | children lie inside the declared value, and an overrun is an error | not executed | Der.SequenceOverrun | Der.StrictRefusesOverrun, Der.SequenceExtent |
| DER/DERSequence.cs:73 | The bound `valueStartIndex + Length` is a 32-bit sum that wraps | `[0x30, 0x84, 0x7F, 0xFF, 0xFF, 0xFF]` wraps the bound negative, so the loop never runs and an empty sequence claims a length of 2^31 - 1 | a length past the input is refused | not executed | Der.LengthWrapSkipsChildren | Der.SequenceExtent, Der.StrictAgreesWithLax |
| DER/DERBase.cs:149-161 | The decoder class is chosen from the tag number alone (line 154), so every identifier numbered 16 goes to the SEQUENCE decoder, whatever its class and constructed bit | a primitive context-specific generic node [16] holding `00` encodes to `90 01 00`, which fails to decode; `90 02 05 00` decodes to a SEQUENCE holding a NULL | only the SEQUENCE identifier `0x30`, which the sequence constructor writes, selects the SEQUENCE decoder, so every generic node the number constructor builds reads back, unless it is `0x30` | not executed | DispatchFixed.SixteenNeverReadBack, DispatchFixed.PrimitiveSixteenFails | DispatchFixed.GenericDecodesBack, DispatchFixed.FixedEncodeDecode |
| DER/DERBase.cs:137-144 | A four-octet long-form length is built by 32-bit shifts and wraps to a negative int | the length octets `[0x84, 0x80, 0x00, 0x00, 0x00]` give -2^31 | a length is never negative; one that does not fit is refused | not executed | DerLength.LenientAndWrappingForms | Der.SequenceExtent |
| XML/XMLString.cs:98-99 | A control character is escaped as a hex reference without its closing semicolon (XML/XMLString.cs:161-164) | `"\u0001"` escapes to `"&#x1"`, which does not decode | the reference ends in `;` and decoding the escape gives the text back | not executed | XmlString.ControlCharacterLost, XmlString.SwallowedSemicolon | XmlString.EscapeFixedRoundTrip, XmlString.DecodeEncodeFixed |
| XML/XMLBase.cs:243-250 | `IndexOf("-->") + 2` is never -1, so the guard at line 245 never refuses an unclosed comment | `"ab<!--"` loops for ever; `"abc<!--"` throws out of range; `"--><!---->"` loops for ever | an unclosed comment is refused, and a closer before the opener is ignored | not executed | XmlBase.OpenCommentAtTwoDiverges, XmlBase.OpenCommentLaterThrows, XmlBase.StrayCloserDiverges | XmlBase.RemoveCommentsFixed, XmlBase.UnclosedCommentRefused, XmlBase.CommentRemovedFixed, XmlBase.FixedRefusesOpenComments, XmlBase.FixedPassesStrayCloser |
| XML/XMLContentCollection.cs:104-118 | Removal by name removes the first item with that name, text or element | a text item named `a` followed by an element `a`: the text goes and the element stays | the first element with that name goes, as the documentation of `Remove` says | not executed | XmlContent.RemoveTakesText | XmlContent.RemoveFixed, XmlContent.RemoveFixedThenFind, XmlContent.FixedKeepsText |
| PEM/PEMSuperBlock.cs:70-81 | The label being looked for is upper-cased and the stored label is not (PEM/PEMSuperBlockDER.cs:68-79 is the same) | a block labelled `test` is never found | every block is found by its own label | not executed | PemSuperBlock.LowerCaseHidden, PemSuperBlock.LowerCaseWitness | PemSuperBlock.IndexOfFixed, PemSuperBlock.FixedFindsEvery |
| PEM/PEMBlock.cs:74 | The end of a block is the next `-----` plus five, with no check that one exists, and the super-block loop at PEM/PEMSuperBlock.cs:43-57 starts again from there | an END line without closing dashes ends the block at index 4 and the loop never advances | a block without closing dashes is an error | not executed | PemExamples.UndashedEndsAtFour, PemExamples.UndashedDiverges | PemBlock.DecodeStrict, PemSuperBlock.DecodeFixed, PemExamples.UndashedRefused |

=== FILE: common.dfy ===
/** Shared vocabulary: optional values, results that carry the kind of .NET
    exception the source would throw, bytes and 32-bit signed integers. */
module Common {

  /** The exceptions the modelled code can raise, by .NET type, plus
      `Diverges` for inputs on which the source never returns and
      `LoneSurrogate` where the source would produce a UTF-16 surrogate code
      unit on its own, which a string of Unicode scalar values cannot hold. */
  datatype Error =
    | ArgumentException
    | ArgumentOutOfRange
    | IndexOutOfRange
    | NotSupported
    | NullReference
    | Overflow
    | Format
    | Diverges
    | LoneSurrogate

  datatype Option<+T> = None | Some(value: T)

  /** Success or the exception the source would have thrown. Usable with `:-`. */
  datatype Result<+T> = Ok(value: T) | Fail(error: Error) {
    predicate IsFailure() {
      Fail?
    }

    function PropagateFailure<U>(): Result<U>
      requires Fail?
    {
      Fail(error)
    }

    function Extract(): T
      requires Ok?
    {
      value
    }
  }

  /** An octet; `byte[]` becomes `seq<byte>`. */
  type byte = x: int | 0 <= x < 256

  /** A C# `byte[]`: an octet sequence an `int` can index. */
  type Octets = s: seq<byte> | |s| < TwoTo31

  const TwoTo31: int := 0x8000_0000
  const TwoTo32: int := 0x1_0000_0000

  /** The range of a C# `int`. */
  type Int32 = x: int | -TwoTo31 <= x < TwoTo31

  /** Two's-complement reinterpretation of an unsigned 32-bit value as a C# `int`. */
  function Wrap32(v: int): (r: Int32)
    requires 0 <= v < TwoTo32
    ensures v < TwoTo31 ==> r == v
    ensures TwoTo31 <= v ==> r < 0 && r + TwoTo32 == v
  {
    if v < TwoTo31 then v else v - TwoTo32
  }

  /** The C# `int` that unchecked arithmetic leaves for the exact value `v`:
      `v` reduced modulo 2^32 into the signed range. */
  function WrapInt32(v: int): (r: Int32)
    ensures (r - v) % TwoTo32 == 0
    ensures -TwoTo31 <= v < TwoTo31 ==> r == v
    ensures TwoTo31 <= v < TwoTo32 ==> r == v - TwoTo32
  {
    var m := v % TwoTo32;
    if m < TwoTo31 then m else m - TwoTo32
  }
}

=== FILE: der_dispatch.dfy ===
/** The node dispatch of `DERBase.FromEncoded` (DER/DERBase.cs) as it is
    evidently meant: the SEQUENCE decoder for the identifier the sequence
    constructor writes, universal class, constructed, number 16 (octet
    `0x30`, section 8.9.1 of ITU-T X.690), and the generic decoder for every
    other identifier. The source picks the class from the tag number
    alone, so a generic node numbered 16 in another class, or a primitive
    one, is handed to the SEQUENCE decoder and its content is read as
    children. `DecodeFixed` reads sequences with the checked length of
    strict decoding. */
module DispatchFixed {
  import opened Common
  import opened DerTag
  import opened DerLength
  import opened Der

  /** The SEQUENCE identifier: universal class, constructed, number 16. */
  predicate SequenceTag(t: TypeInfo)
  {
    t.tagClass == 0 && !t.primitive && t.typeNumber == SequenceType
  }

  /** The corrected `FromEncoded`. */
  function DecodeFixed(encoded: seq<byte>, start: nat): (r: Result<(Node, nat)>)
    ensures r.Ok? ==> start + 2 <= r.value.1 <= |encoded|
    decreases |encoded| - start, 2
  {
    var tag :- DerTag.Decode(encoded, start);
    if SequenceTag(tag) then SequenceFixed(encoded, start, tag)
    else GenericBody(encoded, start, tag)
  }

  /** A SEQUENCE body: children read up to the declared length, which must
      lie within the input and be where the last child ends. */
  function SequenceFixed(encoded: seq<byte>, start: nat, tag: TypeInfo): (r: Result<(Node, nat)>)
    ensures r.Ok? ==> start + |Identifier(tag)| + 1 <= r.value.1 <= |encoded|
    decreases |encoded| - start, 1
  {
    var id :- Header(tag);
    var field :- DecodeLength(encoded, start + |id|);
    var valueStart := start + |id| + field.1;
    if field.0 < 0 || valueStart + field.0 > |encoded| then Fail(ArgumentException)
    else
      var kids :- ChildrenFixed(encoded, valueStart, valueStart + field.0);
      if kids.1 != valueStart + field.0 then Fail(ArgumentException)
      else Ok((Sequence(tag, field.0, kids.0), kids.1))
  }

  function ChildrenFixed(encoded: seq<byte>, cursor: nat, limit: nat): (r: Result<(seq<Node>, nat)>)
    requires cursor <= |encoded|
    ensures r.Ok? ==> cursor <= r.value.1 <= |encoded|
    decreases |encoded| - cursor, 3
  {
    if cursor >= limit then Ok(([], cursor))
    else
      var child :- DecodeFixed(encoded, cursor);
      var others :- ChildrenFixed(encoded, child.1, limit);
      Ok(([child.0] + others.0, others.1))
  }

  /** A tree of low-numbered tags in which the sequences, and only they,
      carry the SEQUENCE identifier. Generic nodes may have any class and
      any number up to 30, 16 included. */
  predicate FixedTagged(n: Node)
    decreases n, 1
  {
    LowTag(n.tag)
    && match n
       case Generic(_, _) => !SequenceTag(n.tag)
       case Sequence(_, _, cs) => SequenceTag(n.tag) && AllFixedTagged(cs)
  }

  predicate AllFixedTagged(cs: seq<Node>)
    decreases cs, 0
  {
    cs == [] || (FixedTagged(cs[0]) && AllFixedTagged(cs[1..]))
  }

  /** The number constructor gives a node the corrected dispatch accepts
      for every class and every number up to 30, exactly unless it builds
      the SEQUENCE identifier; the sequence constructor gives one whenever
      its children are. */
  lemma ConstructorsFixedTagged(tagClass: byte, primitive: bool, number: Int32, content: Octets,
                                children: seq<Node>)
    requires tagClass < 4 && 0 <= number <= 30
    ensures FixedTagged(NewGeneric(tagClass, primitive, number, content))
            <==> !(tagClass == 0 && !primitive && number == SequenceType)
    ensures AllFixedTagged(children) ==> FixedTagged(NewSequence(children))
  {
    SettersAgree(Blank(0, false), SequenceType);
  }

  /** One step of `DecodeFixed`: the identifier picks the decoder. */
  lemma DecodeFixedStep(e: seq<byte>, start: nat, t: TypeInfo)
    requires DerTag.Decode(e, start) == Ok(t)
    ensures DecodeFixed(e, start)
            == if SequenceTag(t) then SequenceFixed(e, start, t) else GenericBody(e, start, t)
  {
  }

  lemma SequenceFixedStep(e: seq<byte>, start: nat, t: TypeInfo, len: Int32, size: nat,
                          valueStart: nat, kids: seq<Node>)
    requires t.typeBytes.Some?
    requires DecodeLength(e, start + |t.typeBytes.value|) == Ok((len, size))
    requires valueStart == start + |t.typeBytes.value| + size
    requires 0 <= len && valueStart + len <= |e|
    requires ChildrenFixed(e, valueStart, valueStart + len) == Ok((kids, valueStart + len))
    ensures SequenceFixed(e, start, t) == Ok((Sequence(t, len, kids), valueStart + len))
  {
  }

  lemma ChildrenFixedStep(e: seq<byte>, cursor: nat, limit: nat, child: Node, next: nat,
                          kids: seq<Node>, end: nat)
    requires cursor < limit && cursor <= |e|
    requires DecodeFixed(e, cursor) == Ok((child, next))
    requires ChildrenFixed(e, next, limit) == Ok((kids, end))
    ensures ChildrenFixed(e, cursor, limit) == Ok(([child] + kids, end))
  {
  }

  /** What the corrected dispatch promises: the encoding of every node it
      accepts, wherever it sits in an array, decodes to the node as
      `Encode` left it, and decoding stops right after it. */
  lemma FixedEncodeDecode(n: Node, enc: (seq<byte>, Node), e: seq<byte>, off: nat, end: nat)
    requires FixedTagged(n) && Encode(n) == Ok(enc)
    requires |e| < TwoTo31 && At(e, off, enc.0) && end == off + |enc.0|
    ensures DecodeFixed(e, off) == Ok((enc.1, end))
  {
    EncodedIsSerialized(n, enc);
    FixedRoundTrip(n, e, off, end);
  }

  /** Every generic node the number constructor builds, of any class and
      any number up to 30 except the SEQUENCE identifier, encodes to octets
      the corrected dispatch reads back to the same node. */
  lemma GenericDecodesBack(tagClass: byte, primitive: bool, number: Int32, content: Octets,
                           enc: (seq<byte>, Node))
    requires tagClass < 4 && 0 <= number <= 30 && !(tagClass == 0 && !primitive && number == SequenceType)
    requires Encode(NewGeneric(tagClass, primitive, number, content)) == Ok(enc)
    ensures DecodeFixed(enc.0, 0) == Ok((NewGeneric(tagClass, primitive, number, content), |enc.0|))
  {
    var n := NewGeneric(tagClass, primitive, number, content);
    ConstructorsFixedTagged(tagClass, primitive, number, content, []);
    EncodeMeaning(n);
    assert enc.0[0 .. |enc.0|] == enc.0;
    FixedEncodeDecode(n, enc, enc.0, 0, |enc.0|);
  }

  /** The reference encoding of a node the corrected dispatch accepts
      decodes to its encoded state. */
  lemma {:induction false} FixedRoundTrip(n: Node, e: seq<byte>, off: nat, end: nat)
    requires FixedTagged(n)
    requires |e| < TwoTo31 && At(e, off, Serialize(n)) && end == off + |Serialize(n)|
    ensures DecodeFixed(e, off) == Ok((Normal(n), end))
    decreases Size(n), 1
  {
    if n.Generic? {
      FixedGenericFrame(n, e, off, end);
    } else {
      FixedSequenceFrame(n, e, off, end);
    }
  }

  lemma FixedGenericFrame(n: Node, e: seq<byte>, off: nat, end: nat)
    requires n.Generic? && FixedTagged(n)
    requires |e| < TwoTo31 && At(e, off, Serialize(n)) && end == off + |Serialize(n)|
    ensures DecodeFixed(e, off) == Ok((Normal(n), end))
  {
    var id := n.tag.typeBytes.value[0];
    var valueStart := Layout(n, e, off, id, n.content);
    FixedGenericClose(n, e, off, valueStart, end);
  }

  /** A generic header followed by the content decodes to the node. */
  lemma FixedGenericClose(n: Node, e: seq<byte>, off: nat, valueStart: nat, end: nat)
    requires n.Generic? && LowTag(n.tag) && !SequenceTag(n.tag)
    requires |e| < TwoTo31 && off < |e| && e[off] == n.tag.typeBytes.value[0]
    requires At(e, off + 1, LengthOctets(|n.content|))
    requires valueStart == off + 1 + |LengthOctets(|n.content|)|
    requires At(e, valueStart, n.content) && end == valueStart + |n.content|
    ensures DecodeFixed(e, off) == Ok((Normal(n), end))
  {
    hide FromEncoded, SequenceBody, DecodeChildren, SequenceFixed, ChildrenFixed, Serialize, SerializeAll;
    TagAt(n.tag, e, off);
    LengthAt(|n.content|, e, off + 1);
    GenericBodyStep(e, off, n.tag, |n.content|, |LengthOctets(|n.content|)|);
    DecodeFixedStep(e, off, n.tag);
  }

  lemma {:induction false} FixedSequenceFrame(n: Node, e: seq<byte>, off: nat, end: nat)
    requires n.Sequence? && FixedTagged(n)
    requires |e| < TwoTo31 && At(e, off, Serialize(n)) && end == off + |Serialize(n)|
    ensures DecodeFixed(e, off) == Ok((Normal(n), end))
    decreases Size(n), 0
  {
    var id := n.tag.typeBytes.value[0];
    var value := SerializeAll(n.children);
    var valueStart := Layout(n, e, off, id, value);
    FixedChildrenRoundTrip(n.children, e, valueStart, end);
    FixedSequenceClose(n, e, off, valueStart, end);
  }

  /** A SEQUENCE header followed by its children, read back, is the
      sequence in its encoded state. */
  lemma FixedSequenceClose(n: Node, e: seq<byte>, off: nat, valueStart: nat, end: nat)
    requires n.Sequence? && LowTag(n.tag) && SequenceTag(n.tag)
    requires |e| < TwoTo31 && off < |e| && e[off] == n.tag.typeBytes.value[0]
    requires At(e, off + 1, LengthOctets(|SerializeAll(n.children)|))
    requires valueStart == off + 1 + |LengthOctets(|SerializeAll(n.children)|)|
    requires end == valueStart + |SerializeAll(n.children)| && end <= |e|
    requires ChildrenFixed(e, valueStart, end) == Ok((NormalAll(n.children), end))
    ensures DecodeFixed(e, off) == Ok((Normal(n), end))
  {
    var len := |SerializeAll(n.children)|;
    hide FromEncoded, SequenceBody, DecodeChildren, GenericBody, Serialize;
    TagAt(n.tag, e, off);
    LengthAt(len, e, off + 1);
    SequenceFixedStep(e, off, n.tag, len, valueStart - off - 1, valueStart, NormalAll(n.children));
    DecodeFixedStep(e, off, n.tag);
    NormalSequence(n, len);
  }

  lemma {:induction false} FixedChildrenRoundTrip(children: seq<Node>, e: seq<byte>, off: nat, end: nat)
    requires AllFixedTagged(children)
    requires |e| < TwoTo31 && At(e, off, SerializeAll(children)) && end == off + |SerializeAll(children)|
    ensures ChildrenFixed(e, off, end) == Ok((NormalAll(children), end))
    decreases SizeAll(children), 2
  {
    if children != [] {
      SerializeAllCons(children);
      SerializeNonEmpty(children[0]);
      var mid := off + |Serialize(children[0])|;
      AtSplit(e, off, Serialize(children[0]), SerializeAll(children[1..]));
      FixedRoundTrip(children[0], e, off, mid);
      FixedChildrenRoundTrip(children[1..], e, mid, end);
      ChildrenFixedStep(e, off, end, Normal(children[0]), mid, NormalAll(children[1..]), end);
    }
  }

  /** As the source is written, no generic node numbered 16 is ever read
      back: wherever its encoding sits, `FromEncoded` either fails or
      yields a SEQUENCE. */
  lemma SixteenNeverReadBack(n: Node, e: seq<byte>, off: nat, strict: bool)
    requires n.Generic? && LowTag(n.tag) && n.tag.typeNumber == SequenceType
    requires At(e, off, Serialize(n))
    ensures FromEncoded(e, off, strict).Ok? ==> FromEncoded(e, off, strict).value.0.Sequence?
  {
    var id := n.tag.typeBytes.value[0];
    var valueStart := Layout(n, e, off, id, n.content);
    LowTagOctet(n.tag.tagClass, n.tag.primitive, n.tag.typeNumber);
    if FromEncoded(e, off, strict).Ok? {
      DispatchByNumber(e, off, strict);
    }
  }

  /** A primitive context-specific generic node numbered 16 holding one
      zero octet, encoded. */
  const PrimitiveSixteen: seq<byte> := [0x90, 0x01, 0x00]

  lemma PrimitiveSixteenEncoding()
    ensures Encode(NewGeneric(2, true, 16, [0x00])) == Ok((PrimitiveSixteen, NewGeneric(2, true, 16, [0x00])))
  {
    LowTagOctet(2, true, 16);
    OneOctetMagnitude(1);
    var content: Octets := [0x00];
    assert ToByte(2, true, 16) == [0x90];
    assert [0x90] + [0x01] + content == PrimitiveSixteen;
  }

  /** The source's dispatch sends `PrimitiveSixteen` to the SEQUENCE
      decoder, which reads the zero octet as the identifier of a child
      and then runs off the end looking for its length. */
  lemma PrimitiveSixteenFails(strict: bool)
    ensures FromEncoded(PrimitiveSixteen, 0, strict) == Fail(IndexOutOfRange)
  {
    var t := WithNumber(2, true, 16);
    DecodeLowTag(PrimitiveSixteen, 0);
    assert DerTag.Decode(PrimitiveSixteen, 0) == Ok(t);
    assert DecodeLength(PrimitiveSixteen, 1) == Ok((1, 1));
    PrimitiveSixteenChild(strict);
    FromEncodedStep(PrimitiveSixteen, 0, strict, t);
  }

  /** The zero octet read as a child: a universal primitive tag 0 whose
      length octet lies past the end. */
  lemma PrimitiveSixteenChild(strict: bool)
    ensures DecodeChildren(PrimitiveSixteen, 2, 3, strict) == Fail(IndexOutOfRange)
  {
    PrimitiveSixteenChildNode(strict);
    hide FromEncoded;
    assert DecodeChildren(PrimitiveSixteen, 2, 3, strict) == Fail(IndexOutOfRange);
  }

  lemma PrimitiveSixteenChildNode(strict: bool)
    ensures FromEncoded(PrimitiveSixteen, 2, strict) == Fail(IndexOutOfRange)
  {
    var child := WithNumber(0, true, 0);
    PrimitiveSixteenChildHeader();
    PrimitiveSixteenChildBody(child);
    FromEncodedStep(PrimitiveSixteen, 2, strict, child);
  }

  lemma PrimitiveSixteenChildBody(child: TypeInfo)
    requires child == WithNumber(0, true, 0)
    ensures GenericBody(PrimitiveSixteen, 2, child) == Fail(IndexOutOfRange)
  {
    assert Header(child) == Ok([0]) by {
      LowTagOctet(0, true, 0);
    }
    assert DecodeLength(PrimitiveSixteen, 3) == Fail(IndexOutOfRange);
  }

  lemma PrimitiveSixteenChildHeader()
    ensures DerTag.Decode(PrimitiveSixteen, 2) == Ok(WithNumber(0, true, 0))
    ensures DecodeLength(PrimitiveSixteen, 3) == Fail(IndexOutOfRange)
  {
    assert DerTag.Decode(PrimitiveSixteen, 2) == Ok(WithNumber(0, true, 0)) by {
      DecodeLowTag(PrimitiveSixteen, 2);
      LowTagOctet(0, true, 0);
    }
    assert DecodeLength(PrimitiveSixteen, 3) == Fail(IndexOutOfRange);
  }

  /** The corrected dispatch reads the same octets back to the node. */
  lemma PrimitiveSixteenDecodesFixed()
    ensures DecodeFixed(PrimitiveSixteen, 0) == Ok((NewGeneric(2, true, 16, [0x00]), 3))
  {
    PrimitiveSixteenEncoding();
    GenericDecodesBack(2, true, 16, [0x00], (PrimitiveSixteen, NewGeneric(2, true, 16, [0x00])));
  }
}

=== FILE: der_examples.dfy ===
/** The encodings the repository's own DER examples expect: an INTEGER, an
    end-of-contents marker, and a SEQUENCE of an INTEGER, a BOOLEAN and a
    NULL, encoded and decoded again (Tests/DerTests.cs). */
module DerExamples {
  import opened Common
  import opened DerTag
  import opened DerLength
  import opened Der

  const IntegerOne: Node := NewGeneric(0, true, Integer, [0, 0, 0, 1])
  const BooleanTrue: Node := NewGeneric(0, true, Boolean, [1])
  const NullValue: Node := NewGeneric(0, true, Null, [])
  const EndMarker: Node := NewGeneric(0, true, EndOfContent, [])
  const Example: Node := NewSequence([IntegerOne, BooleanTrue, NullValue])
  const ExampleOctets: seq<byte> := [0x30, 11, 2, 4, 0, 0, 0, 1, 1, 1, 1, 5, 0]

  /** A universal primitive generic node with a low tag number serializes
      to the number itself, the short-form length and the content, and
      `Encode` leaves it as it is. */
  lemma SerializeUniversal(number: Int32, content: Octets)
    requires 0 <= number <= 30 && |content| < 128
    ensures Identified(NewGeneric(0, true, number, content))
    ensures Serialize(NewGeneric(0, true, number, content)) == [number, |content|] + content
    ensures Normal(NewGeneric(0, true, number, content)) == NewGeneric(0, true, number, content)
  {
    LowTagOctet(0, true, number);
    var n := NewGeneric(0, true, number, content);
    SerializeParts(n, number, content);
  }

  /** `new DERGeneric(0, true, DataType.Integer, [0, 0, 0, 1]).Encode()`
      is `[2, 4, 0, 0, 0, 1]`. */
  lemma IntegerEncoding()
    ensures Encode(IntegerOne) == Ok(([2, 4, 0, 0, 0, 1], IntegerOne))
  {
    SerializeUniversal(Integer, [0, 0, 0, 1]);
    assert [Integer, 4] + [0, 0, 0, 1] == [2, 4, 0, 0, 0, 1];
    EncodeMeaning(IntegerOne);
  }

  /** An end-of-contents marker with no content encodes to `[0, 0]`. */
  lemma EndOfContentEncoding()
    ensures Encode(EndMarker) == Ok(([0, 0], EndMarker))
  {
    SerializeUniversal(EndOfContent, []);
    assert [EndOfContent, 0] + [] == [0, 0];
    EncodeMeaning(EndMarker);
  }

  /** The three children: each identified and well tagged, and left as
      they are by `Encode`. */
  lemma ExampleChildrenTagged()
    ensures AllIdentified(Example.children) && AllWellTagged(Example.children)
    ensures NormalAll(Example.children) == Example.children
  {
    var cs := [IntegerOne, BooleanTrue, NullValue];
    SerializeUniversal(Integer, [0, 0, 0, 1]);
    SerializeUniversal(Boolean, [1]);
    SerializeUniversal(Null, []);
    ConstructorsWellTagged(0, true, Integer, [0, 0, 0, 1], []);
    ConstructorsWellTagged(0, true, Boolean, [1], []);
    ConstructorsWellTagged(0, true, Null, [], []);
    assert cs[1..][1..] == cs[2..] && cs[2..][1..] == [];
    assert AllWellTagged(cs[2..]) && AllIdentified(cs[2..]);
    assert AllWellTagged(cs[1..]) && AllIdentified(cs[1..]);
    SerializeAllCons(cs[2..]);
    SerializeAllCons(cs[1..]);
    SerializeAllCons(cs);
  }

  /** The three children serialized one after another. */
  lemma ExampleChildren()
    ensures AllIdentified(Example.children) && AllWellTagged(Example.children)
    ensures SerializeAll(Example.children) == [2, 4, 0, 0, 0, 1, 1, 1, 1, 5, 0]
    ensures NormalAll(Example.children) == Example.children
  {
    var cs := [IntegerOne, BooleanTrue, NullValue];
    ExampleChildrenTagged();
    SerializeUniversal(Integer, [0, 0, 0, 1]);
    SerializeUniversal(Boolean, [1]);
    SerializeUniversal(Null, []);
    SerializeAllCons(cs);
    SerializeAllCons(cs[1..]);
    SerializeAllCons(cs[2..]);
    assert cs[1..][1..] == cs[2..] && cs[2..][1..] == [];
    assert [Integer, 4] + [0, 0, 0, 1] + ([Boolean, 1] + [1] + ([Null, 0] + [] + []))
           == [2, 4, 0, 0, 0, 1, 1, 1, 1, 5, 0];
  }

  /** The SEQUENCE identifier is the single octet 0x30. */
  lemma ExampleTag()
    ensures Example.tag.typeBytes == Some([0x30]) && LowTag(Example.tag)
  {
    SettersAgree(Blank(0, false), SequenceType);
    LowTagOctet(0, false, SequenceType);
  }

  /** The sequence serializes to the expected thirteen octets. */
  lemma ExampleSerialized()
    ensures Identified(Example) && WellTagged(Example)
    ensures Serialize(Example) == ExampleOctets
    ensures Normal(Example) == Sequence(Example.tag, 11, Example.children)
  {
    ExampleChildren();
    ExampleTag();
    SerializeParts(Example, 0x30, SerializeAll(Example.children));
    NormalSequence(Example, 11);
  }

  /** The sequence of the three nodes encodes to `[0x30, 11, 2, 4, 0, 0, 0,
      1, 1, 1, 1, 5, 0]` and records 11 value octets in `Length`. */
  lemma SequenceEncoding()
    ensures Encode(Example) == Ok((ExampleOctets, Sequence(Example.tag, 11, Example.children)))
  {
    ExampleSerialized();
    EncodeMeaning(Example);
  }

  /** Decoding those thirteen octets gives back a SEQUENCE holding the three
      nodes, and decoding ends at 13. */
  lemma SequenceDecoding()
    ensures FromEncoded(ExampleOctets, 0, false) == Ok((Sequence(Example.tag, 11, Example.children), 13))
  {
    ExampleSerialized();
    var enc := (ExampleOctets, Sequence(Example.tag, 11, Example.children));
    SequenceEncoding();
    assert ExampleOctets[0..13] == ExampleOctets;
    EncodeDecode(Example, enc, ExampleOctets, 0, 13, false);
  }
}

=== FILE: der_length.dfy ===
/** The definite-length octets of a DER node (`DERBase.EncodeLength` and
    `DERBase.DecodeLength`): short form below 128 (ITU-T X.690 section
    8.1.3.4), otherwise long form (section 8.1.3.5) with one to four
    magnitude octets. Indefinite length (section 8.1.3.6) is refused. */
module DerLength {
  import opened Common

  function Pow256(k: nat): (r: nat)
    ensures r >= 1
  {
    if k == 0 then 1 else 256 * Pow256(k - 1)
  }

  /** The low `k` octets of `n`, most significant first. */
  function BigEndian(n: nat, k: nat): (r: seq<byte>)
    ensures |r| == k
  {
    if k == 0 then [] else BigEndian(n / 256, k - 1) + [n % 256]
  }

  /** The unsigned value of big-endian octets. */
  function FromBigEndian(s: seq<byte>): (r: nat)
    ensures r < Pow256(|s|)
  {
    if s == [] then 0 else FromBigEndian(s[..|s| - 1]) * 256 + s[|s| - 1]
  }

  /** Reading back `k` octets written from `n` gives `n` when it fits. */
  lemma {:induction false} BigEndianRoundTrip(n: nat, k: nat)
    requires n < Pow256(k)
    ensures FromBigEndian(BigEndian(n, k)) == n
  {
    if k > 0 {
      var s := BigEndian(n, k);
      assert s[..|s| - 1] == BigEndian(n / 256, k - 1);
      BigEndianRoundTrip(n / 256, k - 1);
    }
  }

  lemma Pow256Values()
    ensures Pow256(1) == 256 && Pow256(2) == 65536
    ensures Pow256(3) == 16777216 && Pow256(4) == TwoTo32
  {
    assert Pow256(1) == 256;
    assert Pow256(2) == 65536;
    assert Pow256(3) == 16777216;
  }

  /** A magnitude of at most four octets read as a C# `int`: the sum of
      shifted octets wraps at 2^31. */
  function FromBigEndian32(s: seq<byte>): (r: Int32)
    requires |s| <= 4
    ensures FromBigEndian(s) < TwoTo31 ==> r == FromBigEndian(s)
    ensures FromBigEndian(s) >= TwoTo31 ==> r < 0 && r + TwoTo32 == FromBigEndian(s)
  {
    Pow256Values();
    assert Pow256(|s|) <= TwoTo32;
    Wrap32(FromBigEndian(s))
  }

  /** The first written octet is not zero when `n` needs all `k` octets. */
  lemma {:induction false} BigEndianLeadingNonZero(n: nat, k: nat)
    requires k >= 1 && Pow256(k - 1) <= n < Pow256(k)
    ensures BigEndian(n, k)[0] != 0
  {
    if k > 1 {
      BigEndianLeadingNonZero(n / 256, k - 1);
    }
  }

  /** The octet count the source picks by its thresholds 256, 65536 and
      16777216. */
  function BytesNeeded(length: nat): (k: nat)
  {
    if length < 256 then 1
    else if length < 65536 then 2
    else if length < 16777216 then 3
    else 4
  }

  /** The long form of a length from 128 upwards: the octet count is the
      least that holds the value, so the first magnitude octet is not zero. */
  lemma LongForm(length: nat)
    requires 128 <= length < TwoTo31
    ensures var k := BytesNeeded(length);
            FromBigEndian(BigEndian(length, k)) == length && BigEndian(length, k)[0] != 0
  {
    var k := BytesNeeded(length);
    Pow256Values();
    assert Pow256(k - 1) <= length < Pow256(k);
    BigEndianRoundTrip(length, k);
    BigEndianLeadingNonZero(length, k);
  }

  /** The definite-length octets of a non-negative length: the short form
      below 128, otherwise `0x80 | k` followed by `k` big-endian magnitude
      octets, `k` as the thresholds pick it. */
  function LengthOctets(length: nat): seq<byte>
  {
    if length < 128 then [length]
    else
      var k := BytesNeeded(length);
      [0x80 + k] + BigEndian(length, k)
  }

  /** `EncodeLength`: refuses a negative length, otherwise its length
      octets. */
  function EncodeLength(length: Int32): (r: Result<seq<byte>>)
    ensures r.Fail? <==> length < 0
    ensures r.Fail? ==> r.error == ArgumentException
    ensures 0 <= length < 128 ==> r == Ok([length])
  {
    if length < 0 then Fail(ArgumentException)
    else Ok(LengthOctets(length))
  }

  /** The long form: the marker octet counts the magnitude octets, which
      read back as the length and do not start with a zero octet. */
  lemma LongFormShape(length: nat)
    requires 128 <= length < TwoTo31
    ensures var r := LengthOctets(length);
            2 <= |r| <= 5 && r[0] == 0x80 + (|r| - 1)
            && FromBigEndian(r[1..]) == length && r[1] != 0
  {
    var k := BytesNeeded(length);
    LongForm(length);
    assert LengthOctets(length)[1..] == BigEndian(length, k);
  }

  /** `DecodeLength`: the value of the length field at `lengthStart` and
      the number of octets it occupies. Long forms need not be minimal; a
      four-octet magnitude of 2^31 or more wraps to a negative `int`. */
  function DecodeLength(encoded: seq<byte>, lengthStart: nat): (r: Result<(Int32, nat)>)
    ensures r.Ok? ==> lengthStart < |encoded| && 1 <= r.value.1 <= 5
                      && lengthStart + r.value.1 <= |encoded|
  {
    if lengthStart >= |encoded| then Fail(IndexOutOfRange)
    else
      var b := encoded[lengthStart];
      if b < 128 then Ok((b, 1))
      else
        var k := b - 0x80;
        if k == 0 then Fail(NotSupported)
        else if k > 4 then Fail(NotSupported)
        else if lengthStart + 1 + k > |encoded| then Fail(IndexOutOfRange)
        else
          var magnitude := encoded[lengthStart + 1 .. lengthStart + 1 + k];
          Ok((FromBigEndian32(magnitude), k + 1))
  }

  /** The forms `DecodeLength` accepts and refuses: a short form is its
      own value; the marker 0x80 (indefinite length) and markers above 0x84
      are refused; a long form reads the counted magnitude octets as an
      `int`. */
  lemma DecodeLengthForms(encoded: seq<byte>, lengthStart: nat)
    requires lengthStart < |encoded|
    ensures var r := DecodeLength(encoded, lengthStart);
            var b := encoded[lengthStart];
            (b < 128 ==> r == Ok((b, 1)))
            && (b == 0x80 || b > 0x84 ==> r == Fail(NotSupported))
            && (0x80 < b <= 0x84 && lengthStart + b - 0x80 >= |encoded| ==> r == Fail(IndexOutOfRange))
            && (r.Ok? && b >= 128 ==>
                  r.value.1 == b - 0x80 + 1
                  && r.value.0 == FromBigEndian32(encoded[lengthStart + 1 .. lengthStart + r.value.1]))
  {
  }

  /** Every non-negative length comes back from its own encoding, whatever
      precedes or follows the field. */
  lemma LengthRoundTrip(n: Int32, prefix: seq<byte>, rest: seq<byte>)
    requires n >= 0
    ensures var enc := EncodeLength(n).value;
            DecodeLength(prefix + enc + rest, |prefix|) == Ok((n, |enc|))
  {
    var enc := EncodeLength(n).value;
    var e := prefix + enc + rest;
    if n >= 128 {
      LongFormShape(n);
      assert e[|prefix| + 1 .. |prefix| + |enc|] == enc[1..];
    }
  }

  /** The same, for length octets found at `off` in an array. */
  lemma LengthAt(n: nat, e: seq<byte>, off: nat)
    requires n < TwoTo31
    requires off + |LengthOctets(n)| <= |e| && e[off .. off + |LengthOctets(n)|] == LengthOctets(n)
    ensures DecodeLength(e, off) == Ok((n, |LengthOctets(n)|))
  {
    var enc := LengthOctets(n);
    var s := e[off .. off + |enc|];
    assert e[off] == s[0];
    if n >= 128 {
      LongFormShape(n);
      assert e[off + 1 .. off + |enc|] == s[1..];
    }
  }

  lemma LongFormOctets(n: Int32)
    requires n >= 128
    ensures EncodeLength(n) == Ok([0x80 + BytesNeeded(n)] + BigEndian(n, BytesNeeded(n)))
  {
  }

  /** Up to 127 the length is its own single octet; from 128 to 255 it
      takes the marker 0x81 and one magnitude octet. */
  lemma OneOctetMagnitude(n: Int32)
    requires 0 <= n < 256
    ensures n < 128 ==> EncodeLength(n) == Ok([n])
    ensures n >= 128 ==> EncodeLength(n) == Ok([0x81, n])
  {
    if n >= 128 {
      LongFormOctets(n);
      assert BytesNeeded(n) == 1;
      assert BigEndian(n, 1) == BigEndian(n / 256, 0) + [n];
      var r: seq<byte> := [0x81] + BigEndian(n, 1);
      assert r == [0x81, n];
      assert EncodeLength(n) == Ok(r);
    }
  }

  /** The next thresholds: 256 takes two magnitude octets and 16777216
      four. */
  lemma LengthBoundaries()
    ensures EncodeLength(256) == Ok([0x82, 0x01, 0x00])
    ensures EncodeLength(16777216) == Ok([0x84, 0x01, 0x00, 0x00, 0x00])
  {
    assert BigEndian(1, 1) == [0x01];
    assert BigEndian(256, 2) == [0x01, 0x00];
    assert BigEndian(65536, 3) == [0x01, 0x00, 0x00];
    assert BigEndian(16777216, 4) == [0x01, 0x00, 0x00, 0x00];
    LongFormOctets(256);
    var r2: seq<byte> := [0x82] + BigEndian(256, 2);
    assert r2 == [0x82, 0x01, 0x00];
    LongFormOctets(16777216);
    var r4: seq<byte> := [0x84] + BigEndian(16777216, 4);
    assert r4 == [0x84, 0x01, 0x00, 0x00, 0x00];
  }

  /** The refused forms: length-of-length zero (indefinite) and more than
      four magnitude octets. */
  lemma RejectedLengthForms(rest: seq<byte>)
    ensures DecodeLength([0x80] + rest, 0) == Fail(NotSupported)
    ensures DecodeLength([0x85] + rest, 0) == Fail(NotSupported)
  {
  }

  /** A non-minimal long form is accepted, and a four-octet magnitude with
      its top bit set comes back negative. */
  lemma LenientAndWrappingForms()
    ensures DecodeLength([0x81, 0x05], 0) == Ok((5, 2))
    ensures DecodeLength([0x84, 0x80, 0x00, 0x00, 0x00], 0) == Ok((-TwoTo31, 5))
  {
    var m := [0x80, 0x00, 0x00, 0x00];
    assert [0x84, 0x80, 0x00, 0x00, 0x00][1..5] == m;
    assert m[..3] == [0x80, 0x00, 0x00];
    assert m[..3][..2] == [0x80, 0x00];
    assert m[..3][..2][..1] == [0x80];
    assert FromBigEndian([0x80]) == 0x80;
    assert FromBigEndian([0x80, 0x00]) == 0x8000;
    assert FromBigEndian([0x80, 0x00, 0x00]) == 0x80_0000;
    assert FromBigEndian(m) == TwoTo31;
    assert [0x81, 0x05][1..2] == [0x05];
  }
}

=== FILE: der_node.dfy ===
/** DER nodes (DER/DERBase.cs, DER/DERGeneric.cs, DER/DERSequence.cs): a
    node is either generic, holding its value octets as they are, or a
    SEQUENCE holding child nodes. Encoding writes identifier, length and
    value octets; decoding dispatches on the tag number read at the start.

    Decoding takes a `strict` flag. With `strict == false` it is the source
    as written: a SEQUENCE reads children while the cursor is below
    `valueStart + Length`, computed in wrapping `int` arithmetic, and never
    checks where the last child ends. With `strict == true` it also refuses
    a SEQUENCE whose children do not end exactly at the declared length. */
module Der {
  import opened Common
  import opened DerTag
  import opened DerLength

  /** The state of a `DERGeneric` or `DERSequence` object. A generic node's
      `Length` always equals its content length (the `Content` setter and
      `Decode` both keep them together), so it is not stored twice. A
      sequence's `Length` is whatever the last `Encode` or `Decode` left. */
  datatype Node =
    | Generic(tag: TypeInfo, content: Octets)
    | Sequence(tag: TypeInfo, length: Int32, children: seq<Node>)

  /** `new DERGeneric(tagClass, primitive, type, content)`. */
  function NewGeneric(tagClass: byte, primitive: bool, number: Int32, content: Octets): Node
  {
    Generic(WithNumber(tagClass, primitive, number), content)
  }

  /** `new DERSequence(content)`: universal class, constructed, SEQUENCE;
      `Length` keeps its default 0 until the first `Encode`. */
  function NewSequence(children: seq<Node>): Node
  {
    Sequence(WithDataType(0, false, SequenceType), 0, children)
  }

  /** The identifier octets, or `NullReference` where `TypeBytes` is null. */
  function Header(tag: TypeInfo): Result<seq<byte>>
  {
    if tag.typeBytes.None? then Fail(NullReference) else Ok(tag.typeBytes.value)
  }

  /** Assembles identifier, length and value octets into a fresh result
      array of `int` size `|identifier| + |lengthOctets| + valueLength`. A
      negative size throws `OverflowException`; a size too small for what is
      copied in throws the way the copying code does (`Array.Copy` for
      generic nodes, the element loop for sequences); octets not written
      keep their initial zero. */
  function Assemble(identifier: seq<byte>, lengthOctets: seq<byte>, valueLength: int,
                    value: seq<byte>, overrun: Error): (r: Result<seq<byte>>)
    ensures r.Ok? ==> |identifier| + |lengthOctets| + |value| <= |r.value| < TwoTo31
    ensures r.Ok? ==> r.value[..|identifier| + |lengthOctets| + |value|]
                      == identifier + lengthOctets + value
    ensures |identifier| + |lengthOctets| + |value| < TwoTo31 && valueLength == |value|
            ==> r == Ok(identifier + lengthOctets + value)
  {
    var written := |identifier| + |lengthOctets| + |value|;
    var size := WrapInt32(|identifier| + |lengthOctets| + valueLength);
    if size < 0 then Fail(Overflow)
    else if size < |identifier| + |lengthOctets| then Fail(ArgumentException)
    else if size < written then Fail(overrun)
    else
      var r := identifier + lengthOctets + value + seq(size - written, _ => 0);
      assert r[..written] == identifier + lengthOctets + value;
      if size == written then
        assert r == identifier + lengthOctets + value;
        Ok(r)
      else Ok(r)
  }

  /** `Encode`: the octets of the node and the node as the call leaves it (a
      sequence records the wrapped sum of its children's encoded lengths in
      `Length`). The encoding starts with the identifier octets, then the
      length octets of the value that follows. */
  function Encode(n: Node): Result<(seq<byte>, Node)>
    decreases n, 1
  {
    match n
    case Generic(tag, content) =>
      var lengthOctets := EncodeLength(|content|).value;
      var id :- Header(tag);
      var bytes :- Assemble(id, lengthOctets, |content|, content, ArgumentException);
      Ok((bytes, n))
    case Sequence(tag, _, children) =>
      var all :- EncodeAll(children);
      var valuesLength := WrapInt32(|all.0|);
      var lengthOctets :- EncodeLength(valuesLength);
      var id :- Header(tag);
      var bytes :- Assemble(id, lengthOctets, valuesLength, all.0, IndexOutOfRange);
      Ok((bytes, Sequence(tag, valuesLength, all.1)))
  }

  /** The children's encodings, concatenated in order, and the children as
      their `Encode` calls leave them. */
  function EncodeAll(children: seq<Node>): Result<(seq<byte>, seq<Node>)>
    decreases children, 2
  {
    if children == [] then Ok(([], []))
    else
      var first :- Encode(children[0]);
      var others :- EncodeAll(children[1..]);
      Ok((first.0 + others.0, [first.1] + others.1))
  }

  /** The identifier octets of a tag, none where they are null. */
  function Identifier(t: TypeInfo): seq<byte>
  {
    if t.typeBytes.Some? then t.typeBytes.value else []
  }

  /** Reference encoding: identifier octets, the minimal length octets of
      the value, then the value, which is a generic node's content or a
      sequence's children serialized one after another. */
  function Serialize(n: Node): seq<byte>
    decreases n, 1
  {
    var value := match n
                 case Generic(_, content) => content
                 case Sequence(_, _, children) => SerializeAll(children);
    Identifier(n.tag) + LengthOctets(|value|) + value
  }

  function SerializeAll(children: seq<Node>): seq<byte>
    decreases children, 2
  {
    if children == [] then [] else Serialize(children[0]) + SerializeAll(children[1..])
  }

  /** The state a node is left in once it is encoded: every sequence
      records in `Length` the number of its value octets, as an `int`. */
  function Normal(n: Node): Node
    decreases n, 1
  {
    match n
    case Generic(_, _) => n
    case Sequence(tag, _, children) =>
      Sequence(tag, WrapInt32(|SerializeAll(children)|), NormalAll(children))
  }

  function NormalAll(children: seq<Node>): seq<Node>
    decreases children, 2
  {
    if children == [] then [] else [Normal(children[0])] + NormalAll(children[1..])
  }

  /** Every tag in the tree has identifier octets. */
  predicate Identified(n: Node)
    decreases n, 1
  {
    n.tag.typeBytes.Some?
    && match n
       case Generic(_, _) => true
       case Sequence(_, _, children) => AllIdentified(children)
  }

  predicate AllIdentified(children: seq<Node>)
    decreases children, 0
  {
    children == [] || (Identified(children[0]) && AllIdentified(children[1..]))
  }

  /** What `Encode` does: it succeeds exactly when every tag in the tree
      has identifier octets and the whole encoding fits a C# array, and
      then yields the reference encoding and leaves every sequence holding
      the length of its value octets. */
  lemma {:induction false} EncodeMeaning(n: Node)
    ensures Encode(n).Ok? <==> Identified(n) && |Serialize(n)| < TwoTo31
    ensures Encode(n).Ok? ==> Encode(n) == Ok((Serialize(n), Normal(n)))
    decreases n, 1
  {
    match n
    case Generic(tag, content) =>
    case Sequence(tag, _, children) =>
      EncodeAllMeaning(children);
  }

  /** The same for a list of children: they encode when each is identified
      and their encodings together fit, and yield the concatenation. */
  lemma {:induction false} EncodeAllMeaning(children: seq<Node>)
    ensures AllIdentified(children) && |SerializeAll(children)| < TwoTo31 ==> EncodeAll(children).Ok?
    ensures EncodeAll(children).Ok? ==>
              AllIdentified(children) && EncodeAll(children) == Ok((SerializeAll(children), NormalAll(children)))
    decreases children, 2
  {
    if children != [] {
      EncodeMeaning(children[0]);
      EncodeAllMeaning(children[1..]);
    }
  }

  /** `DERBase.FromEncoded`: reads the identifier to choose the class, then
      decodes with it. Tag number 16 selects `DERSequence` whatever the tag
      class and constructed bit; every other number selects `DERGeneric`.
      The chosen class reads the same identifier again, so the decoded tag
      is handed on rather than read twice. */
  function FromEncoded(encoded: seq<byte>, start: nat, strict: bool): (r: Result<(Node, nat)>)
    ensures r.Ok? ==> start + 2 <= r.value.1 <= |encoded|
    decreases |encoded| - start, 2
  {
    var tag :- DerTag.Decode(encoded, start);
    if tag.dataType == SequenceType then SequenceBody(encoded, start, tag, strict)
    else GenericBody(encoded, start, tag)
  }

  /** `DERGeneric.Decode`. */
  function DecodeGeneric(encoded: seq<byte>, start: nat): (r: Result<(Node, nat)>)
  {
    var tag :- DerTag.Decode(encoded, start);
    GenericBody(encoded, start, tag)
  }

  /** `DERSequence.Decode` on a fresh sequence: refuses an identifier whose
      data type is not SEQUENCE. */
  function DecodeSequence(encoded: seq<byte>, start: nat, strict: bool): (r: Result<(Node, nat)>)
  {
    var tag :- DerTag.Decode(encoded, start);
    if tag.dataType != SequenceType then Fail(ArgumentException)
    else SequenceBody(encoded, start, tag, strict)
  }

  /** `DERGeneric.Decode` once the identifier `tag` has been read at
      `start`: a negative length fails where the content array is
      allocated, a length running past the input fails in `Array.Copy`. */
  function GenericBody(encoded: seq<byte>, start: nat, tag: TypeInfo): (r: Result<(Node, nat)>)
    ensures r.Ok? ==> start + |Identifier(tag)| + 1 <= r.value.1 <= |encoded|
  {
    var id :- Header(tag);
    var field :- DecodeLength(encoded, start + |id|);
    var valueStart := start + |id| + field.1;
    if field.0 < 0 then Fail(Overflow)
    else if valueStart + field.0 > |encoded| then Fail(ArgumentException)
    else Ok((Generic(tag, encoded[valueStart .. valueStart + field.0]), valueStart + field.0))
  }

  /** `DERSequence.Decode` once the identifier `tag` has been read at
      `start`: reads children until the cursor reaches `valueStart +
      Length`, a wrapping `int` sum. */
  function SequenceBody(encoded: seq<byte>, start: nat, tag: TypeInfo, strict: bool): (r: Result<(Node, nat)>)
    ensures r.Ok? ==> start + |Identifier(tag)| + 1 <= r.value.1 <= |encoded|
    decreases |encoded| - start, 1
  {
    var id :- Header(tag);
    var field :- DecodeLength(encoded, start + |id|);
    var valueStart := start + |id| + field.1;
    if strict && (field.0 < 0 || valueStart + field.0 > |encoded|) then Fail(ArgumentException)
    else
      var limit := if strict then valueStart + field.0 else WrapInt32(valueStart + field.0);
      var kids :- DecodeChildren(encoded, valueStart, limit, strict);
      if strict && kids.1 != limit then Fail(ArgumentException)
      else Ok((Sequence(tag, field.0, kids.0), kids.1))
  }

  /** The loop `while (lastEnd < limit) Content.Add(FromEncoded(...))`. */
  function DecodeChildren(encoded: seq<byte>, cursor: nat, limit: int, strict: bool)
    : (r: Result<(seq<Node>, nat)>)
    requires cursor <= |encoded|
    ensures r.Ok? ==> cursor <= r.value.1 <= |encoded|
    decreases |encoded| - cursor, 3
  {
    if cursor >= limit then Ok(([], cursor))
    else
      var child :- FromEncoded(encoded, cursor, strict);
      var others :- DecodeChildren(encoded, child.1, limit, strict);
      Ok(([child.0] + others.0, others.1))
  }

  /** Number of nodes in a tree, a measure for the proofs by induction. */
  function Size(n: Node): (r: nat)
    ensures r >= 1
    decreases n, 1
  {
    match n
    case Generic(_, _) => 1
    case Sequence(_, _, cs) => 1 + SizeAll(cs)
  }

  function SizeAll(cs: seq<Node>): nat
    decreases cs, 0
  {
    if cs == [] then 0 else Size(cs[0]) + SizeAll(cs[1..])
  }

  /** A tag as the number constructor builds it for a number from 0 to 30:
      one identifier octet packing class, flag and number, and the data
      type equal to the number. */
  predicate LowTag(t: TypeInfo)
  {
    t.tagClass < 4 && 0 <= t.typeNumber <= 30 && t.dataType == t.typeNumber
    && t.typeBytes == Some([LeadBits(t.tagClass, t.primitive) + t.typeNumber])
  }

  /** `LowTag` holds exactly of the tags the number constructor builds for
      numbers 0 to 30 in the four classes. */
  lemma LowTagIsConstructed(t: TypeInfo)
    ensures LowTag(t) <==>
              t.tagClass < 4 && 0 <= t.typeNumber <= 30
              && t == WithNumber(t.tagClass, t.primitive, t.typeNumber)
  {
  }

  /** A node whose tags are low-numbered and built by the number
      constructor, and whose tag number matches its kind: 16 exactly for
      sequences. */
  predicate WellTagged(n: Node)
    decreases n, 1
  {
    LowTag(n.tag)
    && match n
       case Generic(_, _) => n.tag.typeNumber != SequenceType
       case Sequence(_, _, cs) => n.tag.typeNumber == SequenceType && AllWellTagged(cs)
  }

  predicate AllWellTagged(cs: seq<Node>)
    decreases cs, 0
  {
    cs == [] || (WellTagged(cs[0]) && AllWellTagged(cs[1..]))
  }

  lemma {:induction false} AllWellTaggedEach(cs: seq<Node>)
    ensures AllWellTagged(cs) <==> forall i :: 0 <= i < |cs| ==> WellTagged(cs[i])
  {
    if cs != [] {
      AllWellTaggedEach(cs[1..]);
      assert forall i :: 1 <= i < |cs| ==> cs[i] == cs[1..][i - 1];
    }
  }

  /** The number constructor yields a well-tagged generic node for every
      low tag number except 16, and the sequence constructor a well-tagged
      sequence of well-tagged children. */
  lemma ConstructorsWellTagged(tagClass: byte, primitive: bool, number: Int32, content: Octets,
                               children: seq<Node>)
    requires tagClass < 4 && 0 <= number <= 30 && number != SequenceType
    requires forall i :: 0 <= i < |children| ==> WellTagged(children[i])
    ensures WellTagged(NewGeneric(tagClass, primitive, number, content))
    ensures WellTagged(NewSequence(children))
  {
    SettersAgree(Blank(0, false), SequenceType);
    AllWellTaggedEach(children);
  }

  /** `piece` sits in `e` from index `off` on. */
  predicate At(e: seq<byte>, off: nat, piece: seq<byte>)
  {
    off + |piece| <= |e| && e[off .. off + |piece|] == piece
  }

  lemma AtSplit(e: seq<byte>, off: nat, a: seq<byte>, b: seq<byte>)
    requires At(e, off, a + b)
    ensures At(e, off, a) && At(e, off + |a|, b)
  {
    var s := e[off .. off + |a| + |b|];
    assert s[..|a|] == a && s[|a|..] == b;
    assert e[off .. off + |a|] == s[..|a|];
    assert e[off + |a| .. off + |a| + |b|] == s[|a|..];
  }

  /** An identifier, length octets and a value laid out one after another
      from `off`: where each part starts. */
  lemma AtHeader(e: seq<byte>, off: nat, id: byte, lengthOctets: seq<byte>, value: seq<byte>)
    requires At(e, off, [id] + lengthOctets + value)
    ensures off < |e| && e[off] == id
    ensures At(e, off + 1, lengthOctets) && At(e, off + 1 + |lengthOctets|, value)
  {
    AtSplit(e, off, [id] + lengthOctets, value);
    AtSplit(e, off, [id], lengthOctets);
    assert e[off] == e[off .. off + 1][0];
  }

  /** The identifier octet of a low-numbered tag decodes back to the tag
      wherever it sits. */
  lemma TagAt(t: TypeInfo, e: seq<byte>, off: nat)
    requires LowTag(t) && off < |e| && e[off] == t.typeBytes.value[0]
    ensures DerTag.Decode(e, off) == Ok(t)
  {
    var b := e[off];
    LowTagOctet(t.tagClass, t.primitive, t.typeNumber);
    DecodeLowTag(e, off);
    assert TypeInfo(b / 64, (b / 32) % 2 == 0, b % 32, b % 32, Some([b])) == t;
  }

  /** One step of `FromEncoded`: once the identifier has been read, the
      data type alone picks the decoder. */
  lemma FromEncodedStep(e: seq<byte>, start: nat, strict: bool, t: TypeInfo)
    requires DerTag.Decode(e, start) == Ok(t)
    ensures FromEncoded(e, start, strict)
            == if t.dataType == SequenceType then SequenceBody(e, start, t, strict) else GenericBody(e, start, t)
  {
  }

  /** One step of the generic decoder: the value octets after the header. */
  lemma GenericBodyStep(e: seq<byte>, start: nat, t: TypeInfo, len: Int32, size: nat)
    requires t.typeBytes.Some?
    requires DecodeLength(e, start + |t.typeBytes.value|) == Ok((len, size))
    requires 0 <= len && start + |t.typeBytes.value| + size + len <= |e|
    ensures var valueStart := start + |t.typeBytes.value| + size;
            GenericBody(e, start, t) == Ok((Generic(t, e[valueStart .. valueStart + len]), valueStart + len))
  {
  }

  /** One step of the sequence decoder: the children read from the end of
      the header up to the declared length. */
  lemma SequenceBodyStep(e: seq<byte>, start: nat, strict: bool, t: TypeInfo, len: Int32, size: nat,
                         valueStart: nat, limit: nat, kids: seq<Node>)
    requires t.typeBytes.Some?
    requires DecodeLength(e, start + |t.typeBytes.value|) == Ok((len, size))
    requires valueStart == start + |t.typeBytes.value| + size && limit == valueStart + len
    requires 0 <= len && limit <= |e| && limit < TwoTo31
    requires DecodeChildren(e, valueStart, limit, strict) == Ok((kids, limit))
    ensures SequenceBody(e, start, t, strict) == Ok((Sequence(t, len, kids), limit))
  {
  }

  /** One step of the sequence decoder as the source runs it: the children
      are read up to the wrapped `int` sum and wherever they end is taken. */
  lemma LaxSequenceStep(e: seq<byte>, start: nat, t: TypeInfo, len: Int32, size: nat,
                        valueStart: nat, kids: seq<Node>, end: nat)
    requires t.typeBytes.Some?
    requires DecodeLength(e, start + |t.typeBytes.value|) == Ok((len, size))
    requires valueStart == start + |t.typeBytes.value| + size
    requires DecodeChildren(e, valueStart, WrapInt32(valueStart + len), false) == Ok((kids, end))
    ensures SequenceBody(e, start, t, false) == Ok((Sequence(t, len, kids), end))
  {
  }

  /** One step of the children loop. */
  lemma DecodeChildrenStep(e: seq<byte>, cursor: nat, limit: int, strict: bool, child: Node, next: nat,
                           kids: seq<Node>, end: nat)
    requires cursor < limit && cursor <= |e|
    requires FromEncoded(e, cursor, strict) == Ok((child, next))
    requires DecodeChildren(e, next, limit, strict) == Ok((kids, end))
    ensures DecodeChildren(e, cursor, limit, strict) == Ok(([child] + kids, end))
  {
  }

  /** What the source promises of a well-tagged node: its encoding,
      wherever it sits in an array, decodes to the node as `Encode` left
      it, and decoding stops right after it. Strict or not makes no
      difference here. */
  lemma EncodeDecode(n: Node, enc: (seq<byte>, Node), e: seq<byte>, off: nat, end: nat, strict: bool)
    requires WellTagged(n) && Encode(n) == Ok(enc)
    requires |e| < TwoTo31 && At(e, off, enc.0) && end == off + |enc.0|
    ensures FromEncoded(e, off, strict) == Ok((enc.1, end))
  {
    EncodedIsSerialized(n, enc);
    RoundTrip(n, e, off, end, strict);
  }

  lemma EncodedIsSerialized(n: Node, enc: (seq<byte>, Node))
    requires Encode(n) == Ok(enc)
    ensures enc == (Serialize(n), Normal(n))
  {
    EncodeMeaning(n);
  }

  /** The reference encoding of a well-tagged node decodes to its encoded
      state. */
  lemma {:induction false} RoundTrip(n: Node, e: seq<byte>, off: nat, end: nat, strict: bool)
    requires WellTagged(n)
    requires |e| < TwoTo31 && At(e, off, Serialize(n)) && end == off + |Serialize(n)|
    ensures FromEncoded(e, off, strict) == Ok((Normal(n), end))
    decreases Size(n), 1
  {
    if n.Generic? {
      GenericFrame(n, e, off, end, strict);
    } else {
      SequenceFrame(n, e, off, end, strict);
    }
  }

  /** The generic case: identifier, length and content decode to the node. */
  lemma GenericFrame(n: Node, e: seq<byte>, off: nat, end: nat, strict: bool)
    requires n.Generic? && WellTagged(n)
    requires |e| < TwoTo31 && At(e, off, Serialize(n)) && end == off + |Serialize(n)|
    ensures FromEncoded(e, off, strict) == Ok((Normal(n), end))
  {
    var id := n.tag.typeBytes.value[0];
    var valueStart := Layout(n, e, off, id, n.content);
    GenericClose(n, e, off, valueStart, end, strict);
  }

  /** A generic header followed by the content decodes to the node. */
  lemma GenericClose(n: Node, e: seq<byte>, off: nat, valueStart: nat, end: nat, strict: bool)
    requires n.Generic? && LowTag(n.tag) && n.tag.typeNumber != SequenceType
    requires |e| < TwoTo31 && off < |e| && e[off] == n.tag.typeBytes.value[0]
    requires At(e, off + 1, LengthOctets(|n.content|))
    requires valueStart == off + 1 + |LengthOctets(|n.content|)|
    requires At(e, valueStart, n.content) && end == valueStart + |n.content|
    ensures FromEncoded(e, off, strict) == Ok((Normal(n), end))
  {
    TagAt(n.tag, e, off);
    LengthAt(|n.content|, e, off + 1);
    GenericBodyStep(e, off, n.tag, |n.content|, |LengthOctets(|n.content|)|);
    FromEncodedStep(e, off, strict, n.tag);
  }

  /** A one-octet identifier, the length octets and the value, unfolded
      once. */
  lemma SerializeParts(n: Node, id: byte, value: seq<byte>)
    requires n.tag.typeBytes == Some([id])
    requires value == if n.Generic? then n.content else SerializeAll(n.children)
    ensures Serialize(n) == [id] + LengthOctets(|value|) + value
  {
  }

  lemma SerializeAllCons(children: seq<Node>)
    requires children != []
    ensures SerializeAll(children) == Serialize(children[0]) + SerializeAll(children[1..])
    ensures NormalAll(children) == [Normal(children[0])] + NormalAll(children[1..])
    ensures SizeAll(children) == Size(children[0]) + SizeAll(children[1..])
  {
  }

  /** The encoded state of a sequence whose value octets fit an `int`. */
  lemma NormalSequence(n: Node, len: nat)
    requires n.Sequence? && len == |SerializeAll(n.children)| && len < TwoTo31
    ensures Normal(n) == Sequence(n.tag, len, NormalAll(n.children))
  {
  }

  /** Where the parts of a serialized node sit: its identifier octet `id`,
      then the length octets, then `value` from `valueStart` on. */
  lemma Layout(n: Node, e: seq<byte>, off: nat, id: byte, value: seq<byte>) returns (valueStart: nat)
    requires n.tag.typeBytes == Some([id])
    requires value == if n.Generic? then n.content else SerializeAll(n.children)
    requires At(e, off, Serialize(n))
    ensures off < |e| && e[off] == id
    ensures At(e, off + 1, LengthOctets(|value|))
    ensures valueStart == off + 1 + |LengthOctets(|value|)|
    ensures At(e, valueStart, value)
    ensures off + |Serialize(n)| == valueStart + |value|
  {
    SerializeParts(n, id, value);
    AtHeader(e, off, id, LengthOctets(|value|), value);
    valueStart := off + 1 + |LengthOctets(|value|)|;
  }

  /** What `WellTagged` says of a sequence. */
  lemma WellTaggedSequence(n: Node) returns (id: byte)
    requires n.Sequence? && WellTagged(n)
    ensures LowTag(n.tag) && n.tag.typeNumber == SequenceType && AllWellTagged(n.children)
    ensures n.tag.typeBytes == Some([id])
  {
    id := n.tag.typeBytes.value[0];
  }

  /** The sequence case: identifier, length and the serialized children
      decode to the sequence in its encoded state. */
  lemma {:induction false} SequenceFrame(n: Node, e: seq<byte>, off: nat, end: nat, strict: bool)
    requires n.Sequence? && WellTagged(n)
    requires |e| < TwoTo31 && At(e, off, Serialize(n)) && end == off + |Serialize(n)|
    ensures FromEncoded(e, off, strict) == Ok((Normal(n), end))
    decreases Size(n), 0
  {
    var id := WellTaggedSequence(n);
    var value := SerializeAll(n.children);
    var valueStart := Layout(n, e, off, id, value);
    ChildrenRoundTrip(n.children, e, valueStart, end, strict);
    SequenceClose(n, e, off, valueStart, end, strict);
  }

  /** A sequence header followed by its children, read back, is the
      sequence in its encoded state. */
  lemma SequenceClose(n: Node, e: seq<byte>, off: nat, valueStart: nat, end: nat, strict: bool)
    requires n.Sequence? && LowTag(n.tag) && n.tag.typeNumber == SequenceType
    requires |e| < TwoTo31 && off < |e| && e[off] == n.tag.typeBytes.value[0]
    requires At(e, off + 1, LengthOctets(|SerializeAll(n.children)|))
    requires valueStart == off + 1 + |LengthOctets(|SerializeAll(n.children)|)|
    requires end == valueStart + |SerializeAll(n.children)| && end <= |e|
    requires DecodeChildren(e, valueStart, end, strict) == Ok((NormalAll(n.children), end))
    ensures FromEncoded(e, off, strict) == Ok((Normal(n), end))
  {
    var len := |SerializeAll(n.children)|;
    SequenceDecodes(n.tag, len, NormalAll(n.children), e, off, valueStart, strict);
    NormalSequence(n, len);
  }

  /** A sequence header followed by `len` octets that decode to `kids`
      decodes to the sequence of `kids`. */
  lemma SequenceDecodes(t: TypeInfo, len: nat, kids: seq<Node>, e: seq<byte>, off: nat, valueStart: nat,
                        strict: bool)
    requires LowTag(t) && t.typeNumber == SequenceType
    requires |e| < TwoTo31 && off < |e| && e[off] == t.typeBytes.value[0]
    requires At(e, off + 1, LengthOctets(len))
    requires valueStart == off + 1 + |LengthOctets(len)| && valueStart + len <= |e|
    requires DecodeChildren(e, valueStart, valueStart + len, strict) == Ok((kids, valueStart + len))
    ensures FromEncoded(e, off, strict) == Ok((Sequence(t, len, kids), valueStart + len))
  {
    TagAt(t, e, off);
    LengthAt(len, e, off + 1);
    SequenceBodyStep(e, off, strict, t, len, valueStart - off - 1, valueStart, valueStart + len, kids);
    FromEncodedStep(e, off, strict, t);
  }

  /** Serialized well-tagged children decode, between their first octet
      and their end, to the children in their encoded state. */
  lemma {:induction false} ChildrenRoundTrip(children: seq<Node>, e: seq<byte>, off: nat, end: nat, strict: bool)
    requires AllWellTagged(children)
    requires |e| < TwoTo31 && At(e, off, SerializeAll(children)) && end == off + |SerializeAll(children)|
    ensures DecodeChildren(e, off, end, strict) == Ok((NormalAll(children), end))
    decreases SizeAll(children), 2
  {
    if children != [] {
      var mid := ChildrenLayout(children, e, off);
      RoundTrip(children[0], e, off, mid, strict);
      ChildrenRoundTrip(children[1..], e, mid, end, strict);
      ChildrenCons(children, e, off, mid, end, strict);
    }
  }

  /** Where the first child and the others sit among serialized children. */
  lemma ChildrenLayout(children: seq<Node>, e: seq<byte>, off: nat) returns (mid: nat)
    requires children != [] && AllWellTagged(children) && At(e, off, SerializeAll(children))
    ensures WellTagged(children[0]) && AllWellTagged(children[1..])
    ensures SizeAll(children) == Size(children[0]) + SizeAll(children[1..])
    ensures mid == off + |Serialize(children[0])| && off < mid
    ensures At(e, off, Serialize(children[0])) && At(e, mid, SerializeAll(children[1..]))
    ensures off + |SerializeAll(children)| == mid + |SerializeAll(children[1..])|
  {
    SerializeAllCons(children);
    var first := Serialize(children[0]);
    SerializeNonEmpty(children[0]);
    mid := off + |first|;
    AtSplit(e, off, first, SerializeAll(children[1..]));
  }

  lemma SerializeNonEmpty(n: Node)
    ensures |Serialize(n)| > 0
  {
  }

  /** The children loop after the first child and the others have been
      read. */
  lemma ChildrenCons(children: seq<Node>, e: seq<byte>, off: nat, mid: nat, end: nat, strict: bool)
    requires children != [] && off < end && off <= |e|
    requires FromEncoded(e, off, strict) == Ok((Normal(children[0]), mid))
    requires DecodeChildren(e, mid, end, strict) == Ok((NormalAll(children[1..]), end))
    ensures DecodeChildren(e, off, end, strict) == Ok((NormalAll(children), end))
  {
    SerializeAllCons(children);
    DecodeChildrenStep(e, off, end, strict, Normal(children[0]), mid, NormalAll(children[1..]), end);
  }

  /** `FromEncoded` is the source's `GetType` followed by the chosen
      class's `Decode`: `DERSequence.Decode` where the data type read is
      SEQUENCE, `DERGeneric.Decode` elsewhere; an unreadable identifier
      fails the same way. */
  lemma FromEncodedDispatch(e: seq<byte>, start: nat, strict: bool)
    ensures DerTag.Decode(e, start).Fail? ==> FromEncoded(e, start, strict) == Fail(DerTag.Decode(e, start).error)
    ensures DerTag.Decode(e, start).Ok? ==>
              FromEncoded(e, start, strict)
              == if DerTag.Decode(e, start).value.dataType == SequenceType then DecodeSequence(e, start, strict)
                 else DecodeGeneric(e, start)
  {
  }

  /** Re-encoding the state `Encode` leaves gives the same octets and the
      same state. */
  lemma EncodeStable(n: Node, enc: (seq<byte>, Node))
    requires Encode(n) == Ok(enc)
    ensures Encode(enc.1) == Ok(enc)
  {
    EncodeMeaning(n);
    NormalStable(n);
    EncodeMeaning(Normal(n));
  }

  lemma {:induction false} NormalStable(n: Node)
    ensures Serialize(Normal(n)) == Serialize(n) && Normal(Normal(n)) == Normal(n)
    ensures Identified(Normal(n)) == Identified(n)
    decreases n, 1
  {
    match n
    case Generic(_, _) =>
    case Sequence(tag, _, children) =>
      NormalAllStable(children);
  }

  lemma {:induction false} NormalAllStable(children: seq<Node>)
    ensures SerializeAll(NormalAll(children)) == SerializeAll(children)
    ensures NormalAll(NormalAll(children)) == NormalAll(children)
    ensures AllIdentified(NormalAll(children)) == AllIdentified(children)
    decreases children, 2
  {
    if children != [] {
      NormalStable(children[0]);
      NormalAllStable(children[1..]);
      var m := NormalAll(children);
      assert m[0] == Normal(children[0]) && m[1..] == NormalAll(children[1..]);
    }
  }

  /** The class `FromEncoded` picks depends on the low five bits of the
      first octet only. */
  lemma DispatchByNumber(e: seq<byte>, start: nat, strict: bool)
    requires FromEncoded(e, start, strict).Ok?
    ensures FromEncoded(e, start, strict).value.0.Sequence? <==> e[start] % 32 == SequenceType
  {
  }

  /** A decoded generic node holds the octets right before where decoding
      stopped, as many as its length field says. */
  lemma GenericContent(e: seq<byte>, start: nat)
    requires DecodeGeneric(e, start).Ok?
    ensures var r := DecodeGeneric(e, start).value;
            var c := r.0.content;
            |c| <= r.1 && e[r.1 - |c| .. r.1] == c
            && DecodeLength(e, start + 1) == Ok((|c|, r.1 - |c| - start - 1))
  {
  }

  /** A decoded sequence keeps the length its length field states; decoded
      strictly, it ends exactly that many octets after the length field. */
  lemma SequenceExtent(e: seq<byte>, start: nat, strict: bool)
    requires DecodeSequence(e, start, strict).Ok?
    ensures var r := DecodeSequence(e, start, strict).value;
            DecodeLength(e, start + 1).Ok? && r.0.length == DecodeLength(e, start + 1).value.0
    ensures strict ==>
              var r := DecodeSequence(e, start, strict).value;
              0 <= r.0.length && DecodeLength(e, start + 1) == Ok((r.0.length, r.1 - r.0.length - start - 1))
  {
  }

  /** Strict decoding only narrows the source's decoding: whatever it
      accepts, the source accepts with the same result. */
  lemma {:induction false} StrictAgreesWithLax(e: seq<byte>, start: nat)
    requires |e| < TwoTo31 && FromEncoded(e, start, true).Ok?
    ensures FromEncoded(e, start, false) == FromEncoded(e, start, true)
    decreases |e| - start, 2
  {
    var t := DerTag.Decode(e, start).value;
    FromEncodedStep(e, start, true, t);
    FromEncodedStep(e, start, false, t);
    if t.dataType == SequenceType {
      StrictSequenceAgrees(e, start, t);
    }
  }

  lemma {:induction false} StrictSequenceAgrees(e: seq<byte>, start: nat, t: TypeInfo)
    requires |e| < TwoTo31 && SequenceBody(e, start, t, true).Ok?
    ensures SequenceBody(e, start, t, false) == SequenceBody(e, start, t, true)
    decreases |e| - start, 1
  {
    var id := t.typeBytes.value;
    var field := DecodeLength(e, start + |id|).value;
    var valueStart := start + |id| + field.1;
    var limit := valueStart + field.0;
    assert WrapInt32(valueStart + field.0) == limit;
    StrictChildrenAgree(e, valueStart, limit);
  }

  lemma {:induction false} StrictChildrenAgree(e: seq<byte>, cursor: nat, limit: int)
    requires |e| < TwoTo31 && cursor <= |e| && DecodeChildren(e, cursor, limit, true).Ok?
    ensures DecodeChildren(e, cursor, limit, false) == DecodeChildren(e, cursor, limit, true)
    decreases |e| - cursor, 3
  {
    if cursor < limit {
      var child := FromEncoded(e, cursor, true).value;
      StrictAgreesWithLax(e, cursor);
      StrictChildrenAgree(e, child.1, limit);
    }
  }

  /** A SEQUENCE declaring one value octet whose only child, an INTEGER,
      takes three. */
  const OverrunOctets: seq<byte> := [0x30, 0x01, 0x02, 0x01, 0x07]

  /** The INTEGER child of `OverrunOctets` read from octet 2. */
  lemma OverrunChildHeader()
    ensures DerTag.Decode(OverrunOctets, 2) == Ok(WithNumber(0, true, 2))
    ensures DecodeLength(OverrunOctets, 3) == Ok((1, 1))
    ensures OverrunOctets[4..5] == [0x07]
  {
    DecodeLowTag(OverrunOctets, 2);
  }

  lemma OverrunChildNode(strict: bool)
    ensures FromEncoded(OverrunOctets, 2, strict) == Ok((Generic(WithNumber(0, true, 2), [0x07]), 5))
  {
    var t := WithNumber(0, true, 2);
    OverrunChildHeader();
    GenericBodyStep(OverrunOctets, 2, t, 1, 1);
    FromEncodedStep(OverrunOctets, 2, strict, t);
  }

  lemma OverrunChild(strict: bool)
    ensures DecodeChildren(OverrunOctets, 2, 3, strict)
            == Ok(([Generic(WithNumber(0, true, 2), [0x07])], 5))
  {
    var child := Generic(WithNumber(0, true, 2), [0x07]);
    OverrunChildNode(strict);
    DecodeChildrenStep(OverrunOctets, 2, 3, strict, child, 5, [], 5);
    assert [child] + [] == [child];
  }

  /** The SEQUENCE header of `OverrunOctets`. */
  lemma OverrunHeader()
    ensures DerTag.Decode(OverrunOctets, 0) == Ok(WithNumber(0, false, 16))
    ensures DecodeLength(OverrunOctets, 1) == Ok((1, 1))
  {
    DecodeLowTag(OverrunOctets, 0);
  }

  /** Defect witness: the children loop never checks that the last child
      ends at the declared length. A SEQUENCE declaring one value octet
      whose child takes three decodes, and decoding ends two octets past
      the declared end. */
  lemma SequenceOverrun()
    ensures FromEncoded(OverrunOctets, 0, false)
            == Ok((Sequence(WithNumber(0, false, 16), 1, [Generic(WithNumber(0, true, 2), [0x07])]), 5))
  {
    var t := WithNumber(0, false, 16);
    OverrunHeader();
    OverrunChild(false);
    assert WrapInt32(2 + 1) == 3;
    LaxSequenceStep(OverrunOctets, 0, t, 1, 1, 2, [Generic(WithNumber(0, true, 2), [0x07])], 5);
    FromEncodedStep(OverrunOctets, 0, false, t);
  }

  /** Strict decoding refuses the overrun. */
  lemma StrictRefusesOverrun()
    ensures FromEncoded(OverrunOctets, 0, true).Fail?
  {
    var t := WithNumber(0, false, 16);
    OverrunHeader();
    OverrunChild(true);
    FromEncodedStep(OverrunOctets, 0, true, t);
  }

  /** A SEQUENCE whose four-octet length field says 2^31 - 1. */
  const WrapOctets: seq<byte> := [0x30, 0x84, 0x7F, 0xFF, 0xFF, 0xFF]

  lemma WrapHeader()
    ensures DerTag.Decode(WrapOctets, 0) == Ok(WithNumber(0, false, 16))
    ensures DecodeLength(WrapOctets, 1) == Ok((0x7FFF_FFFF, 5))
  {
    var e := WrapOctets;
    DecodeLowTag(e, 0);
    var m: seq<byte> := [0x7F, 0xFF, 0xFF, 0xFF];
    assert e[2..6] == m;
    assert m[..3] == [0x7F, 0xFF, 0xFF] && m[..3][..2] == [0x7F, 0xFF] && m[..3][..2][..1] == [0x7F];
    assert FromBigEndian([0x7F]) == 0x7F;
    assert FromBigEndian([0x7F, 0xFF]) == 0x7FFF;
    assert FromBigEndian([0x7F, 0xFF, 0xFF]) == 0x7F_FFFF;
    assert FromBigEndian(m) == 0x7FFF_FFFF;
  }

  /** Defect witness: `valueStart + Length` is an `int` sum. A length of
      2^31 - 1 makes it wrap negative, so the loop ends at once and six
      octets decode to an empty SEQUENCE claiming 2^31 - 1 value octets;
      strict decoding refuses it. */
  lemma LengthWrapSkipsChildren()
    ensures FromEncoded(WrapOctets, 0, false)
            == Ok((Sequence(WithNumber(0, false, 16), 0x7FFF_FFFF, []), 6))
    ensures FromEncoded(WrapOctets, 0, true).Fail?
  {
    var t := WithNumber(0, false, 16);
    WrapHeader();
    assert WrapInt32(6 + 0x7FFF_FFFF) < 6;
    LaxSequenceStep(WrapOctets, 0, t, 0x7FFF_FFFF, 5, 6, [], 6);
    FromEncodedStep(WrapOctets, 0, false, t);
    FromEncodedStep(WrapOctets, 0, true, t);
  }

  /** A primitive generic node with number 16 in the context-specific
      class (identifier octet `0x90`) holding the octets of a NULL,
      encoded. */
  const MisreadOctets: seq<byte> := [0x90, 0x02, 0x05, 0x00]

  /** A primitive context-specific generic node numbered 16 encodes to
      `MisreadOctets`. */
  lemma MisreadEncoding()
    ensures Encode(NewGeneric(2, true, 16, [0x05, 0x00])) == Ok((MisreadOctets, NewGeneric(2, true, 16, [0x05, 0x00])))
  {
    LowTagOctet(2, true, 16);
    OneOctetMagnitude(2);
    var content: Octets := [0x05, 0x00];
    assert ToByte(2, true, 16) == [0x90];
    assert [0x90] + [0x02] + content == MisreadOctets;
  }

  /** The NULL inside `MisreadOctets`, read as a child. */
  lemma MisreadChildHeader()
    ensures DerTag.Decode(MisreadOctets, 2) == Ok(WithNumber(0, true, 5))
    ensures DecodeLength(MisreadOctets, 3) == Ok((0, 1))
    ensures MisreadOctets[4..4] == []
  {
    DecodeLowTag(MisreadOctets, 2);
  }

  lemma MisreadChildNode()
    ensures FromEncoded(MisreadOctets, 2, false) == Ok((Generic(WithNumber(0, true, 5), []), 4))
  {
    var t := WithNumber(0, true, 5);
    MisreadChildHeader();
    GenericBodyStep(MisreadOctets, 2, t, 0, 1);
    FromEncodedStep(MisreadOctets, 2, false, t);
  }

  lemma MisreadChild()
    ensures DecodeChildren(MisreadOctets, 2, 4, false) == Ok(([Generic(WithNumber(0, true, 5), [])], 4))
  {
    var child := Generic(WithNumber(0, true, 5), []);
    MisreadChildNode();
    DecodeChildrenStep(MisreadOctets, 2, 4, false, child, 4, [], 4);
    assert [child] + [] == [child];
  }

  /** Decoding `MisreadOctets` yields a SEQUENCE whose child is the NULL
      its content happens to spell. */
  lemma DispatchIgnoresClass()
    ensures FromEncoded(MisreadOctets, 0, false)
            == Ok((Sequence(WithNumber(2, true, 16), 2, [Generic(WithNumber(0, true, 5), [])]), 4))
  {
    var t := WithNumber(2, true, 16);
    DecodeLowTag(MisreadOctets, 0);
    assert DerTag.Decode(MisreadOctets, 0) == Ok(t);
    assert DecodeLength(MisreadOctets, 1) == Ok((2, 1));
    MisreadChild();
    SequenceBodyStep(MisreadOctets, 0, false, t, 2, 1, 2, 4, [Generic(WithNumber(0, true, 5), [])]);
    FromEncodedStep(MisreadOctets, 0, false, t);
  }
}

=== FILE: der_tag.dfy ===
/** The identifier octets of a DER node (DER/DERDataType.cs): tag class,
    primitive/constructed flag and tag number, packed as in ITU-T X.690
    section 8.1.2, and the `DataType` classification the class keeps in
    step with the number. Everything here follows the source as written,
    including its two defects in the high-tag-number form. */
module DerTag {
  import opened Common

  /** Values of the `DataType` enumeration that the model refers to. */
  const EndOfContent: int := 0
  const Boolean: int := 1
  const Integer: int := 2
  const Null: int := 5
  const SequenceType: int := 16
  const Unknown: int := 99

  /** The state of a `DERDataType` object. `dataType` holds the underlying
      value of the enumeration (C# lets any `int` be cast to it);
      `typeBytes` is `None` where the source holds `null`. */
  datatype TypeInfo = TypeInfo(
    tagClass: byte,
    primitive: bool,
    typeNumber: Int32,
    dataType: int,
    typeBytes: Option<seq<byte>>)

  /** Class and constructed bits of the leading octet; the `(byte)` cast of
      `TagClass << 6` keeps only the low two bits of the class. */
  function LeadBits(tagClass: byte, primitive: bool): (r: int)
    ensures 0 <= r < 256 && r % 32 == 0
  {
    (tagClass % 4) * 64 + (if primitive then 0 else 32)
  }

  /** Big-endian base-128 digits of `n`, no leading zero digit. */
  function Base128(n: nat): seq<byte>
  {
    if n == 0 then [] else Base128(n / 128) + [n % 128]
  }

  /** Every digit is below 128, the leading digit is not zero, and from 128
      upwards there are at least two digits. */
  lemma {:induction false} Base128Digits(n: nat)
    ensures var r := Base128(n);
            (forall k :: 0 <= k < |r| ==> r[k] < 128)
            && (n > 0 ==> |r| > 0 && r[0] > 0)
            && (n < 128 ==> |r| <= 1)
            && (n >= 128 ==> |r| >= 2)
  {
    if n > 0 {
      Base128Digits(n / 128);
    }
  }

  /** `ToByte`: the identifier octets the source emits for a tag number.
      Numbers above 30 get the 0x1F marker followed by base-128 digits
      whose continuation bit is never set. */
  function ToByte(tagClass: byte, primitive: bool, number: Int32): seq<byte>
  {
    if number > 30 then [LeadBits(tagClass, primitive) + 31] + Base128(number)
    else [LeadBits(tagClass, primitive) + number % 32]
  }

  /** Index of the first octet at or after `i` whose bit 8 is clear: the
      `while ((type[i] & 0x80) != 0)` scan; `None` where it runs off the end. */
  function ScanContinuation(bytes: seq<byte>, i: nat): (r: Option<nat>)
    decreases |bytes| - i
    ensures r.Some? ==> i <= r.value < |bytes|
  {
    if i >= |bytes| then None
    else if bytes[i] < 128 then Some(i)
    else ScanContinuation(bytes, i + 1)
  }

  /** The scan stops at the first octet from `i` on with bit 8 clear, and
      runs off the end exactly when there is none. */
  lemma {:induction false} ScanFindsTerminator(bytes: seq<byte>, i: nat)
    decreases |bytes| - i
    ensures var r := ScanContinuation(bytes, i);
            (r.Some? ==> i <= r.value < |bytes| && bytes[r.value] < 128
                         && forall k :: i <= k < r.value ==> bytes[k] >= 128)
            && (r.None? ==> forall k :: i <= k < |bytes| ==> bytes[k] >= 128)
  {
    if i < |bytes| && bytes[i] >= 128 {
      ScanFindsTerminator(bytes, i + 1);
    }
  }

  /** `ToInt`: the tag number of the identifier starting at `start`. In the
      high-tag branch the list collects `i - start` digits, and the
      accumulator reads `bytes[bytes.Count - 1 - i]` with the scan index `i`
      instead of the loop counter, which is `-1 - start`, always negative:
      the list indexer throws. */
  function ToInt(bytes: seq<byte>, start: nat): (r: Result<Int32>)
    ensures r.Ok? ==> start < |bytes| && bytes[start] % 32 != 31 && r.value == bytes[start] % 32
    ensures start < |bytes| && bytes[start] % 32 != 31 ==> r == Ok(bytes[start] % 32)
  {
    if start >= |bytes| then Fail(IndexOutOfRange)
    else if bytes[start] % 32 == 31 then
      match ScanContinuation(bytes, start + 1)
      case None => Fail(IndexOutOfRange)
      case Some(_) => Fail(ArgumentOutOfRange)
    else Ok(bytes[start] % 32)
  }

  /** A `DERDataType` fresh from its protected constructor: class and flag
      set, every other field at its default. */
  function Blank(tagClass: byte, primitive: bool): TypeInfo
  {
    TypeInfo(tagClass, primitive, 0, EndOfContent, None)
  }

  /** The `TypeNumber` setter. */
  function SetTypeNumber(t: TypeInfo, value: Int32): TypeInfo
  {
    t.(typeNumber := value,
       dataType := if value <= 36 then value else Unknown,
       typeBytes := Some(ToByte(t.tagClass, t.primitive, value)))
  }

  /** The `DataType` setter. */
  function SetDataType(t: TypeInfo, value: Int32): TypeInfo
  {
    if value != Unknown then
      t.(dataType := value, typeNumber := value,
         typeBytes := Some(ToByte(t.tagClass, t.primitive, value)))
    else
      t.(dataType := Unknown, typeNumber := -1, typeBytes := None)
  }

  /** The `TypeBytes` setter: the octets are stored first, so when `ToInt`
      throws the object keeps the new octets beside the old number. */
  function SetTypeBytes(t: TypeInfo, value: seq<byte>): (TypeInfo, Option<Error>)
  {
    var stored := t.(typeBytes := Some(value));
    match ToInt(value, 0)
    case Ok(n) => (stored.(typeNumber := n, dataType := if n < 37 then n else Unknown), None)
    case Fail(e) => (stored, Some(e))
  }

  /** `new DERDataType(tagClass, primitive, int typeNumber)`. */
  function WithNumber(tagClass: byte, primitive: bool, number: Int32): TypeInfo
  {
    SetTypeNumber(Blank(tagClass, primitive), number)
  }

  /** `new DERDataType(tagClass, primitive, DataType dataType)`. */
  function WithDataType(tagClass: byte, primitive: bool, dataType: Int32): TypeInfo
  {
    SetDataType(Blank(tagClass, primitive), dataType)
  }

  /** `new DERDataType(byte[] encoded, int start)`: class from bits 8-7,
      primitive when bit 6 is clear, then the number through its setter. */
  function Decode(encoded: seq<byte>, start: nat): (r: Result<TypeInfo>)
    ensures r.Ok? ==> start < |encoded| && r.value.typeBytes == Some([encoded[start]])
  {
    if start >= |encoded| then Fail(IndexOutOfRange)
    else
      var b := encoded[start];
      var n :- ToInt(encoded, start);
      assert LeadBits(b / 64, (b / 32) % 2 == 0) + n == b;
      Ok(SetTypeNumber(Blank(b / 64, (b / 32) % 2 == 0), n))
  }

  /** The octet of a low tag number packs class, flag and number into
      disjoint bit fields, and unpacking recovers each of them. */
  lemma LowTagOctet(tagClass: byte, primitive: bool, number: Int32)
    requires tagClass < 4 && 0 <= number <= 30
    ensures ToByte(tagClass, primitive, number)
            == [tagClass * 64 + (if primitive then 0 else 32) + number]
    ensures var b := ToByte(tagClass, primitive, number)[0];
            b / 64 == tagClass && ((b / 32) % 2 == 0 <==> primitive) && b % 32 == number
  {
    var f := if primitive then 0 else 1;
    var b := tagClass * 64 + f * 32 + number;
    assert b == 64 * tagClass + (f * 32 + number) && 0 <= f * 32 + number < 64;
    assert b / 64 == tagClass;
    assert b == 32 * (2 * tagClass + f) + number && 0 <= number < 32;
    assert b / 32 == 2 * tagClass + f && b % 32 == number;
  }

  /** Decoding a leading octet whose low five bits are not all ones consumes
      that octet only, and re-deriving the octets from the decoded fields
      gives back exactly that octet. */
  lemma DecodeLowTag(encoded: seq<byte>, start: nat)
    requires start < |encoded| && encoded[start] % 32 != 31
    ensures var b := encoded[start];
            Decode(encoded, start)
            == Ok(TypeInfo(b / 64, (b / 32) % 2 == 0, b % 32, b % 32, Some([b])))
  {
    var b := encoded[start];
    assert LeadBits(b / 64, (b / 32) % 2 == 0) + b % 32 == b;
  }

  /** Encoding a low tag number and decoding the octet, wherever it sits in
      the buffer, gives back the object the number constructor builds. */
  lemma LowTagRoundTrip(tagClass: byte, primitive: bool, number: Int32, prefix: seq<byte>, rest: seq<byte>)
    requires tagClass < 4 && 0 <= number <= 30
    ensures Decode(prefix + ToByte(tagClass, primitive, number) + rest, |prefix|)
            == Ok(WithNumber(tagClass, primitive, number))
  {
    var e := prefix + ToByte(tagClass, primitive, number) + rest;
    LowTagOctet(tagClass, primitive, number);
    assert e[|prefix|] == ToByte(tagClass, primitive, number)[0];
    DecodeLowTag(e, |prefix|);
  }

  /** Tag numbers 31 to 127 take two octets: the marker octet with class
      and flag, then the number itself. */
  lemma TwoOctetHighTag(tagClass: byte, primitive: bool, number: Int32)
    requires 31 <= number <= 127
    ensures ToByte(tagClass, primitive, number)
            == [(tagClass % 4) * 64 + (if primitive then 0 else 32) + 31, number]
  {
    assert Base128(number) == Base128(0) + [number];
  }

  /** Defect witness: from 128 upwards the number takes two or more digit
      octets and none of them carries the continuation bit, while X.690
      section 8.1.2.4.2 sets bit 8 on every digit octet but the last. */
  lemma HighTagLacksContinuationBit(tagClass: byte, primitive: bool, number: Int32)
    requires number >= 128
    ensures var r := ToByte(tagClass, primitive, number);
            |r| >= 3 && r[0] % 32 == 31 && forall k :: 1 <= k < |r| ==> r[k] < 128
  {
    Base128Digits(number);
    var r := ToByte(tagClass, primitive, number);
    assert forall k :: 1 <= k < |r| ==> r[k] == Base128(number)[k - 1];
  }

  /** Defect witness: no identifier in the high-tag form decodes, whatever
      follows the marker octet. */
  lemma HighTagNeverDecodes(encoded: seq<byte>, start: nat)
    requires start < |encoded| && encoded[start] % 32 == 31
    ensures Decode(encoded, start).Fail?
  {
  }

  /** Consequently a tag the class itself builds with a number above 30
      cannot be read back by the class. */
  lemma HighTagRoundTripFails(tagClass: byte, primitive: bool, number: Int32, rest: seq<byte>)
    requires number > 30
    ensures Decode(ToByte(tagClass, primitive, number) + rest, 0).Fail?
  {
    var e := ToByte(tagClass, primitive, number) + rest;
    assert e[0] == LeadBits(tagClass, primitive) + 31;
    HighTagNeverDecodes(e, 0);
  }

  /** The `TypeNumber` setter keeps `DataType` in step: the number itself up
      to 36, `Unknown` above; the octets follow the number. */
  lemma TypeNumberSetter(t: TypeInfo, value: Int32)
    ensures var r := SetTypeNumber(t, value);
            r.typeNumber == value
            && (value <= 36 ==> r.dataType == value)
            && (value > 36 ==> r.dataType == Unknown)
            && r.typeBytes == Some(ToByte(t.tagClass, t.primitive, value))
            && r.tagClass == t.tagClass && r.primitive == t.primitive
  {
  }

  /** The `DataType` setter: `Unknown` clears the number to -1 and the
      octets to null; any other value makes number and data type agree. */
  lemma DataTypeSetter(t: TypeInfo, value: Int32)
    ensures var r := SetDataType(t, value);
            (value == Unknown ==> r.typeNumber == -1 && r.typeBytes.None? && r.dataType == Unknown)
            && (value != Unknown ==> r.typeNumber == value && r.dataType == value && r.typeBytes.Some?)
  {
  }

  /** For the named types (0 to 36) the two setters leave the object in the
      same state. */
  lemma SettersAgree(t: TypeInfo, value: Int32)
    requires 0 <= value <= 36
    ensures SetDataType(t, value) == SetTypeNumber(t, value)
  {
  }

  /** Storing the octets of a low tag number through the `TypeBytes` setter
      recovers the number and the data type the `TypeNumber` setter gives. */
  lemma TypeBytesSetterInverse(t: TypeInfo, value: Int32)
    requires t.tagClass < 4 && 0 <= value <= 30
    ensures SetTypeBytes(t, ToByte(t.tagClass, t.primitive, value))
            == (SetTypeNumber(t, value), None)
  {
    LowTagOctet(t.tagClass, t.primitive, value);
  }
}

=== FILE: der_tag_fixed.dfy ===
/** The identifier octets as ITU-T X.690 section 8.1.2.4 lays them out for
    tag numbers above 30, the form `ToByte` and `ToInt` (DER/DERDataType.cs)
    set out to implement: every base-128 digit octet but the last carries
    bit 8, and the number is the digits read most significant first. For
    numbers up to 30 both directions agree with the source's codec. */
module TagFixed {
  import opened Common
  import opened DerTag

  /** The digits with bit 8 set on every octet but the last. */
  function Continued(digits: seq<byte>): (r: seq<byte>)
    ensures |r| == |digits|
  {
    seq(|digits|, k requires 0 <= k < |digits| =>
      digits[k] % 128 + (if k < |digits| - 1 then 128 else 0))
  }

  /** The value of base-128 digits, most significant first. */
  function FromBase128(digits: seq<byte>): nat
  {
    if digits == [] then 0
    else FromBase128(digits[..|digits| - 1]) * 128 + digits[|digits| - 1] % 128
  }

  lemma {:induction false} Base128RoundTrip(n: nat)
    ensures FromBase128(Base128(n)) == n
  {
    if n > 0 {
      var s := Base128(n);
      assert s[..|s| - 1] == Base128(n / 128);
      Base128RoundTrip(n / 128);
    }
  }

  /** The corrected `ToByte`: the low-tag octet up to 30, otherwise the
      marker octet followed by the digits with continuation bits. */
  function ToByteFixed(tagClass: byte, primitive: bool, number: Int32): seq<byte>
  {
    if number > 30 then [LeadBits(tagClass, primitive) + 31] + Continued(Base128(number))
    else ToByte(tagClass, primitive, number)
  }

  /** The corrected `ToInt`: after the marker octet, the continuation scan
      finds the last digit octet, and the digits up to it are summed with
      the digit index as the shift. */
  function ToIntFixed(bytes: seq<byte>, start: nat): Result<Int32>
  {
    if start >= |bytes| then Fail(IndexOutOfRange)
    else if bytes[start] % 32 == 31 then
      match ScanContinuation(bytes, start + 1)
      case None => Fail(IndexOutOfRange)
      case Some(last) => Ok(WrapInt32(FromBase128(bytes[start + 1 .. last + 1])))
    else Ok(bytes[start] % 32)
  }

  /** The `TypeNumber` setter over the corrected octets. */
  function SetTypeNumberFixed(t: TypeInfo, value: Int32): TypeInfo
  {
    SetTypeNumber(t, value).(typeBytes := Some(ToByteFixed(t.tagClass, t.primitive, value)))
  }

  /** `new DERDataType(byte[] encoded, int start)` over the corrected codec. */
  function DecodeFixed(encoded: seq<byte>, start: nat): (r: Result<TypeInfo>)
    ensures r.Ok? ==> start < |encoded|
  {
    if start >= |encoded| then Fail(IndexOutOfRange)
    else
      var b := encoded[start];
      var n :- ToIntFixed(encoded, start);
      Ok(SetTypeNumberFixed(Blank(b / 64, (b / 32) % 2 == 0), n))
  }

  /** The scan stops at `last` when every octet before it from `i` on has
      bit 8 set and `last` has it clear. */
  lemma {:induction false} ScanStopsAt(bytes: seq<byte>, i: nat, last: nat)
    requires i <= last < |bytes| && bytes[last] < 128
    requires forall k :: i <= k < last ==> bytes[k] >= 128
    decreases last - i
    ensures ScanContinuation(bytes, i) == Some(last)
  {
    if i < last {
      ScanStopsAt(bytes, i + 1, last);
    }
  }

  /** Numbers up to 30 are coded as the source codes them. */
  lemma LowTagsAgree(tagClass: byte, primitive: bool, number: Int32, encoded: seq<byte>, start: nat)
    requires number <= 30
    requires start < |encoded| && encoded[start] % 32 != 31
    ensures ToByteFixed(tagClass, primitive, number) == ToByte(tagClass, primitive, number)
    ensures ToIntFixed(encoded, start) == ToInt(encoded, start)
  {
  }

  /** The corrected high-tag form: marker octet, then at least one digit
      octet; all but the last carry bit 8, the first digit is not zero
      (section 8.1.2.4.2 c), and the digits read back as the number. */
  lemma HighTagShape(tagClass: byte, primitive: bool, number: Int32)
    requires number > 30
    ensures var r := ToByteFixed(tagClass, primitive, number);
            |r| >= 2 && r[0] % 32 == 31
            && (forall k :: 1 <= k < |r| - 1 ==> r[k] >= 128)
            && r[|r| - 1] < 128 && r[1] != 128
            && FromBase128(r[1..]) == number
  {
    var r := ToByteFixed(tagClass, primitive, number);
    ContinuedDigits(number);
    assert r[1..] == Continued(Base128(number));
  }

  /** The digit octets of a number above 30 with their continuation bits. */
  lemma ContinuedDigits(number: nat)
    requires number > 30
    ensures var c := Continued(Base128(number));
            |c| >= 1 && (forall k :: 0 <= k < |c| - 1 ==> c[k] >= 128)
            && c[|c| - 1] < 128 && c[0] != 128 && FromBase128(c) == number
  {
    var d := Base128(number);
    Base128Digits(number);
    ContinuedShape(d);
    ModuloDigits(d, Continued(d));
    Base128RoundTrip(number);
  }

  /** What `Continued` does to digits below 128 whose first is not zero. */
  lemma ContinuedShape(d: seq<byte>)
    requires |d| >= 1 && d[0] > 0 && forall k :: 0 <= k < |d| ==> d[k] < 128
    ensures var c := Continued(d);
            (forall k :: 0 <= k < |c| - 1 ==> c[k] == d[k] + 128)
            && c[|c| - 1] == d[|d| - 1] && c[0] != 128
            && forall k :: 0 <= k < |c| ==> c[k] % 128 == d[k] % 128
  {
  }

  /** Setting bit 8 does not change the digit values. */
  lemma {:induction false} ModuloDigits(d: seq<byte>, c: seq<byte>)
    requires |c| == |d| && forall k :: 0 <= k < |d| ==> c[k] % 128 == d[k] % 128
    ensures FromBase128(c) == FromBase128(d)
  {
    if d != [] {
      ModuloDigits(d[..|d| - 1], c[..|c| - 1]);
    }
  }

  /** Corrected round trip: every non-negative tag number is read back from
      its own identifier octets, wherever they sit in the buffer. */
  lemma NumberRoundTrip(tagClass: byte, primitive: bool, number: Int32, prefix: seq<byte>, rest: seq<byte>)
    requires tagClass < 4 && number >= 0
    ensures ToIntFixed(prefix + ToByteFixed(tagClass, primitive, number) + rest, |prefix|) == Ok(number)
  {
    var r := ToByteFixed(tagClass, primitive, number);
    var e := prefix + r + rest;
    var start := |prefix|;
    assert e[start .. start + |r|] == r;
    if number <= 30 {
      LowTagOctet(tagClass, primitive, number);
    } else {
      HighTagShape(tagClass, primitive, number);
      var last := start + |r| - 1;
      assert forall k :: start + 1 <= k < last ==> e[k] == r[k - start];
      ScanStopsAt(e, start + 1, last);
      assert e[start + 1 .. last + 1] == r[1..];
    }
  }

  /** Corrected round trip at the level of the object: decoding the octets
      of any non-negative tag number rebuilds the object the number
      constructor builds, octets included. */
  lemma TagRoundTrip(tagClass: byte, primitive: bool, number: Int32, prefix: seq<byte>, rest: seq<byte>)
    requires tagClass < 4 && number >= 0
    ensures DecodeFixed(prefix + ToByteFixed(tagClass, primitive, number) + rest, |prefix|)
            == Ok(SetTypeNumberFixed(Blank(tagClass, primitive), number))
  {
    var r := ToByteFixed(tagClass, primitive, number);
    var e := prefix + r + rest;
    NumberRoundTrip(tagClass, primitive, number, prefix, rest);
    LeadOctet(tagClass, primitive, number);
    assert e[|prefix|] == r[0];
    LeadOctetFields(tagClass, primitive, if number > 30 then 31 else number);
    DecodeAtLead(e, |prefix|, number);
  }

  /** The leading octet of the corrected identifier. */
  lemma LeadOctet(tagClass: byte, primitive: bool, number: Int32)
    requires number >= 0
    ensures ToByteFixed(tagClass, primitive, number)[0]
            == LeadBits(tagClass, primitive) + (if number > 30 then 31 else number)
  {
  }

  /** `DecodeFixed` takes class and flag from the leading octet and the
      number from `ToIntFixed`. */
  lemma DecodeAtLead(encoded: seq<byte>, start: nat, n: Int32)
    requires start < |encoded| && ToIntFixed(encoded, start) == Ok(n)
    ensures var b := encoded[start];
            DecodeFixed(encoded, start) == Ok(SetTypeNumberFixed(Blank(b / 64, (b / 32) % 2 == 0), n))
  {
  }

  /** Class and flag come back out of any leading octet. */
  lemma LeadOctetFields(tagClass: byte, primitive: bool, low: nat)
    requires tagClass < 4 && low < 32
    ensures var b := LeadBits(tagClass, primitive) + low;
            b / 64 == tagClass && ((b / 32) % 2 == 0 <==> primitive) && b % 32 == low
  {
    var f := if primitive then 0 else 1;
    var b := tagClass * 64 + f * 32 + low;
    assert b == 64 * tagClass + (f * 32 + low) && 0 <= f * 32 + low < 64;
    assert b / 64 == tagClass;
    assert b == 32 * (2 * tagClass + f) + low;
    assert b / 32 == 2 * tagClass + f && b % 32 == low;
  }

  /** The source's codec fails this round trip from 31 upwards (the
      `HighTagRoundTripFails` witness); the corrected one does not. */
  lemma FixedSucceedsWhereSourceFails(tagClass: byte, primitive: bool, number: Int32)
    requires tagClass < 4 && number > 30
    ensures Decode(ToByte(tagClass, primitive, number), 0).Fail?
    ensures DecodeFixed(ToByteFixed(tagClass, primitive, number), 0).Ok?
  {
    HighTagRoundTripFails(tagClass, primitive, number, []);
    assert ToByte(tagClass, primitive, number) + [] == ToByte(tagClass, primitive, number);
    TagRoundTrip(tagClass, primitive, number, [], []);
    assert [] + ToByteFixed(tagClass, primitive, number) + [] == ToByteFixed(tagClass, primitive, number);
  }
}

=== FILE: json_collection.dfy ===
/** `JSONNameValuePairCollection` (JSON/JSONNameValuePairCollection.cs): the
    list of name-value pairs a JSON object holds, with the list operations
    it passes on to `List<T>` and the name-based lookups it adds. The
    collection is its `Items` list, a sequence of pairs. */
module JsonCollection {
  import opened Common
  import opened Lists
  import opened JsonValue

  /** The loop test `Items[i].Name == name`. A null `name` matches a pair
      whose name was never set. */
  function Named(name: Option<string>): Pair -> bool
  {
    (p: Pair) => p.name == name
  }

  /** `Count`. */
  function Count(items: seq<Pair>): nat
  {
    |items|
  }

  /** `IndexOf(string name)`: the first position holding that name, `-1`
      when none does. */
  function IndexOf(items: seq<Pair>, name: Option<string>): (r: int)
    ensures -1 <= r < |items|
    ensures r >= 0 ==> items[r].name == name && forall k :: 0 <= k < r ==> items[k].name != name
    ensures r == -1 <==> forall k :: 0 <= k < |items| ==> items[k].name != name
  {
    match FirstIndex(items, Named(name))
    case None => -1
    case Some(i) => i
  }

  /** `Contains(string name)`: the loop returns `true` at the first pair
      with that name and `false` after the last. */
  function Contains(items: seq<Pair>, name: Option<string>): (r: bool)
    ensures r <==> exists k :: 0 <= k < |items| && items[k].name == name
  {
    if items == [] then false
    else if items[0].name == name then true
    else
      var found := Contains(items[1..], name);
      assert found ==> exists k :: 0 <= k < |items| && items[k].name == name by {
        if found {
          var k :| 0 <= k < |items[1..]| && items[1..][k].name == name;
          assert items[k + 1].name == name;
        }
      }
      found
  }

  /** `Contains` and `IndexOf` agree: a name is contained exactly when it has
      an index. */
  lemma ContainsIndexOf(items: seq<Pair>, name: Option<string>)
    ensures Contains(items, name) <==> IndexOf(items, name) != -1
  {
    if Contains(items, name) {
      var k :| 0 <= k < |items| && items[k].name == name;
    }
  }

  /** `Find`: the pair at `IndexOf(name)`, or `None` where the source gives
      null. */
  function Find(items: seq<Pair>, name: Option<string>): (r: Option<Pair>)
    ensures r.Some? <==> Contains(items, name)
    ensures r.Some? ==> r.value.name == name
                        && exists i :: 0 <= i < |items| && items[i] == r.value
                                       && forall k :: 0 <= k < i ==> items[k].name != name
  {
    ContainsIndexOf(items, name);
    var index := IndexOf(items, name);
    if index != -1 then Some(items[index]) else None
  }

  /** `FindValue`: the value of the pair `Find` gives. The source returns
      null both when there is no such pair and when the pair's value is
      null; both are `None`. */
  function FindValue(items: seq<Pair>, name: Option<string>): (r: Option<Value>)
    ensures Find(items, name).None? ==> r.None?
    ensures Find(items, name).Some? ==> r == Find(items, name).value.value
  {
    var index := IndexOf(items, name);
    if index != -1 then items[index].value else None
  }

  /** `Add`: the pair goes at the end. */
  function Add(items: seq<Pair>, item: Pair): (r: seq<Pair>)
    ensures |r| == |items| + 1 && r[|items|] == item && r[..|items|] == items
  {
    items + [item]
  }

  /** A name that is already there keeps its first pair after `Add`; a new
      name is found at the added pair exactly when that pair carries it. */
  lemma AddThenIndexOf(items: seq<Pair>, item: Pair, name: Option<string>)
    ensures IndexOf(Add(items, item), name)
            == (if IndexOf(items, name) != -1 then IndexOf(items, name)
                else if item.name == name then |items| else -1)
  {
    AppendThenFind(items, item, Named(name));
  }

  /** `List.Insert`: `index` may be anything from 0 to `Count`, otherwise
      `ArgumentOutOfRangeException`; the items from `index` on move up one. */
  function Insert(items: seq<Pair>, index: int, item: Pair): (r: Result<seq<Pair>>)
    ensures r.Fail? <==> index < 0 || index > |items|
    ensures r.Fail? ==> r.error == ArgumentOutOfRange
    ensures r.Ok? ==> |r.value| == |items| + 1 && r.value[index] == item
                      && (forall k :: 0 <= k < index ==> r.value[k] == items[k])
                      && (forall k :: index < k < |r.value| ==> r.value[k] == items[k - 1])
  {
    if index < 0 || index > |items| then Fail(ArgumentOutOfRange)
    else Ok(items[..index] + [item] + items[index..])
  }

  /** `List.RemoveAt`: `index` must name an item, otherwise
      `ArgumentOutOfRangeException`; the items after it move down one. */
  function RemoveAt(items: seq<Pair>, index: int): (r: Result<seq<Pair>>)
    ensures r.Fail? <==> index < 0 || index >= |items|
    ensures r.Fail? ==> r.error == ArgumentOutOfRange
    ensures r.Ok? ==> |r.value| == |items| - 1
                      && (forall k :: 0 <= k < index ==> r.value[k] == items[k])
                      && (forall k :: index <= k < |r.value| ==> r.value[k] == items[k + 1])
  {
    if index < 0 || index >= |items| then Fail(ArgumentOutOfRange)
    else Ok(items[..index] + items[index + 1..])
  }

  /** Removing what was just inserted gives back the list. */
  lemma InsertThenRemoveAt(items: seq<Pair>, index: int, item: Pair)
    requires Insert(items, index, item).Ok?
    ensures RemoveAt(Insert(items, index, item).value, index) == Ok(items)
  {
    var r := Insert(items, index, item).value;
    assert r[..index] + r[index + 1..] == items;
  }

  /** `List.RemoveRange`: a negative `index` or `count` is an
      `ArgumentOutOfRangeException`; a range running past the end is an
      `ArgumentException`; otherwise the `count` items from `index` go. */
  function RemoveRange(items: seq<Pair>, index: int, count: int): (r: Result<seq<Pair>>)
    ensures r.Fail? <==> index < 0 || count < 0 || |items| - index < count
    ensures r.Fail? ==> r.error == (if index < 0 || count < 0 then ArgumentOutOfRange else ArgumentException)
    ensures r.Ok? ==> |r.value| == |items| - count
                      && (forall k :: 0 <= k < index ==> r.value[k] == items[k])
                      && (forall k :: index <= k < |r.value| ==> r.value[k] == items[k + count])
  {
    if index < 0 || count < 0 then Fail(ArgumentOutOfRange)
    else if |items| - index < count then Fail(ArgumentException)
    else Ok(items[..index] + items[index + count..])
  }

  /** A range of one is `RemoveAt`, and the whole list is `Clear`. */
  lemma RemoveRangeSpecialCases(items: seq<Pair>, index: int)
    ensures index < |items| ==> RemoveRange(items, index, 1) == RemoveAt(items, index)
    ensures RemoveRange(items, 0, |items|) == Ok(Clear(items))
  {
  }

  /** `Clear`. */
  function Clear(items: seq<Pair>): (r: seq<Pair>)
    ensures Count(r) == 0
  {
    []
  }

  /** `Remove(string name)`: `RemoveAt(IndexOf(name))` when the name is
      there; nothing happens otherwise. */
  function Remove(items: seq<Pair>, name: Option<string>): (r: seq<Pair>)
    ensures r == RemoveFirst(items, Named(name))
  {
    var index := IndexOf(items, name);
    RemoveFirstMeaning(items, Named(name));
    if index != -1 then RemoveAt(items, index).value else items
  }

  /** Only the first pair with the name goes: the others keep their order,
      and nothing changes when there is none. */
  lemma RemoveOnlyFirst(items: seq<Pair>, name: Option<string>)
    ensures IndexOf(items, name) == -1 ==> Remove(items, name) == items
    ensures IndexOf(items, name) != -1 ==>
              var i := IndexOf(items, name);
              Remove(items, name) == items[..i] + items[i + 1..]
  {
    RemoveFirstMeaning(items, Named(name));
  }

  /** After `Remove`, `IndexOf` finds the next pair with the name, if any. */
  lemma RemoveThenIndexOf(items: seq<Pair>, name: Option<string>)
    requires IndexOf(items, name) != -1
    ensures var i := IndexOf(items, name);
            var after := IndexOf(items[i + 1..], name);
            IndexOf(Remove(items, name), name) == (if after != -1 then i + after else -1)
  {
    var p := Named(name);
    RemoveThenFind(items, p);
    var i := FirstIndex(items, p).value;
    IndexOfFirst(items, name);
    IndexOfFirst(items[i + 1..], name);
    IndexOfFirst(Remove(items, name), name);
  }

  /** `IndexOf` in terms of `FirstIndex`. */
  lemma IndexOfFirst(items: seq<Pair>, name: Option<string>)
    ensures var f := FirstIndex(items, Named(name));
            IndexOf(items, name) == (if f.Some? then f.value else -1)
  {
  }

  /** `Reverse`. */
  function Reverse(items: seq<Pair>): (r: seq<Pair>)
    ensures |r| == |items| && forall k :: 0 <= k < |items| ==> r[k] == items[|items| - 1 - k]
  {
    if items == [] then [] else Reverse(items[1..]) + [items[0]]
  }

  /** Reversing twice gives the list back. */
  lemma ReverseTwice(items: seq<Pair>)
    ensures Reverse(Reverse(items)) == items
  {
  }
}

=== FILE: json_container.dfy ===
/** The framing of `JSONObject.Decode` and `JSONArray.Decode`
    (JSON/JSONObject.cs, JSON/JSONArray.cs): find the opening bracket,
    find its partner with `FindObjectEnd` or `FindArrayEnd`, and read what
    lies between. The two scanners are one loop over different brackets:
    a `"` toggles the string state unless a backslash comes before it, and
    outside strings an opening bracket goes one level down and a closing
    one comes back up, or ends the scan at the top level. The scan starts
    just after the opening bracket, so there is always a character before
    it. */
module JsonContainer {
  import opened Common
  import opened Text
  import opened JsonValue
  import opened JsonFunctions
  import opened JsonScalar

  /** What the scan knows after some text: inside a string or not, and
      how many brackets are open below the one it started after. */
  datatype Scan = Scan(inString: bool, depth: nat)

  const Start: Scan := Scan(false, 0)

  /** `c` ends the scan in state `sc`. */
  predicate Hit(c: char, sc: Scan, open: char, close: char)
  {
    c != '"' && !sc.inString && c != open && c == close && sc.depth == 0
  }

  /** The state after `c`, with `prev` before it, when it does not end
      the scan. */
  function Step(c: char, prev: Option<char>, sc: Scan, open: char, close: char): Scan
  {
    if c == '"' then Scan(Toggle(prev, c, sc.inString), sc.depth)
    else if sc.inString then sc
    else if c == open then Scan(false, sc.depth + 1)
    else if c == close && sc.depth > 0 then Scan(false, sc.depth - 1)
    else sc
  }

  /** The state after a piece of text that does not end the scan. */
  function ScanAfter(s: string, prev: Option<char>, sc: Scan, open: char, close: char): Scan
  {
    if s == [] then sc
    else if Hit(s[0], sc, open, close) then sc
    else ScanAfter(s[1..], Some(s[0]), Step(s[0], prev, sc, open, close), open, close)
  }

  function Shift(o: Option<nat>): Option<nat>
  {
    if o.None? then None else Some(o.value + 1)
  }

  /** The scan over `s`: the offset of the character that ends it. */
  function EndIn(s: string, prev: Option<char>, sc: Scan, open: char, close: char): (r: Option<nat>)
    ensures r.Some? ==> r.value < |s| && s[r.value] == close
  {
    if s == [] then None
    else if Hit(s[0], sc, open, close) then Some(0)
    else Shift(EndIn(s[1..], Some(s[0]), Step(s[0], prev, sc, open, close), open, close))
  }

  /** The scan ends at the first character that is a closing bracket at
      the top level, outside strings, given the state the text before it
      leaves; and it ends nowhere when there is no such character. */
  lemma {:induction false} EndInFirst(s: string, prev: Option<char>, sc: Scan, open: char, close: char)
    ensures var r := EndIn(s, prev, sc, open, close);
            (r.Some? ==> r.value < |s| && Hit(s[r.value], ScanAfter(s[..r.value], prev, sc, open, close), open, close))
            && forall i :: 0 <= i < |s| && (r.None? || i < r.value)
                 ==> !Hit(s[i], ScanAfter(s[..i], prev, sc, open, close), open, close)
  {
    if s != [] && !Hit(s[0], sc, open, close) {
      var t, next := s[1..], Step(s[0], prev, sc, open, close);
      EndInFirst(t, Some(s[0]), next, open, close);
      forall i | 1 <= i <= |s|
        ensures ScanAfter(s[..i], prev, sc, open, close) == ScanAfter(t[..i - 1], Some(s[0]), next, open, close)
      {
        assert s[..i][1..] == t[..i - 1];
      }
      assert s[..0] == [];
    } else if s != [] {
      assert s[..0] == [];
    }
  }

  /** `FindObjectEnd(json, start)` is `FindEnd(json, start, '{', '}')`,
      `FindArrayEnd` the same with `[` and `]`: the index of the closing
      bracket that ends the scan from `start`, or none (-1). */
  function FindEnd(json: string, start: nat, open: char, close: char): (r: Option<nat>)
    requires 1 <= start <= |json|
    ensures r.Some? ==> start <= r.value < |json| && json[r.value] == close
  {
    var e := EndIn(json[start..], Some(json[start - 1]), Start, open, close);
    if e.None? then None else Some(start + e.value)
  }

  /** The scan from `start` ends at the first closing bracket at the top
      level outside strings, counting from the state the text before it
      leaves, and it finds none when there is no such bracket. */
  lemma FindEndFirst(json: string, start: nat, open: char, close: char)
    requires 1 <= start <= |json|
    ensures var r := FindEnd(json, start, open, close);
            (r.Some? ==> Hit(json[r.value], ScanAfter(json[start .. r.value], Some(json[start - 1]), Start, open, close), open, close))
            && forall i :: start <= i < |json| && (r.None? || i < r.value)
                 ==> !Hit(json[i], ScanAfter(json[start .. i], Some(json[start - 1]), Start, open, close), open, close)
  {
    var s := json[start..];
    EndInFirst(s, Some(json[start - 1]), Start, open, close);
    assert forall i :: start <= i <= |json| ==> s[..i - start] == json[start .. i];
  }

  function ShiftBy(o: Option<nat>, n: nat): Option<nat>
  {
    if o.None? then None else Some(o.value + n)
  }

  /** Scanning two pieces one after the other is scanning their join:
      when the first does not end the scan, the second goes on from the
      state and the character the first leaves. */
  lemma {:induction false} ScanAppend(a: string, b: string, prev: Option<char>, sc: Scan, open: char, close: char)
    requires EndIn(a, prev, sc, open, close) == None
    ensures var (q, mid) := (LastOf(a, prev), ScanAfter(a, prev, sc, open, close));
            EndIn(a + b, prev, sc, open, close) == ShiftBy(EndIn(b, q, mid, open, close), |a|)
            && ScanAfter(a + b, prev, sc, open, close) == ScanAfter(b, q, mid, open, close)
  {
    if a != [] {
      assert (a + b)[0] == a[0] && (a + b)[1..] == a[1..] + b;
      ScanAppend(a[1..], b, Some(a[0]), Step(a[0], prev, sc, open, close), open, close);
      assert LastOf(a[1..], Some(a[0])) == LastOf(a, prev);
    } else {
      assert a + b == b;
    }
  }

  /** A text with no closing bracket at all never ends the scan. */
  lemma {:induction false} NoCloseNoEnd(s: string, prev: Option<char>, sc: Scan, open: char, close: char)
    requires close !in s
    ensures EndIn(s, prev, sc, open, close) == None
  {
    if s != [] {
      assert s[0] in s;
      assert forall k :: 0 <= k < |s| - 1 ==> s[1..][k] == s[k + 1];
      NoCloseNoEnd(s[1..], Some(s[0]), Step(s[0], prev, sc, open, close), open, close);
    }
  }

  // ---------------------------------------------------------------------
  // JSONObject.Decode

  /** The value readers of the source always end past where they start
      (`stringEnd + 1`, `valueStart + 4`, `objectEnd + 1`, ...), which is
      what makes the pair loop stop. */
  ghost predicate Forward(read: ValueReader)
  {
    forall s, k :: read(s, k).Ok? && read(s, k).value.Some? ==> read(s, k).value.value.1 > k
  }

  /** The loop of `JSONObject.Decode` over `objectString` from `lastEnd`:
      a pair at every quote that starts a name, until no quote is left. An
      end past the text makes the next `IndexOf` throw. */
  function DecodePairs(s: string, lastEnd: nat, read: ValueReader): (r: Result<seq<Pair>>)
    requires Forward(read) && lastEnd <= |s|
    decreases |s| - lastEnd
  {
    match FindChar(s, '"', lastEnd)
    case None => Ok([])
    case Some(nameStart) =>
      var (pair, res) := DecodePair(NewPair, s, nameStart, read);
      var end :- res;
      if end > |s| then Fail(ArgumentOutOfRange)
      else
        var rest :- DecodePairs(s, end, read);
        Ok([pair] + rest)
  }

  /** The loop reads nothing once no quote is left, and every pair it
      reads has both a name and a value. */
  lemma {:induction false} PairsComplete(s: string, lastEnd: nat, read: ValueReader)
    requires Forward(read) && lastEnd <= |s|
    ensures FindChar(s, '"', lastEnd).None? ==> DecodePairs(s, lastEnd, read) == Ok([])
    ensures DecodePairs(s, lastEnd, read).Ok? ==>
              forall p :: p in DecodePairs(s, lastEnd, read).value ==> p.name.Some? && p.value.Some?
    decreases |s| - lastEnd
  {
    match FindChar(s, '"', lastEnd)
    case None =>
    case Some(nameStart) =>
      var (pair, res) := DecodePair(NewPair, s, nameStart, read);
      if res.Ok? && res.value <= |s| {
        PairsComplete(s, res.value, read);
      }
  }

  /** What both `Decode` methods return once the loop over the framed
      text is done: what was read added after the existing content, with
      the index past the closing bracket, or the loop's failure. */
  function Added<T>(content: seq<T>, got: Result<seq<T>>, end: nat): Result<(seq<T>, nat)>
  {
    match got
    case Ok(g) => Ok((content + g, end))
    case Fail(x) => Fail(x)
  }

  /** The framing both `Decode` methods share: the first opening bracket
      from `start` and the closing bracket that ends the scan after it. */
  function Frame(json: string, start: int, open: char, close: char): (r: Result<(nat, nat)>)
    ensures r.Ok? ==> 0 <= start <= r.value.0 < r.value.1 < |json| && json[r.value.1] == close
    ensures r.Fail? ==> (r.error == ArgumentOutOfRange <==> start < 0 || start > |json|)
    ensures r.Fail? ==> r.error == ArgumentOutOfRange || r.error == ArgumentException
  {
    var o :- IndexOfChar(json, open, start);
    if o.None? then Fail(ArgumentException)
    else
      var e := FindEnd(json, o.value + 1, open, close);
      if e.None? then Fail(ArgumentException) else Ok((o.value, e.value))
  }

  /** A frame is found at the first opening bracket from `start`, and
      ends where the scan after it ends; without an opening bracket from
      `start` on, nothing is framed. */
  lemma FrameFound(json: string, start: int, open: char, close: char)
    ensures var r := Frame(json, start, open, close);
            r.Ok? ==>
              var (o, e) := r.value;
              json[o] == open && (forall k :: start <= k < o ==> json[k] != open)
              && FindEnd(json, o + 1, open, close) == Some(e)
    ensures 0 <= start <= |json| && (forall k :: start <= k < |json| ==> json[k] != open)
            ==> Frame(json, start, open, close) == Fail(ArgumentException)
  {
  }

  /** An opening bracket with no closing bracket after it is refused. */
  lemma Unclosed(pre: string, open: char, t: string, close: char)
    requires open !in pre && close !in t
    ensures Frame(pre + [open] + t, 0, open, close) == Fail(ArgumentException)
  {
    var json := pre + [open] + t;
    assert json == [] + pre + [open] + t;
    FindCharAfter([], pre, open, t);
    assert json[|pre| + 1..] == t;
    NoCloseNoEnd(t, Some(open), Start, open, close);
  }

  /** `JSONObject.Decode` on an object holding `content`: the pairs read
      from the framed text, braces included, are added after it, and the
      result is the index past the closing brace. */
  function DecodeObject(content: seq<Pair>, json: string, start: int, read: ValueReader)
    : (r: Result<(seq<Pair>, nat)>)
    requires Forward(read)
    ensures r.Ok? ==>
              var (pairs, end) := r.value;
              0 < end <= |json| && json[end - 1] == '}' && |content| <= |pairs| && pairs[..|content|] == content
    ensures Frame(json, start, '{', '}').Fail? ==> r.Fail? && r.error == Frame(json, start, '{', '}').error
  {
    var (open, end) :- Frame(json, start, '{', '}');
    Added(content, DecodePairs(json[open .. end + 1], 0, read), end + 1)
  }

  // ---------------------------------------------------------------------
  // JSONArray.Decode

  /** The element loop of `JSONArray.Decode` (`FromEncoded` over the
      text between the brackets). */
  type ItemsReader = string -> Result<seq<Value>>

  /** `JSONArray.Decode` on an array holding `content`: the items read
      from the text strictly between the brackets are added after it, and
      the result is the index past the closing bracket. */
  function DecodeArray(content: seq<Value>, json: string, start: int, read: ItemsReader)
    : (r: Result<(seq<Value>, nat)>)
    ensures r.Ok? ==>
              var (items, end) := r.value;
              0 < end <= |json| && json[end - 1] == ']' && |content| <= |items| && items[..|content|] == content
    ensures Frame(json, start, '[', ']').Fail? ==> r.Fail? && r.error == Frame(json, start, '[', ']').error
  {
    var (open, end) :- Frame(json, start, '[', ']');
    Added(content, read(json[open + 1 .. end]), end + 1)
  }
}

=== FILE: json_encoded.dfy ===
/** What the text passes do to an encoded value. A clean value's
    encoding is inert: walked from outside any string, with any character
    but a backslash before it and any bracket depths, it leaves the walk
    outside strings at the depths it found, it never ends a bracket scan,
    `Minify` keeps every character of it, and its last character is not a
    backslash. Inertness is kept by joining, so it follows from the
    pieces `Encode` puts together. From it: a minified encoding is the
    encoding itself, `FindObjectEnd` and `FindArrayEnd` find the bracket
    that closes an encoded container, and `GetDatatype` finds an encoded
    value where it starts. */
module JsonEncoded {
  import opened Common
  import opened JsonValue
  import opened JsonFunctions
  import opened JsonContainer
  import JsonScalar

  /** Where a walk over the text stands: the character before, the string
      state and the depths of braces and of square brackets. */
  datatype Walk = Walk(prev: Option<char>, inString: bool, braces: nat, brackets: nat)

  /** Walking `e` from `w` ends in `w'`: neither bracket scan ends inside
      it, and `Minify` keeps all of it. */
  predicate Passes(e: string, w: Walk, w': Walk)
  {
    EndIn(e, w.prev, Scan(w.inString, w.braces), '{', '}') == None
    && ScanAfter(e, w.prev, Scan(w.inString, w.braces), '{', '}') == Scan(w'.inString, w'.braces)
    && EndIn(e, w.prev, Scan(w.inString, w.brackets), '[', ']') == None
    && ScanAfter(e, w.prev, Scan(w.inString, w.brackets), '[', ']') == Scan(w'.inString, w'.brackets)
    && MinifyFrom(e, w.prev, w.inString) == e
    && StateAfter(e, w.prev, w.inString) == w'.inString
    && LastOf(e, w.prev) == w'.prev
  }

  /** Outside strings, after a character that escapes nothing. */
  predicate Outside(w: Walk)
  {
    w.prev != Some('\\') && !w.inString
  }

  /** `e` walked from `w` returns to `w`, but for the character before. */
  predicate InertAt(e: string, w: Walk)
  {
    var q := LastOf(e, w.prev);
    q != Some('\\') && Passes(e, w, w.(prev := q))
  }

  ghost predicate Inert(e: string)
  {
    forall w :: Outside(w) ==> InertAt(e, w)
  }

  /** Walks compose. */
  lemma PassesAppend(a: string, b: string, w1: Walk, w2: Walk, w3: Walk)
    requires Passes(a, w1, w2) && Passes(b, w2, w3)
    ensures Passes(a + b, w1, w3)
  {
    ScanAppend(a, b, w1.prev, Scan(w1.inString, w1.braces), '{', '}');
    ScanAppend(a, b, w1.prev, Scan(w1.inString, w1.brackets), '[', ']');
    MinifyAppend(a, b, w1.prev, w1.inString);
    StateAppend(a, b, w1.prev, w1.inString);
    assert LastOf(a + b, w1.prev) == LastOf(b, LastOf(a, w1.prev)) by {
      if b == [] {
        assert a + b == a;
      } else {
        assert (a + b)[|a + b| - 1] == b[|b| - 1];
      }
    }
  }

  /** The walk over one character. */
  function After(c: char, w: Walk): Walk
  {
    Walk(Some(c), Toggle(w.prev, c, w.inString),
         Step(c, w.prev, Scan(w.inString, w.braces), '{', '}').depth,
         Step(c, w.prev, Scan(w.inString, w.brackets), '[', ']').depth)
  }

  /** One character that ends neither scan and that `Minify` keeps. */
  lemma CharPasses(c: char, w: Walk)
    requires !Hit(c, Scan(w.inString, w.braces), '{', '}') && !Hit(c, Scan(w.inString, w.brackets), '[', ']')
    requires Toggle(w.prev, c, w.inString) || !Blank(c)
    ensures Passes([c], w, After(c, w))
  {
    assert [c][1..] == [];
  }

  /** Characters that change nothing but the character before: any but a
      quote inside a string, and outside one neither a backslash, a
      bracket nor a blank. */
  predicate Quiet(c: char, inString: bool)
  {
    c != '"' && (inString || (c != '\\' && c != '{' && c != '}' && c != '[' && c != ']' && !Blank(c)))
  }

  lemma {:induction false} QuietPasses(s: string, w: Walk)
    requires forall k :: 0 <= k < |s| ==> Quiet(s[k], w.inString)
    ensures Passes(s, w, w.(prev := LastOf(s, w.prev)))
  {
    if s != [] {
      var c, t := s[0], s[1..];
      CharPasses(c, w);
      var w1 := After(c, w);
      assert w1 == w.(prev := Some(c));
      assert forall k :: 0 <= k < |t| ==> t[k] == s[k + 1];
      QuietPasses(t, w1);
      PassesAppend([c], t, w, w1, w1.(prev := LastOf(t, w1.prev)));
      assert [c] + t == s;
      assert LastOf(t, Some(c)) == LastOf(s, w.prev);
    }
  }

  /** Text of quiet characters outside strings is inert. */
  lemma Word(s: string)
    requires forall k :: 0 <= k < |s| ==> Quiet(s[k], false)
    ensures Inert(s)
  {
    forall w | Outside(w)
      ensures InertAt(s, w)
    {
      QuietPasses(s, w);
      if s != [] {
        assert s[|s| - 1] != '\\' by {
          assert Quiet(s[|s| - 1], false);
        }
      }
    }
  }

  lemma InertAppend(a: string, b: string)
    requires Inert(a) && Inert(b)
    ensures Inert(a + b)
  {
    forall w | Outside(w)
      ensures InertAt(a + b, w)
    {
      var w1 := w.(prev := LastOf(a, w.prev));
      assert InertAt(a, w);
      assert InertAt(b, w1);
      var w2 := w1.(prev := LastOf(b, w1.prev));
      PassesAppend(a, b, w, w1, w2);
    }
  }

  /** A quoted clean string is inert: the first quote goes into the
      string, nothing inside leaves it, and the last quote, with no
      backslash before it, comes back out. */
  lemma QuoteInert(s: string)
    requires CleanText(s)
    ensures Inert(Quote(s))
  {
    forall w | Outside(w)
      ensures InertAt(Quote(s), w)
    {
      CharPasses('"', w);
      var w1 := After('"', w);
      assert forall k :: 0 <= k < |s| ==> Quiet(s[k], true) by {
        forall k | 0 <= k < |s| ensures s[k] != '"' {
          assert s[k] in s;
        }
      }
      QuietPasses(s, w1);
      var w2 := w1.(prev := LastOf(s, w1.prev));
      CharPasses('"', w2);
      var w3 := After('"', w2);
      assert w3 == w.(prev := Some('"'));
      PassesAppend(['"'], s, w, w1, w2);
      PassesAppend(['"'] + s, ['"'], w, w2, w3);
      assert Quote(s) == ['"'] + s + ['"'];
    }
  }

  /** An inert body between a pair of brackets of either kind is inert:
      the opening bracket goes one level down, the body comes back to it,
      and the closing bracket, below the top, comes back up. */
  lemma BracketInert(open: char, body: string, close: char)
    requires (open, close) == ('{', '}') || (open, close) == ('[', ']')
    requires Inert(body)
    ensures Inert([open] + body + [close])
  {
    forall w | Outside(w)
      ensures InertAt([open] + body + [close], w)
    {
      CharPasses(open, w);
      var w1 := After(open, w);
      assert Outside(w1) && InertAt(body, w1);
      var w2 := w1.(prev := LastOf(body, w1.prev));
      CharPasses(close, w2);
      var w3 := After(close, w2);
      assert w3 == w.(prev := Some(close));
      PassesAppend([open], body, w, w1, w2);
      PassesAppend([open] + body, [close], w, w2, w3);
    }
  }

  /** Inert encodings joined by commas are inert. */
  lemma {:induction false} JoinInert(encs: seq<string>)
    requires forall i :: 0 <= i < |encs| ==> Inert(encs[i])
    ensures Inert(Join(encs))
  {
    if encs == [] {
      Word([]);
    } else if |encs| > 1 {
      JoinInert(encs[1..]);
      Word(",");
      InertAppend(encs[0], ",");
      InertAppend(encs[0] + ",", Join(encs[1..]));
    }
  }

  /** The text of a number is made of quiet characters. */
  lemma NumberQuiet(t: string)
    requires NumberText(t)
    ensures forall k :: 0 <= k < |t| ==> Quiet(t[k], false)
  {
    forall k | 0 <= k < |t|
      ensures Quiet(t[k], false)
    {
      assert NumberChar(t[k]);
    }
  }

  /** Every clean value's encoding is inert. */
  lemma {:induction false} EncodedInert(v: Value)
    requires Clean(v)
    ensures Encode(v).Ok? && Inert(Encode(v).value)
    decreases v, 2
  {
    CleanEncodes(v);
    match v
    case Null => Word("null");
    case Bool(b) => if b { Word("true"); } else { Word("false"); }
    case Str(s) => QuoteInert(s);
    case Number(t) => NumberQuiet(t); Word(t);
    case Array(items) =>
      var encs := ItemsInert(items);
      JoinInert(encs);
      BracketedJoin('[', encs, ']');
      BracketInert('[', Join(encs), ']');
    case Object(pairs) =>
      var encs := PairsInert(pairs);
      JoinInert(encs);
      BracketedJoin('{', encs, '}');
      BracketInert('{', Join(encs), '}');
  }

  lemma {:induction false} ItemsInert(items: seq<Value>) returns (encs: seq<string>)
    requires forall i | 0 <= i < |items| :: Clean(items[i])
    ensures EncodeItems(items) == Ok(encs)
    ensures forall i :: 0 <= i < |encs| ==> Inert(encs[i])
    decreases items, 1
  {
    if items == [] {
      encs := [];
    } else {
      EncodedInert(items[0]);
      var rest := ItemsInert(items[1..]);
      encs := [Encode(items[0]).value] + rest;
    }
  }

  lemma {:induction false} PairsInert(pairs: seq<Pair>) returns (encs: seq<string>)
    requires forall i | 0 <= i < |pairs| :: CleanPair(pairs[i])
    ensures EncodePairs(pairs) == Ok(encs)
    ensures forall i :: 0 <= i < |encs| ==> Inert(encs[i])
    decreases pairs, 1
  {
    if pairs == [] {
      encs := [];
    } else {
      var first := PairInert(pairs[0]);
      var rest := PairsInert(pairs[1..]);
      encs := [first] + rest;
    }
  }

  /** A named pair's encoding: the quoted name, a colon and the value. */
  lemma {:induction false} PairInert(p: Pair) returns (e: string)
    requires CleanPair(p)
    ensures EncodePair(p) == Ok(e) && Inert(e)
    decreases p, 1
  {
    EncodedInert(p.value.value);
    QuoteInert(p.name.value);
    Word(":");
    InertAppend(Quote(p.name.value), ":");
    InertAppend(Quote(p.name.value) + ":", Encode(p.value.value).value);
    e := Quote(p.name.value) + ":" + Encode(p.value.value).value;
  }

  // ---------------------------------------------------------------------
  // Consequences

  /** `Minify` gives a clean value's encoding back unchanged, which is
      what the encoding examples compare against. */
  lemma MinifyEncoded(v: Value)
    requires Clean(v)
    ensures Encode(v).Ok? && Minify(Encode(v).value) == Encode(v).value
  {
    EncodedInert(v);
    assert InertAt(Encode(v).value, Walk(None, false, 0, 0));
  }

  /** An inert body after its opening bracket leaves the scan of that
      bracket kind where it found it. */
  lemma BodyBalanced(open: char, body: string, close: char)
    requires (open, close) == ('{', '}') || (open, close) == ('[', ']')
    requires Inert(body)
    ensures EndIn(body, Some(open), Start, open, close) == None
    ensures ScanAfter(body, Some(open), Start, open, close) == Start
  {
    var w := Walk(Some(open), false, 0, 0);
    assert InertAt(body, w);
    assert Passes(body, w, w.(prev := LastOf(body, Some(open))));
  }

  /** A closing bracket at the top level outside strings ends the scan. */
  lemma CloseHits(q: Option<char>, open: char, close: char, rest: string)
    requires (open, close) == ('{', '}') || (open, close) == ('[', ']')
    ensures EndIn([close] + rest, q, Start, open, close) == Some(0)
  {
    var t := [close] + rest;
    assert t[0] == close;
  }

  /** The scan from just after an opening bracket stops at the bracket
      that closes an inert body, whatever follows. */
  lemma ScanToClose(open: char, body: string, close: char, rest: string, t: string)
    requires (open, close) == ('{', '}') || (open, close) == ('[', ']')
    requires Inert(body) && t == body + ([close] + rest)
    ensures EndIn(t, Some(open), Start, open, close) == Some(|body|)
  {
    BodyBalanced(open, body, close);
    ScanAppend(body, [close] + rest, Some(open), Start, open, close);
    CloseHits(LastOf(body, Some(open)), open, close, rest);
  }

  /** The framing from 0, once both brackets are known. */
  lemma FrameAt(json: string, o: nat, e: nat, open: char, close: char)
    requires o < |json| && Text.FindChar(json, open, 0) == Some(o)
    requires FindEnd(json, o + 1, open, close) == Some(e)
    ensures Frame(json, 0, open, close) == Ok((o, e))
  {
  }

  /** The framing finds the first opening bracket after text without
      one, and the bracket the scan after it stops at. */
  lemma Framed(pre: string, open: char, t: string, close: char, n: nat)
    requires open !in pre && EndIn(t, Some(open), Start, open, close) == Some(n)
    ensures Frame(pre + [open] + t, 0, open, close) == Ok((|pre|, |pre| + 1 + n))
  {
    var json := pre + [open] + t;
    var o := |pre|;
    assert json == [] + pre + [open] + t;
    Text.FindCharAfter([], pre, open, t);
    assert json[o] == open;
    assert json[o + 1..] == t;
    FrameAt(json, o, o + 1 + n, open, close);
  }

  /** `JSONObject.Decode` once the frame is known. */
  lemma ObjectAt(content: seq<Pair>, json: string, o: nat, end: nat, read: JsonScalar.ValueReader)
    requires Forward(read) && Frame(json, 0, '{', '}') == Ok((o, end))
    ensures DecodeObject(content, json, 0, read)
            == Added(content, DecodePairs(json[o .. end + 1], 0, read), end + 1)
  {
  }

  /** The same, with the framed text named. */
  lemma ObjectAtText(content: seq<Pair>, json: string, o: nat, end: nat, e: string, read: JsonScalar.ValueReader)
    requires Forward(read) && Frame(json, 0, '{', '}') == Ok((o, end)) && json[o .. end + 1] == e
    ensures DecodeObject(content, json, 0, read) == Added(content, DecodePairs(e, 0, read), end + 1)
  {
    ObjectAt(content, json, o, end, read);
  }

  /** `JSONArray.Decode` once the frame is known. */
  lemma ArrayAt(content: seq<Value>, json: string, o: nat, end: nat, body: string, read: ItemsReader)
    requires Frame(json, 0, '[', ']') == Ok((o, end)) && json[o + 1 .. end] == body
    ensures DecodeArray(content, json, 0, read) == Added(content, read(body), end + 1)
  {
  }

  /** The text around a bracketed body, grouped as the framing reads it. */
  lemma Regroup(pre: string, open: char, body: string, close: char, rest: string)
    ensures var json := pre + ([open] + body + [close]) + rest;
            json == pre + [open] + (body + ([close] + rest))
            && json[|pre| .. |pre| + |body| + 2] == [open] + body + [close]
            && json[|pre| + 1 .. |pre| + 1 + |body|] == body
  {
    var json := pre + ([open] + body + [close]) + rest;
    assert json[|pre| .. |pre| + |body| + 2] == [open] + body + [close];
  }

  /** The framing of a bracketed body after text without its opening
      bracket, when the scan stops at the body's closing bracket. */
  lemma FramedBody(pre: string, open: char, e: string, body: string, close: char, rest: string, t: string)
    requires open !in pre && e == [open] + body + [close] && t == body + ([close] + rest)
    requires EndIn(t, Some(open), Start, open, close) == Some(|body|)
    ensures var json := pre + e + rest;
            Frame(json, 0, open, close) == Ok((|pre|, |pre| + |e| - 1))
            && json[|pre| .. |pre| + |e|] == e && json[|pre| + 1 .. |pre| + |e| - 1] == body
  {
    Regroup(pre, open, body, close, rest);
    Framed(pre, open, t, close, |body|);
  }

  /** `JSONArray.Decode` of a framed body, after text without a square
      bracket: the element loop reads the body between the brackets. */
  lemma ArrayIn(content: seq<Value>, pre: string, e: string, body: string, rest: string, t: string, read: ItemsReader)
    requires '[' !in pre && e == ['['] + body + [']'] && t == body + ([']'] + rest)
    requires EndIn(t, Some('['), Start, '[', ']') == Some(|body|)
    ensures DecodeArray(content, pre + e + rest, 0, read) == Added(content, read(body), |pre| + |e|)
  {
    FramedBody(pre, '[', e, body, ']', rest, t);
    ArrayAt(content, pre + e + rest, |pre|, |pre| + |e| - 1, body, read);
  }

  /** A clean object's encoding is its pair encodings, joined and inert,
      between braces. */
  lemma ObjectShape(pairs: seq<Pair>) returns (body: string)
    requires Clean(Object(pairs))
    ensures Encode(Object(pairs)) == Ok(['{'] + body + ['}']) && Inert(body)
  {
    var encs := PairsInert(pairs);
    JoinInert(encs);
    BracketedJoin('{', encs, '}');
    body := Join(encs);
  }

  /** A clean array's encoding is its item encodings, joined and inert,
      between square brackets. */
  lemma ArrayShape(items: seq<Value>) returns (body: string)
    requires Clean(Array(items))
    ensures EncodeItems(items).Ok? && body == Join(EncodeItems(items).value)
    ensures Encode(Array(items)) == Ok(['['] + body + [']']) && Inert(body)
  {
    var encs := ItemsInert(items);
    JoinInert(encs);
    BracketedJoin('[', encs, ']');
    body := Join(encs);
  }

  /** The scan from the opening brace of a clean object's encoding
      stops at its closing brace, whatever follows. */
  lemma ObjectClosed(pairs: seq<Pair>, rest: string) returns (body: string, t: string)
    requires Clean(Object(pairs))
    ensures Encode(Object(pairs)) == Ok(['{'] + body + ['}']) && t == body + (['}'] + rest)
    ensures EndIn(t, Some('{'), Start, '{', '}') == Some(|body|)
  {
    body := ObjectShape(pairs);
    t := body + (['}'] + rest);
    ScanToClose('{', body, '}', rest, t);
  }

  /** A clean object's encoding after text without a brace is framed
      exactly. */
  lemma ObjectFramed(pairs: seq<Pair>, pre: string, e: string, rest: string)
    requires Clean(Object(pairs)) && Encode(Object(pairs)) == Ok(e) && '{' !in pre
    ensures var json := pre + e + rest;
            Frame(json, 0, '{', '}') == Ok((|pre|, |pre| + |e| - 1)) && json[|pre| .. |pre| + |e|] == e
  {
    var body, t := ObjectClosed(pairs, rest);
    FramedBody(pre, '{', e, body, '}', rest, t);
  }

  /** The scan from the opening bracket of a clean array's encoding stops
      at its closing bracket, whatever follows. */
  lemma ArrayClosed(items: seq<Value>, rest: string) returns (body: string, t: string)
    requires Clean(Array(items))
    ensures EncodeItems(items).Ok? && body == Join(EncodeItems(items).value)
    ensures Encode(Array(items)) == Ok(['['] + body + [']']) && t == body + ([']'] + rest)
    ensures EndIn(t, Some('['), Start, '[', ']') == Some(|body|)
  {
    body := ArrayShape(items);
    t := body + ([']'] + rest);
    ScanToClose('[', body, ']', rest, t);
  }

  /** A clean object's encoding at the start of a text is framed
      exactly, whatever follows it. */
  lemma ObjectFramedAtStart(pairs: seq<Pair>, e: string, rest: string)
    requires Clean(Object(pairs)) && Encode(Object(pairs)) == Ok(e)
    ensures Frame(e + rest, 0, '{', '}') == Ok((0, |e| - 1)) && (e + rest)[0 .. |e|] == e
  {
    ObjectFramed(pairs, [], e, rest);
    assert [] + e + rest == e + rest;
  }

  /** `JSONObject.Decode` of an encoded object at the start of a text:
      the pair loop runs over exactly the encoding, and the result is the
      index just past it. */
  lemma ObjectFraming(content: seq<Pair>, pairs: seq<Pair>, e: string, rest: string, read: JsonScalar.ValueReader)
    requires Forward(read) && Clean(Object(pairs)) && Encode(Object(pairs)) == Ok(e)
    ensures DecodeObject(content, e + rest, 0, read) == Added(content, DecodePairs(e, 0, read), |e|)
  {
    ObjectFramedAtStart(pairs, e, rest);
    ObjectAtText(content, e + rest, 0, |e| - 1, e, read);
  }

  /** `JSONArray.Decode` of an encoded array, after text without a square
      bracket: the element loop reads exactly the items' encodings joined
      by commas, and the result is the index just past the encoding. */
  lemma ArrayFraming(content: seq<Value>, pre: string, items: seq<Value>, e: string, rest: string, read: ItemsReader)
    requires Clean(Array(items)) && Encode(Array(items)) == Ok(e) && '[' !in pre
    ensures EncodeItems(items).Ok?
    ensures DecodeArray(content, pre + e + rest, 0, read)
            == Added(content, read(Join(EncodeItems(items).value)), |pre| + |e|)
  {
    var body, t := ArrayClosed(items, rest);
    ArrayIn(content, pre, e, body, rest, t, read);
  }

  /** The kind `GetDatatype` gives each value. */
  function KindOf(v: Value): Kind
  {
    match v
    case Null => NullKind
    case Bool(_) => BoolKind
    case Str(_) => StringKind
    case Number(_) => NumberKind
    case Array(_) => ArrayKind
    case Object(_) => ObjectKind
  }

  /** `GetDatatype` finds an encoded value after blanks, where it starts,
      and classifies it as the value it encodes. */
  lemma EncodedKind(w: string, v: Value, rest: string)
    requires forall k :: 0 <= k < |w| ==> Blank(w[k])
    requires Clean(v)
    ensures Encode(v).Ok? && GetDatatype(w + Encode(v).value + rest, 0) == Ok(Some((KindOf(v), |w|)))
  {
    CleanEncodes(v);
    var e := Encode(v).value;
    var json := w + e + rest;
    assert json == w + (e + rest);
    forall j: nat | j < |w|
      ensures Classify(json, j) == Ok(None)
    {
      SkipsBlank(w, e + rest, j);
    }
    match v {
      case Array(items) =>
        CleanItemsEncode(items);
        BracketedJoin('[', EncodeItems(items).value, ']');
      case Object(pairs) =>
        CleanPairsEncode(pairs);
        BracketedJoin('{', EncodePairs(pairs).value, '}');
      case _ =>
    }
    assert e != [] && json[|w|] == e[0];
    if v.Bool? || v.Null? {
      assert json[|w| .. |w| + |e|] == e;
    }
    FirstValue(json, 0, |w|, KindOf(v));
  }
}

=== FILE: json_examples.dfy ===
/** The two container encodings the repository's JSON examples expect
    (Tests/JsonTests.cs): an array and an object nesting an array, an
    object, a string, a number, null and false, minified after encoding.
    The number 5 is its text "5". */
module JsonExamples {
  import opened Common
  import opened JsonValue
  import opened JsonFunctions
  import JsonEncoded

  /** `{"aa":false}` */
  const Inner: Value := Object([Pair(Some("aa"), Some(Bool(false)))])

  /** `[5,{"aa":false}]` */
  const InnerArray: Value := Array([Number("5"), Inner])

  /** The array of the array example. */
  const Outer: Value := Array([Str("aaa"), Number("5"), Null, InnerArray])

  /** The object of the object example. */
  const Obj: Value := Object([Pair(Some("a"), Some(Str("aaa"))), Pair(Some("b"), Some(Number("5"))),
                              Pair(Some("c"), Some(Null)), Pair(Some("x"), Some(InnerArray))])

  /** A container's encoding is its encodings joined between brackets. */
  lemma ArrayJoined(items: seq<Value>, encs: seq<string>)
    requires EncodeItems(items) == Ok(encs)
    ensures Encode(Array(items)) == Ok("[" + Join(encs) + "]")
  {
    BracketedJoin('[', encs, ']');
  }

  lemma ObjectJoined(pairs: seq<Pair>, encs: seq<string>)
    requires EncodePairs(pairs) == Ok(encs)
    ensures Encode(Object(pairs)) == Ok("{" + Join(encs) + "}")
  {
    BracketedJoin('{', encs, '}');
  }

  /** A named pair encodes to the quoted name, a colon and the value. */
  lemma PairText(n: string, v: Value, e: string)
    requires Encode(v) == Ok(e)
    ensures EncodePair(Pair(Some(n), Some(v))) == Ok(Quote(n) + ":" + e)
  {
  }

  /** One encoding, then the rest. */
  lemma ItemsStep(items: seq<Value>, e: string, es: seq<string>)
    requires items != [] && Encode(items[0]) == Ok(e) && EncodeItems(items[1..]) == Ok(es)
    ensures EncodeItems(items) == Ok([e] + es)
  {
  }

  lemma PairsStep(pairs: seq<Pair>, e: string, es: seq<string>)
    requires pairs != [] && EncodePair(pairs[0]) == Ok(e) && EncodePairs(pairs[1..]) == Ok(es)
    ensures EncodePairs(pairs) == Ok([e] + es)
  {
  }

  /** Joining two and four encodings. */
  lemma Join2(a: string, b: string)
    ensures Join([a, b]) == a + "," + b
  {
    assert [a, b][1..] == [b];
  }

  lemma Join4(a: string, b: string, c: string, d: string)
    ensures Join([a, b, c, d]) == a + "," + b + "," + c + "," + d
  {
    assert [a, b, c, d][1..] == [b, c, d];
    assert [b, c, d][1..] == [c, d];
    Join2(c, d);
  }

  /** The scalars of the examples. */
  lemma Scalars()
    ensures Encode(Number("5")) == Ok("5") && Encode(Null) == Ok("null")
    ensures Encode(Str("aaa")) == Ok("\"aaa\"") && Encode(Bool(false)) == Ok("false")
  {
    assert Quote("aaa") == "\"aaa\"";
  }

  lemma InnerEncoding()
    ensures Encode(Inner) == Ok("{\"aa\":false}")
  {
    hide Encode;
    Scalars();
    var e := "\"aa\":false";
    PairText("aa", Bool(false), "false");
    assert Quote("aa") + ":" + "false" == e;
    PairsStep(Inner.pairs, e, []);
    assert [e] + [] == [e];
    ObjectJoined(Inner.pairs, [e]);
    assert "{" + Join([e]) + "}" == "{\"aa\":false}";
  }

  lemma InnerArrayEncoding()
    ensures Encode(InnerArray) == Ok("[5,{\"aa\":false}]")
  {
    hide Encode;
    InnerEncoding();
    Scalars();
    var e0, e1 := "5", "{\"aa\":false}";
    var items := InnerArray.items;
    ItemsStep(items[1..], e1, []);
    assert [e1] + [] == [e1];
    ItemsStep(items, e0, [e1]);
    assert [e0] + [e1] == [e0, e1];
    ArrayJoined(items, [e0, e1]);
    Join2(e0, e1);
    assert "[" + (e0 + "," + e1) + "]" == "[5,{\"aa\":false}]";
  }

  lemma OuterText()
    ensures "[" + ("\"aaa\"" + "," + "5" + "," + "null" + "," + "[5,{\"aa\":false}]") + "]"
            == "[\"aaa\",5,null,[5,{\"aa\":false}]]"
  {
  }

  lemma OuterEncoding()
    ensures Encode(Outer) == Ok("[\"aaa\",5,null,[5,{\"aa\":false}]]")
  {
    hide Encode;
    InnerArrayEncoding();
    Scalars();
    var e0, e1, e2, e3 := "\"aaa\"", "5", "null", "[5,{\"aa\":false}]";
    var items := Outer.items;
    ItemsStep(items[1..][1..][1..], e3, []);
    ItemsStep(items[1..][1..], e2, [e3] + []);
    ItemsStep(items[1..], e1, [e2] + ([e3] + []));
    ItemsStep(items, e0, [e1] + ([e2] + ([e3] + [])));
    assert [e0] + ([e1] + ([e2] + ([e3] + []))) == [e0, e1, e2, e3];
    ArrayJoined(items, [e0, e1, e2, e3]);
    Join4(e0, e1, e2, e3);
    OuterText();
  }

  lemma ObjLeft()
    ensures "{" + "\"a\":\"aaa\"" + "," + "\"b\":5" == "{\"a\":\"aaa\",\"b\":5"
  {
  }

  lemma ObjRight()
    ensures "," + "\"c\":null" + "," + "\"x\":[5,{\"aa\":false}]" + "}" == ",\"c\":null,\"x\":[5,{\"aa\":false}]}"
  {
  }

  lemma ObjWhole()
    ensures "{\"a\":\"aaa\",\"b\":5" + ",\"c\":null,\"x\":[5,{\"aa\":false}]}"
            == "{\"a\":\"aaa\",\"b\":5,\"c\":null,\"x\":[5,{\"aa\":false}]}"
  {
  }

  /** Regrouping a bracketed join of four. */
  lemma Regroup4(o: string, a: string, b: string, c: string, d: string, cl: string)
    ensures o + (a + "," + b + "," + c + "," + d) + cl == (o + a + "," + b) + ("," + c + "," + d + cl)
  {
  }

  lemma ObjText()
    ensures "{" + ("\"a\":\"aaa\"" + "," + "\"b\":5" + "," + "\"c\":null" + "," + "\"x\":[5,{\"aa\":false}]") + "}"
            == "{\"a\":\"aaa\",\"b\":5,\"c\":null,\"x\":[5,{\"aa\":false}]}"
  {
    Regroup4("{", "\"a\":\"aaa\"", "\"b\":5", "\"c\":null", "\"x\":[5,{\"aa\":false}]", "}");
    ObjLeft();
    ObjRight();
    ObjWhole();
  }

  lemma ObjEncoding()
    ensures Encode(Obj) == Ok("{\"a\":\"aaa\",\"b\":5,\"c\":null,\"x\":[5,{\"aa\":false}]}")
  {
    hide Encode;
    InnerArrayEncoding();
    Scalars();
    var e0, e1, e2, e3 := "\"a\":\"aaa\"", "\"b\":5", "\"c\":null", "\"x\":[5,{\"aa\":false}]";
    PairText("a", Str("aaa"), "\"aaa\"");
    PairText("b", Number("5"), "5");
    PairText("c", Null, "null");
    PairText("x", InnerArray, "[5,{\"aa\":false}]");
    assert Quote("a") + ":" + "\"aaa\"" == e0;
    assert Quote("b") + ":" + "5" == e1;
    assert Quote("c") + ":" + "null" == e2;
    assert Quote("x") + ":" + "[5,{\"aa\":false}]" == e3;
    var pairs := Obj.pairs;
    PairsStep(pairs[1..][1..][1..], e3, []);
    PairsStep(pairs[1..][1..], e2, [e3] + []);
    PairsStep(pairs[1..], e1, [e2] + ([e3] + []));
    PairsStep(pairs, e0, [e1] + ([e2] + ([e3] + [])));
    assert [e0] + ([e1] + ([e2] + ([e3] + []))) == [e0, e1, e2, e3];
    ObjectJoined(pairs, [e0, e1, e2, e3]);
    Join4(e0, e1, e2, e3);
    ObjText();
  }

  /** Every string of the examples is clean and every number a number's
      text. */
  lemma ExamplesClean()
    ensures Clean(Outer) && Clean(Obj)
  {
    assert Clean(Inner);
    assert Clean(Number("5"));
    assert Clean(InnerArray);
  }

  /** `SerializeArray`: the minified encoding of the array. */
  lemma SerializeArray()
    ensures Encode(Outer).Ok? && Minify(Encode(Outer).value) == "[\"aaa\",5,null,[5,{\"aa\":false}]]"
  {
    hide Encode, Minify, Clean;
    ExamplesClean();
    OuterEncoding();
    JsonEncoded.MinifyEncoded(Outer);
  }

  /** `SerializeObject`: the minified encoding of the object. */
  lemma SerializeObject()
    ensures Encode(Obj).Ok?
            && Minify(Encode(Obj).value) == "{\"a\":\"aaa\",\"b\":5,\"c\":null,\"x\":[5,{\"aa\":false}]}"
  {
    hide Encode, Minify, Clean;
    ExamplesClean();
    ObjEncoding();
    JsonEncoded.MinifyEncoded(Obj);
  }
}

=== FILE: json_functions.dfy ===
/** `JSONFunctions` (JSON/JSONFunctions.cs): `Minify`, `Beautify` and
    `GetDatatype`. The two text passes walk the text once, tracking whether
    they are inside a string: a `"` toggles that state unless the
    character before it is `\`, and the first character has none before
    it. Here a pass runs over a piece of text with the character before it
    (`None` at the very start) and the string state so far, which is what
    the source's index loop holds at each step. `Environment.NewLine` is
    the parameter `nl`. */
module JsonFunctions {
  import opened Common
  import XmlBase

  /** The string state after looking at `c`, with `prev` before it. */
  function Toggle(prev: Option<char>, c: char, inString: bool): bool
  {
    if c == '"' && prev != Some('\\') then !inString else inString
  }

  /** The string state after a whole piece of text. */
  function StateAfter(s: string, prev: Option<char>, inString: bool): bool
  {
    if s == [] then inString else StateAfter(s[1..], Some(s[0]), Toggle(prev, s[0], inString))
  }

  /** The character before whatever follows `s`. */
  function LastOf(s: string, prev: Option<char>): Option<char>
  {
    if s == [] then prev else Some(s[|s| - 1])
  }

  /** The characters `Minify` drops outside strings. */
  predicate Blank(c: char)
  {
    c == ' ' || c == '\n' || c == '\r' || c == '\t'
  }

  /** `Minify` from some point on: a character is kept when the state
      after it is inside a string or when it is not blank. */
  function MinifyFrom(s: string, prev: Option<char>, inString: bool): string
  {
    if s == [] then []
    else
      var st := Toggle(prev, s[0], inString);
      Kept(s[0], st) + MinifyFrom(s[1..], Some(s[0]), st)
  }

  /** What `Minify` writes for `c` when the state after it is `st`. */
  function Kept(c: char, st: bool): string
  {
    if st || !Blank(c) then [c] else []
  }

  function Minify(json: string): string
  {
    MinifyFrom(json, None, false)
  }

  /** `MultiplyString("\t", depth)`: nothing for a depth of zero or less. */
  function Tabs(depth: int): string
  {
    if depth <= 0 then [] else XmlBase.Repeat("\t", depth)
  }

  /** `Beautify` from some point on, at bracket depth `depth`. Outside
      strings an opening bracket is followed by a line break and one more
      tab, a closing bracket is preceded by a line break and one tab less,
      a comma is followed by a line break and the tabs, and a colon gets a
      space after it; everything else is copied. */
  function BeautifyFrom(s: string, prev: Option<char>, inString: bool, depth: int, nl: string): string
  {
    if s == [] then []
    else
      var c := s[0];
      var st := Toggle(prev, c, inString);
      var rest := s[1..];
      if st then [c] + BeautifyFrom(rest, Some(c), st, depth, nl)
      else if c == '{' || c == '[' then [c] + nl + Tabs(depth + 1) + BeautifyFrom(rest, Some(c), st, depth + 1, nl)
      else if c == '}' || c == ']' then nl + Tabs(depth - 1) + [c] + BeautifyFrom(rest, Some(c), st, depth - 1, nl)
      else if c == ',' then [c] + nl + Tabs(depth) + BeautifyFrom(rest, Some(c), st, depth, nl)
      else if c == ':' then ": " + BeautifyFrom(rest, Some(c), st, depth, nl)
      else [c] + BeautifyFrom(rest, Some(c), st, depth, nl)
  }

  function Beautify(json: string, nl: string): string
  {
    BeautifyFrom(json, None, false, 0, nl)
  }

  // ---------------------------------------------------------------------
  // Minify over joined text

  /** Minifying two pieces one after the other is minifying their join. */
  lemma {:induction false} MinifyAppend(a: string, b: string, prev: Option<char>, inString: bool)
    ensures MinifyFrom(a + b, prev, inString)
            == MinifyFrom(a, prev, inString) + MinifyFrom(b, LastOf(a, prev), StateAfter(a, prev, inString))
  {
    if a != [] {
      var c, a' := a[0], a[1..];
      var st := Toggle(prev, c, inString);
      var head := Kept(c, st);
      assert a == [c] + a';
      assert a + b == [c] + (a' + b);
      assert LastOf(a', Some(c)) == LastOf(a, prev);
      hide MinifyFrom, StateAfter, LastOf, Kept, Toggle;
      KeepOrDrop(c, a' + b, prev, inString);
      KeepOrDrop(c, a', prev, inString);
      StateCons(c, a', prev, inString);
      MinifyAppend(a', b, Some(c), st);
      var ma := MinifyFrom(a', Some(c), st);
      var mb := MinifyFrom(b, LastOf(a, prev), StateAfter(a, prev, inString));
      assert head + (ma + mb) == head + ma + mb;
    } else {
      assert a + b == b;
    }
  }

  /** The first step of the string state. */
  lemma StateCons(c: char, rest: string, p: Option<char>, inString: bool)
    ensures StateAfter([c] + rest, p, inString) == StateAfter(rest, Some(c), Toggle(p, c, inString))
  {
    assert ([c] + rest)[0] == c && ([c] + rest)[1..] == rest;
  }

  /** The same for the string state. */
  lemma {:induction false} StateAppend(a: string, b: string, prev: Option<char>, inString: bool)
    ensures StateAfter(a + b, prev, inString) == StateAfter(b, LastOf(a, prev), StateAfter(a, prev, inString))
  {
    if a != [] {
      assert (a + b)[0] == a[0] && (a + b)[1..] == a[1..] + b;
      StateAppend(a[1..], b, Some(a[0]), Toggle(prev, a[0], inString));
      assert LastOf(a[1..], Some(a[0])) == LastOf(a, prev);
    } else {
      assert a + b == b;
    }
  }

  /** Only whether the previous character is a backslash matters. */
  lemma SamePrev(s: string, p: Option<char>, q: Option<char>, inString: bool)
    requires (p == Some('\\')) == (q == Some('\\'))
    ensures MinifyFrom(s, p, inString) == MinifyFrom(s, q, inString)
    ensures StateAfter(s, p, inString) == StateAfter(s, q, inString)
  {
  }

  /** Blanks outside strings vanish and leave the state outside. */
  lemma {:induction false} BlankRun(w: string, prev: Option<char>)
    requires forall k :: 0 <= k < |w| ==> Blank(w[k])
    ensures MinifyFrom(w, prev, false) == [] && !StateAfter(w, prev, false)
    ensures LastOf(w, prev) == prev || (LastOf(w, prev).Some? && Blank(LastOf(w, prev).value))
  {
    if w != [] {
      BlankRun(w[1..], Some(w[0]));
    }
  }

  /** Tabs are blank. */
  lemma TabsBlank(depth: int)
    ensures forall k :: 0 <= k < |Tabs(depth)| ==> Tabs(depth)[k] == '\t'
  {
    if depth > 0 {
      RepeatTabs(depth);
    }
  }

  lemma {:induction false} RepeatTabs(n: nat)
    ensures forall k :: 0 <= k < |XmlBase.Repeat("\t", n)| ==> XmlBase.Repeat("\t", n)[k] == '\t'
  {
    if n > 0 {
      RepeatTabs(n - 1);
    }
  }

  /** A line break followed by tabs is blank when the line break is. */
  lemma BreakBlank(nl: string, depth: int)
    requires forall k :: 0 <= k < |nl| ==> Blank(nl[k])
    ensures forall k :: 0 <= k < |nl + Tabs(depth)| ==> Blank((nl + Tabs(depth))[k])
  {
    TabsBlank(depth);
  }

  /** Blank text before the rest minifies to the rest, seen after
      something that is not a backslash. */
  lemma SkipBlank(w: string, t: string, prev: Option<char>)
    requires forall k :: 0 <= k < |w| ==> Blank(w[k])
    ensures MinifyFrom(w + t, prev, false) == MinifyFrom(t, LastOf(w, prev), false)
    ensures prev != Some('\\') ==> LastOf(w, prev) != Some('\\')
  {
    MinifyAppend(w, t, prev, false);
    BlankRun(w, prev);
    assert MinifyFrom(w, prev, false) + MinifyFrom(t, LastOf(w, prev), false) == MinifyFrom(t, LastOf(w, prev), false);
  }

  /** One kept character, then the rest. */
  lemma KeepFirst(c: char, t: string, prev: Option<char>, inString: bool)
    requires Toggle(prev, c, inString) || !Blank(c)
    ensures MinifyFrom([c] + t, prev, inString) == [c] + MinifyFrom(t, Some(c), Toggle(prev, c, inString))
  {
    assert ([c] + t)[0] == c && ([c] + t)[1..] == t;
  }

  // ---------------------------------------------------------------------
  // Beautify adds only blanks outside strings

  /** After an opening bracket or comma: the line break and tabs vanish. */
  lemma BreakAfter(c: char, nl: string, depth: int, t: string, q: Option<char>) returns (q': Option<char>)
    requires c != '"' && c != '\\' && !Blank(c)
    requires forall k :: 0 <= k < |nl| ==> Blank(nl[k])
    ensures q' != Some('\\') && MinifyFrom([c] + nl + Tabs(depth) + t, q, false) == [c] + MinifyFrom(t, q', false)
  {
    var w := nl + Tabs(depth);
    BreakBlank(nl, depth);
    assert [c] + nl + Tabs(depth) + t == [c] + (w + t);
    KeepFirst(c, w + t, q, false);
    SkipBlank(w, t, Some(c));
    q' := LastOf(w, Some(c));
  }

  /** Before a closing bracket: the line break and tabs vanish. */
  lemma BreakBefore(c: char, nl: string, depth: int, t: string, q: Option<char>)
    requires c != '"' && c != '\\' && !Blank(c)
    requires forall k :: 0 <= k < |nl| ==> Blank(nl[k])
    ensures MinifyFrom(nl + Tabs(depth) + [c] + t, q, false) == [c] + MinifyFrom(t, Some(c), false)
  {
    var w := nl + Tabs(depth);
    BreakBlank(nl, depth);
    assert nl + Tabs(depth) + [c] + t == w + ([c] + t);
    SkipBlank(w, [c] + t, q);
    KeepFirst(c, t, LastOf(w, q), false);
  }

  /** After a colon: the space vanishes. */
  lemma SpaceAfterColon(t: string, q: Option<char>)
    ensures MinifyFrom(": " + t, q, false) == ":" + MinifyFrom(t, Some(' '), false)
  {
    assert ": " + t == [':'] + ([' '] + t);
    KeepFirst(':', [' '] + t, q, false);
    assert ([' '] + t)[0] == ' ' && ([' '] + t)[1..] == t;
  }

  /** Minifying the beautified text gives the minified original, for a
      line break made of blanks: `Beautify` adds blanks outside strings
      only, and never puts a backslash before a quote. */
  lemma {:induction false} MinifyBeautifyFrom(s: string, p: Option<char>, q: Option<char>, inString: bool,
                                              depth: int, nl: string)
    requires (p == Some('\\')) == (q == Some('\\'))
    requires forall k :: 0 <= k < |nl| ==> Blank(nl[k])
    ensures MinifyFrom(BeautifyFrom(s, p, inString, depth, nl), q, inString) == MinifyFrom(s, p, inString)
  {
    if s != [] {
      var c, rest := s[0], s[1..];
      var st := Toggle(p, c, inString);
      assert Toggle(q, c, inString) == st;
      assert s == [c] + rest;
      KeepOrDrop(c, rest, p, inString);
      if st {
        MinifyBeautifyFrom(rest, Some(c), Some(c), st, depth, nl);
        KeepFirst(c, BeautifyFrom(rest, Some(c), st, depth, nl), q, inString);
      } else if c == '{' || c == '[' {
        assert !inString;
        var t := BeautifyFrom(rest, Some(c), st, depth + 1, nl);
        var q' := BreakAfter(c, nl, depth + 1, t, q);
        MinifyBeautifyFrom(rest, Some(c), q', st, depth + 1, nl);
      } else if c == '}' || c == ']' {
        assert !inString;
        var t := BeautifyFrom(rest, Some(c), st, depth - 1, nl);
        BreakBefore(c, nl, depth - 1, t, q);
        MinifyBeautifyFrom(rest, Some(c), Some(c), st, depth - 1, nl);
      } else if c == ',' {
        assert !inString;
        var t := BeautifyFrom(rest, Some(c), st, depth, nl);
        var q' := BreakAfter(c, nl, depth, t, q);
        MinifyBeautifyFrom(rest, Some(c), q', st, depth, nl);
      } else if c == ':' {
        assert !inString;
        var t := BeautifyFrom(rest, Some(c), st, depth, nl);
        SpaceAfterColon(t, q);
        MinifyBeautifyFrom(rest, Some(c), Some(' '), st, depth, nl);
      } else {
        var t := BeautifyFrom(rest, Some(c), st, depth, nl);
        SameFirst(c, t, rest, p, q, inString);
        MinifyBeautifyFrom(rest, Some(c), Some(c), st, depth, nl);
      }
    }
  }

  /** The first step of `Minify` on the original. */
  lemma KeepOrDrop(c: char, rest: string, p: Option<char>, inString: bool)
    ensures var st := Toggle(p, c, inString);
            MinifyFrom([c] + rest, p, inString)
            == Kept(c, st) + MinifyFrom(rest, Some(c), st)
  {
    assert ([c] + rest)[0] == c && ([c] + rest)[1..] == rest;
  }

  /** A copied character is kept or dropped alike on both sides. */
  lemma SameFirst(c: char, t: string, rest: string, p: Option<char>, q: Option<char>, inString: bool)
    requires (p == Some('\\')) == (q == Some('\\'))
    ensures var st := Toggle(p, c, inString);
            MinifyFrom([c] + t, q, inString) == Kept(c, st) + MinifyFrom(t, Some(c), st)
  {
    assert ([c] + t)[0] == c && ([c] + t)[1..] == t;
  }

  /** Minifying a beautified text gives the minified original. */
  lemma MinifyBeautify(json: string, nl: string)
    requires forall k :: 0 <= k < |nl| ==> Blank(nl[k])
    ensures Minify(Beautify(json, nl)) == Minify(json)
  {
    MinifyBeautifyFrom(json, None, None, false, 0, nl);
  }

  // ---------------------------------------------------------------------
  // GetDatatype

  datatype Kind = StringKind | ObjectKind | ArrayKind | BoolKind | NullKind | NumberKind

  /** One turn of the `GetDatatype` loop at `i`: the kind starting there,
      or none. `Substring` past the end of the text throws, so a `t`, `f`
      or `n` too near the end fails. */
  function Classify(json: string, i: nat): Result<Option<Kind>>
    requires i < |json|
  {
    var c := json[i];
    if c == '"' then Ok(Some(StringKind))
    else if c == '{' then Ok(Some(ObjectKind))
    else if c == '[' then Ok(Some(ArrayKind))
    else if c == 't' then
      if i + 4 > |json| then Fail(ArgumentOutOfRange)
      else Ok(if json[i .. i + 4] == "true" then Some(BoolKind) else None)
    else if c == 'f' then
      if i + 5 > |json| then Fail(ArgumentOutOfRange)
      else Ok(if json[i .. i + 5] == "false" then Some(BoolKind) else None)
    else if c == 'n' then
      if i + 4 > |json| then Fail(ArgumentOutOfRange)
      else Ok(if json[i .. i + 4] == "null" then Some(NullKind) else None)
    else if '0' <= c <= '9' || c == '+' || c == '-' then Ok(Some(NumberKind))
    else Ok(None)
  }

  /** `GetDatatype`: the kind of the first value at or after `start` and
      where it starts (`dataStartIndex`), `None` (null and -1) when no
      value starts there. A negative start indexes before the text. */
  function GetDatatype(json: string, start: int): (r: Result<Option<(Kind, nat)>>)
    decreases |json| - start
    ensures r.Ok? && r.value.Some? ==>
              var (k, i) := r.value.value;
              start <= i < |json| && Classify(json, i) == Ok(Some(k))
              && forall j: nat :: start <= j < i ==> Classify(json, j) == Ok(None)
    ensures r == Ok(None) ==> forall j: nat :: start <= j < |json| ==> Classify(json, j) == Ok(None)
    ensures r.Fail? ==> (start < 0 && r.error == IndexOutOfRange)
                        || (r.error == ArgumentOutOfRange
                            && exists i: nat :: start <= i < |json| && Classify(json, i).Fail?
                                           && forall j: nat :: start <= j < i ==> Classify(json, j) == Ok(None))
  {
    if start >= |json| then Ok(None)
    else if start < 0 then Fail(IndexOutOfRange)
    else
      match Classify(json, start)
      case Fail(e) => Fail(e)
      case Ok(Some(k)) => Ok(Some((k, start)))
      case Ok(None) => GetDatatype(json, start + 1)
  }

  /** `GetDatatype` stops at the first place a value starts, past any
      number of places where none does. */
  lemma {:induction false} FirstValue(json: string, start: nat, i: nat, k: Kind)
    requires start <= i < |json| && Classify(json, i) == Ok(Some(k))
    requires forall j: nat :: start <= j < i ==> Classify(json, j) == Ok(None)
    ensures GetDatatype(json, start) == Ok(Some((k, i)))
    decreases i - start
  {
    if start < i {
      FirstValue(json, start + 1, i, k);
    }
  }

  /** Blanks are skipped: a value after blank text is found where it
      starts. */
  lemma SkipsBlank(w: string, rest: string, i: nat)
    requires forall k :: 0 <= k < |w| ==> Blank(w[k])
    requires i < |w|
    ensures Classify(w + rest, i) == Ok(None)
  {
    assert (w + rest)[i] == w[i];
  }
}

=== FILE: json_scalar.dfy ===
/** `Decode` of the scalar JSON classes (JSON/JSONString.cs,
    JSON/JSONBool.cs, JSON/JSONNull.cs) and of the name-value pair
    (JSON/JSONNameValuePair.cs). Each reads from `start` and answers the
    value and the index just past it. None of them unescapes anything.
    `IndexOf` and `IndexOfAny` throw for a start before 0 or past the end,
    and `Substring` throws when the text is too short. */
module JsonScalar {
  import opened Common
  import opened Text
  import opened JsonValue

  /** `s.IndexOf(c, from)` with its argument check. */
  function IndexOfChar(s: string, c: char, from: int): (r: Result<Option<nat>>)
    ensures r.Fail? <==> from < 0 || from > |s|
    ensures r.Ok? ==> r.value == FindChar(s, c, from)
  {
    if from < 0 || from > |s| then Fail(ArgumentOutOfRange) else Ok(FindChar(s, c, from))
  }

  // ---------------------------------------------------------------------
  // JSONString

  /** `JSONString.Decode`: the text between the first quote at or after
      `start` and the next quote, and the index past the second quote. */
  function DecodeString(json: string, start: int): (r: Result<(string, nat)>)
    ensures r.Ok? ==>
              var (content, end) := r.value;
              var open := end - |content| - 2;
              0 <= start <= open && end <= |json| && json[open] == '"' && json[end - 1] == '"'
              && json[open + 1 .. end - 1] == content && '"' !in content
              && forall k :: start <= k < open ==> json[k] != '"'
    ensures r.Fail? ==> r.error == ArgumentOutOfRange || r.error == ArgumentException
    ensures r == Fail(ArgumentOutOfRange) <==> start < 0 || start > |json|
  {
    var open :- IndexOfChar(json, '"', start);
    if open.None? then Fail(ArgumentException)
    else
      var close := FindChar(json, '"', open.value + 1);
      if close.None? then Fail(ArgumentException)
      else
        var content := json[open.value + 1 .. close.value];
        assert forall k :: 0 <= k < |content| ==> content[k] == json[open.value + 1 + k];
        Ok((content, close.value + 1))
  }

  /** A string read back: the encoding of content without quotes, after
      text without quotes from `start`, decodes to that content and ends
      just past the encoding. */
  lemma StringRoundTrip(pre: string, s: string, post: string, start: nat)
    requires start <= |pre| && '"' !in s
    requires forall k :: start <= k < |pre| ==> pre[k] != '"'
    ensures DecodeString(pre + Quote(s) + post, start) == Ok((s, |pre| + |s| + 2))
  {
    var json := pre + Quote(s) + post;
    QuotesFound(pre, s, post, start, json);
  }

  /** Where the two quotes around an encoded string are found. */
  lemma QuotesFound(pre: string, s: string, post: string, start: nat, json: string)
    requires start <= |pre| && '"' !in s && json == pre + Quote(s) + post
    requires forall k :: start <= k < |pre| ==> pre[k] != '"'
    ensures FindChar(json, '"', start) == Some(|pre|)
    ensures FindChar(json, '"', |pre| + 1) == Some(|pre| + |s| + 1)
    ensures json[|pre| + 1 .. |pre| + 1 + |s|] == s
  {
    assert forall k :: 0 <= k < |pre| ==> json[k] == pre[k];
    assert json[|pre|] == '"';
    FindCharFirst(json, '"', start, |pre|);
    assert json == (pre + "\"") + s + ['"'] + post;
    FindCharAfter(pre + "\"", s, '"', post);
  }

  /** A text with fewer than two quotes from `start` on is refused. */
  lemma UnclosedString(pre: string, s: string, start: nat)
    requires start <= |pre| && '"' !in s
    requires forall k :: start <= k < |pre| ==> pre[k] != '"'
    ensures DecodeString(pre, start) == Fail(ArgumentException)
    ensures DecodeString(pre + "\"" + s, start) == Fail(ArgumentException)
  {
    var json := pre + "\"" + s;
    assert json == pre + [] + ['"'] + s;
    FindCharAfter(pre, [], '"', s);
    assert forall k :: |pre| + 1 <= k < |json| ==> json[k] == s[k - |pre| - 1];
  }

  /** `FindEndOfString`: the first quote at or after `start` (and after
      the first character) that is not preceded by a backslash. */
  function FindEndOfString(json: string, start: int): (r: Option<nat>)
    decreases |json| - start
    ensures r.Some? ==> 1 <= r.value < |json| && start <= r.value
                        && json[r.value] == '"' && json[r.value - 1] != '\\'
                        && forall k :: start <= k < r.value && 1 <= k ==> !(json[k] == '"' && json[k - 1] != '\\')
    ensures r.None? ==> forall k :: start <= k < |json| && 1 <= k ==> !(json[k] == '"' && json[k - 1] != '\\')
  {
    if start < 1 then FindEndOfString(json, 1)
    else if start >= |json| then None
    else if json[start] == '"' && json[start - 1] != '\\' then Some(start)
    else FindEndOfString(json, start + 1)
  }

  /** A quote escaped by a backslash does not end the string; the next
      bare quote does. */
  lemma EscapedQuoteSkipped()
    ensures FindEndOfString("\"a\\\"b\"", 1) == Some(5)
  {
  }

  // ---------------------------------------------------------------------
  // JSONBool

  /** `IndexOfAny(new[] { 't', 'f' }, from)`, once the start is known to
      be in range. */
  function FindTrueFalse(s: string, from: nat): (r: Option<nat>)
    decreases |s| - from
    ensures r.Some? ==> from <= r.value < |s| && s[r.value] in "tf"
                        && forall k :: from <= k < r.value ==> s[k] !in "tf"
    ensures r.None? ==> forall k :: from <= k < |s| ==> s[k] !in "tf"
  {
    if from >= |s| then None
    else if s[from] in "tf" then Some(from)
    else FindTrueFalse(s, from + 1)
  }

  /** `JSONBool.Decode`: at the first `t` or `f` from `start`, `true` or
      `false`, and the index past it. The four characters are compared
      before the five, and a text too short for either comparison throws. */
  function DecodeBool(json: string, start: int): (r: Result<(bool, nat)>)
    ensures r.Ok? ==>
              var (b, end) := r.value;
              var word := if b then "true" else "false";
              var at := end - |word|;
              0 <= start <= at && end <= |json| && json[at .. end] == word
              && forall k :: start <= k < at ==> json[k] !in "tf"
    ensures r == Fail(ArgumentOutOfRange) || r == Fail(ArgumentException) || r.Ok?
  {
    if start < 0 || start > |json| then Fail(ArgumentOutOfRange)
    else
      match FindTrueFalse(json, start)
      case None => Fail(ArgumentException)
      case Some(at) =>
        if at + 4 > |json| then Fail(ArgumentOutOfRange)
        else if json[at .. at + 4] == "true" then Ok((true, at + 4))
        else if at + 5 > |json| then Fail(ArgumentOutOfRange)
        else if json[at .. at + 5] == "false" then Ok((false, at + 5))
        else Fail(ArgumentException)
  }

  /** The encoding of a boolean, after text without `t` or `f`, reads
      back as that boolean and ends just past it. */
  lemma BoolRoundTrip(pre: string, b: bool, post: string)
    requires forall k :: 0 <= k < |pre| ==> pre[k] !in "tf"
    ensures var e := Encode(Bool(b)).value;
            DecodeBool(pre + e + post, 0) == Ok((b, |pre| + |e|))
  {
    var e := Encode(Bool(b)).value;
    var json := pre + e + post;
    assert json[|pre|] == e[0];
    assert json[|pre| .. |pre| + |e|] == e;
    assert forall k :: 0 <= k < |pre| ==> json[k] == pre[k];
    if !b {
      assert json[|pre| .. |pre| + 4] == "fals";
    }
  }

  /** A text too short for the four characters, or for the five once the
      four are not `true`, throws from `Substring`, even though neither
      word is there; a long enough text without either word is refused. */
  lemma BoolFailures()
    ensures DecodeBool("tru", 0) == Fail(ArgumentOutOfRange)
    ensures DecodeBool("tree", 0) == Fail(ArgumentOutOfRange)
    ensures DecodeBool("trees", 0) == Fail(ArgumentException)
    ensures DecodeBool("0", 0) == Fail(ArgumentException)
  {
    assert "tree"[0 .. 4] == "tree";
    assert "trees"[0 .. 4] == "tree";
    assert "trees"[0 .. 5] == "trees";
  }

  // ---------------------------------------------------------------------
  // JSONNull

  /** `JSONNull.Decode`: the index past the first `null` at or after
      `start`, whatever comes before it. */
  function DecodeNull(json: string, start: int): (r: Result<nat>)
    ensures r.Ok? ==> 0 <= start <= r.value - 4 && MatchAt(json, "null", r.value - 4)
                      && forall k :: start <= k < r.value - 4 ==> !MatchAt(json, "null", k)
    ensures r.Fail? ==> (r.error == ArgumentOutOfRange <==> start < 0 || start > |json|)
                        && (r.error == ArgumentException ==> forall k :: start <= k ==> !MatchAt(json, "null", k))
  {
    if start < 0 || start > |json| then Fail(ArgumentOutOfRange)
    else
      match Find(json, "null", start)
      case None => Fail(ArgumentException)
      case Some(k) => Ok(k + 4)
  }

  /** `null` after blanks is read, and the decoding ends just past it. */
  lemma NullAfterBlanks(w: string, post: string)
    requires forall k :: 0 <= k < |w| ==> w[k] == ' '
    ensures DecodeNull(w + "null" + post, 0) == Ok(|w| + 4)
  {
    var json := w + "null" + post;
    assert json[|w| .. |w| + 4] == "null";
    forall k | 0 <= k < |w|
      ensures !MatchAt(json, "null", k)
    {
      Mismatch(json, "null", k, 0);
    }
    FindFirst(json, "null", 0, |w|);
  }

  // ---------------------------------------------------------------------
  // JSONNameValuePair

  /** The value classes' `Decode` behind `GetDatatype`: from an index, the
      value found there and the index past it, or none. */
  type ValueReader = (string, nat) -> Result<Option<(Value, nat)>>

  /** `JSONNameValuePair.Decode`, on the pair `p` it is called on: the
      name is the first quoted string from `start`, the value is read from
      just past its closing quote. The pair is assigned only once both
      were read, so on any failure it is as it was. */
  function DecodePair(p: Pair, json: string, start: int, read: ValueReader): (r: (Pair, Result<nat>))
    ensures r.1.Fail? ==> r.0 == p
    ensures r.1.Ok? ==> r.0.name.Some? && r.0.value.Some?
  {
    match DecodeString(json, start)
    case Fail(e) => (p, Fail(e))
    case Ok((name, nameEnd)) =>
      match read(json, nameEnd + 1)
      case Fail(e) => (p, Fail(e))
      case Ok(None) => (p, Fail(ArgumentException))
      case Ok(Some((v, end))) => (Pair(Some(name), Some(v)), Ok(end))
  }

  /** Without a value after the name the pair is refused and left as it
      was; a value read is stored with the name read before it. */
  lemma PairDecoded(p: Pair, json: string, start: int, read: ValueReader)
    requires DecodeString(json, start).Ok?
    ensures var (name, nameEnd) := DecodeString(json, start).value;
            var r := DecodePair(p, json, start, read);
            (read(json, nameEnd + 1) == Ok(None) ==> r == (p, Fail(ArgumentException)))
            && (read(json, nameEnd + 1).Ok? && read(json, nameEnd + 1).value.Some?
                ==> var (v, end) := read(json, nameEnd + 1).value.value;
                    r == (Pair(Some(name), Some(v)), Ok(end)))
  {
  }

  /** A written pair reads back as itself, given a value reader that
      reads the value's encoding where it stands. */
  lemma PairRoundTrip(p: Pair, q: Pair, name: string, v: Value, read: ValueReader)
    requires q == Pair(Some(name), Some(v)) && '"' !in name && EncodePair(q).Ok?
    requires var e := EncodePair(q).value;
             read(e, |name| + 3) == Ok(Some((v, |e|)))
    ensures DecodePair(p, EncodePair(q).value, 0, read) == (q, Ok(|EncodePair(q).value|))
  {
    var e := EncodePair(q).value;
    var ev := Encode(v).value;
    assert e == [] + Quote(name) + (":" + ev);
    StringRoundTrip([], name, ":" + ev, 0);
  }
}

=== FILE: json_value.dfy ===
/** The JSON values (JSON/JSONBase.cs and its subclasses) as one
    datatype, their `Encode` methods, and the name-value pair
    (JSON/JSONNameValuePair.cs). Nothing is escaped: a string is written
    between quotes exactly as it stands. A number keeps the text its own
    `Encode` would give, since `JSONNumber` is not part of this model. */
module JsonValue {
  import opened Common

  datatype Value =
    | Null
    | Bool(truth: bool)
    | Str(content: string)
    | Number(literal: string)
    | Array(items: seq<Value>)
    | Object(pairs: seq<Pair>)

  /** `JSONNameValuePair`: the name (its `NameJSON` string, null until a
      name is set) and the value (null until set). */
  datatype Pair = Pair(name: Option<string>, value: Option<Value>)

  /** A pair as the parameterless constructor leaves it. */
  const NewPair: Pair := Pair(None, None)

  /** The `Name` setter: a fresh `JSONString` holding the name. */
  function SetName(p: Pair, name: string): Pair
  {
    p.(name := Some(name))
  }

  /** The `Name` getter returns the last name set, and null before any. */
  lemma NameGetSet(p: Pair, name: string, other: string)
    ensures NewPair.name == None
    ensures SetName(p, name).name == Some(name)
    ensures SetName(SetName(p, other), name).name == Some(name)
    ensures SetName(p, name).value == p.value
  {
  }

  /** `JSONString.Encode`: the content between two quotes. */
  function Quote(s: string): string
  {
    "\"" + s + "\""
  }

  /** What the `foreach` of `JSONArray.Encode` and `JSONObject.Encode`
      builds: each encoding followed by a comma. */
  function Trailing(encs: seq<string>): string
  {
    if encs == [] then [] else encs[0] + "," + Trailing(encs[1..])
  }

  /** The encodings separated by commas: the reference the bracketed
      form is compared with. */
  function Join(encs: seq<string>): string
  {
    if encs == [] then []
    else if |encs| == 1 then encs[0]
    else encs[0] + "," + Join(encs[1..])
  }

  /** The two `Encode` methods of the containers: the opening bracket and
      the trailing-comma list, then either the closing bracket added (when
      nothing was written) or the last character replaced by it. */
  function Bracketed(open: char, encs: seq<string>, close: char): string
  {
    var result := [open] + Trailing(encs);
    if result == [open] then [open, close] else result[..|result| - 1] + [close]
  }

  /** `Encode` of every value class. A pair without a name or a value
      fails as the source's null dereference does. */
  function Encode(v: Value): Result<string>
    decreases v, 2
  {
    match v
    case Null => Ok("null")
    case Bool(b) => Ok(if b then "true" else "false")
    case Str(s) => Ok(Quote(s))
    case Number(t) => Ok(t)
    case Array(items) =>
      var encs :- EncodeItems(items);
      Ok(Bracketed('[', encs, ']'))
    case Object(pairs) =>
      var encs :- EncodePairs(pairs);
      Ok(Bracketed('{', encs, '}'))
  }

  function EncodeItems(items: seq<Value>): Result<seq<string>>
    decreases items, 1
  {
    if items == [] then Ok([])
    else
      var first :- Encode(items[0]);
      var rest :- EncodeItems(items[1..]);
      Ok([first] + rest)
  }

  /** `JSONNameValuePair.Encode`: the quoted name, a colon and the value. */
  function EncodePair(p: Pair): Result<string>
    decreases p, 1
  {
    match p.name
    case None => Fail(NullReference)
    case Some(n) =>
      match p.value
      case None => Fail(NullReference)
      case Some(v) =>
        var e :- Encode(v);
        Ok(Quote(n) + ":" + e)
  }

  function EncodePairs(pairs: seq<Pair>): Result<seq<string>>
    decreases pairs, 1
  {
    if pairs == [] then Ok([])
    else
      var first :- EncodePair(pairs[0]);
      var rest :- EncodePairs(pairs[1..]);
      Ok([first] + rest)
  }

  // ---------------------------------------------------------------------
  // The bracketed form is the comma-separated join

  /** With at least one encoding, the trailing-comma text is the join
      followed by one comma. */
  lemma {:induction false} TrailingJoin(encs: seq<string>)
    requires encs != []
    ensures Trailing(encs) == Join(encs) + ","
  {
    if |encs| == 1 {
      assert encs[1..] == [];
    } else {
      TrailingJoin(encs[1..]);
      assert Trailing(encs) == encs[0] + "," + (Join(encs[1..]) + ",");
    }
  }

  /** Dropping the last comma and closing gives the bracketed join; with
      no encodings both are the two brackets. */
  lemma BracketedJoin(open: char, encs: seq<string>, close: char)
    ensures Bracketed(open, encs, close) == [open] + Join(encs) + [close]
  {
    if encs != [] {
      TrailingJoin(encs);
      var result := [open] + Trailing(encs);
      assert result == [open] + Join(encs) + ",";
      assert result[..|result| - 1] == [open] + Join(encs);
    }
  }

  // ---------------------------------------------------------------------
  // Values the text formats carry back

  /** String content that survives a round trip through the text: no
      quote, which would end it, and no final backslash, which would hide
      the closing quote from the scanners. */
  predicate CleanText(s: string)
  {
    '"' !in s && (s != [] ==> s[|s| - 1] != '\\')
  }

  /** Characters a number's text is made of. */
  predicate NumberChar(c: char)
  {
    '0' <= c <= '9' || c == '+' || c == '-' || c == '.' || c == 'e' || c == 'E'
  }

  /** A number's text: number characters, the first a digit or a sign,
      as `GetDatatype` recognises numbers. */
  predicate NumberText(t: string)
  {
    t != [] && ('0' <= t[0] <= '9' || t[0] == '+' || t[0] == '-')
    && forall k :: 0 <= k < |t| ==> NumberChar(t[k])
  }

  /** Every string and name clean, every number a number's text, every
      pair named and valued. */
  predicate Clean(v: Value)
    decreases v, 1
  {
    match v
    case Null => true
    case Bool(_) => true
    case Str(s) => CleanText(s)
    case Number(t) => NumberText(t)
    case Array(items) => forall i | 0 <= i < |items| :: Clean(items[i])
    case Object(pairs) => forall i | 0 <= i < |pairs| :: CleanPair(pairs[i])
  }

  predicate CleanPair(p: Pair)
    decreases p, 0
  {
    p.name.Some? && p.value.Some? && CleanText(p.name.value) && Clean(p.value.value)
  }

  /** A clean value always encodes: the only failure is a missing name or
      value. */
  lemma {:induction false} CleanEncodes(v: Value)
    requires Clean(v)
    ensures Encode(v).Ok?
    decreases v, 2
  {
    match v
    case Array(items) => CleanItemsEncode(items);
    case Object(pairs) => CleanPairsEncode(pairs);
    case _ =>
  }

  lemma {:induction false} CleanItemsEncode(items: seq<Value>)
    requires forall i | 0 <= i < |items| :: Clean(items[i])
    ensures EncodeItems(items).Ok? && |EncodeItems(items).value| == |items|
    decreases items, 1
  {
    if items != [] {
      CleanEncodes(items[0]);
      CleanItemsEncode(items[1..]);
    }
  }

  lemma {:induction false} CleanPairsEncode(pairs: seq<Pair>)
    requires forall i | 0 <= i < |pairs| :: CleanPair(pairs[i])
    ensures EncodePairs(pairs).Ok? && |EncodePairs(pairs).value| == |pairs|
    decreases pairs, 1
  {
    if pairs != [] {
      CleanPairEncodes(pairs[0]);
      CleanPairsEncode(pairs[1..]);
    }
  }

  lemma {:induction false} CleanPairEncodes(p: Pair)
    requires CleanPair(p)
    ensures EncodePair(p).Ok?
    decreases p, 1
  {
    CleanEncodes(p.value.value);
  }

  /** A pair without a name, or without a value, cannot be written, and
      neither can an object holding one. */
  lemma MissingPartFails(n: string, v: Value, rest: seq<Pair>)
    ensures EncodePair(Pair(None, Some(v))) == Fail(NullReference)
    ensures EncodePair(Pair(Some(n), None)) == Fail(NullReference)
    ensures Encode(Object([Pair(Some(n), None)] + rest)) == Fail(NullReference)
  {
    assert ([Pair(Some(n), None)] + rest)[0] == Pair(Some(n), None);
  }
}

=== FILE: lists.dfy ===
/** The name-based operations the collection classes share, over a
    sequence of items and a test of an item's name: the first item that
    passes, and the list with that one item taken out. */
module Lists {
  import opened Common

  /** Position of the first item passing `p`, scanning from the front. */
  function FirstIndex<T>(items: seq<T>, p: T -> bool): (r: Option<nat>)
    ensures r.Some? ==> r.value < |items| && p(items[r.value])
                        && forall k :: 0 <= k < r.value ==> !p(items[k])
    ensures r.None? ==> forall k :: 0 <= k < |items| ==> !p(items[k])
  {
    if items == [] then None
    else if p(items[0]) then Some(0)
    else match FirstIndex(items[1..], p)
      case None => None
      case Some(i) => Some(i + 1)
  }

  /** The loop `for (i...) if (test) { RemoveAt(i); break; }`. */
  function RemoveFirst<T>(items: seq<T>, p: T -> bool): seq<T>
  {
    if items == [] then []
    else if p(items[0]) then items[1..]
    else [items[0]] + RemoveFirst(items[1..], p)
  }

  /** Removal takes out exactly the item `FirstIndex` finds, keeping the
      others in order, and leaves the list alone when nothing passes. */
  lemma {:induction false} RemoveFirstMeaning<T>(items: seq<T>, p: T -> bool)
    ensures FirstIndex(items, p).None? ==> RemoveFirst(items, p) == items
    ensures FirstIndex(items, p).Some? ==>
              var i := FirstIndex(items, p).value;
              RemoveFirst(items, p) == items[..i] + items[i + 1..]
  {
    if items != [] && !p(items[0]) {
      RemoveFirstMeaning(items[1..], p);
      match FirstIndex(items[1..], p)
      case None =>
      case Some(i) =>
        assert items[..i + 1] == [items[0]] + items[1..][..i];
        assert items[i + 2..] == items[1..][i + 1..];
    }
  }

  /** After removal the test finds the next passing item, if any: the
      earlier ones are untouched and the removed one is gone. */
  lemma RemoveThenFind<T>(items: seq<T>, p: T -> bool)
    requires FirstIndex(items, p).Some?
    ensures var i := FirstIndex(items, p).value;
            var after := FirstIndex(items[i + 1..], p);
            FirstIndex(RemoveFirst(items, p), p)
            == (if after.Some? then Some(i + after.value) else None)
  {
    var i := FirstIndex(items, p).value;
    RemoveFirstMeaning(items, p);
    PrefixFails(items, p, i);
    PassOver(items[..i], items[i + 1..], p);
  }

  /** No item before the first passing one passes. */
  lemma PrefixFails<T>(items: seq<T>, p: T -> bool, i: nat)
    requires FirstIndex(items, p) == Some(i)
    ensures forall k :: 0 <= k < |items[..i]| ==> !p(items[..i][k])
  {
  }

  /** A prefix with no passing item only shifts the answer for the rest. */
  lemma {:induction false} PassOver<T>(a: seq<T>, b: seq<T>, p: T -> bool)
    requires forall k :: 0 <= k < |a| ==> !p(a[k])
    ensures var f := FirstIndex(b, p);
            FirstIndex(a + b, p) == (if f.Some? then Some(|a| + f.value) else None)
  {
    if a == [] {
      assert a + b == b;
    } else {
      assert (a + b)[0] == a[0] && (a + b)[1..] == a[1..] + b;
      PassOver(a[1..], b, p);
    }
  }

  /** The first passing item is the one `FirstIndex` names. */
  lemma FirstIndexIs<T>(items: seq<T>, p: T -> bool, j: nat)
    requires j < |items| && p(items[j]) && forall k :: 0 <= k < j ==> !p(items[k])
    ensures FirstIndex(items, p) == Some(j)
  {
  }

  /** Appending an item does not change the answer for a list that already
      has a passing item, and otherwise the new item is found if it passes. */
  lemma AppendThenFind<T>(items: seq<T>, x: T, p: T -> bool)
    ensures FirstIndex(items, p).Some? ==> FirstIndex(items + [x], p) == FirstIndex(items, p)
    ensures FirstIndex(items, p).None? ==>
              FirstIndex(items + [x], p) == (if p(x) then Some(|items|) else None)
  {
    var s := items + [x];
    match FirstIndex(items, p)
    case Some(i) =>
      FirstIndexIs(s, p, i);
    case None =>
      if p(x) {
        FirstIndexIs(s, p, |items|);
      } else {
        assert forall k :: 0 <= k < |s| ==> !p(s[k]);
      }
  }
}

=== FILE: parse_numbers.dfy ===
/** The .NET number-text conversions the XML character references go
    through: `Convert.ToString(int, 16)` for a non-negative value, and
    `Convert.ToInt32(string, fromBase)` for bases 10 and 16, which accepts
    an optional sign, for base 16 an optional `0x` prefix, and then digits
    up to the end of the text. */
module ParseNumbers {
  import opened Common

  predicate IsDigit(c: char, radix: nat)
  {
    ('0' <= c <= '9') || (radix == 16 && (('a' <= c <= 'f') || ('A' <= c <= 'F')))
  }

  function DigitValue(c: char): (d: nat)
    ensures d < 16
  {
    if '0' <= c <= '9' then c as int - '0' as int
    else if 'a' <= c <= 'f' then c as int - 'a' as int + 10
    else if 'A' <= c <= 'F' then c as int - 'A' as int + 10
    else 0
  }

  /** The value of a digit string, most significant digit first. */
  function Value(digits: string, radix: nat): nat
  {
    if digits == [] then 0
    else Value(digits[..|digits| - 1], radix) * radix + DigitValue(digits[|digits| - 1])
  }

  /** How many digits of the radix follow position `i`. */
  function DigitRun(s: string, i: nat, radix: nat): (n: nat)
    decreases |s| - i
    ensures i + n <= |s| || (i >= |s| && n == 0)
    ensures forall k :: i <= k < i + n ==> IsDigit(s[k], radix)
    ensures i + n < |s| ==> !IsDigit(s[i + n], radix)
  {
    if i >= |s| || !IsDigit(s[i], radix) then 0 else 1 + DigitRun(s, i + 1, radix)
  }

  /** `Convert.ToInt32(s, radix)` for radix 10 or 16. The digits are read
      as far as they go, with overflow caught while reading; then the text
      must have had a digit and nothing after the digits. Base 16 values
      are 32-bit patterns and may come out negative; base 10 takes a minus
      sign and stays within the `int` range. */
  function StringToInt(s: string, radix: nat): (r: Result<Int32>)
    requires radix == 10 || radix == 16
    ensures s == [] ==> r == Fail(ArgumentOutOfRange)
    ensures r.Ok? ==> exists k :: 0 <= k < |s| && IsDigit(s[k], radix)
  {
    if s == [] then Fail(ArgumentOutOfRange)
    else
      var negative := s[0] == '-';
      var i := if s[0] == '-' || s[0] == '+' then 1 else 0;
      if negative && radix != 10 then Fail(ArgumentException)
      else
        var j := if radix == 16 && i + 1 < |s| && s[i] == '0' && (s[i + 1] == 'x' || s[i + 1] == 'X')
                 then i + 2 else i;
        var n := DigitRun(s, j, radix);
        var v := Value(s[j .. j + n], radix);
        if v > (if radix == 10 then TwoTo31 else TwoTo32 - 1) then Fail(Overflow)
        else if n == 0 || j + n < |s| then Fail(Format)
        else if radix == 16 then Ok(Wrap32(v))
        else if negative then Ok((0 - v as int) as Int32)
        else if v == TwoTo31 then Fail(Overflow)
        else Ok(v)
  }

  function HexDigit(d: nat): (c: char)
    requires d < 16
    ensures IsDigit(c, 16) && DigitValue(c) == d && c != 'x' && c != 'X'
  {
    if d < 10 then ('0' as int + d) as char else ('a' as int + d - 10) as char
  }

  /** `Convert.ToString(n, 16)` for a non-negative `n`: lower-case digits,
      no leading zero. */
  function ToHex(n: nat): (r: string)
    ensures |r| >= 1 && forall k :: 0 <= k < |r| ==> IsDigit(r[k], 16)
    ensures n > 0 ==> r[0] != '0'
    ensures n < 16 ==> |r| == 1
  {
    if n < 16 then [HexDigit(n)] else ToHex(n / 16) + [HexDigit(n % 16)]
  }

  lemma {:induction false} HexValue(n: nat)
    ensures Value(ToHex(n), 16) == n
  {
    if n >= 16 {
      var r := ToHex(n);
      assert r[..|r| - 1] == ToHex(n / 16);
      HexValue(n / 16);
    }
  }

  /** A digit run that covers the rest of the text. */
  lemma RunToEnd(s: string, i: nat, radix: nat)
    requires i <= |s| && forall k :: i <= k < |s| ==> IsDigit(s[k], radix)
    ensures DigitRun(s, i, radix) == |s| - i
  {
  }

  /** Reading back what `Convert.ToString(n, 16)` wrote gives `n`. */
  lemma HexRoundTrip(n: nat)
    requires n < TwoTo31
    ensures StringToInt(ToHex(n), 16) == Ok(n)
  {
    var s := ToHex(n);
    RunToEnd(s, 0, 16);
    HexValue(n);
    assert s[0 .. |s|] == s;
    if 1 < |s| {
      assert s[0] != '0';
    }
  }
}

=== FILE: pem_base64.dfy ===
/** Base64 as section 4 of RFC 4648 defines it, which is what
    `Convert.ToBase64String` writes: every three octets become four
    characters of the 64-character alphabet, and a final group of one or two
    octets is padded with `=`. No line breaks are inserted. Decoding
    (`Convert.FromBase64String`) is a parameter of the PEM decoders; the
    reference decoder here reads back exactly what `Encode` writes. */
module Base64 {
  import opened Common

  /** The character for a 6-bit value: `A`-`Z`, `a`-`z`, `0`-`9`, `+`, `/`. */
  function Char(v: nat): (c: char)
    requires v < 64
    ensures IsAlphabet(c) && Value(c) == v
  {
    if v < 26 then ('A' as int + v) as char
    else if v < 52 then ('a' as int + v - 26) as char
    else if v < 62 then ('0' as int + v - 52) as char
    else if v == 62 then '+'
    else '/'
  }

  /** A character of the alphabet. */
  predicate IsAlphabet(c: char)
  {
    ('A' <= c <= 'Z') || ('a' <= c <= 'z') || ('0' <= c <= '9') || c == '+' || c == '/'
  }

  /** A character `Encode` can write: the alphabet or the pad `=`. */
  predicate IsBase64Char(c: char)
  {
    IsAlphabet(c) || c == '='
  }

  /** The 6-bit value of an alphabet character. */
  function Value(c: char): nat
  {
    if 'A' <= c <= 'Z' then c as int - 'A' as int
    else if 'a' <= c <= 'z' then c as int - 'a' as int + 26
    else if '0' <= c <= '9' then c as int - '0' as int + 52
    else if c == '+' then 62
    else 63
  }

  /** The four characters of one group of up to three octets; a missing
      octet counts as zero and its characters become `=`. */
  function Group(b: seq<byte>): (r: string)
    requires 1 <= |b| <= 3
    ensures |r| == 4 && forall k :: 0 <= k < 4 ==> IsBase64Char(r[k])
  {
    var b0 := b[0];
    var b1 := if |b| > 1 then b[1] else 0;
    var b2 := if |b| > 2 then b[2] else 0;
    [Char(b0 / 4), Char(b0 % 4 * 16 + b1 / 16)]
    + (if |b| > 1 then [Char(b1 % 16 * 4 + b2 / 64)] else "=")
    + (if |b| > 2 then [Char(b2 % 64)] else "=")
  }

  /** `Convert.ToBase64String`. */
  function Encode(b: seq<byte>): (r: string)
    ensures |r| == (|b| + 2) / 3 * 4
    ensures forall k :: 0 <= k < |r| ==> IsBase64Char(r[k])
  {
    if b == [] then []
    else if |b| <= 3 then Group(b)
    else
      var g, rest := Group(b[..3]), Encode(b[3..]);
      GroupsStep(|b|);
      assert forall k :: 0 <= k < 4 ==> (g + rest)[k] == g[k];
      assert forall k :: 4 <= k < 4 + |rest| ==> (g + rest)[k] == rest[k - 4];
      g + rest
  }

  /** Three more octets take one more group of four characters. */
  lemma GroupsStep(n: nat)
    requires n > 3
    ensures (n + 2) / 3 * 4 == 4 + (n - 3 + 2) / 3 * 4
  {
    assert (n + 2) / 3 == (n - 1) / 3 + 1;
  }

  /** A decoder: the octets a text stands for, `None` where the source
      throws `FormatException`. */
  type Decoder = string -> Option<seq<byte>>

  /** The three octets four characters stand for, fewer when `=` pads. */
  function Ungroup(g: string): Option<seq<byte>>
    requires |g| == 4
  {
    if !IsAlphabet(g[0]) || !IsAlphabet(g[1]) then None
    else
      var v0, v1 := Value(g[0]), Value(g[1]);
      var o0 := v0 * 4 + v1 / 16;
      if g[2] == '=' && g[3] == '=' then
        if v1 % 16 == 0 then Some([o0]) else None
      else if !IsAlphabet(g[2]) then None
      else
        var v2 := Value(g[2]);
        var o1 := v1 % 16 * 16 + v2 / 4;
        if g[3] == '=' then
          if v2 % 4 == 0 then Some([o0, o1]) else None
        else if !IsAlphabet(g[3]) then None
        else Some([o0, o1, v2 % 4 * 64 + Value(g[3])])
  }

  /** Reference decoder of unbroken Base64 text: groups of four, a padded
      group only at the end. */
  function Decode(s: string): Option<seq<byte>>
    decreases |s|
  {
    if s == [] then Some([])
    else if |s| < 4 then None
    else
      match Ungroup(s[..4])
      case None => None
      case Some(g) =>
        if |g| < 3 && |s| > 4 then None
        else
          match Decode(s[4..])
          case None => None
          case Some(rest) => Some(g + rest)
  }

  /** A group comes back from its four characters. */
  lemma GroupRoundTrip(b: seq<byte>)
    requires 1 <= |b| <= 3
    ensures Ungroup(Group(b)) == Some(b)
  {
    var g := Group(b);
    var b0 := b[0];
    var b1 := if |b| > 1 then b[1] else 0;
    var b2 := if |b| > 2 then b[2] else 0;
    assert Value(g[0]) * 4 + Value(g[1]) / 16 == b0;
    if |b| > 1 {
      assert Value(g[1]) % 16 * 16 + Value(g[2]) / 4 == b1;
    }
    if |b| > 2 {
      assert Value(g[2]) % 4 * 64 + Value(g[3]) == b2;
      assert [b[0], b[1], b[2]] == b;
    } else if |b| == 2 {
      assert [b[0], b[1]] == b;
    } else {
      assert [b[0]] == b;
    }
  }

  /** Round trip: the reference decoder reads back every encoding, so a
      decoder that inverts `Encode` exists. */
  lemma {:induction false} RoundTrip(b: seq<byte>)
    ensures Decode(Encode(b)) == Some(b)
  {
    if b != [] {
      if |b| <= 3 {
        GroupRoundTrip(b);
        assert Group(b)[..4] == Group(b) && Group(b)[4..] == [];
        assert b + [] == b;
      } else {
        var s := Encode(b);
        GroupRoundTrip(b[..3]);
        RoundTrip(b[3..]);
        assert s[..4] == Group(b[..3]) && s[4..] == Encode(b[3..]);
        assert b[..3] + b[3..] == b;
      }
    }
  }
}

=== FILE: pem_block.dfy ===
/** `PEMBlock` (PEM/PEMBlock.cs): one block of the textual encoding of
    RFC 7468 section 2, a `-----BEGIN label-----` line, the Base64 text of
    the content folded into lines of 64 characters, and an
    `-----END label-----` line. The line separator (`Environment.NewLine`)
    is the parameter `nl`; the Base64 decoder is the parameter `decode`. */
module PemBlock {
  import opened Common
  import opened Text
  import Base64

  /** A block: its label (`BlockLabel`) and its content octets. */
  datatype Block = Block(blockLabel: string, content: seq<byte>)

  /** A lower-case ASCII letter. */
  predicate IsLower(c: char)
  {
    'a' <= c <= 'z'
  }

  /** `String.ToUpper`, for the ASCII letters. */
  function Upper(s: string): (r: string)
    ensures |r| == |s|
    ensures forall k :: 0 <= k < |s| ==> !IsLower(r[k])
    ensures forall k :: 0 <= k < |s| ==> (r[k] == s[k] <==> !IsLower(s[k]))
  {
    seq(|s|, k requires 0 <= k < |s| => if IsLower(s[k]) then (s[k] as int - 32) as char else s[k])
  }

  /** Number of leading spaces of `s`. */
  function LeadingSpaces(s: string): (n: nat)
    ensures n <= |s| && (n < |s| ==> s[n] != ' ')
  {
    if s == [] || s[0] != ' ' then 0 else 1 + LeadingSpaces(s[1..])
  }

  /** Number of trailing spaces of `s`. */
  function TrailingSpaces(s: string): (n: nat)
    ensures n <= |s| && (n < |s| ==> s[|s| - 1 - n] != ' ')
  {
    if s == [] || s[|s| - 1] != ' ' then 0 else 1 + TrailingSpaces(s[..|s| - 1])
  }

  /** `Trim(' ')`: the spaces, and only the spaces, at both ends removed. */
  function TrimSpaces(s: string): (r: string)
    ensures |r| <= |s|
    ensures r != [] ==> r[0] != ' ' && r[|r| - 1] != ' '
  {
    var rest := s[LeadingSpaces(s)..];
    rest[..|rest| - TrailingSpaces(rest)]
  }

  /** The leading spaces counted are all spaces. */
  lemma {:induction false} LeadingSpacesAll(s: string)
    ensures forall k :: 0 <= k < LeadingSpaces(s) ==> s[k] == ' '
  {
    if s != [] && s[0] == ' ' {
      LeadingSpacesAll(s[1..]);
      assert forall k :: 1 <= k < LeadingSpaces(s) ==> s[k] == s[1..][k - 1];
    }
  }

  /** The trailing spaces counted are all spaces. */
  lemma {:induction false} TrailingSpacesAll(s: string)
    ensures forall k :: |s| - TrailingSpaces(s) <= k < |s| ==> s[k] == ' '
  {
    if s != [] && s[|s| - 1] == ' ' {
      TrailingSpacesAll(s[..|s| - 1]);
    }
  }

  /** Trimming removes spaces and nothing else: the result is the text
      between a run of leading and a run of trailing spaces. */
  lemma TrimSpacesMeaning(s: string)
    ensures var lead, r := LeadingSpaces(s), TrimSpaces(s);
            lead + |r| <= |s| && r == s[lead .. lead + |r|]
            && (forall k :: 0 <= k < lead ==> s[k] == ' ')
            && (forall k :: lead + |r| <= k < |s| ==> s[k] == ' ')
  {
    var lead := LeadingSpaces(s);
    var rest := s[lead..];
    LeadingSpacesAll(s);
    TrailingSpacesAll(rest);
    assert forall k :: lead + |TrimSpaces(s)| <= k < |s| ==> s[k] == rest[k - lead];
  }

  /** Text with no space at either end trims to itself. */
  lemma TrimSpacesUnchanged(s: string)
    requires s != [] ==> s[0] != ' ' && s[|s| - 1] != ' '
    ensures TrimSpaces(s) == s
  {
  }

  /** The width of a folded line. */
  const Width: nat := 64

  /** Reference folding: lines of 64 characters, the last of 1 to 64,
      separated by `nl`. */
  function Fold(s: string, nl: string): string
    decreases |s|
  {
    if |s| <= Width then s else s[..Width] + nl + Fold(s[Width..], nl)
  }

  /** `NormalizeLineLength`: `nl` inserted at every multiple of 64 below the
      length, from the last one down, so that earlier insertions do not
      shift later positions. */
  method NormalizeLineLength(input: string, nl: string) returns (result: string)
    ensures result == Fold(input, nl)
  {
    result := input;
    var start := |input| - |input| % 64;
    if |input| % 64 == 0 {
      start := start - 64;
    }
    var i := start;
    while i > 0
      invariant i % 64 == 0
      invariant input == [] ==> i == -64 && result == input
      invariant input != [] ==> 0 <= i < |input| && result == input[..i] + Fold(input[i..], nl)
      decreases i
    {
      FoldStep(input, i, nl);
      SplitAt(input[..i], Fold(input[i..], nl));
      result := result[..i] + nl + result[i..];
      i := i - 64;
    }
    if input != [] {
      assert input[..0] == [] && input[0..] == input;
    }
  }

  /** The two halves of a concatenation, taken back apart. */
  lemma SplitAt(a: string, b: string)
    ensures (a + b)[..|a|] == a && (a + b)[|a|..] == b
  {
  }

  /** One step of the loop: the line from `i - 64` to `i` joins the folded
      rest. */
  lemma FoldStep(input: string, i: int, nl: string)
    requires 64 <= i < |input|
    ensures input[..i] + nl + Fold(input[i..], nl) == input[..i - 64] + Fold(input[i - 64..], nl)
  {
    var t := input[i - 64..];
    assert t[..Width] == input[i - 64 .. i] && t[Width..] == input[i..];
    assert input[..i] == input[..i - 64] + input[i - 64 .. i];
  }

  /** The lines `Fold` separates. */
  function Lines(s: string): seq<string>
    decreases |s|
  {
    if |s| <= Width then [s] else [s[..Width]] + Lines(s[Width..])
  }

  /** Lines joined with `nl` between them. */
  function JoinLines(lines: seq<string>, nl: string): string
    requires lines != []
  {
    if |lines| == 1 then lines[0] else lines[0] + nl + JoinLines(lines[1..], nl)
  }

  /** Lines written one after another. */
  function Concat(lines: seq<string>): string
  {
    if lines == [] then [] else lines[0] + Concat(lines[1..])
  }

  /** Folding splits the text into lines that are its pieces in order,
      every line but the last exactly 64 characters and the last 1 to 64
      (for non-empty text); text of at most 64 characters is unchanged. */
  lemma {:induction false} FoldShape(s: string, nl: string)
    ensures Lines(s) != [] && Fold(s, nl) == JoinLines(Lines(s), nl)
    ensures Concat(Lines(s)) == s
    ensures forall k :: 0 <= k < |Lines(s)| - 1 ==> |Lines(s)[k]| == Width
    ensures s != [] ==> 1 <= |Lines(s)[|Lines(s)| - 1]| <= Width
    ensures |s| <= Width ==> Fold(s, nl) == s
    decreases |s|
  {
    if |s| <= Width {
      assert Concat(Lines(s)) == s + Concat([]);
    } else {
      FoldShape(s[Width..], nl);
      var ls := Lines(s);
      assert ls[1..] == Lines(s[Width..]);
      assert s[..Width] + s[Width..] == s;
    }
  }

  /** A line break character: carriage return or line feed. */
  predicate IsBreak(c: char)
  {
    c == '\r' || c == '\n'
  }

  /** `Replace("\n", "").Replace("\r", "")`: every line break character
      removed, the rest kept in order. */
  function StripBreaks(s: string): string
  {
    if s == [] then []
    else if IsBreak(s[0]) then StripBreaks(s[1..])
    else [s[0]] + StripBreaks(s[1..])
  }

  /** Stripping leaves no line break, and leaves text without line breaks
      as it is. */
  lemma {:induction false} StripMeaning(s: string)
    ensures forall k :: 0 <= k < |StripBreaks(s)| ==> !IsBreak(StripBreaks(s)[k])
    ensures (forall k :: 0 <= k < |s| ==> !IsBreak(s[k])) ==> StripBreaks(s) == s
  {
    if s != [] {
      StripMeaning(s[1..]);
      var r := StripBreaks(s);
      if !IsBreak(s[0]) {
        assert r == [s[0]] + StripBreaks(s[1..]);
        assert forall k :: 1 <= k < |r| ==> r[k] == StripBreaks(s[1..])[k - 1];
      }
    }
  }

  /** Stripping works piece by piece. */
  lemma {:induction false} StripConcat(a: string, b: string)
    ensures StripBreaks(a + b) == StripBreaks(a) + StripBreaks(b)
  {
    if a == [] {
      assert a + b == b;
    } else {
      assert (a + b)[0] == a[0] && (a + b)[1..] == a[1..] + b;
      StripConcat(a[1..], b);
    }
  }

  /** A separator made of line breaks only. */
  predicate Breaks(nl: string)
  {
    forall k :: 0 <= k < |nl| ==> IsBreak(nl[k])
  }

  /** A separator strips to nothing. */
  lemma {:induction false} StripAllBreaks(nl: string)
    requires Breaks(nl)
    ensures StripBreaks(nl) == []
  {
    if nl != [] {
      StripAllBreaks(nl[1..]);
    }
  }

  /** Deleting the inserted separators gives back the text, when it has
      no line breaks of its own. */
  lemma {:induction false} StripFold(s: string, nl: string)
    requires Breaks(nl) && forall k :: 0 <= k < |s| ==> !IsBreak(s[k])
    ensures StripBreaks(Fold(s, nl)) == s
    decreases |s|
  {
    if |s| <= Width {
      StripMeaning(s);
    } else {
      var head, tail := s[..Width], s[Width..];
      StripMeaning(head);
      StripFold(tail, nl);
      StripConcat(head + nl, Fold(tail, nl));
      StripConcat(head, nl);
      StripAllBreaks(nl);
      assert head + tail == s;
    }
  }

  /** Every character of a folding comes from the text or the separator. */
  lemma {:induction false} FoldChars(s: string, nl: string, c: char)
    requires c !in s && c !in nl
    ensures c !in Fold(s, nl)
    decreases |s|
  {
    if |s| > Width {
      assert forall k :: 0 <= k < Width ==> s[..Width][k] == s[k];
      assert forall k :: 0 <= k < |s| - Width ==> s[Width..][k] == s[k + Width];
      FoldChars(s[Width..], nl, c);
    }
  }

  const BeginMarker: string := "-----BEGIN "
  const BeginMarkerSpaced: string := "----- BEGIN "
  const Dashes: string := "-----"
  const EndMarker: string := "-----END"
  const EndMarkerSpaced: string := "----- END"

  /** `Encode`: the upper-cased label in the BEGIN and END lines, the folded
      Base64 text of the content between them, each line ended by `nl`. */
  function Encode(b: Block, nl: string): string
  {
    var name := Upper(b.blockLabel);
    BeginMarker + name + Dashes + nl
    + Fold(Base64.Encode(b.content), nl) + nl
    + "-----END " + name + Dashes + nl
  }

  /** The first of two markers found from `from`: the first marker
      anywhere, otherwise the second. */
  function FindEither(s: string, first: string, second: string, from: nat): (r: Option<nat>)
    ensures r.None? <==> Find(s, first, from).None? && Find(s, second, from).None?
    ensures r.Some? ==> from <= r.value && (MatchAt(s, first, r.value) || MatchAt(s, second, r.value))
  {
    match Find(s, first, from)
    case Some(i) => Some(i)
    case None => Find(s, second, from)
  }

  /** `Decode`: the first BEGIN marker from `startIndex`, or failing that
      the first spaced one; the label starts right after the marker found. */
  function Decode(data: string, startIndex: int, decode: Base64.Decoder): (r: Result<(Block, int)>)
    ensures startIndex < 0 || startIndex > |data| ==> r == Fail(ArgumentOutOfRange)
    ensures 0 <= startIndex <= |data| && FindEither(data, BeginMarker, BeginMarkerSpaced, startIndex).None?
            ==> r == Fail(ArgumentException)
    ensures r.Ok? ==> r.value.1 <= |data| && (r.value.1 == 4 || r.value.1 > startIndex + 16)
    ensures r.Ok? ==> var l := r.value.0.blockLabel;
                      l != [] ==> l[0] != ' ' && l[|l| - 1] != ' '
    ensures r.Fail? ==> r.error == ArgumentException || r.error == ArgumentOutOfRange
  {
    if startIndex < 0 || startIndex > |data| then Fail(ArgumentOutOfRange)
    else
      match Find(data, BeginMarker, startIndex)
      case Some(index) => DecodeLabel(data, index + 11, decode)
      case None =>
        match Find(data, BeginMarkerSpaced, startIndex)
        case Some(index) => DecodeLabel(data, index + 12, decode)
        case None => Fail(ArgumentException)
  }

  /** The label runs from `labelStart` to the next `-----` and is trimmed
      of spaces; without that `-----`, `Substring` gets a negative length. */
  function DecodeLabel(data: string, labelStart: nat, decode: Base64.Decoder): (r: Result<(Block, int)>)
    ensures r.Ok? ==> r.value.1 <= |data| && (r.value.1 == 4 || r.value.1 > labelStart + 5)
    ensures r.Ok? ==> var l := r.value.0.blockLabel;
                      l != [] ==> l[0] != ' ' && l[|l| - 1] != ' '
    ensures r.Fail? ==> r.error == ArgumentException || r.error == ArgumentOutOfRange
  {
    match Find(data, Dashes, labelStart)
    case None => Fail(ArgumentOutOfRange)
    case Some(labelEnd) => DecodeBody(data, labelEnd + 5, TrimSpaces(Substring(data, labelStart, labelEnd - labelStart)), decode)
  }

  /** The body runs from `dataStart` to the END marker (with the spaced form
      as fallback); with its line breaks removed it must decode from
      Base64. The result ends after the `-----` that follows the END
      marker; when none follows, `IndexOf` gives -1 and the result is 4. */
  function DecodeBody(data: string, dataStart: nat, name: string, decode: Base64.Decoder): (r: Result<(Block, int)>)
    ensures r.Ok? ==> r.value.1 <= |data| && (r.value.1 == 4 || r.value.1 > dataStart)
    ensures r.Ok? ==> r.value.0.blockLabel == name
    ensures r.Fail? ==> r.error == ArgumentException
  {
    match FindEither(data, EndMarker, EndMarkerSpaced, dataStart)
    case None => Fail(ArgumentException)
    case Some(dataEnd) => DecodePayload(data, dataStart, dataEnd, name, decode)
  }

  /** The body from `dataStart` to the END marker at `dataEnd`, without its
      line breaks, decoded from Base64; the result ends after the `-----`
      that follows the END marker, or is 4 when `IndexOf` gives -1. */
  function DecodePayload(data: string, dataStart: nat, dataEnd: nat, name: string, decode: Base64.Decoder)
    : (r: Result<(Block, int)>)
    requires dataStart <= dataEnd <= |data|
    ensures r.Ok? ==> r.value.1 == 4 || dataEnd + 4 < r.value.1 <= |data|
    ensures r.Ok? ==> r.value.0.blockLabel == name
    ensures r.Fail? ==> r.error == ArgumentException
  {
    match decode(StripBreaks(Substring(data, dataStart, dataEnd - dataStart)))
    case None => Fail(ArgumentException)
    case Some(content) =>
      var close := Find(data, Dashes, dataEnd + 5);
      Ok((Block(name, content), if close.Some? then close.value + 5 else 4))
  }

  /** `Decode` corrected: an END line without its closing dashes is
      refused like the other missing markers, where the source returns
      `IndexOf` of -1 plus 5. A genuine end lies more than 16 characters
      past the start, so the index 4 only ever comes from that case. */
  function DecodeStrict(data: string, startIndex: int, decode: Base64.Decoder): (r: Result<(Block, int)>)
    ensures r.Ok? ==> startIndex + 16 < r.value.1 <= |data|
    ensures r.Ok? ==> Decode(data, startIndex, decode) == r
    ensures r.Fail? ==> r.error == ArgumentException || r.error == ArgumentOutOfRange
    ensures Decode(data, startIndex, decode).Fail? ==> r == Decode(data, startIndex, decode)
    ensures Decode(data, startIndex, decode).Ok? && Decode(data, startIndex, decode).value.1 != 4
            ==> r == Decode(data, startIndex, decode)
    ensures r.Fail? && Decode(data, startIndex, decode).Ok? ==> Decode(data, startIndex, decode).value.1 == 4
  {
    var d := Decode(data, startIndex, decode);
    if d.Ok? && d.value.1 == 4 then Fail(ArgumentException) else d
  }

  /** A label `Encode` and `Decode` agree on: no run of five `-` and no
      `-` at the end, so that the first `-----` after its start is the
      one closing it, and no space at either end, so that `Trim(' ')`
      keeps it whole. */
  predicate PlainLabel(name: string)
  {
    (forall k: nat :: k + 5 <= |name| ==> !MatchAt(name, Dashes, k))
    && (name != [] ==> name[0] != ' ' && name[|name| - 1] != ' ' && name[|name| - 1] != '-')
  }

  /** A plain label followed by dashes, with no `-` from `from` up to the
      label: the first dashes from `from` are those after the label. */
  lemma LabelDashes(data: string, from: nat, at: nat, name: string)
    requires PlainLabel(name) && MatchAt(data, name, at) && MatchAt(data, Dashes, at + |name|)
    requires from <= at && forall j :: from <= j < at ==> data[j] != '-'
    ensures Find(data, Dashes, from) == Some(at + |name|)
  {
    forall j | from <= j < at + |name|
      ensures !MatchAt(data, Dashes, j)
    {
      if j < at {
        Mismatch(data, Dashes, j, 0);
      } else {
        var k := j - at;
        if k + 5 <= |name| {
          assert !MatchAt(name, Dashes, k);
          var i :| 0 <= i < 5 && name[k + i] != Dashes[i];
          assert data[at + (k + i)] == name[k + i];
          Mismatch(data, Dashes, j, i);
        } else {
          var i := |name| - 1 - k;
          assert data[at + (|name| - 1)] == name[|name| - 1];
          Mismatch(data, Dashes, j, i);
        }
      }
    }
    FindFirst(data, Dashes, from, at + |name|);
  }

  /** Upper-casing keeps a label plain. */
  lemma UpperPlain(name: string)
    requires PlainLabel(name)
    ensures PlainLabel(Upper(name))
  {
    var up := Upper(name);
    forall k: nat | k + 5 <= |up|
      ensures !MatchAt(up, Dashes, k)
    {
      assert !MatchAt(name, Dashes, k);
      var i :| 0 <= i < 5 && name[k + i] != Dashes[i];
      Mismatch(up, Dashes, k, i);
    }
  }

  /** The folded Base64 text and its line breaks: the body between the
      BEGIN and END lines. */
  function Body(b: Block, nl: string): string
  {
    nl + Fold(Base64.Encode(b.content), nl) + nl
  }

  /** The END line up to its closing dashes. */
  function Trailer(name: string): string
  {
    "-----END " + name + Dashes
  }

  /** The encoding without its final separator: the BEGIN line, the body
      and the END line up to its closing dashes. */
  function Framed(b: Block, nl: string): string
  {
    var name := Upper(b.blockLabel);
    BeginMarker + name + Dashes + Body(b, nl) + Trailer(name)
  }

  /** The encoding is the framed block and one separator. */
  lemma EncodeParts(b: Block, nl: string)
    ensures Encode(b, nl) == Framed(b, nl) + nl
  {
  }

  /** Where each piece of a framed block found at `p` sits. */
  lemma {:induction false} FramedLayout(data: string, p: nat, b: Block, nl: string)
    requires MatchAt(data, Framed(b, nl), p)
    ensures var name := Upper(b.blockLabel);
            var n, m := |name|, |Body(b, nl)|;
            MatchAt(data, BeginMarker, p) && MatchAt(data, name, p + 11)
            && MatchAt(data, Dashes, p + 11 + n) && MatchAt(data, Body(b, nl), p + 16 + n)
            && MatchAt(data, Trailer(name), p + 16 + n + m)
            && |Framed(b, nl)| == 30 + n + n + m
  {
    var name := Upper(b.blockLabel);
    var n, m := |name|, |Body(b, nl)|;
    var x0 := BeginMarker + name;
    var x1 := x0 + Dashes;
    var x2 := x1 + Body(b, nl);
    MatchSplit(data, x2, Trailer(name), p);
    MatchSplit(data, x1, Body(b, nl), p);
    MatchSplit(data, x0, Dashes, p);
    MatchSplit(data, BeginMarker, name, p);
  }

  /** Inside the END line: `-----END `, the label, then the closing dashes. */
  lemma {:induction false} TrailerLayout(data: string, q: nat, name: string)
    requires MatchAt(data, Trailer(name), q)
    ensures MatchAt(data, EndMarker, q) && MatchAt(data, "END " + name, q + 5)
            && MatchAt(data, Dashes, q + 9 + |name|)
  {
    assert Trailer(name) == EndMarker + (" " + name + Dashes);
    MatchSplit(data, EndMarker, " " + name + Dashes, q);
    assert Trailer(name) == Dashes + ("END " + name) + Dashes;
    MatchSplit(data, Dashes + ("END " + name), Dashes, q);
    MatchSplit(data, Dashes, "END " + name, q);
  }

  /** The body strips to the Base64 text of the content. */
  lemma BodyStrips(b: Block, nl: string)
    requires Breaks(nl)
    ensures StripBreaks(Body(b, nl)) == Base64.Encode(b.content)
  {
    var t := Base64.Encode(b.content);
    assert forall k :: 0 <= k < |t| ==> !IsBreak(t[k]);
    FramedStrips(t, nl);
  }

  /** Text without line breaks, folded and framed by separators, strips
      back to itself. */
  lemma FramedStrips(t: string, nl: string)
    requires Breaks(nl) && forall k :: 0 <= k < |t| ==> !IsBreak(t[k])
    ensures StripBreaks(nl + Fold(t, nl) + nl) == t
  {
    var f := Fold(t, nl);
    StripFold(t, nl);
    StripAllBreaks(nl);
    StripConcat(nl + f, nl);
    StripConcat(nl, f);
    assert StripBreaks(nl + f + nl) == [] + t + [];
  }

  /** The body holds no `-`. */
  lemma BodyClean(b: Block, nl: string)
    requires Breaks(nl)
    ensures '-' !in Body(b, nl)
  {
    FoldChars(Base64.Encode(b.content), nl, '-');
  }

  /** Decoding finds a block framed at `p` when no `-` lies between the
      start and `p`: it reads back the upper-cased label and the content,
      and ends right after the closing dashes of the END line. */
  lemma {:induction false} DecodeAt(data: string, start: nat, p: nat, b: Block, nl: string, decode: Base64.Decoder)
    requires PlainLabel(b.blockLabel) && Breaks(nl)
    requires decode(Base64.Encode(b.content)) == Some(b.content)
    requires start <= p && MatchAt(data, Framed(b, nl), p)
    requires forall j :: start <= j < p ==> data[j] != '-'
    ensures Decode(data, start, decode)
            == Ok((Block(Upper(b.blockLabel), b.content), p + |Framed(b, nl)|))
  {
    hide Decode, Body, Framed, MatchAt, StripBreaks, Upper, PlainLabel, Breaks;
    var name, body := Upper(b.blockLabel), Body(b, nl);
    UpperPlain(b.blockLabel);
    FramedLayout(data, p, b, nl);
    assert decode(StripBreaks(Substring(data, p + 16 + |name|, |body|))) == Some(b.content) by {
      BodyStrips(b, nl);
      SubstringMatch(data, body, p + 16 + |name|);
    }
    BodyClean(b, nl);
    DecodeParts(data, start, p, name, body, b.content, decode);
  }

  /** The same, for a block given by its pieces: the BEGIN marker at `p`,
      the label, the dashes, the body and the END line. */
  lemma {:induction false} DecodeParts(data: string, start: nat, p: nat, name: string, body: string,
                                       content: seq<byte>, decode: Base64.Decoder)
    requires PlainLabel(name) && '-' !in body
    requires MatchAt(data, BeginMarker, p) && MatchAt(data, name, p + 11)
    requires MatchAt(data, Dashes, p + 11 + |name|) && MatchAt(data, body, p + 16 + |name|)
    requires MatchAt(data, Trailer(name), p + 16 + |name| + |body|)
    requires start <= p && forall j :: start <= j < p ==> data[j] != '-'
    requires decode(StripBreaks(Substring(data, p + 16 + |name|, |body|))) == Some(content)
    ensures Decode(data, start, decode) == Ok((Block(name, content), p + 30 + |name| + |name| + |body|))
  {
    hide Decode, DecodeLabel, DecodeBody;
    BeginStep(data, start, p, decode);
    LabelStep(data, p + 11, name, decode);
    BodyStep(data, p + 11 + |name| + 5, name, body, content, decode);
  }

  /** The BEGIN marker at `p`, with no `-` before it: the label starts
      right after the marker. */
  lemma {:induction false} BeginStep(data: string, start: nat, p: nat, decode: Base64.Decoder)
    requires MatchAt(data, BeginMarker, p)
    requires start <= p && forall j :: start <= j < p ==> data[j] != '-'
    ensures Decode(data, start, decode) == DecodeLabel(data, p + 11, decode)
  {
    hide DecodeLabel;
    FindClean(data, BeginMarker, start, p);
  }

  /** A plain label followed by dashes: it is read back whole, and the
      body starts after the dashes. */
  lemma {:induction false} LabelStep(data: string, labelStart: nat, name: string, decode: Base64.Decoder)
    requires PlainLabel(name) && MatchAt(data, name, labelStart)
    requires MatchAt(data, Dashes, labelStart + |name|)
    ensures DecodeLabel(data, labelStart, decode) == DecodeBody(data, labelStart + |name| + 5, name, decode)
  {
    hide DecodeBody;
    var labelEnd := labelStart + |name|;
    assert Find(data, Dashes, labelStart) == Some(labelEnd) by {
      LabelDashes(data, labelStart, labelStart, name);
    }
    assert TrimSpaces(Substring(data, labelStart, |name|)) == name by {
      SubstringMatch(data, name, labelStart);
      TrimSpacesUnchanged(name);
    }
  }

  /** A body without `-` followed by the END line: the body decodes to the
      content and decoding ends after the END line's closing dashes. */
  lemma {:induction false} BodyStep(data: string, q: nat, name: string, body: string, content: seq<byte>,
                                    decode: Base64.Decoder)
    requires PlainLabel(name) && '-' !in body
    requires MatchAt(data, body, q) && MatchAt(data, Trailer(name), q + |body|)
    requires decode(StripBreaks(Substring(data, q, |body|))) == Some(content)
    ensures DecodeBody(data, q, name, decode) == Ok((Block(name, content), q + |body| + 14 + |name|))
  {
    var e := q + |body|;
    var close := e + 9 + |name|;
    BodyMarkers(data, q, e, close, name, body);
  }

  /** The END marker after the body, and the dashes closing the END line. */
  lemma {:induction false} BodyMarkers(data: string, q: nat, e: nat, close: nat, name: string, body: string)
    requires PlainLabel(name) && '-' !in body
    requires e == q + |body| && close == e + 9 + |name|
    requires MatchAt(data, body, q) && MatchAt(data, Trailer(name), e)
    ensures FindEither(data, EndMarker, EndMarkerSpaced, q) == Some(e)
    ensures Find(data, Dashes, e + 5) == Some(close)
  {
    TrailerLayout(data, e, name);
    assert Find(data, EndMarker, q) == Some(e) by {
      MatchNoChar(data, body, q, '-');
      FindClean(data, EndMarker, q, e);
    }
    assert Find(data, Dashes, e + 5) == Some(close) by {
      MatchSplit(data, "END ", name, e + 5);
      MatchNoChar(data, "END ", e + 5, '-');
      LabelDashes(data, e + 5, e + 9, name);
    }
  }

  /** Round trip: a block with a plain label comes back from its encoding,
      whatever follows it, with its label upper-cased; decoding ends just
      before the final separator. */
  lemma {:induction false} RoundTrip(b: Block, nl: string, rest: string, decode: Base64.Decoder)
    requires PlainLabel(b.blockLabel) && Breaks(nl)
    requires decode(Base64.Encode(b.content)) == Some(b.content)
    ensures Decode(Encode(b, nl) + rest, 0, decode)
            == Ok((Block(Upper(b.blockLabel), b.content), |Encode(b, nl)| - |nl|))
  {
    hide Decode, Encode, Framed, Body, MatchAt;
    EncodeParts(b, nl);
    assert Encode(b, nl) + rest == Framed(b, nl) + (nl + rest);
    MatchPrefix(Framed(b, nl), nl + rest);
    DecodeAt(Encode(b, nl) + rest, 0, 0, b, nl, decode);
  }
}

=== FILE: pem_der.dfy ===
/** `PEMBlockDER` and `PEMSuperBlockDER` (PEM/PEMBlockDER.cs,
    PEM/PEMSuperBlockDER.cs): PEM blocks whose content is one DER SEQUENCE,
    read with the source's sequence decoder, and series of such blocks. */
module PemDer {
  import opened Common
  import opened Text
  import Base64
  import PemBlock
  import PemSuperBlock
  import Lists
  import Der
  import DerTag

  /** A `PEMBlockDER`: the label, the `Content` octets (`null` until set by
      the block constructor, `Encode` or `Decode`) and the field behind
      `ContentDER` (`null` until set or first read). */
  datatype BlockDer = BlockDer(blockLabel: string, content: Option<seq<byte>>, contentDer: Option<Der.Node>)

  /** `new PEMBlockDER(label, der)`. */
  function NewBlockDer(name: string, der: Der.Node): BlockDer
  {
    BlockDer(name, None, Some(der))
  }

  /** `new PEMBlockDER(block)`: label and content copied, the content read
      as a DER SEQUENCE, which must succeed. */
  function FromBlock(b: PemBlock.Block): (r: Result<BlockDer>)
    ensures r.Ok? <==> Der.DecodeSequence(b.content, 0, false).Ok?
    ensures r.Ok? ==> r.value.blockLabel == b.blockLabel && r.value.content == Some(b.content)
                      && r.value.contentDer == Some(Der.DecodeSequence(b.content, 0, false).value.0)
  {
    var decoded :- Der.DecodeSequence(b.content, 0, false);
    Ok(BlockDer(b.blockLabel, Some(b.content), Some(decoded.0)))
  }

  /** The `ContentDER` getter: the field when set; otherwise `Content` read
      as a DER SEQUENCE, which the field then keeps. Reading a `null`
      `Content` throws. */
  function ContentDer(b: BlockDer): (r: Result<(Der.Node, BlockDer)>)
    ensures r.Ok? ==> r.value.1 == b.(contentDer := Some(r.value.0))
    ensures b.contentDer.Some? ==> r == Ok((b.contentDer.value, b))
    ensures b.contentDer.None? && b.content.None? ==> r == Fail(NullReference)
  {
    match b.contentDer
    case Some(n) => Ok((n, b))
    case None =>
      match b.content
      case None => Fail(NullReference)
      case Some(c) =>
        var decoded :- Der.DecodeSequence(c, 0, false);
        Ok((decoded.0, b.(contentDer := Some(decoded.0))))
  }

  /** The PEM block a DER block stands for once it has content. */
  function Plain(b: BlockDer): PemBlock.Block
    requires b.content.Some?
  {
    PemBlock.Block(b.blockLabel, b.content.value)
  }

  /** `Encode`: `Content` becomes the DER encoding of `ContentDER`, then the
      block is encoded as a plain PEM block; the block as the call leaves
      it comes along. */
  function Encode(b: BlockDer, nl: string): (r: Result<(string, BlockDer)>)
    ensures r.Ok? ==> r.value.1.blockLabel == b.blockLabel && r.value.1.content.Some?
                      && r.value.1.contentDer.Some?
                      && r.value.0 == PemBlock.Encode(Plain(r.value.1), nl)
    ensures r.Ok? <==> ContentDer(b).Ok? && Der.Encode(ContentDer(b).value.0).Ok?
    ensures r.Ok? ==> r.value.1.content == Some(Der.Encode(ContentDer(b).value.0).value.0)
                      && r.value.1.contentDer == Some(Der.Encode(ContentDer(b).value.0).value.1)
    ensures ContentDer(b).Fail? ==> r == Fail(ContentDer(b).error)
    ensures ContentDer(b).Ok? && Der.Encode(ContentDer(b).value.0).Fail?
            ==> r == Fail(Der.Encode(ContentDer(b).value.0).error)
  {
    var der :- ContentDer(b);
    var encoded :- Der.Encode(der.0);
    var after := BlockDer(b.blockLabel, Some(encoded.0), Some(encoded.1));
    Ok((PemBlock.Encode(Plain(after), nl), after))
  }

  /** What `Encode` means: it succeeds exactly when `ContentDER` can be
      read and every tag in it has identifier octets and the encoding
      fits an `int`; the content then becomes the reference encoding of
      the SEQUENCE, which keeps its encoded state, and the text is that
      of the plain block. */
  lemma EncodeMeaning(b: BlockDer, nl: string)
    ensures var d := ContentDer(b);
            Encode(b, nl).Ok? <==> d.Ok? && Der.Identified(d.value.0) && |Der.Serialize(d.value.0)| < TwoTo31
    ensures var d := ContentDer(b);
            Encode(b, nl).Ok? ==>
              var after := BlockDer(b.blockLabel, Some(Der.Serialize(d.value.0)), Some(Der.Normal(d.value.0)));
              Encode(b, nl) == Ok((PemBlock.Encode(PemBlock.Block(b.blockLabel, Der.Serialize(d.value.0)), nl), after))
  {
    var d := ContentDer(b);
    if d.Ok? {
      Der.EncodeMeaning(d.value.0);
    }
  }

  /** `Decode`: the block read as a plain PEM block, then its content read
      as a DER SEQUENCE; either failure is the call's. */
  function Decode(data: string, startIndex: int, decode: Base64.Decoder): (r: Result<(BlockDer, int)>)
    ensures r.Ok? ==> r.value.0.content.Some? && r.value.0.contentDer.Some?
    ensures r.Ok? ==> PemBlock.Decode(data, startIndex, decode) == Ok((Plain(r.value.0), r.value.1))
    ensures r.Ok? ==> r.value.1 <= |data| && (r.value.1 == 4 || r.value.1 > startIndex + 16)
  {
    var block :- PemBlock.Decode(data, startIndex, decode);
    var der :- Der.DecodeSequence(block.0.content, 0, false);
    Ok((BlockDer(block.0.blockLabel, Some(block.0.content), Some(der.0)), block.1))
  }

  /** A well-tagged, identified SEQUENCE encodes to its reference encoding,
      and the sequence decoder reads that back as the encoded state. */
  lemma SequenceReadsBack(n: Der.Node)
    requires n.Sequence? && Der.WellTagged(n) && Der.Identified(n) && |Der.Serialize(n)| < TwoTo31
    ensures Der.Encode(n) == Ok((Der.Serialize(n), Der.Normal(n)))
    ensures Der.DecodeSequence(Der.Serialize(n), 0, false) == Ok((Der.Normal(n), |Der.Serialize(n)|))
  {
    var e := Der.Serialize(n);
    Der.EncodeMeaning(n);
    assert e[0 .. |e|] == e;
    Der.RoundTrip(n, e, 0, |e|, false);
    Der.TagAt(n.tag, e, 0);
    Der.FromEncodedDispatch(e, 0, false);
  }

  /** Round trip: a DER block made from a label and a SEQUENCE comes back
      from its encoding, whatever follows it: the label upper-cased, the
      content octets and the SEQUENCE as encoding left them. */
  lemma RoundTrip(name: string, n: Der.Node, nl: string, rest: string, decode: Base64.Decoder)
    requires PemBlock.PlainLabel(name) && PemBlock.Breaks(nl)
    requires n.Sequence? && Der.WellTagged(n) && Der.Identified(n) && |Der.Serialize(n)| < TwoTo31
    requires decode(Base64.Encode(Der.Serialize(n))) == Some(Der.Serialize(n))
    ensures Encode(NewBlockDer(name, n), nl).Ok?
    ensures var enc := Encode(NewBlockDer(name, n), nl).value;
            enc.1 == BlockDer(name, Some(Der.Serialize(n)), Some(Der.Normal(n)))
            && Decode(enc.0 + rest, 0, decode)
               == Ok((BlockDer(PemBlock.Upper(name), Some(Der.Serialize(n)), Some(Der.Normal(n))), |enc.0| - |nl|))
  {
    SequenceReadsBack(n);
    PemBlock.RoundTrip(PemBlock.Block(name, Der.Serialize(n)), nl, rest, decode);
  }

  /** A `PEMSuperBlockDER`: its own list of DER blocks, which hides the
      inherited `Blocks`; the constructors set the inherited list to
      `null`. */
  datatype SuperBlockDer = SuperBlockDer(blocks: seq<BlockDer>, baseBlocks: Option<seq<PemBlock.Block>>)

  /** `new PEMSuperBlockDER(blocks)`; the constructor without arguments
      gives an empty list. */
  function NewSuperBlockDer(blocks: seq<BlockDer>): SuperBlockDer
  {
    SuperBlockDer(blocks, None)
  }

  /** The encodings of the blocks, each followed by a separator, and the
      blocks as their `Encode` calls leave them. */
  function EncodeAll(blocks: seq<BlockDer>, nl: string): (r: Result<(string, seq<BlockDer>)>)
    ensures r.Ok? ==> |r.value.1| == |blocks|
    ensures r.Ok? ==> forall i :: 0 <= i < |blocks| ==> r.value.1[i].content.Some?
  {
    if blocks == [] then Ok(([], []))
    else
      var first :- Encode(blocks[0], nl);
      var others :- EncodeAll(blocks[1..], nl);
      Ok((first.0 + nl + others.0, [first.1] + others.1))
  }

  /** `Encode` of the super block: as for plain blocks, the accumulated
      encodings without the final separator; `Remove` throws when there is
      no block. */
  function EncodeSuper(sb: SuperBlockDer, nl: string): (r: Result<(string, SuperBlockDer)>)
    ensures sb.blocks == [] && nl != [] ==> r == Fail(ArgumentOutOfRange)
    ensures r.Ok? ==> |r.value.1.blocks| == |sb.blocks| && r.value.1.baseBlocks == sb.baseBlocks
  {
    var all :- EncodeAll(sb.blocks, nl);
    if |all.0| < |nl| then Fail(ArgumentOutOfRange)
    else Ok((Remove(all.0, |all.0| - |nl|, |nl|), sb.(blocks := all.1)))
  }

  /** The plain PEM blocks under a list of DER blocks with content. */
  function PlainAll(blocks: seq<BlockDer>): (r: seq<PemBlock.Block>)
    requires forall i :: 0 <= i < |blocks| ==> blocks[i].content.Some?
    ensures |r| == |blocks|
  {
    if blocks == [] then [] else [Plain(blocks[0])] + PlainAll(blocks[1..])
  }

  /** The DER blocks encode as the plain blocks they leave behind. */
  lemma {:induction false} EncodeAllPlain(blocks: seq<BlockDer>, nl: string)
    requires EncodeAll(blocks, nl).Ok?
    ensures var r := EncodeAll(blocks, nl).value;
            r.0 == PemSuperBlock.Joined(PlainAll(r.1), nl)
  {
    if blocks != [] {
      EncodeAllPlain(blocks[1..], nl);
      var r := EncodeAll(blocks, nl).value;
      assert PlainAll(r.1)[1..] == PlainAll(r.1[1..]);
    }
  }

  /** Encoding a DER super block writes what encoding the plain super
      block of the resulting blocks writes. */
  lemma EncodeSuperPlain(sb: SuperBlockDer, nl: string)
    requires EncodeSuper(sb, nl).Ok?
    ensures var r := EncodeSuper(sb, nl).value;
            PemSuperBlock.Encode(PemSuperBlock.SuperBlock(PlainAll(r.1.blocks)), nl) == Ok(r.0)
  {
    hide PemSuperBlock.Joined, PemBlock.Encode, EncodeAll, PlainAll;
    EncodeAllPlain(sb.blocks, nl);
  }

  /** `Decode` of the super block: the plain scan, with each block read as
      a DER block and added to the DER list. */
  function DecodeSuper(sb: SuperBlockDer, data: string, startIndex: int, decode: Base64.Decoder)
    : (r: Result<(SuperBlockDer, int)>)
    ensures startIndex < 0 || startIndex > |data| ==> r == Fail(ArgumentOutOfRange)
    ensures r.Ok? ==> sb.blocks <= r.value.0.blocks && r.value.0.baseBlocks == sb.baseBlocks
    ensures r.Ok? ==> 0 <= r.value.1 <= |data|
                      && PemBlock.FindEither(data, PemSuperBlock.BlockStart, PemSuperBlock.BlockStartSpaced, r.value.1).None?
  {
    if startIndex < 0 || startIndex > |data| then Fail(ArgumentOutOfRange)
    else
      var scanned :- ScanDer(data, startIndex, false, sb.blocks, decode);
      Ok((sb.(blocks := scanned.0), scanned.1))
  }

  /** The scanning loop of `PEMSuperBlockDER.Decode`, the same as the plain
      one, `Diverges` included. */
  function ScanDer(data: string, blockEnd: nat, jumped: bool, blocks: seq<BlockDer>, decode: Base64.Decoder)
    : (r: Result<(seq<BlockDer>, int)>)
    requires blockEnd <= |data|
    decreases if jumped then 0 else 1, |data| - blockEnd
    ensures r.Ok? ==> blocks <= r.value.0
    ensures r.Ok? ==> 0 <= r.value.1 <= |data|
                      && PemBlock.FindEither(data, PemSuperBlock.BlockStart, PemSuperBlock.BlockStartSpaced, r.value.1).None?
  {
    match PemBlock.FindEither(data, PemSuperBlock.BlockStart, PemSuperBlock.BlockStartSpaced, blockEnd)
    case None => Ok((blocks, blockEnd))
    case Some(blockStart) =>
      var decoded :- Decode(data, blockStart, decode);
      var end := decoded.1;
      if end != 4 then ScanDer(data, end, jumped, blocks + [decoded.0], decode)
      else if jumped then Fail(Diverges)
      else ScanDer(data, 4, true, blocks + [decoded.0], decode)
  }

  /** Every block of a list has content. */
  predicate AllContent(blocks: seq<BlockDer>)
  {
    forall i :: 0 <= i < |blocks| ==> blocks[i].content.Some?
  }

  /** What the DER scan reads, the plain scan reads too: the same plain
      blocks, ending at the same index. */
  lemma {:induction false} ScanDerPlain(data: string, blockEnd: nat, jumped: bool, blocks: seq<BlockDer>,
                                        decode: Base64.Decoder)
    requires blockEnd <= |data| && AllContent(blocks)
    requires ScanDer(data, blockEnd, jumped, blocks, decode).Ok?
    ensures var r := ScanDer(data, blockEnd, jumped, blocks, decode).value;
            AllContent(r.0)
            && PemSuperBlock.Scan(data, blockEnd, jumped, PlainAll(blocks), decode, false)
               == Ok((PemSuperBlock.SuperBlock(PlainAll(r.0)), r.1))
    decreases if jumped then 0 else 1, |data| - blockEnd
  {
    match PemBlock.FindEither(data, PemSuperBlock.BlockStart, PemSuperBlock.BlockStartSpaced, blockEnd)
    case None =>
    case Some(blockStart) =>
      var decoded := Decode(data, blockStart, decode).value;
      var more := blocks + [decoded.0];
      assert AllContent(more);
      PlainSnoc(blocks, decoded.0);
      if decoded.1 != 4 {
        ScanDerPlain(data, decoded.1, jumped, more, decode);
      } else {
        ScanDerPlain(data, 4, true, more, decode);
      }
  }

  /** Adding a block at the end adds its plain block at the end. */
  lemma {:induction false} PlainSnoc(blocks: seq<BlockDer>, b: BlockDer)
    requires AllContent(blocks) && b.content.Some?
    ensures AllContent(blocks + [b]) && PlainAll(blocks + [b]) == PlainAll(blocks) + [Plain(b)]
    decreases |blocks|
  {
    assert AllContent(blocks + [b]);
    if blocks != [] {
      assert (blocks + [b])[1..] == blocks[1..] + [b];
      PlainSnoc(blocks[1..], b);
    }
  }

  /** Decoding a DER super block reads the plain blocks decoding the plain
      super block reads, from the same text to the same index. */
  lemma DecodeSuperPlain(sb: SuperBlockDer, data: string, startIndex: int, decode: Base64.Decoder)
    requires AllContent(sb.blocks) && DecodeSuper(sb, data, startIndex, decode).Ok?
    ensures var r := DecodeSuper(sb, data, startIndex, decode).value;
            AllContent(r.0.blocks)
            && PemSuperBlock.Decode(PemSuperBlock.SuperBlock(PlainAll(sb.blocks)), data, startIndex, decode)
               == Ok((PemSuperBlock.SuperBlock(PlainAll(r.0.blocks)), r.1))
  {
    ScanDerPlain(data, startIndex, false, sb.blocks, decode);
  }

  /** `IndexOf` over the DER list: the first block labelled with the
      upper-cased label asked for, or -1. */
  function IndexOf(sb: SuperBlockDer, wanted: string): (r: int)
    ensures -1 <= r < |sb.blocks|
    ensures r >= 0 ==> sb.blocks[r].blockLabel == PemBlock.Upper(wanted)
                       && forall i :: 0 <= i < r ==> sb.blocks[i].blockLabel != PemBlock.Upper(wanted)
    ensures r == -1 <==> forall i :: 0 <= i < |sb.blocks| ==> sb.blocks[i].blockLabel != PemBlock.Upper(wanted)
  {
    match Lists.FirstIndex(sb.blocks, (b: BlockDer) => b.blockLabel == PemBlock.Upper(wanted))
    case None => -1
    case Some(i) => i
  }

  /** `FindBlock` over the DER list. */
  function FindBlock(sb: SuperBlockDer, wanted: string): (r: Option<BlockDer>)
    ensures r.Some? ==> r.value in sb.blocks && r.value.blockLabel == PemBlock.Upper(wanted)
    ensures r.None? <==> forall b :: b in sb.blocks ==> b.blockLabel != PemBlock.Upper(wanted)
  {
    var index := IndexOf(sb, wanted);
    if index != -1 then Some(sb.blocks[index]) else None
  }

  /** `IndexOf` called through a `PEMSuperBlock` reference: `new` hides
      rather than overrides, so the inherited method runs on the inherited
      list. */
  function BaseIndexOf(sb: SuperBlockDer, wanted: string): (r: Result<int>)
    ensures sb.baseBlocks.None? <==> r == Fail(NullReference)
    ensures r.Ok? ==> r.value == PemSuperBlock.IndexOf(PemSuperBlock.SuperBlock(sb.baseBlocks.value), wanted)
  {
    match sb.baseBlocks
    case None => Fail(NullReference)
    case Some(bs) => Ok(PemSuperBlock.IndexOf(PemSuperBlock.SuperBlock(bs), wanted))
  }

  /** Whatever DER blocks a super block holds and whatever its own lookup
      finds, the inherited lookup throws: the constructors leave the
      inherited list `null`, and decoding never sets it. */
  lemma BaseLookupThrows(blocks: seq<BlockDer>, data: string, startIndex: int, decode: Base64.Decoder,
                         wanted: string)
    ensures BaseIndexOf(NewSuperBlockDer(blocks), wanted) == Fail(NullReference)
    ensures var r := DecodeSuper(NewSuperBlockDer(blocks), data, startIndex, decode);
            r.Ok? ==> BaseIndexOf(r.value.0, wanted) == Fail(NullReference)
  {
  }
}

=== FILE: pem_examples.dfy ===
/** The PEM examples of the repository's tests (Tests/PemTests.cs): a DER
    block labelled TEST holding the SEQUENCE of an INTEGER, a BOOLEAN and a
    NULL, encoded and decoded again; and a block whose END line lacks its
    closing dashes. The line separator is "\n". */
module PemExamples {
  import opened Common
  import opened Text
  import Base64
  import PemBlock
  import PemSuperBlock
  import PemDer
  import Der
  import DerExamples

  /** The text of the test:
      `"-----BEGIN TEST-----\nMAsCBAAAAAEBAQEFAA==\n-----END TEST-----\n"`. */
  const Test: string := PemBlock.BeginMarker + "TEST" + PemBlock.Dashes + "\n" + "MAsCBAAAAAEBAQEFAA=="
                        + "\n" + "-----END " + "TEST" + PemBlock.Dashes + "\n"

  /** A piece of a concatenation matches where it sits. */
  lemma MatchIn(pre: string, x: string, post: string)
    ensures MatchAt(pre + x + post, x, |pre|)
  {
  }

  /** One step of Base64: three octets, then the rest. */
  lemma Base64Step(b: seq<byte>, head: seq<byte>, tail: seq<byte>)
    requires b == head + tail && |head| == 3 && tail != []
    ensures Base64.Encode(b) == Base64.Group(head) + Base64.Encode(tail)
  {
    assert b[..3] == head && b[3..] == tail;
  }

  lemma GroupMAsC()
    ensures Base64.Group([0x30, 11, 2]) == "MAsC"
  {
    assert Base64.Char(12) == 'M' && Base64.Char(0) == 'A' && Base64.Char(44) == 's' && Base64.Char(2) == 'C';
    var b: seq<byte> := [0x30, 11, 2];
    assert b[0] / 4 == 12 && b[0] % 4 * 16 + b[1] / 16 == 0 && b[1] % 16 * 4 + b[2] / 64 == 44 && b[2] % 64 == 2;
  }

  lemma GroupBAAA()
    ensures Base64.Group([4, 0, 0]) == "BAAA"
  {
    assert Base64.Char(1) == 'B' && Base64.Char(0) == 'A';
    var b: seq<byte> := [4, 0, 0];
    assert b[0] / 4 == 1 && b[0] % 4 * 16 + b[1] / 16 == 0 && b[1] % 16 * 4 + b[2] / 64 == 0 && b[2] % 64 == 0;
  }

  lemma GroupAAEB()
    ensures Base64.Group([0, 1, 1]) == "AAEB"
  {
    assert Base64.Char(0) == 'A' && Base64.Char(4) == 'E' && Base64.Char(1) == 'B';
    var b: seq<byte> := [0, 1, 1];
    assert b[0] / 4 == 0 && b[0] % 4 * 16 + b[1] / 16 == 0 && b[1] % 16 * 4 + b[2] / 64 == 4 && b[2] % 64 == 1;
  }

  lemma GroupAQEF()
    ensures Base64.Group([1, 1, 5]) == "AQEF"
  {
    assert Base64.Char(0) == 'A' && Base64.Char(16) == 'Q' && Base64.Char(4) == 'E' && Base64.Char(5) == 'F';
    var b: seq<byte> := [1, 1, 5];
    assert b[0] / 4 == 0 && b[0] % 4 * 16 + b[1] / 16 == 16 && b[1] % 16 * 4 + b[2] / 64 == 4 && b[2] % 64 == 5;
  }

  lemma GroupAA()
    ensures Base64.Encode([0]) == "AA=="
  {
    assert Base64.Char(0) == 'A';
    var b: seq<byte> := [0];
    assert b[0] / 4 == 0 && b[0] % 4 * 16 + 0 / 16 == 0;
  }

  lemma Tail4()
    ensures Base64.Encode([1, 1, 5, 0]) == "AQEFAA=="
  {
    hide Base64.Encode, Base64.Group;
    Base64Step([1, 1, 5, 0], [1, 1, 5], [0]);
    GroupAQEF();
    GroupAA();
  }

  lemma Tail7()
    ensures Base64.Encode([0, 1, 1, 1, 1, 5, 0]) == "AAEBAQEFAA=="
  {
    hide Base64.Encode, Base64.Group;
    Base64Step([0, 1, 1, 1, 1, 5, 0], [0, 1, 1], [1, 1, 5, 0]);
    GroupAAEB();
    Tail4();
  }

  lemma Tail10()
    ensures Base64.Encode([4, 0, 0, 0, 1, 1, 1, 1, 5, 0]) == "BAAAAAEBAQEFAA=="
  {
    hide Base64.Encode, Base64.Group;
    Base64Step([4, 0, 0, 0, 1, 1, 1, 1, 5, 0], [4, 0, 0], [0, 1, 1, 1, 1, 5, 0]);
    GroupBAAA();
    Tail7();
  }

  /** The thirteen octets of the DER example in Base64. */
  lemma ExampleBase64()
    ensures Base64.Encode(DerExamples.ExampleOctets) == "MAsCBAAAAAEBAQEFAA=="
  {
    hide Base64.Encode, Base64.Group;
    Base64Step(DerExamples.ExampleOctets, [0x30, 11, 2], [4, 0, 0, 0, 1, 1, 1, 1, 5, 0]);
    GroupMAsC();
    Tail10();
  }

  /** A text of at most 64 characters is one line. */
  lemma FoldShort(s: string, nl: string)
    requires |s| <= PemBlock.Width
    ensures PemBlock.Fold(s, nl) == s
  {
  }

  /** The label is upper-case already. */
  lemma UpperTest()
    ensures PemBlock.Upper("TEST") == "TEST"
  {
    var r := PemBlock.Upper("TEST");
    assert forall k :: 0 <= k < 4 ==> r[k] == "TEST"[k];
  }

  /** The plain block of the example encodes to the text of the test. */
  lemma ExampleEncoding()
    ensures PemBlock.Encode(PemBlock.Block("TEST", DerExamples.ExampleOctets), "\n") == Test
  {
    hide Base64.Encode, PemBlock.Upper, PemBlock.Fold;
    var e := "MAsCBAAAAAEBAQEFAA==";
    ExampleBase64();
    UpperTest();
    FoldShort(e, "\n");
  }

  /** Serialization: the DER block labelled TEST encodes to the text of the
      test, and encoding leaves the octets as its content and the SEQUENCE
      with its length 11 recorded. */
  lemma Serialization()
    ensures PemDer.Encode(PemDer.NewBlockDer("TEST", DerExamples.Example), "\n")
            == Ok((Test, PemDer.BlockDer("TEST", Some(DerExamples.ExampleOctets),
                                         Some(Der.Sequence(DerExamples.Example.tag, 11, DerExamples.Example.children)))))
  {
    hide PemBlock.Encode, Der.Encode;
    DerExamples.SequenceEncoding();
    ExampleEncoding();
  }

  /** Deserialization as plain block: the label TEST and the thirteen
      octets, ending at 60. */
  lemma DeserializationPlain()
    ensures PemBlock.Decode(Test, 0, Base64.Decode)
            == Ok((PemBlock.Block("TEST", DerExamples.ExampleOctets), 60))
  {
    hide PemBlock.Decode, PemBlock.Encode, Base64.Encode, Base64.Decode, PemBlock.Upper;
    var octets := DerExamples.ExampleOctets;
    ExampleEncoding();
    UpperTest();
    Base64.RoundTrip(octets);
    assert Test + "" == Test;
    PemBlock.RoundTrip(PemBlock.Block("TEST", octets), "\n", "", Base64.Decode);
  }

  /** Deserialization as DER block: the octets are read as the SEQUENCE. */
  lemma DeserializationDer()
    ensures PemDer.Decode(Test, 0, Base64.Decode)
            == Ok((PemDer.BlockDer("TEST", Some(DerExamples.ExampleOctets),
                                   Some(Der.Sequence(DerExamples.Example.tag, 11, DerExamples.Example.children))), 60))
  {
    hide PemDer.Decode, PemDer.Encode, Base64.Encode, Base64.Decode, PemBlock.Upper, Der.Serialize, Der.Normal;
    DerExamples.ExampleSerialized();
    Serialization();
    UpperTest();
    Base64.RoundTrip(DerExamples.ExampleOctets);
    assert Test + "" == Test;
    PemDer.RoundTrip("TEST", DerExamples.Example, "\n", "", Base64.Decode);
  }

  /** Deserialization: the text decodes as plain block and as DER block,
      and the octets decode as DER up to 13. */
  lemma Deserialization()
    ensures PemBlock.Decode(Test, 0, Base64.Decode)
            == Ok((PemBlock.Block("TEST", DerExamples.ExampleOctets), 60))
    ensures PemDer.Decode(Test, 0, Base64.Decode)
            == Ok((PemDer.BlockDer("TEST", Some(DerExamples.ExampleOctets),
                                   Some(Der.Sequence(DerExamples.Example.tag, 11, DerExamples.Example.children))), 60))
    ensures Der.FromEncoded(DerExamples.ExampleOctets, 0, false)
            == Ok((Der.Sequence(DerExamples.Example.tag, 11, DerExamples.Example.children), 13))
  {
    hide PemBlock.Decode, PemDer.Decode, Der.FromEncoded;
    DeserializationPlain();
    DeserializationDer();
    DerExamples.SequenceDecoding();
  }

  /** A block at 4 whose END line has no closing dashes:
      `"    -----BEGIN A-----\n-----END A"`. */
  const Undashed: string := "    " + PemBlock.BeginMarker + "A" + PemBlock.Dashes + "\n" + PemBlock.EndMarker + " A"

  /** The last piece of a concatenation matches where it starts. */
  lemma MatchEnd(pre: string, x: string)
    ensures MatchAt(pre + x, x, |pre|)
  {
  }

  /** A match survives appending. */
  lemma MatchExtend(s: string, x: string, k: nat, t: string)
    requires MatchAt(s, x, k)
    ensures MatchAt(s + t, x, k)
  {
  }

  /** The pieces of a text laid out like that one. */
  predicate Shaped(w: string)
  {
    |w| == 32 && (forall j :: 0 <= j < 4 ==> w[j] == ' ')
    && MatchAt(w, PemBlock.BeginMarker, 4) && MatchAt(w, "A", 15)
    && MatchAt(w, PemBlock.Dashes, 16) && MatchAt(w, "\n", 21)
    && MatchAt(w, PemBlock.EndMarker, 22) && w[27] == 'E'
  }

  /** Where the pieces of that text sit: spaces up to 4, the BEGIN marker
      at 4, the label at 15, the dashes at 16, the line break at 21, the
      END marker at 22, and no dashes from 27 on. */
  lemma UndashedLayout()
    ensures Shaped(Undashed)
  {
    var begin, dashes, end := PemBlock.BeginMarker, PemBlock.Dashes, PemBlock.EndMarker;
    var p1 := "    " + begin;
    var p2 := p1 + "A";
    var p3 := p2 + dashes;
    var p4 := p3 + "\n";
    var p5 := p4 + end;
    MatchEnd("    ", begin);
    MatchExtend(p1, begin, 4, "A");
    MatchExtend(p2, begin, 4, dashes);
    MatchExtend(p3, begin, 4, "\n");
    MatchExtend(p4, begin, 4, end);
    MatchExtend(p5, begin, 4, " A");
    MatchEnd(p1, "A");
    MatchExtend(p2, "A", 15, dashes);
    MatchExtend(p3, "A", 15, "\n");
    MatchExtend(p4, "A", 15, end);
    MatchExtend(p5, "A", 15, " A");
    MatchEnd(p2, dashes);
    MatchExtend(p3, dashes, 16, "\n");
    MatchExtend(p4, dashes, 16, end);
    MatchExtend(p5, dashes, 16, " A");
    MatchEnd(p3, "\n");
    MatchExtend(p4, "\n", 21, end);
    MatchExtend(p5, "\n", 21, " A");
    MatchEnd(p4, end);
    MatchExtend(p5, end, 22, " A");
  }

  /** In such a text the END marker from 21 is the one at 22. */
  lemma EndAt(w: string)
    requires Shaped(w)
    ensures PemBlock.FindEither(w, PemBlock.EndMarker, PemBlock.EndMarkerSpaced, 21) == Some(22)
  {
    assert w[21] == "\n"[0];
    FindClean(w, PemBlock.EndMarker, 21, 22);
  }

  /** The body is the line break alone, which decodes to no octets. */
  lemma EmptyBody(w: string)
    requires Shaped(w)
    ensures Base64.Decode(PemBlock.StripBreaks(Substring(w, 21, 1))) == Some([])
  {
    SubstringMatch(w, "\n", 21);
    assert PemBlock.StripBreaks("\n") == [];
  }

  /** No dashes follow the END marker. */
  lemma NoCloseAt(w: string)
    requires Shaped(w)
    ensures Find(w, PemBlock.Dashes, 27) == None
  {
    Mismatch(w, PemBlock.Dashes, 27, 0);
    FindNone(w, PemBlock.Dashes, 27);
  }

  /** The body from 21 is the line break alone, and no dashes follow the
      END marker: `IndexOf` gives -1, plus 5 makes 4. */
  lemma BodyAt(w: string)
    requires Shaped(w)
    ensures PemBlock.DecodeBody(w, 21, "A", Base64.Decode) == Ok((PemBlock.Block("A", []), 4))
  {
    hide Shaped, PemBlock.FindEither, Find, Substring, PemBlock.StripBreaks, Base64.Decode;
    EndAt(w);
    EmptyBody(w);
    NoCloseAt(w);
  }

  /** Decoding the block, from 4 or from 0, ends at 4. */
  lemma UndashedEndsAtFour()
    ensures PemBlock.Decode(Undashed, 4, Base64.Decode) == Ok((PemBlock.Block("A", []), 4))
    ensures PemBlock.Decode(Undashed, 0, Base64.Decode) == Ok((PemBlock.Block("A", []), 4))
  {
    UndashedLayout();
    DecodeShaped(Undashed);
  }

  /** The same for any text laid out like it. */
  lemma DecodeShaped(w: string)
    requires Shaped(w)
    ensures PemBlock.Decode(w, 4, Base64.Decode) == Ok((PemBlock.Block("A", []), 4))
    ensures PemBlock.Decode(w, 0, Base64.Decode) == Ok((PemBlock.Block("A", []), 4))
  {
    hide PemBlock.Decode, PemBlock.DecodeLabel, PemBlock.DecodeBody;
    var dec := Base64.Decode;
    PemBlock.BeginStep(w, 4, 4, dec);
    PemBlock.BeginStep(w, 0, 4, dec);
    PemBlock.LabelStep(w, 15, "A", dec);
    BodyAt(w);
  }

  /** The corrected block decoder refuses that block. */
  lemma UndashedRefused()
    ensures PemBlock.DecodeStrict(Undashed, 4, Base64.Decode) == Fail(ArgumentException)
  {
    hide PemBlock.Decode;
    UndashedEndsAtFour();
  }

  /** The next marker from 0 and from 4 is the one at 4. */
  lemma UndashedMarker()
    ensures PemBlock.FindEither(Undashed, PemSuperBlock.BlockStart, PemSuperBlock.BlockStartSpaced, 0) == Some(4)
    ensures PemBlock.FindEither(Undashed, PemSuperBlock.BlockStart, PemSuperBlock.BlockStartSpaced, 4) == Some(4)
  {
    hide Find;
    UndashedLayout();
    assert PemBlock.BeginMarker == PemSuperBlock.BlockStart + " ";
    MatchSplit(Undashed, PemSuperBlock.BlockStart, " ", 4);
    FindClean(Undashed, PemSuperBlock.BlockStart, 0, 4);
    FindClean(Undashed, PemSuperBlock.BlockStart, 4, 4);
  }

  /** The scan from 0 reads the block at 4 and starts over from 4; the
      corrected scan fails there. */
  lemma ScanFirst(strict: bool)
    ensures PemSuperBlock.Scan(Undashed, 0, false, [], Base64.Decode, strict)
            == if strict then Fail(ArgumentException)
               else PemSuperBlock.Scan(Undashed, 4, true, [PemBlock.Block("A", [])], Base64.Decode, false)
  {
    hide PemBlock.Decode, PemBlock.DecodeStrict, PemBlock.FindEither, Shaped;
    UndashedEndsAtFour();
    UndashedRefused();
    UndashedMarker();
  }

  /** Starting over from 4 reads the same block and ends at 4 again. */
  lemma ScanAgain()
    ensures PemSuperBlock.Scan(Undashed, 4, true, [PemBlock.Block("A", [])], Base64.Decode, false) == Fail(Diverges)
  {
    hide PemBlock.Decode, PemBlock.DecodeStrict, PemBlock.FindEither, Shaped;
    UndashedEndsAtFour();
    UndashedMarker();
  }

  /** The super block reads the block, starts over from 4, reads it again
      and would go on forever: `Diverges`. The corrected decoder fails
      instead. */
  lemma UndashedDiverges()
    ensures PemSuperBlock.Decode(PemSuperBlock.SuperBlock([]), Undashed, 0, Base64.Decode) == Fail(Diverges)
    ensures PemSuperBlock.DecodeFixed(PemSuperBlock.SuperBlock([]), Undashed, 0, Base64.Decode)
            == Fail(ArgumentException)
  {
    hide PemSuperBlock.Scan;
    ScanFirst(false);
    ScanFirst(true);
    ScanAgain();
  }
}

=== FILE: pem_super.dfy ===
/** `PEMSuperBlock` (PEM/PEMSuperBlock.cs): a series of PEM blocks, encoded
    one after another and decoded by scanning for BEGIN markers, with a
    lookup of a block by its label. The line separator is the parameter
    `nl` and the Base64 decoder the parameter `decode`, as for one block. */
module PemSuperBlock {
  import opened Common
  import opened Text
  import Base64
  import PemBlock
  import Lists

  /** The blocks of a super block, in order (`Blocks`). */
  datatype SuperBlock = SuperBlock(blocks: seq<PemBlock.Block>)

  /** Each block's encoding followed by a separator: the string the
      encoding loop accumulates. */
  function Joined(blocks: seq<PemBlock.Block>, nl: string): string
  {
    if blocks == [] then [] else PemBlock.Encode(blocks[0], nl) + nl + Joined(blocks[1..], nl)
  }

  /** `Encode`: the accumulated encodings without the last separator. On a
      super block without blocks, `Remove` gets a negative start and throws. */
  function Encode(sb: SuperBlock, nl: string): (r: Result<string>)
    ensures r.Fail? <==> sb.blocks == [] && nl != []
    ensures r.Fail? ==> r.error == ArgumentOutOfRange
  {
    var joined := Joined(sb.blocks, nl);
    if |joined| < |nl| then Fail(ArgumentOutOfRange)
    else Ok(Remove(joined, |joined| - |nl|, |nl|))
  }

  /** The encodings of the blocks, one per block. */
  function Encodings(blocks: seq<PemBlock.Block>, nl: string): (r: seq<string>)
    ensures |r| == |blocks|
  {
    if blocks == [] then [] else [PemBlock.Encode(blocks[0], nl)] + Encodings(blocks[1..], nl)
  }

  /** Non-empty parts with a separator between each two. */
  function Separated(parts: seq<string>, sep: string): string
    requires parts != []
  {
    if |parts| == 1 then parts[0] else parts[0] + sep + Separated(parts[1..], sep)
  }

  /** The accumulated string is the separated encodings and one more
      separator. */
  lemma {:induction false} JoinedSeparated(blocks: seq<PemBlock.Block>, nl: string)
    requires blocks != []
    ensures Joined(blocks, nl) == Separated(Encodings(blocks, nl), nl) + nl
  {
    if |blocks| > 1 {
      JoinedSeparated(blocks[1..], nl);
      assert Encodings(blocks, nl)[1..] == Encodings(blocks[1..], nl);
    }
  }

  /** The encoding of a super block with blocks is their encodings with one
      separator between each two. */
  lemma EncodeSeparated(sb: SuperBlock, nl: string)
    requires sb.blocks != []
    ensures Encode(sb, nl) == Ok(Separated(Encodings(sb.blocks, nl), nl))
  {
    JoinedSeparated(sb.blocks, nl);
    var joined := Joined(sb.blocks, nl);
    assert Remove(joined, |joined| - |nl|, |nl|) == joined[..|joined| - |nl|];
  }

  /** The markers the scan looks for: without the space `PEMBlock` wants
      after `BEGIN`. */
  const BlockStart: string := "-----BEGIN"
  const BlockStartSpaced: string := "----- BEGIN"

  /** `Decode`: blocks read one after another from `startIndex` are added
      to the blocks already held; the result is where the last one ended,
      or `startIndex` when there is none. */
  function Decode(sb: SuperBlock, data: string, startIndex: int, decode: Base64.Decoder)
    : (r: Result<(SuperBlock, int)>)
    ensures startIndex < 0 || startIndex > |data| ==> r == Fail(ArgumentOutOfRange)
    ensures 0 <= startIndex <= |data|
            && PemBlock.FindEither(data, BlockStart, BlockStartSpaced, startIndex).None?
            ==> r == Ok((sb, startIndex))
    ensures r.Ok? ==> sb.blocks <= r.value.0.blocks
    ensures r.Ok? ==> 0 <= r.value.1 <= |data|
                      && PemBlock.FindEither(data, BlockStart, BlockStartSpaced, r.value.1).None?
  {
    if startIndex < 0 || startIndex > |data| then Fail(ArgumentOutOfRange)
    else Scan(data, startIndex, false, sb.blocks, decode, false)
  }

  /** `Decode` with the corrected block decoder of `PemBlock.DecodeStrict`. */
  function DecodeFixed(sb: SuperBlock, data: string, startIndex: int, decode: Base64.Decoder)
    : (r: Result<(SuperBlock, int)>)
    ensures startIndex < 0 || startIndex > |data| ==> r == Fail(ArgumentOutOfRange)
    ensures r.Ok? ==> sb.blocks <= r.value.0.blocks
    ensures r.Ok? ==> startIndex <= r.value.1 <= |data|
                      && PemBlock.FindEither(data, BlockStart, BlockStartSpaced, r.value.1).None?
    ensures r.Fail? ==> r.error == ArgumentException || r.error == ArgumentOutOfRange
  {
    if startIndex < 0 || startIndex > |data| then Fail(ArgumentOutOfRange)
    else Scan(data, startIndex, false, sb.blocks, decode, true)
  }

  /** The scanning loop from `blockEnd`. A block whose END line lacks its
      closing dashes gives the index 4, and the loop starts over from
      there; once it has, coming back to 4 repeats the same steps forever
      (adding blocks until memory runs out), which is `Diverges`. With
      `strict`, blocks are read by the corrected decoder. */
  function Scan(data: string, blockEnd: nat, jumped: bool, blocks: seq<PemBlock.Block>,
                decode: Base64.Decoder, strict: bool): (r: Result<(SuperBlock, int)>)
    requires blockEnd <= |data|
    requires strict ==> !jumped
    decreases if jumped then 0 else 1, |data| - blockEnd
    ensures r.Ok? ==> blocks <= r.value.0.blocks
    ensures r.Ok? ==> 0 <= r.value.1 <= |data|
                      && PemBlock.FindEither(data, BlockStart, BlockStartSpaced, r.value.1).None?
    ensures r.Ok? && strict ==> blockEnd <= r.value.1
    ensures r.Fail? && strict ==> r.error == ArgumentException || r.error == ArgumentOutOfRange
  {
    match PemBlock.FindEither(data, BlockStart, BlockStartSpaced, blockEnd)
    case None => Ok((SuperBlock(blocks), blockEnd))
    case Some(blockStart) =>
      var decoded :- if strict then PemBlock.DecodeStrict(data, blockStart, decode)
                     else PemBlock.Decode(data, blockStart, decode);
      var end := decoded.1;
      if end != 4 then Scan(data, end, jumped, blocks + [decoded.0], decode, strict)
      else if jumped then Fail(Diverges)
      else Scan(data, 4, true, blocks + [decoded.0], decode, strict)
  }

  /** The blocks as decoding gives them back: labels upper-cased. */
  function Decoded(blocks: seq<PemBlock.Block>): (r: seq<PemBlock.Block>)
    ensures |r| == |blocks|
  {
    if blocks == [] then []
    else [PemBlock.Block(PemBlock.Upper(blocks[0].blockLabel), blocks[0].content)] + Decoded(blocks[1..])
  }

  /** Each decoded block is the block with its label upper-cased. */
  lemma {:induction false} DecodedAll(blocks: seq<PemBlock.Block>)
    ensures forall i :: 0 <= i < |blocks|
              ==> Decoded(blocks)[i] == PemBlock.Block(PemBlock.Upper(blocks[i].blockLabel), blocks[i].content)
  {
    if blocks != [] {
      var rest := blocks[1..];
      DecodedAll(rest);
      forall i | 1 <= i < |blocks|
        ensures Decoded(blocks)[i] == PemBlock.Block(PemBlock.Upper(blocks[i].blockLabel), blocks[i].content)
      {
        assert Decoded(blocks)[i] == Decoded(rest)[i - 1] && rest[i - 1] == blocks[i];
      }
    }
  }

  /** A block whose encoding decodes back: a plain label, and a decoder
      that inverts Base64 on its content. */
  predicate Readable(b: PemBlock.Block, decode: Base64.Decoder)
  {
    PemBlock.PlainLabel(b.blockLabel) && decode(Base64.Encode(b.content)) == Some(b.content)
  }

  /** The blocks after the first, each preceded by the two separators that
      lie between two framed blocks. */
  function Links(blocks: seq<PemBlock.Block>, nl: string): string
  {
    if blocks == [] then [] else nl + nl + PemBlock.Framed(blocks[0], nl) + Links(blocks[1..], nl)
  }

  /** The accumulated string: the first framed block, the links, and the
      two separators ending the last block. */
  lemma {:induction false} JoinedLinks(blocks: seq<PemBlock.Block>, nl: string)
    requires blocks != []
    ensures Joined(blocks, nl) == PemBlock.Framed(blocks[0], nl) + Links(blocks[1..], nl) + nl + nl
  {
    hide PemBlock.Encode, PemBlock.Framed;
    PemBlock.EncodeParts(blocks[0], nl);
    if |blocks| > 1 {
      JoinedLinks(blocks[1..], nl);
      assert blocks[1..][1..] == blocks[2..];
    }
  }

  /** The encoding of a super block with blocks: the first framed block,
      the links, and one separator. */
  lemma EncodeLayout(sb: SuperBlock, nl: string)
    requires sb.blocks != []
    ensures Encode(sb, nl)
            == Ok(PemBlock.Framed(sb.blocks[0], nl) + Links(sb.blocks[1..], nl) + nl)
  {
    JoinedLinks(sb.blocks, nl);
    var joined := Joined(sb.blocks, nl);
    assert Remove(joined, |joined| - |nl|, |nl|) == joined[..|joined| - |nl|];
  }

  /** No `-` from `e` on: neither marker is found. */
  lemma NoMarkerAfter(data: string, e: nat)
    requires forall j :: e <= j < |data| ==> data[j] != '-'
    ensures PemBlock.FindEither(data, BlockStart, BlockStartSpaced, e).None?
  {
    forall k: nat | e <= k && k + |BlockStart| <= |data|
      ensures !MatchAt(data, BlockStart, k)
    {
      Mismatch(data, BlockStart, k, 0);
    }
    forall k: nat | e <= k && k + |BlockStartSpaced| <= |data|
      ensures !MatchAt(data, BlockStartSpaced, k)
    {
      Mismatch(data, BlockStartSpaced, k, 0);
    }
    FindNone(data, BlockStart, e);
    FindNone(data, BlockStartSpaced, e);
  }

  /** One turn of the loop: the next marker at `p`, and a block there
      that ends at `end`, not at 4; the scan continues from `end`. */
  lemma ScanFound(data: string, e: nat, p: nat, end: nat, blk: PemBlock.Block, blocks: seq<PemBlock.Block>,
                  decode: Base64.Decoder, strict: bool)
    requires e <= |data| && end <= |data| && end != 4
    requires PemBlock.FindEither(data, BlockStart, BlockStartSpaced, e) == Some(p)
    requires PemBlock.Decode(data, p, decode) == Ok((blk, end))
    ensures Scan(data, e, false, blocks, decode, strict) == Scan(data, end, false, blocks + [blk], decode, strict)
  {
    hide PemBlock.Decode, PemBlock.FindEither;
  }

  /** A block framed at `p` with no `-` between `e` and `p` is the next one
      the scan reads; it continues after the block's closing dashes. */
  lemma {:induction false} ScanStep(data: string, e: nat, p: nat, b: PemBlock.Block, nl: string,
                                    blocks: seq<PemBlock.Block>, decode: Base64.Decoder, strict: bool)
    requires Readable(b, decode) && PemBlock.Breaks(nl)
    requires e <= p && MatchAt(data, PemBlock.Framed(b, nl), p)
    requires forall j :: e <= j < p ==> data[j] != '-'
    ensures p + |PemBlock.Framed(b, nl)| <= |data|
    ensures Scan(data, e, false, blocks, decode, strict)
            == Scan(data, p + |PemBlock.Framed(b, nl)|, false,
                    blocks + [PemBlock.Block(PemBlock.Upper(b.blockLabel), b.content)], decode, strict)
  {
    hide Scan, PemBlock.Decode, PemBlock.Framed;
    var f := PemBlock.Framed(b, nl);
    PemBlock.FramedLayout(data, p, b, nl);
    assert MatchAt(data, BlockStart, p) by {
      assert PemBlock.BeginMarker == BlockStart + " ";
      MatchSplit(data, BlockStart, " ", p);
    }
    FindClean(data, BlockStart, e, p);
    PemBlock.DecodeAt(data, p, p, b, nl, decode);
    ScanFound(data, e, p, p + |f|, PemBlock.Block(PemBlock.Upper(b.blockLabel), b.content), blocks, decode, strict);
  }

  /** Two separators hold no `-`. */
  lemma SeparatorsClean(nl: string)
    requires PemBlock.Breaks(nl)
    ensures '-' !in nl + nl
  {
    assert forall k :: 0 <= k < |nl + nl| ==> PemBlock.IsBreak((nl + nl)[k]);
  }

  /** Only the final separator left: the scan stops where it starts. */
  lemma ScanEnd(data: string, e: nat, nl: string, blocks: seq<PemBlock.Block>,
                decode: Base64.Decoder, strict: bool)
    requires PemBlock.Breaks(nl) && MatchAt(data, nl, e) && e + |nl| == |data|
    ensures Scan(data, e, false, blocks, decode, strict) == Ok((SuperBlock(blocks), e))
  {
    SeparatorsClean(nl);
    assert '-' !in nl;
    MatchNoChar(data, nl, e, '-');
    NoMarkerAfter(data, e);
  }

  /** The links at `e` begin with two separators and a framed block. */
  lemma LinkLayout(data: string, e: nat, bs: seq<PemBlock.Block>, nl: string)
    requires bs != [] && PemBlock.Breaks(nl) && MatchAt(data, Links(bs, nl) + nl, e)
    ensures MatchAt(data, PemBlock.Framed(bs[0], nl), e + |nl| + |nl|)
    ensures MatchAt(data, Links(bs[1..], nl) + nl, e + |nl| + |nl| + |PemBlock.Framed(bs[0], nl)|)
    ensures forall j :: e <= j < e + |nl| + |nl| ==> data[j] != '-'
    ensures |Links(bs, nl)| == |nl| + |nl| + |PemBlock.Framed(bs[0], nl)| + |Links(bs[1..], nl)|
  {
    hide PemBlock.Framed;
    var f := PemBlock.Framed(bs[0], nl);
    assert Links(bs, nl) + nl == (nl + nl + f) + (Links(bs[1..], nl) + nl);
    MatchSplit(data, nl + nl + f, Links(bs[1..], nl) + nl, e);
    MatchSplit(data, nl + nl, f, e);
    SeparatorsClean(nl);
    MatchNoChar(data, nl + nl, e, '-');
  }

  /** No blocks, no links. */
  lemma LinksEmpty(nl: string)
    ensures Links([], nl) == []
  {
  }

  /** Scanning the links and the final separator reads back every block in
      them and stops before that separator. */
  lemma {:induction false} ScanLinks(data: string, e: nat, bs: seq<PemBlock.Block>, nl: string,
                                     blocks: seq<PemBlock.Block>, decode: Base64.Decoder, strict: bool)
    requires PemBlock.Breaks(nl) && forall b :: b in bs ==> Readable(b, decode)
    requires MatchAt(data, Links(bs, nl) + nl, e) && e + |Links(bs, nl)| + |nl| == |data|
    ensures Scan(data, e, false, blocks, decode, strict)
            == Ok((SuperBlock(blocks + Decoded(bs)), e + |Links(bs, nl)|))
    decreases |bs|
  {
    hide Scan, PemBlock.Framed, Links, Decoded;
    if bs == [] {
      LinksEmpty(nl);
      assert Links(bs, nl) + nl == nl;
      DecodedEmpty(blocks);
      ScanEnd(data, e, nl, blocks, decode, strict);
    } else {
      var b, f := bs[0], PemBlock.Framed(bs[0], nl);
      var p := e + |nl| + |nl|;
      LinkLayout(data, e, bs, nl);
      ScanStep(data, e, p, b, nl, blocks, decode, strict);
      var blk := PemBlock.Block(PemBlock.Upper(b.blockLabel), b.content);
      ScanLinks(data, p + |f|, bs[1..], nl, blocks + [blk], decode, strict);
      DecodedStep(blocks, bs);
    }
  }

  /** The scan over the encoding of a super block with blocks reads them
      all back, in order, and stops before the final separator. */
  lemma {:induction false} ScanAll(sb: SuperBlock, nl: string, decode: Base64.Decoder, strict: bool)
    requires sb.blocks != [] && PemBlock.Breaks(nl)
    requires forall b :: b in sb.blocks ==> Readable(b, decode)
    ensures Encode(sb, nl).Ok?
    ensures var data := Encode(sb, nl).value;
            Scan(data, 0, false, [], decode, strict) == Ok((SuperBlock(Decoded(sb.blocks)), |data| - |nl|))
  {
    hide Scan, PemBlock.Framed, Encode, Links, Decoded;
    EncodeLayout(sb, nl);
    var b0, rest := sb.blocks[0], sb.blocks[1..];
    var f, links := PemBlock.Framed(b0, nl), Links(rest, nl);
    var data := f + links + nl;
    var blk := PemBlock.Block(PemBlock.Upper(b0.blockLabel), b0.content);
    assert data == f + (links + nl);
    MatchPrefix(f, links + nl);
    MatchSplit(data, f, links + nl, 0);
    assert Readable(b0, decode);
    ScanStep(data, 0, 0, b0, nl, [], decode, strict);
    assert forall b :: b in rest ==> b in sb.blocks;
    ScanLinks(data, |f|, rest, nl, [] + [blk], decode, strict);
    DecodedStep([], sb.blocks);
    assert [] + Decoded(sb.blocks) == Decoded(sb.blocks);
  }

  /** Decoded blocks after those already held: the first, then the rest. */
  lemma DecodedStep(acc: seq<PemBlock.Block>, blocks: seq<PemBlock.Block>)
    requires blocks != []
    ensures acc + [PemBlock.Block(PemBlock.Upper(blocks[0].blockLabel), blocks[0].content)] + Decoded(blocks[1..])
            == acc + Decoded(blocks)
  {
    var first := [PemBlock.Block(PemBlock.Upper(blocks[0].blockLabel), blocks[0].content)];
    assert Decoded(blocks) == first + Decoded(blocks[1..]);
    assert acc + first + Decoded(blocks[1..]) == acc + (first + Decoded(blocks[1..]));
  }

  /** No blocks decoded: those already held. */
  lemma DecodedEmpty(acc: seq<PemBlock.Block>)
    ensures acc + Decoded([]) == acc
  {
  }

  /** Round trip: a super block with blocks comes back from its encoding,
      labels upper-cased, in order, whether or not the corrected block
      decoder is used; decoding ends before the final separator. */
  lemma RoundTrip(sb: SuperBlock, nl: string, decode: Base64.Decoder, strict: bool)
    requires sb.blocks != [] && PemBlock.Breaks(nl)
    requires forall b :: b in sb.blocks ==> Readable(b, decode)
    ensures Encode(sb, nl).Ok?
    ensures var data := Encode(sb, nl).value;
            (if strict then DecodeFixed(SuperBlock([]), data, 0, decode)
             else Decode(SuperBlock([]), data, 0, decode))
            == Ok((SuperBlock(Decoded(sb.blocks)), |data| - |nl|))
  {
    hide Scan, Encode, Decoded;
    ScanAll(sb, nl, decode, strict);
  }

  /** `IndexOf`: the position of the first block whose label equals the
      upper-cased label asked for, or -1. */
  function IndexOf(sb: SuperBlock, wanted: string): (r: int)
    ensures -1 <= r < |sb.blocks|
    ensures r >= 0 ==> sb.blocks[r].blockLabel == PemBlock.Upper(wanted)
    ensures r >= 0 ==> forall i :: 0 <= i < r ==> sb.blocks[i].blockLabel != PemBlock.Upper(wanted)
    ensures r == -1 <==> forall i :: 0 <= i < |sb.blocks| ==> sb.blocks[i].blockLabel != PemBlock.Upper(wanted)
  {
    match Lists.FirstIndex(sb.blocks, (b: PemBlock.Block) => b.blockLabel == PemBlock.Upper(wanted))
    case None => -1
    case Some(i) => i
  }

  /** `FindBlock`: the block `IndexOf` finds, or none (`null`). */
  function FindBlock(sb: SuperBlock, wanted: string): (r: Option<PemBlock.Block>)
    ensures r.Some? ==> r.value in sb.blocks && r.value.blockLabel == PemBlock.Upper(wanted)
    ensures r.None? <==> forall b :: b in sb.blocks ==> b.blockLabel != PemBlock.Upper(wanted)
  {
    var index := IndexOf(sb, wanted);
    if index != -1 then Some(sb.blocks[index]) else None
  }

  /** A block whose label holds a lower-case letter is never found, under
      any label: the stored label is compared with an upper-cased one. */
  lemma LowerCaseHidden(sb: SuperBlock, i: nat, wanted: string, k: nat)
    requires i < |sb.blocks| && k < |sb.blocks[i].blockLabel| && PemBlock.IsLower(sb.blocks[i].blockLabel[k])
    ensures IndexOf(sb, wanted) != i
  {
  }

  /** One block labelled `test` in lower case, with no content:
      `-----BEGIN test-----`, a line break, `-----END test-----`. */
  const LowerCaseText: string := PemBlock.BeginMarker + "test" + PemBlock.Dashes + "\n" + PemBlock.Trailer("test")

  /** The label of a decoded block keeps its case: the super block read
      from `LowerCaseText` holds the block `test`, which cannot be looked
      up, not even as "test". */
  lemma LowerCaseWitness()
    ensures PemBlock.Decode(LowerCaseText, 0, Base64.Decode) == Ok((PemBlock.Block("test", []), |LowerCaseText|))
    ensures Decode(SuperBlock([]), LowerCaseText, 0, Base64.Decode)
            == Ok((SuperBlock([PemBlock.Block("test", [])]), |LowerCaseText|))
    ensures IndexOf(Decode(SuperBlock([]), LowerCaseText, 0, Base64.Decode).value.0, "test") == -1
  {
    hide PemBlock.Decode, Scan, IndexOf;
    LowerCaseBlock();
    LowerCaseScan();
    LowerCaseHidden(SuperBlock([PemBlock.Block("test", [])]), 0, "test", 0);
  }

  /** `LowerCaseText` decodes as one block, through its parts. */
  lemma LowerCaseBlock()
    ensures PemBlock.Decode(LowerCaseText, 0, Base64.Decode) == Ok((PemBlock.Block("test", []), |LowerCaseText|))
  {
    hide PemBlock.Decode, PemBlock.StripBreaks, MatchAt, Substring;
    LowerCaseParts();
    PemBlock.StripAllBreaks("\n");
    PemBlock.DecodeParts(LowerCaseText, 0, 0, "test", "\n", [], Base64.Decode);
  }

  /** The parts of `LowerCaseText`: the BEGIN marker, the label `test`,
      the dashes, an empty body of one line break, and the END line. */
  lemma LowerCaseParts()
    ensures MatchAt(LowerCaseText, PemBlock.BeginMarker, 0) && MatchAt(LowerCaseText, "test", 11)
    ensures MatchAt(LowerCaseText, PemBlock.Dashes, 15) && MatchAt(LowerCaseText, "\n", 20)
    ensures MatchAt(LowerCaseText, PemBlock.Trailer("test"), 21)
    ensures Substring(LowerCaseText, 20, 1) == "\n"
  {
    hide MatchAt;
    var begin, dashes, trailer := PemBlock.BeginMarker, PemBlock.Dashes, PemBlock.Trailer("test");
    assert |begin| == 11 && |dashes| == 5;
    var whole := begin + "test" + dashes + "\n" + trailer;
    assert LowerCaseText[20..21] == "\n" by {
      assert LowerCaseText[20] == whole[20] == "\n"[0];
    }
    assert MatchAt(LowerCaseText, whole, 0) by {
      assert LowerCaseText == whole + [];
      MatchPrefix(whole, []);
    }
    MatchSplit(LowerCaseText, begin + "test" + dashes + "\n", trailer, 0);
    MatchSplit(LowerCaseText, begin + "test" + dashes, "\n", 0);
    MatchSplit(LowerCaseText, begin + "test", dashes, 0);
    MatchSplit(LowerCaseText, begin, "test", 0);
  }

  /** The scan over `LowerCaseText` reads its one block and stops at its
      end. */
  lemma LowerCaseScan()
    requires PemBlock.Decode(LowerCaseText, 0, Base64.Decode) == Ok((PemBlock.Block("test", []), |LowerCaseText|))
    ensures Scan(LowerCaseText, 0, false, [], Base64.Decode, false)
            == Ok((SuperBlock([PemBlock.Block("test", [])]), |LowerCaseText|))
  {
    hide PemBlock.Decode, PemBlock.FindEither;
    LowerCaseMarkers();
    assert [] + [PemBlock.Block("test", [])] == [PemBlock.Block("test", [])];
  }

  /** In `LowerCaseText` the scan finds a BEGIN marker at 0 and none at
      the end. */
  lemma LowerCaseMarkers()
    ensures PemBlock.FindEither(LowerCaseText, BlockStart, BlockStartSpaced, 0) == Some(0)
    ensures PemBlock.FindEither(LowerCaseText, BlockStart, BlockStartSpaced, |LowerCaseText|).None?
  {
    assert MatchAt(LowerCaseText, BlockStart, 0);
  }

  /** `IndexOf` corrected: labels compared after upper-casing both. */
  function IndexOfFixed(sb: SuperBlock, wanted: string): (r: int)
    ensures -1 <= r < |sb.blocks|
    ensures r >= 0 ==> PemBlock.Upper(sb.blocks[r].blockLabel) == PemBlock.Upper(wanted)
    ensures r >= 0 ==> forall i :: 0 <= i < r ==> PemBlock.Upper(sb.blocks[i].blockLabel) != PemBlock.Upper(wanted)
    ensures r == -1 <==> forall i :: 0 <= i < |sb.blocks| ==> PemBlock.Upper(sb.blocks[i].blockLabel) != PemBlock.Upper(wanted)
  {
    match Lists.FirstIndex(sb.blocks, (b: PemBlock.Block) => PemBlock.Upper(b.blockLabel) == PemBlock.Upper(wanted))
    case None => -1
    case Some(i) => i
  }

  /** Every block is found by its own label with the corrected lookup, at
      its position or at an earlier block with the same label up to case. */
  lemma FixedFindsEvery(sb: SuperBlock, i: nat)
    requires i < |sb.blocks|
    ensures 0 <= IndexOfFixed(sb, sb.blocks[i].blockLabel) <= i
  {
  }
}

=== FILE: text.dfy ===
/** The .NET string operations the modelled code leans on, over Dafny
    strings: `IndexOf` for a character or a string from a start index,
    `Remove`, `Substring` bounds and `Char.IsWhiteSpace` with the `Trim`
    built on it. `IndexOf` answers `None` where .NET answers -1.
    A string `IndexOf` here compares character by character; .NET's
    string overload compares by the current culture, which can match
    where the characters differ (ignorable characters). That difference is
    abstracted away. */
module Text {
  import opened Common

  /** `pat` occurs in `s` starting at `k`. */
  predicate MatchAt(s: string, pat: string, k: nat)
  {
    k + |pat| <= |s| && forall j :: 0 <= j < |pat| ==> s[k + j] == pat[j]
  }

  /** `s.IndexOf(c, from)`: the first position at or after `from` holding `c`. */
  function FindChar(s: string, c: char, from: nat): (r: Option<nat>)
    decreases |s| - from
    ensures r.Some? ==> from <= r.value < |s| && s[r.value] == c
                        && forall k :: from <= k < r.value ==> s[k] != c
    ensures r.None? ==> forall k :: from <= k < |s| ==> s[k] != c
  {
    if from >= |s| then None
    else if s[from] == c then Some(from)
    else FindChar(s, c, from + 1)
  }

  /** `s.IndexOf(pat, from)`, compared character by character: the first
      position at or after `from` where `pat` occurs. */
  function Find(s: string, pat: string, from: nat): (r: Option<nat>)
    decreases |s| - from
    ensures r.Some? ==> from <= r.value && MatchAt(s, pat, r.value)
                        && forall k :: from <= k < r.value ==> !MatchAt(s, pat, k)
    ensures r.None? ==> forall k :: from <= k ==> !MatchAt(s, pat, k)
  {
    if from + |pat| > |s| then None
    else if MatchAt(s, pat, from) then Some(from)
    else Find(s, pat, from + 1)
  }

  /** `s.Substring(start, length)`, built one character at a time from the
      end. */
  function Substring(s: string, start: nat, length: nat): (r: string)
    requires start + length <= |s|
    ensures |r| == length
    decreases length
  {
    if length == 0 then [] else Substring(s, start, length - 1) + [s[start + length - 1]]
  }

  /** `Substring` is the slice from `start` of that length. */
  lemma {:induction false} SubstringSlice(s: string, start: nat, length: nat)
    requires start + length <= |s|
    ensures Substring(s, start, length) == s[start .. start + length]
    decreases length
  {
    if length > 0 {
      SubstringSlice(s, start, length - 1);
      assert s[start .. start + length] == s[start .. start + length - 1] + [s[start + length - 1]];
    }
  }

  /** Where `pat` occurs, the substring of its length is `pat`. */
  lemma SubstringMatch(s: string, pat: string, k: nat)
    requires MatchAt(s, pat, k)
    ensures Substring(s, k, |pat|) == pat
  {
    SubstringSlice(s, k, |pat|);
    assert s[k .. k + |pat|] == pat;
  }

  /** `s.Contains(pat)`. */
  predicate Contains(s: string, pat: string)
  {
    exists k: nat | k <= |s| :: MatchAt(s, pat, k)
  }

  /** The first occurrence is the answer `Find` gives, whoever looks for it. */
  lemma FindFirst(s: string, pat: string, from: nat, k: nat)
    requires from <= k && MatchAt(s, pat, k)
    requires forall j :: from <= j < k ==> !MatchAt(s, pat, j)
    ensures Find(s, pat, from) == Some(k)
  {
  }

  /** The same for a single character. */
  lemma FindCharFirst(s: string, c: char, from: nat, k: nat)
    requires from <= k < |s| && s[k] == c
    requires forall j :: from <= j < k ==> s[j] != c
    ensures FindChar(s, c, from) == Some(k)
  {
  }

  /** A pattern is found at `k` when its first character does not occur
      between `from` and `k`. */
  lemma FindClean(s: string, pat: string, from: nat, k: nat)
    requires |pat| > 0 && from <= k && MatchAt(s, pat, k)
    requires forall j :: from <= j < k ==> s[j] != pat[0]
    ensures Find(s, pat, from) == Some(k)
  {
    forall j | from <= j < k
      ensures !MatchAt(s, pat, j)
    {
      Mismatch(s, pat, j, 0);
    }
    FindFirst(s, pat, from, k);
  }

  /** A concatenation occurs where its parts occur one after the other. */
  lemma MatchSplit(s: string, x: string, y: string, k: nat)
    ensures MatchAt(s, x + y, k) <==> MatchAt(s, x, k) && MatchAt(s, y, k + |x|)
  {
    if MatchAt(s, x, k) && MatchAt(s, y, k + |x|) {
      forall j | |x| <= j < |x| + |y|
        ensures s[k + j] == (x + y)[j]
      {
        assert s[(k + |x|) + (j - |x|)] == y[j - |x|];
      }
    }
    if MatchAt(s, x + y, k) {
      forall j | 0 <= j < |x|
        ensures s[k + j] == x[j]
      {
        assert s[k + j] == (x + y)[j];
      }
      forall j | 0 <= j < |y|
        ensures s[(k + |x|) + j] == y[j]
      {
        var i := |x| + j;
        assert s[k + i] == (x + y)[i] == y[j];
        assert k + i == (k + |x|) + j;
      }
      assert MatchAt(s, x, k);
      assert MatchAt(s, y, k + |x|);
    }
  }

  /** A text occurs at the start of any text it begins. */
  lemma MatchPrefix(x: string, y: string)
    ensures MatchAt(x + y, x, 0)
  {
  }

  /** Where `x` occurs, the characters are those of `x`. */
  lemma MatchNoChar(s: string, x: string, k: nat, c: char)
    requires MatchAt(s, x, k) && c !in x
    ensures forall j :: k <= j < k + |x| ==> s[j] != c
  {
    forall j | k <= j < k + |x|
      ensures s[j] != c
    {
      assert s[k + (j - k)] == x[j - k];
    }
  }

  /** Nothing is found where nothing matches. */
  lemma FindNone(s: string, pat: string, from: nat)
    requires forall k: nat :: from <= k && k + |pat| <= |s| ==> !MatchAt(s, pat, k)
    ensures Find(s, pat, from) == None
  {
  }

  /** One differing character rules a position out. */
  lemma Mismatch(s: string, pat: string, k: nat, j: nat)
    requires j < |pat| && k + j < |s| && s[k + j] != pat[j]
    ensures !MatchAt(s, pat, k)
  {

  }

  /** The first `c` at or after the end of `pre` in `pre + mid + [c] + post`,
      when `mid` has none, is the one after `mid`. */
  lemma FindCharAfter(pre: string, mid: string, c: char, post: string)
    requires c !in mid
    ensures FindChar(pre + mid + [c] + post, c, |pre|) == Some(|pre| + |mid|)
  {
    var s := pre + mid + [c] + post;
    assert forall k :: |pre| <= k < |pre| + |mid| ==> s[k] == mid[k - |pre|];
    FindCharFirst(s, c, |pre|, |pre| + |mid|);
  }

  /** A string is found exactly when it is contained. */
  lemma FindContains(s: string, pat: string)
    ensures Find(s, pat, 0).Some? <==> Contains(s, pat)
  {
  }

  /** A pattern starting with `c` cannot occur in a string without `c`. */
  lemma AbsentLead(s: string, pat: string)
    requires |pat| > 0 && forall k :: 0 <= k < |s| ==> s[k] != pat[0]
    ensures !Contains(s, pat)
  {
    forall k: nat | k <= |s|
      ensures !MatchAt(s, pat, k)
    {
      if k + |pat| <= |s| {
        assert s[k .. k + |pat|][0] == s[k];
      }
    }
  }

  /** `s.Remove(start, count)`. */
  function Remove(s: string, start: nat, count: nat): (r: string)
    requires start + count <= |s|
    ensures |r| == |s| - count
    ensures r[..start] == s[..start] && r[start..] == s[start + count..]
  {
    s[..start] + s[start + count..]
  }

  /** `Char.IsWhiteSpace`: the members of the Unicode space separator,
      line separator and paragraph separator categories, and the control
      characters U+0009 to U+000D, U+0085. */
  predicate IsWhiteSpace(c: char)
  {
    var v := c as int;
    (9 <= v <= 13) || v == 0x20 || v == 0x85 || v == 0xA0 || v == 0x1680
    || (0x2000 <= v <= 0x200A) || v == 0x2028 || v == 0x2029 || v == 0x202F
    || v == 0x205F || v == 0x3000
  }

  /** Number of leading characters of `s` satisfying `IsWhiteSpace`. */
  function LeadingSpace(s: string): (n: nat)
    ensures n <= |s| && (forall k :: 0 <= k < n ==> IsWhiteSpace(s[k]))
    ensures n < |s| ==> !IsWhiteSpace(s[n])
  {
    if s == [] || !IsWhiteSpace(s[0]) then 0 else 1 + LeadingSpace(s[1..])
  }

  /** Number of trailing characters of `s` satisfying `IsWhiteSpace`. */
  function TrailingSpace(s: string): (n: nat)
    ensures n <= |s| && (forall k :: |s| - n <= k < |s| ==> IsWhiteSpace(s[k]))
    ensures n < |s| ==> !IsWhiteSpace(s[|s| - 1 - n])
  {
    if s == [] || !IsWhiteSpace(s[|s| - 1]) then 0 else 1 + TrailingSpace(s[..|s| - 1])
  }

  /** `s.Trim()`: white space removed from both ends. */
  function Trim(s: string): (r: string)
    ensures |r| <= |s|
    ensures r != [] ==> !IsWhiteSpace(r[0]) && !IsWhiteSpace(r[|r| - 1])
  {
    var front := LeadingSpace(s);
    var rest := s[front..];
    rest[..|rest| - TrailingSpace(rest)]
  }

  /** A string that neither starts nor ends with white space trims to
      itself. */
  lemma TrimUnchanged(s: string)
    requires s != [] ==> !IsWhiteSpace(s[0]) && !IsWhiteSpace(s[|s| - 1])
    ensures Trim(s) == s
  {
  }
}

=== FILE: xml_attribute.dfy ===
/** `XMLAttribute` and `XMLAttributeCollection` (XML/XMLAttribute.cs,
    XML/XMLAttributeCollection.cs): `name="value"` with both parts escaped,
    read back by splitting at the first `=` and the two quotes after it, and
    a list of attributes looked up and removed by name. */
module XmlAttribute {
  import opened Common
  import opened Text
  import opened Lists
  import opened XmlString

  datatype Attribute = Attribute(name: string, value: string)

  /** `Encode`: `Escape(Name) + "=\"" + Escape(Value) + "\""`. */
  function Encode(a: Attribute): string
  {
    Escape(a.name) + "=\"" + Escape(a.value) + "\""
  }

  /** `Decode` (and `FromEncoded`): the name is the decoded, trimmed text
      before the first `=`; the value is the decoded text between the first
      quote after it and the next quote. */
  function Decode(text: string): Result<Attribute>
  {
    match FindChar(text, '=', 0)
    case None => Fail(ArgumentException)
    case Some(equals) =>
      var name :- XmlString.Decode(Trim(text[..equals]));
      DecodeValue(text, equals + 1, name)
  }

  /** The value part of `Decode`: the text between the first quote from
      `from` and the next one, decoded. */
  function DecodeValue(text: string, from: nat, name: string): Result<Attribute>
  {
    match FindChar(text, '"', from)
    case None => Fail(ArgumentException)
    case Some(valueStart) =>
      match FindChar(text, '"', valueStart + 1)
      case None => Fail(ArgumentException)
      case Some(valueEnd) =>
        var value :- XmlString.Decode(text[valueStart + 1 .. valueEnd]);
        Ok(Attribute(name, value))
  }

  /** Names the encoding can carry: no control characters, no `=`, and no
      white space at either end, which `Trim` would cut off. */
  predicate ValidName(name: string)
  {
    NoControl(name) && '=' !in name
    && (name != [] ==> !IsWhiteSpace(name[0]) && !IsWhiteSpace(name[|name| - 1]))
  }

  /** The escape of such a name survives `Trim`. */
  lemma TrimEscaped(name: string)
    requires ValidName(name)
    ensures Trim(Escape(name)) == Escape(name)
  {
    if name != [] {
      EscapeEnds(name);
    }
    TrimUnchanged(Escape(name));
  }

  /** Round trip: decoding the encoding of an attribute gives it back when
      its name is valid and neither part has control characters. */
  lemma RoundTrip(a: Attribute)
    requires ValidName(a.name) && NoControl(a.value)
    ensures Decode(Encode(a)) == Ok(a)
  {
    var en := Escape(a.name);
    var ev := Escape(a.value);
    EqualsAt(a);
    QuotesAt(Escape(a.name), Escape(a.value));
    TrimEscaped(a.name);
    DecodeEncode(a.name);
    DecodeEncode(a.value);
  }

  /** In an encoded attribute the first `=` is the one after the name. */
  lemma EqualsAt(a: Attribute)
    requires ValidName(a.name)
    ensures var en := Escape(a.name);
            FindChar(Encode(a), '=', 0) == Some(|en|) && Encode(a)[..|en|] == en
  {
    var en := Escape(a.name);
    var text := Encode(a);
    EscapeAvoids(a.name, '=');
    assert forall k :: 0 <= k < |en| ==> text[k] == en[k];
    FindCharFirst(text, '=', 0, |en|);
    assert text[..|en|] == en;
  }

  /** ... and the value lies between the next two quotes. */
  lemma QuotesAt(en: string, ev: string)
    requires '"' !in ev
    ensures var text := en + "=\"" + ev + "\"";
            FindChar(text, '"', |en| + 1) == Some(|en| + 1)
            && FindChar(text, '"', |en| + 2) == Some(|en| + 2 + |ev|)
            && text[|en| + 2 .. |en| + 2 + |ev|] == ev
  {
    OpeningQuote(en, ev);
    var pre := en + "=\"";
    assert |pre| == |en| + 2;
    ClosingQuote(pre, ev);
  }

  lemma OpeningQuote(en: string, ev: string)
    ensures FindChar(en + "=\"" + ev + "\"", '"', |en| + 1) == Some(|en| + 1)
  {
    assert en + "=\"" + ev + "\"" == (en + "=") + [] + ['"'] + (ev + "\"");
    FindCharAfter(en + "=", [], '"', ev + "\"");
  }

  lemma ClosingQuote(pre: string, ev: string)
    requires '"' !in ev
    ensures FindChar(pre + ev + "\"", '"', |pre|) == Some(|pre| + |ev|)
    ensures (pre + ev + "\"")[|pre| .. |pre| + |ev|] == ev
  {
    FindCharAfter(pre, ev, '"', []);
    assert pre + ev + ['"'] + [] == pre + ev + "\"";
  }

  /** Text without `=` is refused. */
  lemma NoEquals(text: string)
    requires '=' !in text
    ensures Decode(text) == Fail(ArgumentException)
  {
  }

  /** After the `=`, a missing opening quote and a missing closing quote
      are both refused. */
  lemma MissingQuote(name: string, between: string, rest: string)
    requires '=' !in name && XmlString.Decode(Trim(name)).Ok?
    requires '"' !in between && '"' !in rest
    ensures Decode(name + "=" + between) == Fail(ArgumentException)
    ensures Decode(name + "=" + between + "\"" + rest) == Fail(ArgumentException)
  {
    MissingOpeningQuote(name, between);
    MissingClosingQuote(name, between, rest);
  }

  lemma MissingOpeningQuote(name: string, between: string)
    requires '=' !in name && XmlString.Decode(Trim(name)).Ok?
    requires '"' !in between
    ensures Decode(name + "=" + between) == Fail(ArgumentException)
  {
    var t1 := name + "=" + between;
    assert forall k :: 0 <= k < |name| ==> t1[k] == name[k];
    FindCharFirst(t1, '=', 0, |name|);
    assert t1[..|name|] == name;
    assert forall k :: |name| + 1 <= k < |t1| ==> t1[k] == between[k - |name| - 1];
  }

  lemma MissingClosingQuote(name: string, between: string, rest: string)
    requires '=' !in name && XmlString.Decode(Trim(name)).Ok?
    requires '"' !in between && '"' !in rest
    ensures Decode(name + "=" + between + "\"" + rest) == Fail(ArgumentException)
  {
    var t2 := name + "=" + between + "\"" + rest;
    var q := |name| + 1 + |between|;
    assert forall k :: 0 <= k < |name| ==> t2[k] == name[k];
    FindCharFirst(t2, '=', 0, |name|);
    assert t2[..|name|] == name;
    assert forall k :: |name| + 1 <= k < q ==> t2[k] == between[k - |name| - 1];
    FindCharFirst(t2, '"', |name| + 1, q);
    assert forall k :: q + 1 <= k < |t2| ==> t2[k] == rest[k - q - 1];
  }

  /** The test naming an attribute. */
  function Named(name: string): Attribute -> bool
  {
    (a: Attribute) => a.name == name
  }

  /** `XMLAttributeCollection.Find`: the first attribute with that name. */
  function Find(items: seq<Attribute>, name: string): (r: Option<Attribute>)
    ensures r.None? <==> forall k :: 0 <= k < |items| ==> items[k].name != name
    ensures r.Some? ==> exists i :: 0 <= i < |items| && items[i] == r.value && r.value.name == name
                                    && forall k :: 0 <= k < i ==> items[k].name != name
  {
    match FirstIndex(items, Named(name))
    case None => None
    case Some(i) => Some(items[i])
  }

  /** `FindValue`: the value of that attribute, `None` where the source
      gives null. */
  function FindValue(items: seq<Attribute>, name: string): (r: Option<string>)
    ensures r.Some? <==> Find(items, name).Some?
    ensures r.Some? ==> r.value == Find(items, name).value.value
  {
    match Find(items, name)
    case None => None
    case Some(a) => Some(a.value)
  }

  /** `Remove(string name)`: only the first attribute with that name goes,
      the rest keep their order; nothing changes when there is none. */
  function Remove(items: seq<Attribute>, name: string): (r: seq<Attribute>)
    ensures Find(items, name).None? ==> r == items
    ensures Find(items, name).Some? ==>
              exists i :: 0 <= i < |items| && items[i].name == name
                          && (forall k :: 0 <= k < i ==> items[k].name != name)
                          && r == items[..i] + items[i + 1..]
  {
    RemoveFirstMeaning(items, Named(name));
    RemoveFirst(items, Named(name))
  }

  /** `Add` appends: an attribute added under a new name is found, and an
      existing name keeps its first attribute. */
  lemma AddThenFind(items: seq<Attribute>, a: Attribute)
    ensures Find(items + [a], a.name) == (if Find(items, a.name).Some? then Find(items, a.name) else Some(a))
    ensures |items + [a]| == |items| + 1
  {
    AppendThenFind(items, a, Named(a.name));
  }
}

=== FILE: xml_base.dfy ===
/** The static text helpers of `XMLBase` (XML/XMLBase.cs): removal of
    `<?...>` declarations and `<!--...-->` comments, and the two small
    helpers of the pretty-printer. Searches compare character by character
    (the culture-sensitive matching of .NET is not modelled). */
module XmlBase {
  import opened Common
  import opened Text

  /** `RemoveComments`. While the text holds `<!--`, it takes the first
      `<!--` at `start` and the first `-->` ANYWHERE in the text, and
      removes `-->`-index + 3 - `start` characters from `start`. The index
      of `-->` is read as -1 + 2 = 1 when there is none, so the guard meant
      for that case is never taken: a negative count makes `Remove` throw,
      and a zero count repeats the same step for ever. */
  function RemoveComments(xml: string): (r: Result<string>)
    decreases |xml|
    ensures r.Ok? ==> !Contains(r.value, "<!--")
    ensures r.Fail? ==> r.error == ArgumentOutOfRange || r.error == Diverges
  {
    match Find(xml, "<!--", 0)
    case None =>
      FindContains(xml, "<!--");
      Ok(xml)
    case Some(start) =>
      var commentEnd := (match Find(xml, "-->", 0) case Some(e) => e case None => -1) + 2;
      var count := commentEnd - start + 1;
      if count < 0 then Fail(ArgumentOutOfRange)
      else if count == 0 then Fail(Diverges)
      else RemoveComments(Remove(xml, start, count))
  }

  /** Text without `<!--` is left as it is. */
  lemma NoCommentUnchanged(xml: string)
    requires !Contains(xml, "<!--")
    ensures RemoveComments(xml) == Ok(xml)
  {
    FindContains(xml, "<!--");
  }

  /** No `<!--` starts before the end of a start that holds none, when
      one follows it: `<` does not recur inside `<!--`. */
  lemma OpenNotBefore(before: string, xml: string, k: nat)
    requires !Contains(before, "<!--") && k < |before|
    requires |before| <= |xml| && xml[..|before|] == before && MatchAt(xml, "<!--", |before|)
    ensures !MatchAt(xml, "<!--", k)
  {
    var start := |before|;
    if k + 4 <= start {
      assert !MatchAt(before, "<!--", k);
      assert forall j | k <= j < k + 4 :: xml[j] == xml[..start][j] == before[j];
      assert xml[k .. k + 4] == before[k .. k + 4];
    } else {
      assert xml[start .. start + 4] == "<!--";
      assert xml[start] == xml[start .. start + 4][0];
      Mismatch(xml, "<!--", k, start - k);
    }
  }

  /** So the first `<!--` is the one right after that start. */
  lemma OpenFirst(before: string, xml: string)
    requires !Contains(before, "<!--")
    requires |before| <= |xml| && xml[..|before|] == before && MatchAt(xml, "<!--", |before|)
    ensures Find(xml, "<!--", 0) == Some(|before|)
  {
    forall k | 0 <= k < |before|
      ensures !MatchAt(xml, "<!--", k)
    {
      OpenNotBefore(before, xml, k);
    }
    FindFirst(xml, "<!--", 0, |before|);
  }

  /** The same for `-->` after a head that holds none: `>` comes only
      last in `-->`. */
  lemma CloseNotBefore(head: string, xml: string, k: nat)
    requires !Contains(head, "-->") && k < |head|
    requires |head| <= |xml| && xml[..|head|] == head && MatchAt(xml, "-->", |head|)
    ensures !MatchAt(xml, "-->", k)
  {
    var e := |head|;
    if k + 3 <= e {
      assert !MatchAt(head, "-->", k);
      assert forall j | k <= j < k + 3 :: xml[j] == xml[..e][j] == head[j];
      assert xml[k .. k + 3] == head[k .. k + 3];
    } else {
      assert xml[e .. e + 3] == "-->";
      assert xml[k + 2] == xml[e .. e + 3][k + 2 - e];
      Mismatch(xml, "-->", k, 2);
    }
  }

  lemma CloseFirst(head: string, xml: string)
    requires !Contains(head, "-->")
    requires |head| <= |xml| && xml[..|head|] == head && MatchAt(xml, "-->", |head|)
    ensures Find(xml, "-->", 0) == Some(|head|)
  {
    forall k | 0 <= k < |head|
      ensures !MatchAt(xml, "-->", k)
    {
      CloseNotBefore(head, xml, k);
    }
    FindFirst(xml, "-->", 0, |head|);
  }

  /** A comment that is the first `<!--` and whose `-->` is the first in the
      whole text is removed together with its delimiters. */
  lemma CommentRemoved(before: string, body: string, after: string)
    requires !Contains(before, "<!--") && !Contains(before + "<!--" + body, "-->")
    ensures var xml := before + "<!--" + body + "-->" + after;
            RemoveComments(xml) == RemoveComments(before + after)
  {
    var head := before + "<!--" + body;
    var xml := head + "-->" + after;
    assert xml == before + "<!--" + body + "-->" + after;
    assert xml[..|before|] == before && MatchAt(xml, "<!--", |before|);
    OpenFirst(before, xml);
    assert xml[..|head|] == head && MatchAt(xml, "-->", |head|);
    CloseFirst(head, xml);
    var start, e := |before|, |head|;
    assert Remove(xml, start, e + 3 - start) == before + after;
  }

  /** Defect witness: a comment left open at index 2 makes the loop repeat
      for ever. */
  lemma OpenCommentAtTwoDiverges()
    ensures RemoveComments("ab<!--") == Fail(Diverges)
  {
    var xml := "ab<!--";
    forall k: nat | k < 2
      ensures !MatchAt(xml, "<!--", k)
    {
      Mismatch(xml, "<!--", k, 0);
    }
    assert xml[2..6] == "<!--";
    FindFirst(xml, "<!--", 0, 2);
    forall k: nat | k + 3 <= |xml|
      ensures !MatchAt(xml, "-->", k)
    {
      Mismatch(xml, "-->", k, 0);
    }
    FindNone(xml, "-->", 0);
  }

  /** Defect witness: a comment left open further in throws from `Remove`
      instead of the intended `ArgumentException`. */
  lemma OpenCommentLaterThrows()
    ensures RemoveComments("abc<!--") == Fail(ArgumentOutOfRange)
  {
    var xml := "abc<!--";
    forall k: nat | k < 3
      ensures !MatchAt(xml, "<!--", k)
    {
      Mismatch(xml, "<!--", k, 0);
    }
    assert xml[3..7] == "<!--";
    FindFirst(xml, "<!--", 0, 3);
    forall k: nat | k + 3 <= |xml|
      ensures !MatchAt(xml, "-->", k)
    {
      Mismatch(xml, "-->", k, 0);
    }
    FindNone(xml, "-->", 0);
  }

  /** Defect witness: a closed comment right after a stray `-->` hangs too,
      because the `-->` searched for is the first in the text. */
  lemma StrayCloserDiverges()
    ensures RemoveComments("--><!---->") == Fail(Diverges)
  {
    var xml := "--><!---->";
    forall k: nat | k < 3
      ensures !MatchAt(xml, "<!--", k)
    {
      Mismatch(xml, "<!--", k, 0);
    }
    assert xml[3..7] == "<!--";
    FindFirst(xml, "<!--", 0, 3);
    assert xml[0..3] == "-->";
    FindFirst(xml, "-->", 0, 0);
  }

  /** The evident intent of `RemoveComments`: each comment ends at the first
      `-->` after its own `<!--` (the `Comment` production of section 2.5 of
      XML 1.0), and a comment with no `-->` after it is refused with
      `ArgumentException`. Every step removes at least seven characters, so
      the loop always ends. */
  function RemoveCommentsFixed(xml: string): (r: Result<string>)
    decreases |xml|
    ensures r.Ok? ==> !Contains(r.value, "<!--")
    ensures r.Fail? ==> r.error == ArgumentException
  {
    match Find(xml, "<!--", 0)
    case None =>
      FindContains(xml, "<!--");
      Ok(xml)
    case Some(start) =>
      match Find(xml, "-->", start + 4)
      case None => Fail(ArgumentException)
      case Some(e) => RemoveCommentsFixed(Remove(xml, start, e + 3 - start))
  }

  /** Text without `<!--` is left as it is. */
  lemma NoCommentUnchangedFixed(xml: string)
    requires !Contains(xml, "<!--")
    ensures RemoveCommentsFixed(xml) == Ok(xml)
  {
    FindContains(xml, "<!--");
  }

  /** Inside `before + "<!--" + body + "-->" + after`, the first `-->` after
      the `<!--` closes `body` when `body` holds none: a match running into
      the closing `-->` would need its `>` where that has a `-`. */
  lemma CloseAfter(before: string, body: string, after: string)
    requires !Contains(body, "-->")
    ensures var xml := before + "<!--" + body + "-->" + after;
            Find(xml, "-->", |before| + 4) == Some(|before| + 4 + |body|)
  {
    hide Find, MatchAt, Contains;
    var head, tail := before + "<!--", "-->" + after;
    assert tail[..3] == "-->";
    assert head + body + tail == before + "<!--" + body + "-->" + after;
    CloseInside(head, body, tail);
  }

  lemma CloseInside(head: string, body: string, tail: string)
    requires !Contains(body, "-->") && |tail| >= 3 && tail[..3] == "-->"
    ensures Find(head + body + tail, "-->", |head|) == Some(|head| + |body|)
  {
    var xml := head + body + tail;
    var from, e := |head|, |head| + |body|;
    forall k | from <= k < e
      ensures !MatchAt(xml, "-->", k)
    {
      if k + 3 <= e {
        if MatchAt(xml, "-->", k) {
          forall j | 0 <= j < 3
            ensures body[k - from + j] == "-->"[j]
          {
            assert xml[k + j] == body[k - from + j];
          }
          assert MatchAt(body, "-->", k - from);
          assert false;
        }
      } else {
        assert xml[k + 2] == tail[k + 2 - e] == tail[..3][k + 2 - e];
        Mismatch(xml, "-->", k, 2);
      }
    }
    forall j | 0 <= j < 3
      ensures xml[e + j] == "-->"[j]
    {
      assert xml[e + j] == tail[j] == tail[..3][j];
    }
    FindFirst(xml, "-->", from, e);
  }

  /** A closed comment after text without `<!--` is removed with its
      delimiters, and the rest is processed in turn. Unlike the source's
      loop, a `-->` elsewhere in the text does not matter. */
  lemma CommentRemovedFixed(before: string, body: string, after: string)
    requires !Contains(before, "<!--") && !Contains(body, "-->")
    ensures var xml := before + "<!--" + body + "-->" + after;
            RemoveCommentsFixed(xml) == RemoveCommentsFixed(before + after)
  {
    var xml := before + "<!--" + body + "-->" + after;
    assert xml[..|before|] == before && MatchAt(xml, "<!--", |before|);
    OpenFirst(before, xml);
    CloseAfter(before, body, after);
    var start, e := |before|, |before| + 4 + |body|;
    assert Remove(xml, start, e + 3 - start) == before + after;
  }

  /** A comment with no `-->` after it is refused. */
  lemma UnclosedCommentRefused(before: string, rest: string)
    requires !Contains(before, "<!--") && !Contains(rest, "-->")
    ensures RemoveCommentsFixed(before + "<!--" + rest) == Fail(ArgumentException)
  {
    var xml := before + "<!--" + rest;
    var from := |before| + 4;
    assert xml[..|before|] == before && MatchAt(xml, "<!--", |before|);
    OpenFirst(before, xml);
    forall k: nat | from <= k && k + 3 <= |xml|
      ensures !MatchAt(xml, "-->", k)
    {
      assert !MatchAt(rest, "-->", k - from);
      var j :| 0 <= j < 3 && rest[k - from + j] != "-->"[j];
      assert xml[k + j] == rest[k - from + j];
      Mismatch(xml, "-->", k, j);
    }
    FindNone(xml, "-->", from);
  }

  /** The corrected loop on the source's defect witnesses: the comments
      left open at index 2 and further in are both refused with
      `ArgumentException`, ... */
  lemma FixedRefusesOpenComments()
    ensures RemoveCommentsFixed("ab<!--") == Fail(ArgumentException)
    ensures RemoveCommentsFixed("abc<!--") == Fail(ArgumentException)
  {
    hide RemoveCommentsFixed, Find;
    AbsentLead("ab", "<!--");
    AbsentLead("abc", "<!--");
    AbsentLead("", "-->");
    UnclosedCommentRefused("ab", "");
    assert "ab" + "<!--" + "" == "ab<!--";
    UnclosedCommentRefused("abc", "");
    assert "abc" + "<!--" + "" == "abc<!--";
  }

  /** ... and the comment after a stray `-->` is removed. */
  lemma FixedPassesStrayCloser()
    ensures RemoveCommentsFixed("--><!---->") == Ok("-->")
  {
    hide RemoveCommentsFixed, Find;
    AbsentLead("-->", "<!--");
    AbsentLead("", "-->");
    CommentRemovedFixed("-->", "", "");
    assert "-->" + "<!--" + "" + "-->" + "" == "--><!---->";
    NoCommentUnchangedFixed("-->");
    assert "-->" + "" == "-->";
  }

  /** `RemoveDeclarations`: while the text holds `<?`, removes from its
      first occurrence through the first `>` after it; a `<?` with no later
      `>` throws `ArgumentException`. */
  function RemoveDeclarations(xml: string): (r: Result<string>)
    decreases |xml|
    ensures r.Ok? ==> !Contains(r.value, "<?")
    ensures r.Fail? ==> r.error == ArgumentException
  {
    match Find(xml, "<?", 0)
    case None =>
      FindContains(xml, "<?");
      Ok(xml)
    case Some(start) =>
      match FindChar(xml, '>', start + 2)
      case None => Fail(ArgumentException)
      case Some(end) => RemoveDeclarations(Remove(xml, start, end - start + 1))
  }

  /** Text without `<?` is left as it is. */
  lemma NoDeclarationUnchanged(xml: string)
    requires !Contains(xml, "<?")
    ensures RemoveDeclarations(xml) == Ok(xml)
  {
    FindContains(xml, "<?");
  }

  /** The declaration is removed through its `>`, and what follows is
      processed in turn. */
  lemma DeclarationRemoved(before: string, body: string, after: string)
    requires !Contains(before, "<?") && '<' !in before && '>' !in body
    ensures RemoveDeclarations(before + "<?" + body + ">" + after)
            == RemoveDeclarations(before + after)
  {
    var xml := before + "<?" + body + ">" + after;
    var start := |before|;
    assert xml[start] == '<' && xml[start + 1] == '?';
    forall k | 0 <= k < start
      ensures !MatchAt(xml, "<?", k)
    {
      assert xml[k] == before[k];
      Mismatch(xml, "<?", k, 0);
    }
    FindFirst(xml, "<?", 0, start);
    var end := start + 2 + |body|;
    assert xml[end] == '>';
    assert forall k :: start + 2 <= k < end ==> xml[k] == body[k - start - 2];
    FindCharFirst(xml, '>', start + 2, end);
    assert Remove(xml, start, end - start + 1) == before + after;
  }

  /** A `<?` with no `>` after it is refused. */
  lemma UnclosedDeclaration(before: string, rest: string)
    requires '<' !in before && '>' !in rest
    ensures RemoveDeclarations(before + "<?" + rest) == Fail(ArgumentException)
  {
    var xml := before + "<?" + rest;
    var start := |before|;
    assert xml[start] == '<' && xml[start + 1] == '?';
    forall k | 0 <= k < start
      ensures !MatchAt(xml, "<?", k)
    {
      assert xml[k] == before[k];
      Mismatch(xml, "<?", k, 0);
    }
    FindFirst(xml, "<?", 0, start);
    assert forall k :: start + 2 <= k < |xml| ==> xml[k] == rest[k - start - 2];
  }

  /** `CountFromEnd`: how many times `character` repeats at the end of
      `text`. */
  method CountFromEnd(text: string, character: char) returns (r: nat)
    ensures r <= |text|
    ensures forall k :: |text| - r <= k < |text| ==> text[k] == character
    ensures r < |text| ==> text[|text| - 1 - r] != character
  {
    var i := 0;
    while i < |text|
      invariant i <= |text|
      invariant forall k :: |text| - i <= k < |text| ==> text[k] == character
    {
      if text[|text| - 1 - i] != character {
        return i;
      }
      i := i + 1;
    }
    return |text|;
  }

  /** `count` copies of `pattern` one after another. */
  function Repeat(pattern: string, count: nat): (r: string)
    ensures |r| == count * |pattern|
  {
    if count == 0 then [] else Repeat(pattern, count - 1) + pattern
  }

  /** `MultiplyString`: `pattern` repeated `count` times, nothing for a
      count of zero or less. */
  method MultiplyString(pattern: string, count: Int32) returns (r: string)
    ensures count <= 0 ==> r == []
    ensures count > 0 ==> r == Repeat(pattern, count) && |r| == count * |pattern|
  {
    r := "";
    var i := 0;
    while i < count
      invariant 0 <= i && (count > 0 ==> i <= count) && (count <= 0 ==> i == 0)
      invariant r == Repeat(pattern, i)
    {
      r := r + pattern;
      i := i + 1;
    }
  }
}

=== FILE: xml_content.dfy ===
/** `XMLContentCollection` (XML/XMLContentCollection.cs): the items of an
    element's content as a sequence, looked up and removed by name. `Count`
    is the length of the sequence, `Add` appends, `Clear` gives the empty
    sequence and the copy constructor keeps the order, so only the
    name-based operations need functions of their own. */
module XmlContent {
  import opened Common
  import opened Lists
  import opened XmlElement

  /** The test of `Find`: an element (not text) with that name. */
  function ElementNamed(name: Option<string>): Node -> bool
  {
    (n: Node) => n.Element? && n.name == name
  }

  /** The test of `Remove(string)`: any item with that name. */
  function HasName(name: Option<string>): Node -> bool
  {
    (n: Node) => n.name == name
  }

  /** `Find`: the first element with that name; text items are skipped
      whatever their name. `None` where the source gives null. */
  function Find(items: seq<Node>, name: Option<string>): (r: Option<Node>)
    ensures r.None? <==> forall k :: 0 <= k < |items| ==> !(items[k].Element? && items[k].name == name)
    ensures r.Some? ==> exists i :: 0 <= i < |items| && items[i] == r.value
                                    && r.value.Element? && r.value.name == name
                                    && forall k :: 0 <= k < i ==> !(items[k].Element? && items[k].name == name)
  {
    match FirstIndex(items, ElementNamed(name))
    case None => None
    case Some(i) => Some(items[i])
  }

  /** `Remove(string name)`: the first item of either kind with that name
      goes and the others keep their order; nothing changes when no item
      has the name. */
  function Remove(items: seq<Node>, name: Option<string>): (r: seq<Node>)
    ensures (forall k :: 0 <= k < |items| ==> items[k].name != name) ==> r == items
    ensures !(forall k :: 0 <= k < |items| ==> items[k].name != name) ==>
              exists i :: 0 <= i < |items| && items[i].name == name
                          && (forall k :: 0 <= k < i ==> items[k].name != name)
                          && r == items[..i] + items[i + 1..]
  {
    RemoveFirstMeaning(items, HasName(name));
    RemoveFirst(items, HasName(name))
  }

  /** When the first item with the name is an element, `Remove` takes out
      exactly the element `Find` returns. */
  lemma RemoveTakesFound(items: seq<Node>, name: Option<string>, i: nat)
    requires i < |items| && items[i].Element? && items[i].name == name
    requires forall k :: 0 <= k < i ==> items[k].name != name
    ensures Find(items, name) == Some(items[i])
    ensures Remove(items, name) == items[..i] + items[i + 1..]
  {
    FirstIndexIs(items, ElementNamed(name), i);
    FirstIndexIs(items, HasName(name), i);
    RemoveFirstMeaning(items, HasName(name));
  }

  /** `Remove` and `Find` disagree when a text item carries the name ahead
      of the element: `Find` returns the element, `Remove` takes the text. */
  lemma RemoveTakesText()
    ensures var items := [Text(Some("a"), "x"), Element(Some("a"), [], [])];
            Find(items, Some("a")) == Some(Element(Some("a"), [], []))
            && Remove(items, Some("a")) == [Element(Some("a"), [], [])]
  {
    var items := [Text(Some("a"), "x"), Element(Some("a"), [], [])];
    FirstIndexIs(items, ElementNamed(Some("a")), 1);
    FirstIndexIs(items, HasName(Some("a")), 0);
    RemoveFirstMeaning(items, HasName(Some("a")));
  }

  /** `Remove(string name)` as its documentation describes it, removing an
      element by name: the first element with that name goes, which is the
      one `Find` returns, and text items stay whatever their name. */
  function RemoveFixed(items: seq<Node>, name: Option<string>): (r: seq<Node>)
    ensures Find(items, name).None? ==> r == items
    ensures Find(items, name).Some? ==>
              exists i :: 0 <= i < |items| && items[i] == Find(items, name).value
                          && (forall k :: 0 <= k < i ==> !(items[k].Element? && items[k].name == name))
                          && r == items[..i] + items[i + 1..]
  {
    RemoveFirstMeaning(items, ElementNamed(name));
    RemoveFirst(items, ElementNamed(name))
  }

  /** The corrected removal agrees with the source whenever the first item
      carrying the name is an element. */
  lemma RemoveFixedAgrees(items: seq<Node>, name: Option<string>, i: nat)
    requires i < |items| && items[i].Element? && items[i].name == name
    requires forall k :: 0 <= k < i ==> items[k].name != name
    ensures RemoveFixed(items, name) == Remove(items, name)
  {
    RemoveTakesFound(items, name, i);
    FirstIndexIs(items, ElementNamed(name), i);
    RemoveFirstMeaning(items, ElementNamed(name));
  }

  /** After the corrected removal of the first element with the name, `Find`
      gives the next element with that name, if any. */
  lemma RemoveFixedThenFind(a: seq<Node>, e: Node, b: seq<Node>, name: Option<string>)
    requires forall k :: 0 <= k < |a| ==> !(a[k].Element? && a[k].name == name)
    requires e.Element? && e.name == name
    ensures Find(RemoveFixed(a + [e] + b, name), name) == Find(b, name)
  {
    var p := ElementNamed(name);
    var items := a + [e] + b;
    assert items[|a|] == e;
    assert forall k :: 0 <= k < |a| ==> items[k] == a[k];
    FirstIndexIs(items, p, |a|);
    RemoveFirstMeaning(items, p);
    assert items[..|a|] == a && items[|a| + 1..] == b;
    RemoveFixedIs(items, name);
    hide Find, RemoveFixed;
    PassOver(a, b, p);
    FindShift(a, b, name);
  }

  /** The corrected removal is the shared removal loop with `Find`'s test. */
  lemma RemoveFixedIs(items: seq<Node>, name: Option<string>)
    ensures RemoveFixed(items, name) == RemoveFirst(items, ElementNamed(name))
  {
  }

  /** `Find` over a prefix with no element of the name is `Find` over the
      rest. */
  lemma FindShift(a: seq<Node>, b: seq<Node>, name: Option<string>)
    requires forall k :: 0 <= k < |a| ==> !ElementNamed(name)(a[k])
    requires var f := FirstIndex(b, ElementNamed(name));
             FirstIndex(a + b, ElementNamed(name)) == (if f.Some? then Some(|a| + f.value) else None)
    ensures Find(a + b, name) == Find(b, name)
  {
    match FirstIndex(b, ElementNamed(name))
    case None =>
    case Some(j) =>
      assert (a + b)[|a| + j] == b[j];
  }

  /** On the items of `RemoveTakesText` the corrected removal takes the
      element and keeps the text. */
  lemma FixedKeepsText()
    ensures var items := [Text(Some("a"), "x"), Element(Some("a"), [], [])];
            RemoveFixed(items, Some("a")) == [Text(Some("a"), "x")]
  {
    var items := [Text(Some("a"), "x"), Element(Some("a"), [], [])];
    FirstIndexIs(items, ElementNamed(Some("a")), 1);
    RemoveFirstMeaning(items, ElementNamed(Some("a")));
    assert items[..1] + items[2..] == [Text(Some("a"), "x")];
  }

  /** `Add` appends: an added element is found under its name unless an
      element of that name was there already. */
  lemma AddThenFind(items: seq<Node>, x: Node)
    ensures Find(items + [x], x.name)
            == (if Find(items, x.name).Some? then Find(items, x.name)
                else if x.Element? then Some(x) else None)
    ensures |items + [x]| == |items| + 1
  {
    AppendThenFind(items, x, ElementNamed(x.name));
  }
}

=== FILE: xml_element.dfy ===
/** `XMLElement`, the tag reading of `XMLBase.CommonDecoder` and
    `XMLContentCollection` (XML/XMLElement.cs, XML/XMLBase.cs,
    XML/XMLContentCollection.cs): a tree of elements and text, written out
    as tags, and the opening tag read back as a name, its attributes and
    either nothing (a self-closing tag) or the raw text up to the closing
    tag. */
module XmlElement {
  import opened Common
  import opened Text
  import opened Lists
  import opened XmlBase
  import opened XmlString
  import XmlAttribute

  type Attribute = XmlAttribute.Attribute

  /** An item of element content: text (`XMLString`) or an element. Both
      carry the `Name` of `XMLBase`, which may be null. */
  datatype Node =
    | Text(name: Option<string>, text: string)
    | Element(name: Option<string>, attributes: seq<Attribute>, content: seq<Node>)

  /** The attributes as the opening tag lists them: a space before each
      encoded attribute, in order. */
  function AttributesText(attrs: seq<Attribute>): string
  {
    if attrs == [] then [] else " " + XmlAttribute.Encode(attrs[0]) + AttributesText(attrs[1..])
  }

  /** `Encode`: text is escaped; an element is `<name attrs/>` without
      content and `<name attrs>content</name>` with it. A null element name
      fails as escaping null does. */
  function EncodeNode(n: Node): Result<string>
    decreases n, 1
  {
    match n
    case Text(_, text) => Ok(Escape(text))
    case Element(name, attrs, content) =>
      if name.None? then Fail(NullReference)
      else
        var open := "<" + Escape(name.value) + AttributesText(attrs);
        if content == [] then Ok(open + "/>")
        else
          var inner :- EncodeContent(content);
          Ok(open + ">" + inner + "</" + Escape(name.value) + ">")
  }

  /** The encodings of the items one after another. */
  function EncodeContent(items: seq<Node>): Result<string>
    decreases items, 0
  {
    if items == [] then Ok([])
    else
      var first :- EncodeNode(items[0]);
      var rest :- EncodeContent(items[1..]);
      Ok(first + rest)
  }

  /** Where the raw tag name stops: the first space or `/` at or after
      `i`, or the end of the tag. */
  function NameEnd(tag: string, i: nat): (r: nat)
    requires i <= |tag|
    decreases |tag| - i
    ensures i <= r <= |tag|
    ensures forall k :: i <= k < r ==> tag[k] != ' ' && tag[k] != '/'
    ensures r < |tag| ==> tag[r] == ' ' || tag[r] == '/'
  {
    if i == |tag| then i
    else if tag[i] == ' ' || tag[i] == '/' then i
    else NameEnd(tag, i + 1)
  }

  /** What the attribute loop of `CommonDecoder` cuts out of a tag: the
      attribute texts in order, and whether it stopped at a value without
      its closing quote. */
  datatype Scan = Scan(texts: seq<string>, unclosed: bool)

  /** The scan of the attribute loop: from `attribEnd`, the next quote
      opens a value; the attribute text runs from one past `attribEnd`
      through the quote after that, and the search resumes just past
      it. */
  function AttributeTexts(tag: string, attribEnd: nat): Scan
    requires attribEnd <= |tag|
    decreases |tag| - attribEnd
  {
    match FindChar(tag, '"', attribEnd)
    case None => Scan([], false)
    case Some(valueStart) =>
      match FindChar(tag, '"', valueStart + 1)
      case None => Scan([], true)
      case Some(close) =>
        var rest := AttributeTexts(tag, close + 1);
        Scan([tag[attribEnd + 1 .. close + 1]] + rest.texts, rest.unclosed)
  }

  /** Each text decoded in turn; a value without its closing quote, met
      after the last text, makes the `Substring` length negative. */
  function DecodeAttributes(texts: seq<string>, unclosed: bool): Result<seq<Attribute>>
  {
    if texts == [] then (if unclosed then Fail(ArgumentOutOfRange) else Ok([]))
    else
      var a :- XmlAttribute.Decode(texts[0]);
      var rest :- DecodeAttributes(texts[1..], unclosed);
      Ok([a] + rest)
  }

  /** The attribute loop: the source decodes each text as soon as it is
      cut out, so the first failure in tag order wins; scanning first and
      decoding afterwards keeps that order. */
  function TagAttributes(tag: string, attribEnd: nat): Result<seq<Attribute>>
    requires attribEnd <= |tag|
  {
    var scan := AttributeTexts(tag, attribEnd);
    DecodeAttributes(scan.texts, scan.unclosed)
  }

  /** What `CommonDecoder` finds: the decoded name, the attributes, the
      raw content text (`None` where the source returns null for a
      self-closing tag) and the end index. */
  datatype OpeningTag = OpeningTag(name: string, attributes: seq<Attribute>, content: Option<string>, end: nat)

  /** The opening tag as first located: the text after declarations are
      removed, the index of the tag's `>`, the text between `<` and `>`,
      and the raw name at its start. */
  datatype Located = Located(xml: string, tagEnd: nat, tag: string, rawName: string)

  /** The first stage of `CommonDecoder`: declarations removed, the first
      `<` at or after `start`, the first `>` after it, and the raw name
      before the first space or `/`. An empty tag fails where the source
      indexes its first character. */
  function Locate(input: string, start: int): (r: Result<Located>)
    ensures r.Ok? ==> r.value.tag != [] && |r.value.rawName| <= |r.value.tag|
                      && r.value.tagEnd < |r.value.xml|
  {
    var xml :- RemoveDeclarations(input);
    if start < 0 || start > |xml| then Fail(ArgumentOutOfRange)
    else
      match FindChar(xml, '<', start)
      case None => Fail(ArgumentException)
      case Some(tagStart) =>
        match FindChar(xml, '>', tagStart + 1)
        case None => Fail(ArgumentException)
        case Some(tagEnd) =>
          var tag := xml[tagStart + 1 .. tagEnd];
          if tag == [] then Fail(IndexOutOfRange)
          else Ok(Located(xml, tagEnd, tag, tag[..NameEnd(tag, 0)]))
  }

  /** The last stage: a tag ending in `/` is self-closing and decoding
      ends just past its `>`; otherwise the content runs up to the first
      `</` + raw name after the tag. A missing closing tag makes the
      `Substring` length negative; a missing `>` after it leaves `end` at
      0. */
  function Finish(l: Located, name: string, attributes: seq<Attribute>): Result<OpeningTag>
    requires l.tag != []
  {
    if l.tag[|l.tag| - 1] == '/' then Ok(OpeningTag(name, attributes, None, l.tagEnd + 1))
    else
      match Find(l.xml, "</" + l.rawName, l.tagEnd + 1)
      case None => Fail(ArgumentOutOfRange)
      case Some(contentEnd) =>
        Ok(OpeningTag(name, attributes, Some(l.xml[l.tagEnd + 1 .. contentEnd]), EndAfter(l.xml, contentEnd)))
  }

  /** Where decoding ends after content ending at `contentEnd`: just past
      the first `>` after the `</` of the closing tag, or 0 when there is
      none. */
  function EndAfter(xml: string, contentEnd: nat): nat
  {
    match FindChar(xml, '>', contentEnd + 2)
    case None => 0
    case Some(close) => close + 1
  }

  /** `CommonDecoder`: locate the tag, decode its name, read its
      attributes, then finish as a self-closing tag or with content. */
  function CommonDecoder(input: string, start: int): Result<OpeningTag>
  {
    var l :- Locate(input, start);
    var name :- XmlString.Decode(l.rawName);
    var attributes :- TagAttributes(l.tag, |l.rawName|);
    Finish(l, name, attributes)
  }

  /** `XMLElement.Decode`: a self-closing tag gives an element without
      content; otherwise comments are removed from the content text and
      `readContent` stands for the content loop. The end is the one
      `CommonDecoder` found. */
  function DecodeElement(xml: string, start: int, readContent: string -> Result<seq<Node>>): Result<(Node, nat)>
  {
    var o :- CommonDecoder(xml, start);
    match o.content
    case None => Ok((Element(Some(o.name), o.attributes, []), o.end))
    case Some(text) =>
      var uncommented :- RemoveComments(text);
      var items :- readContent(uncommented);
      Ok((Element(Some(o.name), o.attributes, items), o.end))
  }

  /** `XMLElement.Decode` called on an element that already holds
      attributes and content: `Name` is set, and the attributes and content
      read are added after those it holds. */
  function DecodeInto(target: Node, xml: string, start: int, readContent: string -> Result<seq<Node>>)
    : Result<(Node, nat)>
    requires target.Element?
  {
    var o :- CommonDecoder(xml, start);
    var items :- match o.content
                 case None => Ok([])
                 case Some(text) =>
                   var uncommented :- RemoveComments(text);
                   readContent(uncommented);
    Ok((Element(Some(o.name), target.attributes + o.attributes, target.content + items), o.end))
  }

  /** Decoding into an element succeeds exactly when decoding a fresh one
      does, keeps what the element held in front, and adds what the fresh
      decode reads; into an empty element it is the fresh decode. */
  lemma DecodeIntoAppends(target: Node, xml: string, start: int, readContent: string -> Result<seq<Node>>)
    requires target.Element?
    ensures DecodeInto(target, xml, start, readContent).Ok? <==> DecodeElement(xml, start, readContent).Ok?
    ensures DecodeElement(xml, start, readContent).Ok? ==>
              var (read, end) := DecodeElement(xml, start, readContent).value;
              DecodeInto(target, xml, start, readContent)
              == Ok((Element(read.name, target.attributes + read.attributes, target.content + read.content), end))
    ensures target.attributes == [] && target.content == [] ==>
              DecodeInto(target, xml, start, readContent) == DecodeElement(xml, start, readContent)
  {
    match CommonDecoder(xml, start)
    case Fail(_) =>
    case Ok(o) =>
      assert [] + o.attributes == o.attributes;
      match o.content
      case None =>
        assert target.content + [] == target.content;
      case Some(text) =>
        match RemoveComments(text)
        case Fail(_) =>
        case Ok(u) =>
          match readContent(u)
          case Fail(_) =>
          case Ok(items) =>
            assert [] + items == items;
  }

  // ---------------------------------------------------------------------
  // Encoding facts

  /** Attribute text holds no angle brackets. */
  lemma {:induction false} AttributesBare(attrs: seq<Attribute>)
    ensures '<' !in AttributesText(attrs) && '>' !in AttributesText(attrs)
  {
    if attrs != [] {
      AttributesBare(attrs[1..]);
    }
  }

  /** Attributes the encoding carries back: valid names, values without
      control characters. */
  predicate AttributesOk(attrs: seq<Attribute>)
  {
    forall k :: 0 <= k < |attrs| ==> XmlAttribute.ValidName(attrs[k].name) && NoControl(attrs[k].value)
  }

  /** Element names the encoding carries back: no control characters, no
      space or `/` (which end the name) and no leading `?` (which would
      make the tag a declaration). */
  predicate NameOk(name: string)
  {
    NoControl(name) && ' ' !in name && '/' !in name && (name != [] ==> name[0] != '?')
  }

  /** The escaped name avoids everything that ends a name or a tag. */
  lemma EscapedName(name: string)
    requires NameOk(name)
    ensures var en := Escape(name);
            ' ' !in en && '/' !in en && '<' !in en && '>' !in en && '"' !in en
            && (en != [] ==> en[0] != '?')
            && XmlString.Decode(en) == Ok(name)
  {
    EscapeAvoids(name, ' ');
    EscapeAvoids(name, '/');
    if name != [] {
      EscapeEnds(name);
    }
    DecodeEncode(name);
  }

  /** A text whose only `<` is the first character, not followed by `?`,
      holds no declaration. */
  lemma OnlyLeadingAngle(body: string)
    requires '<' !in body && (body != [] ==> body[0] != '?')
    ensures RemoveDeclarations("<" + body) == Ok("<" + body)
  {
    var xml := "<" + body;
    forall k: nat | k <= |xml|
      ensures !MatchAt(xml, "<?", k)
    {
      if k == 0 {
        if |xml| >= 2 {
          Mismatch(xml, "<?", 0, 1);
        }
      } else if k < |xml| {
        assert xml[k] == body[k - 1];
        Mismatch(xml, "<?", k, 0);
      }
    }
    NoDeclarationUnchanged(xml);
  }

  // ---------------------------------------------------------------------
  // The attribute loop

  lemma QuoteSplits(pre: string, en: string, ev: string, post: string)
    ensures var text := pre + " " + en + "=\"" + ev + "\"" + post;
            text == pre + (" " + en + "=") + ['"'] + (ev + "\"" + post)
            && text == (pre + " " + en + "=\"") + ev + ['"'] + post
            && |pre + " " + en + "=\""| == |pre| + |en| + 3
            && |" " + en + "="| == |en| + 2
  {
  }

  /** The first quote at or after `from` in `pre + mid + "\"" + post`,
      where `mid` holds none, closes `mid`. */
  lemma QuoteAt(text: string, pre: string, mid: string, post: string, at: nat)
    requires text == pre + mid + ['"'] + post && '"' !in mid && at == |pre| + |mid|
    ensures FindChar(text, '"', |pre|) == Some(at)
  {
    FindCharAfter(pre, mid, '"', post);
  }

  /** One attribute inside a tag: its value opens at `valueStart` and
      closes at `close`, and the text between the space and the character
      after the closing quote is its encoding. */
  lemma AttributeAt(text: string, pre: string, en: string, ev: string, post: string, valueStart: nat, close: nat, next: nat)
    requires text == pre + " " + en + "=\"" + ev + "\"" + post
    requires '"' !in en && '"' !in ev
    requires valueStart == |pre| + |en| + 2 && close == valueStart + 1 + |ev| && next == close + 1
    ensures FindChar(text, '"', |pre|) == Some(valueStart)
    ensures FindChar(text, '"', valueStart + 1) == Some(close)
    ensures text[|pre| + 1 .. next] == en + "=\"" + ev + "\""
  {
    QuoteSplits(pre, en, ev, post);
    QuoteAt(text, pre, " " + en + "=", ev + "\"" + post, valueStart);
    QuoteAt(text, pre + " " + en + "=\"", ev, post, close);
    AttributeSlice(pre, en, ev, post);
    assert close + 1 == |pre| + |en| + |ev| + 4;
  }

  lemma AttributeSlice(pre: string, en: string, ev: string, post: string)
    ensures (pre + " " + en + "=\"" + ev + "\"" + post)[|pre| + 1 .. |pre| + |en| + |ev| + 4]
            == en + "=\"" + ev + "\""
  {
    assert pre + " " + en + "=\"" + ev + "\"" + post == (pre + " ") + (en + "=\"" + ev + "\"") + post;
    EncodingAt(pre + " ", en + "=\"" + ev + "\"", post);
  }

  lemma EncodingAt(pre: string, mid: string, post: string)
    ensures (pre + mid + post)[|pre| .. |pre| + |mid|] == mid
  {
  }

  /** No quote after `pre`, no attribute. */
  lemma NoQuoteAfter(pre: string, post: string)
    requires '"' !in post
    ensures FindChar(pre + post, '"', |pre|) == None
  {
    assert forall k :: |pre| <= k < |pre + post| ==> (pre + post)[k] == post[k - |pre|];
  }

  /** The ways of grouping one encoded attribute `e` with what surrounds it. */
  lemma ListSplits(pre: string, e: string, rest: string, post: string, en: string, ev: string)
    requires e == en + "=\"" + ev + "\""
    ensures pre + (" " + e + rest) + post == pre + " " + en + "=\"" + ev + "\"" + (rest + post)
    ensures pre + (" " + e + rest) + post == (pre + " " + e) + rest + post
    ensures |pre + " " + e| == |pre| + |en| + |ev| + 4
  {
  }

  /** The encodings of the attributes, one text each. */
  function Encodings(attrs: seq<Attribute>): (r: seq<string>)
    ensures |r| == |attrs|
  {
    if attrs == [] then [] else [XmlAttribute.Encode(attrs[0])] + Encodings(attrs[1..])
  }

  /** One turn of the scan. */
  lemma ScanStep(tag: string, from: nat, valueStart: nat, close: nat, next: nat)
    requires from <= |tag| && next == close + 1
    requires FindChar(tag, '"', from) == Some(valueStart)
    requires FindChar(tag, '"', valueStart + 1) == Some(close)
    ensures AttributeTexts(tag, from)
            == Scan([tag[from + 1 .. next]] + AttributeTexts(tag, next).texts,
                    AttributeTexts(tag, next).unclosed)
  {
  }

  /** The scan reads the first of the encoded attributes and goes on
      after it. */
  lemma ScanCons(pre: string, a: Attribute, rest: string, post: string, text: string, pre2: string)
    requires text == pre + (" " + XmlAttribute.Encode(a) + rest) + post
    requires pre2 == pre + " " + XmlAttribute.Encode(a)
    ensures pre2 + rest + post == text
    ensures AttributeTexts(text, |pre|)
            == Scan([XmlAttribute.Encode(a)] + AttributeTexts(text, |pre2|).texts,
                    AttributeTexts(text, |pre2|).unclosed)
  {
    var en, ev := Escape(a.name), Escape(a.value);
    ListSplits(pre, XmlAttribute.Encode(a), rest, post, en, ev);
    var valueStart := |pre| + |en| + 2;
    var close := valueStart + 1 + |ev|;
    AttributeAt(text, pre, en, ev, rest + post, valueStart, close, |pre2|);
    ScanStep(text, |pre|, valueStart, close, |pre2|);
  }

  /** The scan cuts out exactly the encoded attributes of the tag, in
      order, when nothing after them holds a quote. */
  lemma {:induction false} ScanRoundTrip(pre: string, attrs: seq<Attribute>, post: string)
    requires '"' !in post
    ensures AttributeTexts(pre + AttributesText(attrs) + post, |pre|) == Scan(Encodings(attrs), false)
    decreases attrs
  {
    if attrs == [] {
      assert pre + AttributesText(attrs) + post == pre + post;
      NoQuoteAfter(pre, post);
    } else {
      var a := attrs[0];
      var rest := AttributesText(attrs[1..]);
      var text := pre + AttributesText(attrs) + post;
      var pre2 := pre + " " + XmlAttribute.Encode(a);
      assert AttributesText(attrs) == " " + XmlAttribute.Encode(a) + rest;
      ScanCons(pre, a, rest, post, text, pre2);
      ScanRoundTrip(pre2, attrs[1..], post);
    }
  }

  /** Decoding the encodings gives the attributes back. */
  lemma {:induction false} DecodeEncodings(attrs: seq<Attribute>)
    requires AttributesOk(attrs)
    ensures DecodeAttributes(Encodings(attrs), false) == Ok(attrs)
  {
    if attrs != [] {
      var a, rest := attrs[0], attrs[1..];
      assert attrs == [a] + rest;
      assert AttributesOk(rest) by {
        forall k | 0 <= k < |rest|
          ensures XmlAttribute.ValidName(rest[k].name) && NoControl(rest[k].value)
        {
          assert rest[k] == attrs[k + 1];
        }
      }
      DecodeEncodings(rest);
      XmlAttribute.RoundTrip(a);
      var t := XmlAttribute.Encode(a);
      assert Encodings(attrs) == [t] + Encodings(rest);
      DecodeCons(t, Encodings(rest), a, rest);
    }
  }

  /** Decoding goes on after a decoded first text. */
  lemma DecodeCons(t: string, ts: seq<string>, a: Attribute, rest: seq<Attribute>)
    requires XmlAttribute.Decode(t) == Ok(a) && DecodeAttributes(ts, false) == Ok(rest)
    ensures DecodeAttributes([t] + ts, false) == Ok([a] + rest)
  {
    assert ([t] + ts)[1..] == ts;
  }

  /** The attribute loop reads back every attribute of the tag, in order,
      when nothing after them holds a quote. */
  lemma AttributesRoundTrip(pre: string, attrs: seq<Attribute>, post: string)
    requires AttributesOk(attrs) && '"' !in post
    ensures TagAttributes(pre + AttributesText(attrs) + post, |pre|) == Ok(attrs)
  {
    ScanRoundTrip(pre, attrs, post);
    DecodeEncodings(attrs);
  }

  // ---------------------------------------------------------------------
  // Reading back an encoded opening tag

  /** `CommonDecoder` in its stages. */
  lemma DecoderStages(input: string, start: int, l: Located, name: string, attrs: seq<Attribute>)
    requires Locate(input, start) == Ok(l)
    requires XmlString.Decode(l.rawName) == Ok(name)
    requires TagAttributes(l.tag, |l.rawName|) == Ok(attrs)
    ensures CommonDecoder(input, start) == Finish(l, name, attrs)
  {
  }

  /** Locating a tag at the very start of a text without declarations. */
  lemma LocateAtStart(xml: string, tagEnd: nat, tag: string, rawName: string)
    requires RemoveDeclarations(xml) == Ok(xml)
    requires FindChar(xml, '<', 0) == Some(0) && FindChar(xml, '>', 1) == Some(tagEnd)
    requires xml[1 .. tagEnd] == tag && tag != [] && tag[..NameEnd(tag, 0)] == rawName
    ensures Locate(xml, 0) == Ok(Located(xml, tagEnd, tag, rawName))
  {
  }

  /** `CommonDecoder` on a text that starts with its opening tag, from the
      facts each stage needs. */
  lemma DecodedAtStart(xml: string, tagEnd: nat, tag: string, rawName: string, name: string, attrs: seq<Attribute>)
    requires RemoveDeclarations(xml) == Ok(xml)
    requires FindChar(xml, '<', 0) == Some(0) && FindChar(xml, '>', 1) == Some(tagEnd)
    requires xml[1 .. tagEnd] == tag && tag != [] && NameEnd(tag, 0) == |rawName| && tag[..|rawName|] == rawName
    requires XmlString.Decode(rawName) == Ok(name)
    requires TagAttributes(tag, |rawName|) == Ok(attrs)
    ensures CommonDecoder(xml, 0) == Finish(Located(xml, tagEnd, tag, rawName), name, attrs)
  {
    LocateAtStart(xml, tagEnd, tag, rawName);
    DecoderStages(xml, 0, Located(xml, tagEnd, tag, rawName), name, attrs);
  }

  /** An opening tag `<` + tag + `>` at the start of a text, with no `>`
      inside: its `>` is the first one. */
  lemma TagFrame(tag: string, rest: string, xml: string, tagEnd: nat)
    requires '>' !in tag && xml == "<" + tag + ['>'] + rest && tagEnd == |tag| + 1
    ensures FindChar(xml, '<', 0) == Some(0) && FindChar(xml, '>', 1) == Some(tagEnd)
    ensures xml[1 .. tagEnd] == tag
  {
    FindCharAfter("<", tag, '>', rest);
    assert xml == "<" + tag + (['>'] + rest);
    EncodingAt("<", tag, ['>'] + rest);
  }

  /** The tag text of an encoding holds no angle brackets. */
  lemma TagBare(name: string, attrs: seq<Attribute>, last: string, tag: string)
    requires NameOk(name) && (last == "/" || last == [])
    requires tag == Escape(name) + AttributesText(attrs) + last
    ensures '>' !in tag && '<' !in tag
  {
    EscapedName(name);
    AttributesBare(attrs);
  }

  /** The tag text of an encoding reads back as its name and attributes. */
  lemma TagContents(name: string, attrs: seq<Attribute>, last: string, tag: string)
    requires NameOk(name) && AttributesOk(attrs)
    requires last == "/" || (last == [] && (name != [] || attrs != []))
    requires tag == Escape(name) + AttributesText(attrs) + last
    ensures tag != [] && NameEnd(tag, 0) == |Escape(name)| && tag[..|Escape(name)|] == Escape(name)
    ensures XmlString.Decode(Escape(name)) == Ok(name)
    ensures TagAttributes(tag, |Escape(name)|) == Ok(attrs)
  {
    EscapedName(name);
    AttributesNameEnd(Escape(name), attrs, last, tag);
    AttributesRoundTrip(Escape(name), attrs, last);
  }

  /** After the escaped name the tag goes on with a space or `/`. */
  lemma AttributesNameEnd(en: string, attrs: seq<Attribute>, last: string, tag: string)
    requires ' ' !in en && '/' !in en
    requires last == "/" || (last == [] && (en != [] || attrs != []))
    requires tag == en + AttributesText(attrs) + last
    ensures tag != [] && NameEnd(tag, 0) == |en| && tag[..|en|] == en
  {
    assert forall k :: 0 <= k < |en| ==> tag[k] == en[k];
    if |en| < |tag| {
      assert attrs != [] ==> tag[|en|] == ' ';
      assert attrs == [] ==> tag[|en|] == '/';
    }
    NameEndAt(tag, 0, |en|);
  }

  lemma {:induction false} NameEndAt(tag: string, i: nat, k: nat)
    requires i <= k <= |tag|
    requires forall j :: i <= j < k ==> tag[j] != ' ' && tag[j] != '/'
    requires k < |tag| ==> tag[k] == ' ' || tag[k] == '/'
    ensures NameEnd(tag, i) == k
    decreases k - i
  {
    if i < k {
      NameEndAt(tag, i + 1, k);
    }
  }

  lemma SelfClosingSplits(en: string, at: string)
    ensures "<" + en + at + "/>" == "<" + (en + at + "/") + ['>'] + []
    ensures "<" + en + at + "/>" == "<" + (en + at + "/" + ">")
    ensures |"<" + en + at + "/>"| == |en + at + "/"| + 2
  {
  }

  /** The self-closing encoding leaves no room for a declaration. */
  lemma SelfClosingBare(name: string, attrs: seq<Attribute>, body: string)
    requires NameOk(name) && body == Escape(name) + AttributesText(attrs) + "/" + ">"
    ensures RemoveDeclarations("<" + body) == Ok("<" + body)
  {
    EscapedName(name);
    AttributesBare(attrs);
    assert '<' !in body;
    if Escape(name) != [] {
      assert body[0] == Escape(name)[0];
    }
    OnlyLeadingAngle(body);
  }

  /** Where the tag of a self-closing encoding sits. */
  lemma SelfClosingFacts(name: string, attrs: seq<Attribute>, xml: string) returns (tag: string)
    requires NameOk(name) && AttributesOk(attrs)
    requires xml == "<" + Escape(name) + AttributesText(attrs) + "/>"
    ensures tag == Escape(name) + AttributesText(attrs) + "/"
    ensures RemoveDeclarations(xml) == Ok(xml)
    ensures FindChar(xml, '<', 0) == Some(0) && FindChar(xml, '>', 1) == Some(|tag| + 1)
    ensures xml[1 .. |tag| + 1] == tag && tag != [] && tag[|tag| - 1] == '/' && |xml| == |tag| + 1 + 1
  {
    var en, at := Escape(name), AttributesText(attrs);
    tag := en + at + "/";
    SelfClosingSplits(en, at);
    SelfClosingBare(name, attrs, tag + ">");
    TagBare(name, attrs, "/", tag);
    TagFrame(tag, [], xml, |tag| + 1);
  }

  /** The last stage for a self-closing tag. */
  lemma FinishSelfClosing(xml: string, tagEnd: nat, tag: string, rawName: string, name: string, attrs: seq<Attribute>)
    requires tag != [] && tag[|tag| - 1] == '/' && |xml| == tagEnd + 1
    ensures Finish(Located(xml, tagEnd, tag, rawName), name, attrs) == Ok(OpeningTag(name, attrs, None, |xml|))
  {
  }

  /** `CommonDecoder` on a self-closing tag that fills the whole text. */
  lemma SelfClosingDecoded(xml: string, tag: string, rawName: string, name: string, attrs: seq<Attribute>)
    requires RemoveDeclarations(xml) == Ok(xml)
    requires FindChar(xml, '<', 0) == Some(0) && FindChar(xml, '>', 1) == Some(|tag| + 1)
    requires xml[1 .. |tag| + 1] == tag && tag != [] && tag[|tag| - 1] == '/' && |xml| == |tag| + 1 + 1
    requires NameEnd(tag, 0) == |rawName| && tag[..|rawName|] == rawName
    requires XmlString.Decode(rawName) == Ok(name)
    requires TagAttributes(tag, |rawName|) == Ok(attrs)
    ensures CommonDecoder(xml, 0) == Ok(OpeningTag(name, attrs, None, |xml|))
  {
    DecodedAtStart(xml, |tag| + 1, tag, rawName, name, attrs);
    FinishSelfClosing(xml, |tag| + 1, tag, rawName, name, attrs);
  }

  /** Self-closing round trip: `CommonDecoder` reads the encoding of an
      element without content back as its name and attributes, no content
      text, and an end just past the tag. */
  lemma SelfClosingRoundTrip(name: string, attrs: seq<Attribute>)
    requires NameOk(name) && AttributesOk(attrs)
    ensures var xml := "<" + Escape(name) + AttributesText(attrs) + "/>";
            CommonDecoder(xml, 0) == Ok(OpeningTag(name, attrs, None, |xml|))
  {
    var xml := "<" + Escape(name) + AttributesText(attrs) + "/>";
    var tag := SelfClosingFacts(name, attrs, xml);
    TagContents(name, attrs, "/", tag);
    SelfClosingDecoded(xml, tag, Escape(name), name, attrs);
  }

  /** Non-empty attribute text ends with the closing quote of the last
      value, so a tag carrying attributes never ends in `/`. */
  lemma {:induction false} AttributesEndQuote(attrs: seq<Attribute>)
    requires attrs != []
    ensures var at := AttributesText(attrs); at != [] && at[|at| - 1] == '"'
    decreases |attrs|
  {
    var e := XmlAttribute.Encode(attrs[0]);
    assert e[|e| - 1] == '"';
    if attrs[1..] != [] {
      AttributesEndQuote(attrs[1..]);
    }
  }

  /** The pieces of an encoding with content. */
  lemma ContentSplits(en: string, at: string, inner: string, xml: string)
    requires xml == "<" + en + at + ">" + inner + "</" + en + ">"
    ensures xml == "<" + (en + at) + ['>'] + (inner + ("</" + en + ">"))
    ensures xml == ("<" + en + at + ">") + inner + ("</" + en + ">")
    ensures |xml| == |en + at| + |inner| + |en| + 5
  {
  }

  /** A match lying inside the middle part is a match in it, and back. */
  lemma MatchInside(pre: string, mid: string, post: string, pat: string, k: nat)
    requires |pre| <= k && k + |pat| <= |pre| + |mid|
    ensures MatchAt(pre + mid + post, pat, k) <==> MatchAt(mid, pat, k - |pre|)
  {
    var s := pre + mid + post;
    var i := k - |pre|;
    assert forall j | k <= j < k + |pat| :: s[j] == mid[j - |pre|];
    assert s[k .. k + |pat|] == mid[i .. i + |pat|];
  }

  /** `"</" + en` cannot match across a `<` past its first character when
      `en` has no `<`. */
  lemma NoStraddle(s: string, en: string, k: nat, c: nat)
    requires '<' !in en && k < c < |s| && s[c] == '<' && c < k + 2 + |en|
    ensures !MatchAt(s, "</" + en, k)
  {
    var pat := "</" + en;
    assert c - k == 1 ==> pat[c - k] == '/';
    assert c - k >= 2 ==> pat[c - k] == en[c - k - 2];
    Mismatch(s, pat, k, c - k);
  }

  /** The closing tag sits where it was written. */
  lemma ClosingAt(pre: string, en: string, xml: string)
    requires xml == pre + ("</" + en + ">")
    ensures MatchAt(xml, "</" + en, |pre|) && xml[|pre|] == '<'
    ensures xml == (pre + "</") + en + ['>'] + []
  {
    assert xml[|pre| .. |pre| + |"</" + en|] == "</" + en;
  }

  /** No `"</" + en` starts inside `inner` when `inner` has none of its
      own and `en` has no `<`: a match cannot run into the closing tag,
      whose `<` the pattern could only meet at its own start. */
  lemma NoEarlierClose(xml: string, pre: string, inner: string, en: string, from: nat)
    requires xml == pre + inner + ("</" + en + ">") && from == |pre|
    requires '<' !in en && !Contains(inner, "</" + en)
    ensures forall k :: from <= k < from + |inner| ==> !MatchAt(xml, "</" + en, k)
    ensures MatchAt(xml, "</" + en, from + |inner|)
  {
    var pat := "</" + en;
    var c := |pre| + |inner|;
    ClosingAt(pre + inner, en, xml);
    forall k | |pre| <= k < c
      ensures !MatchAt(xml, pat, k)
    {
      if k + |pat| <= c {
        MatchInside(pre, inner, "</" + en + ">", pat, k);
      } else {
        NoStraddle(xml, en, k, c);
      }
    }
  }

  /** Decoding ends just past the `>` of the closing tag that starts at
      `contentEnd`. */
  lemma ClosingAngle(xml: string, pre: string, en: string, contentEnd: nat)
    requires xml == pre + ("</" + en + ">") && '>' !in en && contentEnd == |pre|
    ensures EndAfter(xml, contentEnd) == |xml|
  {
    LastAngle(pre + "</", en, contentEnd + 2);
    assert xml == pre + "</" + en + ">";
  }

  /** A text ending in `>` whose last part before it has none. */
  lemma LastAngle(pre: string, en: string, at: nat)
    requires '>' !in en && at == |pre|
    ensures FindChar(pre + en + ">", '>', at) == Some(at + |en|)
  {
    FindCharAfter(pre, en, '>', []);
    assert pre + en + ['>'] + [] == pre + en + ">";
  }

  /** In `pre + inner + "</" + en + ">"`, when `en` has no `<` and `inner`
      has no `"</" + en`, the first `"</" + en` after `pre` is the closing
      one. */
  lemma ClosingFound(xml: string, pre: string, inner: string, en: string, from: nat, contentEnd: nat)
    requires xml == pre + inner + ("</" + en + ">") && from == |pre| && contentEnd == from + |inner|
    requires '<' !in en && !Contains(inner, "</" + en)
    ensures Find(xml, "</" + en, from) == Some(contentEnd)
  {
    NoEarlierClose(xml, pre, inner, en, from);
    FindFirst(xml, "</" + en, from, contentEnd);
  }

  /** An encoding with content holds no declaration when its content has
      none: every other `<` is followed by a name character, `/` or `<`. */
  lemma ContentBare(xml: string, head: string, en: string, at: string, inner: string)
    requires head == "<" + en + at + ">" && xml == head + inner + ("</" + en + ">")
    requires '<' !in en && '<' !in at && (en != [] ==> en[0] != '?')
    requires en == [] && at != [] ==> at[0] == ' '
    requires !Contains(inner, "<?")
    ensures RemoveDeclarations(xml) == Ok(xml)
  {
    var h := |head|;
    var c := h + |inner|;
    forall k: nat | k <= |xml|
      ensures !MatchAt(xml, "<?", k)
    {
      if k + 2 <= |xml| {
        if k == 0 {
          assert xml[1] == head[1];
          Mismatch(xml, "<?", 0, 1);
        } else if k < h {
          assert xml[k] == head[k];
          Mismatch(xml, "<?", k, 0);
        } else if k + 2 <= c {
          MatchInside(head, inner, "</" + en + ">", "<?", k);
        } else if k < c {
          assert xml[k + 1] == '<';
          Mismatch(xml, "<?", k, 1);
        } else if k == c {
          assert xml[k + 1] == '/';
          Mismatch(xml, "<?", k, 1);
        } else {
          assert xml[k] != '<';
          Mismatch(xml, "<?", k, 0);
        }
      }
    }
    NoDeclarationUnchanged(xml);
  }

  /** The last stage for a tag with content. */
  lemma FinishWithContent(xml: string, tagEnd: nat, tag: string, rawName: string, name: string,
                          attrs: seq<Attribute>, inner: string, from: nat, contentEnd: nat, end: nat)
    requires tag != [] && tag[|tag| - 1] != '/'
    requires from == tagEnd + 1 && contentEnd == from + |inner|
    requires Find(xml, "</" + rawName, from) == Some(contentEnd)
    requires EndAfter(xml, contentEnd) == end
    requires xml[from .. contentEnd] == inner
    ensures Finish(Located(xml, tagEnd, tag, rawName), name, attrs)
            == Ok(OpeningTag(name, attrs, Some(inner), end))
  {
  }

  /** A tag holding a name or attributes does not end in `/`: a name has
      none and attribute text ends with a quote. */
  lemma TagLast(name: string, attrs: seq<Attribute>, tag: string)
    requires NameOk(name) && (name != [] || attrs != [])
    requires tag == Escape(name) + AttributesText(attrs)
    ensures tag != [] && tag[|tag| - 1] != '/'
  {
    var en, at := Escape(name), AttributesText(attrs);
    EscapedName(name);
    if attrs != [] {
      AttributesEndQuote(attrs);
      assert tag[|tag| - 1] == at[|at| - 1];
    } else {
      assert tag[|tag| - 1] == en[|en| - 1];
    }
  }

  /** An encoding with content holds no declaration when its content has
      none. */
  lemma ContentNoDeclaration(name: string, attrs: seq<Attribute>, inner: string, xml: string)
    requires NameOk(name) && !Contains(inner, "<?")
    requires xml == "<" + Escape(name) + AttributesText(attrs) + ">" + inner + "</" + Escape(name) + ">"
    ensures RemoveDeclarations(xml) == Ok(xml)
  {
    var en, at := Escape(name), AttributesText(attrs);
    ContentSplits(en, at, inner, xml);
    EscapedName(name);
    AttributesBare(attrs);
    assert en == [] && at != [] ==> at[0] == ' ';
    ContentBare(xml, "<" + en + at + ">", en, at, inner);
  }

  /** Where the opening tag of an encoding with content sits. */
  lemma ContentFacts(name: string, attrs: seq<Attribute>, inner: string, xml: string) returns (tag: string)
    requires NameOk(name)
    requires xml == "<" + Escape(name) + AttributesText(attrs) + ">" + inner + "</" + Escape(name) + ">"
    ensures tag == Escape(name) + AttributesText(attrs)
    ensures FindChar(xml, '<', 0) == Some(0) && FindChar(xml, '>', 1) == Some(|tag| + 1)
    ensures xml[1 .. |tag| + 1] == tag
  {
    var en, at := Escape(name), AttributesText(attrs);
    tag := en + at;
    ContentSplits(en, at, inner, xml);
    TagBare(name, attrs, [], tag + []);
    assert tag + [] == tag;
    TagFrame(tag, inner + ("</" + en + ">"), xml, |tag| + 1);
  }

  /** The opening tag of an encoding with content reads back as its name
      and attributes. */
  lemma ContentTag(name: string, attrs: seq<Attribute>, tag: string)
    requires NameOk(name) && AttributesOk(attrs) && (name != [] || attrs != [])
    requires tag == Escape(name) + AttributesText(attrs)
    ensures tag != [] && tag[|tag| - 1] != '/'
    ensures NameEnd(tag, 0) == |Escape(name)| && tag[..|Escape(name)|] == Escape(name)
    ensures XmlString.Decode(Escape(name)) == Ok(name)
    ensures TagAttributes(tag, |Escape(name)|) == Ok(attrs)
  {
    TagLast(name, attrs, tag);
    assert tag + [] == tag;
    TagContents(name, attrs, [], tag + []);
  }

  /** The content and closing tag of an encoding with content. */
  lemma ContentClosed(name: string, attrs: seq<Attribute>, inner: string, tag: string, xml: string,
                      from: nat, contentEnd: nat)
    requires NameOk(name) && !Contains(inner, "</" + Escape(name))
    requires tag == Escape(name) + AttributesText(attrs) && from == |tag| + 2 && contentEnd == from + |inner|
    requires xml == "<" + Escape(name) + AttributesText(attrs) + ">" + inner + "</" + Escape(name) + ">"
    ensures Find(xml, "</" + Escape(name), from) == Some(contentEnd)
    ensures EndAfter(xml, contentEnd) == |xml|
    ensures xml[from .. contentEnd] == inner
  {
    var en, at := Escape(name), AttributesText(attrs);
    var head := "<" + en + at + ">";
    ContentSplits(en, at, inner, xml);
    EscapedName(name);
    ClosingFound(xml, head, inner, en, from, contentEnd);
    ClosingAngle(xml, head + inner, en, contentEnd);
    MiddleSlice(head, inner, "</" + en + ">", xml, from, contentEnd);
  }

  /** `CommonDecoder` on a text that starts with an opening tag and ends
      with the closing tag of its content. */
  lemma ContentDecoded(xml: string, tag: string, rawName: string, name: string, attrs: seq<Attribute>,
                       inner: string, tagEnd: nat, from: nat, contentEnd: nat, end: nat)
    requires tagEnd == |tag| + 1 && from == tagEnd + 1 && contentEnd == from + |inner|
    requires RemoveDeclarations(xml) == Ok(xml)
    requires FindChar(xml, '<', 0) == Some(0) && FindChar(xml, '>', 1) == Some(tagEnd)
    requires xml[1 .. tagEnd] == tag && tag != [] && tag[|tag| - 1] != '/'
    requires NameEnd(tag, 0) == |rawName| && tag[..|rawName|] == rawName
    requires XmlString.Decode(rawName) == Ok(name)
    requires TagAttributes(tag, |rawName|) == Ok(attrs)
    requires Find(xml, "</" + rawName, from) == Some(contentEnd)
    requires EndAfter(xml, contentEnd) == end
    requires xml[from .. contentEnd] == inner
    ensures CommonDecoder(xml, 0) == Ok(OpeningTag(name, attrs, Some(inner), end))
  {
    DecodedAtStart(xml, tagEnd, tag, rawName, name, attrs);
    FinishWithContent(xml, tagEnd, tag, rawName, name, attrs, inner, from, contentEnd, end);
  }

  /** The middle of three parts, sliced back out. */
  lemma MiddleSlice(pre: string, mid: string, post: string, s: string, i: nat, j: nat)
    requires s == pre + mid + post && i == |pre| && j == i + |mid|
    ensures s[i .. j] == mid
  {
  }

  /** Round trip with content: `CommonDecoder` reads the encoding of an
      element with content back as its name, its attributes, the content
      text exactly, and an end just past the closing tag — provided the
      tag is not empty and the content holds neither a declaration nor a
      closing tag of the same name (the first `</name` ends the content,
      so a nested element of the same name cuts it short). */
  lemma ContentRoundTrip(name: string, attrs: seq<Attribute>, inner: string)
    requires NameOk(name) && AttributesOk(attrs) && (name != [] || attrs != [])
    requires !Contains(inner, "</" + Escape(name)) && !Contains(inner, "<?")
    ensures var xml := "<" + Escape(name) + AttributesText(attrs) + ">" + inner + "</" + Escape(name) + ">";
            CommonDecoder(xml, 0) == Ok(OpeningTag(name, attrs, Some(inner), |xml|))
  {
    var xml := "<" + Escape(name) + AttributesText(attrs) + ">" + inner + "</" + Escape(name) + ">";
    ContentNoDeclaration(name, attrs, inner, xml);
    var tag := ContentFacts(name, attrs, inner, xml);
    ContentTag(name, attrs, tag);
    var tagEnd := |tag| + 1;
    var from := tagEnd + 1;
    var contentEnd := from + |inner|;
    ContentClosed(name, attrs, inner, tag, xml, from, contentEnd);
    ContentDecoded(xml, tag, Escape(name), name, attrs, inner, tagEnd, from, contentEnd, |xml|);
  }

  /** Through `XMLElement.Decode`: an element without content comes back
      whole, and decoding ends after its encoding. */
  lemma ElementWithoutContentRoundTrip(name: string, attrs: seq<Attribute>, readContent: string -> Result<seq<Node>>)
    requires NameOk(name) && AttributesOk(attrs)
    ensures var n := Element(Some(name), attrs, []);
            EncodeNode(n).Ok?
            && DecodeElement(EncodeNode(n).value, 0, readContent) == Ok((n, |EncodeNode(n).value|))
  {
    SelfClosingRoundTrip(name, attrs);
  }

  /** Through `XMLElement.Decode`, with content: the element comes back
      whole when the content reader (standing for `Minify` and the content
      loop) reads the content text back as the items, and decoding ends
      after the encoding. The conditions are those of `ContentRoundTrip`,
      and the content has no comment for `RemoveComments` to take out. */
  lemma ElementRoundTrip(name: string, attrs: seq<Attribute>, content: seq<Node>,
                         readContent: string -> Result<seq<Node>>)
    requires NameOk(name) && AttributesOk(attrs) && (name != [] || attrs != []) && content != []
    requires EncodeContent(content).Ok?
    requires var inner := EncodeContent(content).value;
             !Contains(inner, "</" + Escape(name)) && !Contains(inner, "<?") && !Contains(inner, "<!--")
             && readContent(inner) == Ok(content)
    ensures var n := Element(Some(name), attrs, content);
            EncodeNode(n).Ok?
            && DecodeElement(EncodeNode(n).value, 0, readContent) == Ok((n, |EncodeNode(n).value|))
  {
    var inner := EncodeContent(content).value;
    ContentRoundTrip(name, attrs, inner);
    NoCommentUnchanged(inner);
  }
}

=== FILE: xml_examples.dfy ===
/** The encodings and decodings the repository's own XML examples expect
    (Tests/XmlTests.cs), and the tag reading on a nested element of the
    same name. */
module XmlExamples {
  import opened Common
  import opened Text
  import opened XmlBase
  import opened XmlElement
  import XmlAttribute

  // ---------------------------------------------------------------------
  // Writing, piece by piece

  /** Plain text escapes to itself. */
  lemma PlainEscape(s: string)
    requires XmlString.Plain(s)
    ensures XmlString.Escape(s) == s
  {
    XmlString.EscapeUnchanged(s);
  }

  /** An attribute of plain name and value is written as it stands. */
  lemma PlainAttribute(name: string, value: string)
    requires XmlString.Plain(name) && XmlString.Plain(value)
    ensures XmlAttribute.Encode(XmlAttribute.Attribute(name, value)) == name + "=\"" + value + "\""
  {
    PlainEscape(name);
    PlainEscape(value);
  }

  /** Attribute text, one attribute at a time. */
  lemma AttributesCons(a: Attribute, rest: seq<Attribute>, e: string, r: string)
    requires XmlAttribute.Encode(a) == e && AttributesText(rest) == r
    ensures AttributesText([a] + rest) == " " + e + r
  {
    assert ([a] + rest)[1..] == rest;
  }

  /** Attribute text of a single attribute. */
  lemma SingleAttribute(a: Attribute, e: string)
    requires XmlAttribute.Encode(a) == e
    ensures AttributesText([a]) == " " + e
  {
    assert [a][1..] == [];
    assert " " + e + [] == " " + e;
  }

  /** Content, one item at a time. */
  lemma ContentCons(x: Node, rest: seq<Node>, e: string, r: string)
    requires EncodeNode(x) == Ok(e) && EncodeContent(rest) == Ok(r)
    ensures EncodeContent([x] + rest) == Ok(e + r)
  {
    assert ([x] + rest)[1..] == rest;
  }

  /** Content of a single item. */
  lemma SingleItem(x: Node, e: string)
    requires EncodeNode(x) == Ok(e)
    ensures EncodeContent([x]) == Ok(e)
  {
    assert [x][1..] == [];
    assert e + [] == e;
  }

  /** Plain text is written as it stands. */
  lemma PlainTextNode(name: Option<string>, s: string)
    requires XmlString.Plain(s)
    ensures EncodeNode(Text(name, s)) == Ok(s)
  {
    PlainEscape(s);
  }

  /** Content that is one plain text item encodes to the text itself. */
  lemma PlainContent(s: string)
    requires XmlString.Plain(s)
    ensures EncodeContent([Text(None, s)]) == Ok(s)
  {
    PlainTextNode(None, s);
    SingleItem(Text(None, s), s);
  }

  /** An element of plain name holding content, with its pieces in place. */
  lemma ElementText(name: string, attrs: seq<Attribute>, content: seq<Node>, at: string, inner: string)
    requires XmlString.Plain(name) && content != []
    requires AttributesText(attrs) == at && EncodeContent(content) == Ok(inner)
    ensures EncodeNode(Element(Some(name), attrs, content)) == Ok("<" + name + at + ">" + inner + "</" + name + ">")
  {
    PlainEscape(name);
  }

  /** An element of plain name without content. */
  lemma EmptyElementText(name: string, attrs: seq<Attribute>, at: string)
    requires XmlString.Plain(name) && AttributesText(attrs) == at
    ensures EncodeNode(Element(Some(name), attrs, [])) == Ok("<" + name + at + "/>")
  {
    PlainEscape(name);
  }

  // ---------------------------------------------------------------------
  // SerializeSimple and SerializeTree

  const One: Attribute := XmlAttribute.Attribute("one", "1")
  const Two: Attribute := XmlAttribute.Attribute("two", "2")
  const AA: Attribute := XmlAttribute.Attribute("aa", "bb")

  lemma AttributeOne()
    ensures XmlAttribute.Encode(One) == "one=\"1\""
  {
    PlainAttribute("one", "1");
    assert "one" + "=\"" == "one=\"";
    assert "one=\"" + "1" == "one=\"1";
    assert "one=\"1" + "\"" == "one=\"1\"";
  }

  lemma AttributeTwo()
    ensures AttributesText([Two]) == " two=\"2\""
  {
    PlainAttribute("two", "2");
    assert "two" + "=\"" == "two=\"";
    assert "two=\"" + "2" == "two=\"2";
    assert "two=\"2" + "\"" == "two=\"2\"";
    SingleAttribute(Two, "two=\"2\"");
    assert " " + "two=\"2\"" == " two=\"2\"";
  }

  /** Attribute text of two attributes. */
  lemma AttributesTwo(a: Attribute, b: Attribute, ea: string, eb: string)
    requires XmlAttribute.Encode(a) == ea && XmlAttribute.Encode(b) == eb
    ensures AttributesText([a, b]) == " " + ea + (" " + eb)
  {
    SingleAttribute(b, eb);
    AttributesCons(a, [b], ea, " " + eb);
    assert [a] + [b] == [a, b];
  }

  lemma TopAttributes()
    ensures AttributesText([One, Two]) == " one=\"1\" two=\"2\""
  {
    AttributeOne();
    PlainAttribute("two", "2");
    assert "two" + "=\"" + "2" + "\"" == "two=\"2\"";
    AttributesTwo(One, Two, "one=\"1\"", "two=\"2\"");
    TopAttributesText();
  }

  lemma TopAttributesText()
    ensures " " + "one=\"1\"" + (" " + "two=\"2\"") == " one=\"1\" two=\"2\""
  {
  }

  lemma SimpleJoin()
    ensures "<" + "top" + " one=\"1\" two=\"2\"" + ">" + "555" + "</" + "top" + ">"
            == "<top one=\"1\" two=\"2\">555</top>"
  {
    assert "<" + "top" == "<top";
    assert "<top" + " one=\"1\" two=\"2\"" == "<top one=\"1\" two=\"2\"";
    assert "<top one=\"1\" two=\"2\"" + ">" == "<top one=\"1\" two=\"2\">";
    assert "<top one=\"1\" two=\"2\">" + "555" == "<top one=\"1\" two=\"2\">555";
    assert "<top one=\"1\" two=\"2\">555" + "</" == "<top one=\"1\" two=\"2\">555</";
    assert "<top one=\"1\" two=\"2\">555</" + "top" == "<top one=\"1\" two=\"2\">555</top";
    assert "<top one=\"1\" two=\"2\">555</top" + ">" == "<top one=\"1\" two=\"2\">555</top>";
  }

  /** `<top one="1" two="2">555</top>`: an element with two attributes and
      one text item. */
  lemma SimpleEncoding()
    ensures EncodeNode(Element(Some("top"), [One, Two], [Text(None, "555")]))
            == Ok("<top one=\"1\" two=\"2\">555</top>")
  {
    hide EncodeNode, EncodeContent, AttributesText;
    TopAttributes();
    PlainContent("555");
    ElementText("top", [One, Two], [Text(None, "555")], " one=\"1\" two=\"2\"", "555");
    SimpleJoin();
  }

  const Inner: Node := Element(Some("first"), [AA], [Text(None, "aaa")])
  const First: Node := Element(Some("first"), [], [Inner])
  const Second: Node := Element(Some("second"), [], [])

  lemma AttributeAA()
    ensures AttributesText([AA]) == " aa=\"bb\""
  {
    PlainAttribute("aa", "bb");
    assert "aa" + "=\"" == "aa=\"";
    assert "aa=\"" + "bb" == "aa=\"bb";
    assert "aa=\"bb" + "\"" == "aa=\"bb\"";
    SingleAttribute(AA, "aa=\"bb\"");
    assert " " + "aa=\"bb\"" == " aa=\"bb\"";
  }

  lemma InnerJoin()
    ensures "<" + "first" + " aa=\"bb\"" + ">" + "aaa" + "</" + "first" + ">" == "<first aa=\"bb\">aaa</first>"
  {
    assert "<" + "first" == "<first";
    assert "<first" + " aa=\"bb\"" == "<first aa=\"bb\"";
    assert "<first aa=\"bb\"" + ">" == "<first aa=\"bb\">";
    assert "<first aa=\"bb\">" + "aaa" == "<first aa=\"bb\">aaa";
    assert "<first aa=\"bb\">aaa" + "</" == "<first aa=\"bb\">aaa</";
    assert "<first aa=\"bb\">aaa</" + "first" == "<first aa=\"bb\">aaa</first";
    assert "<first aa=\"bb\">aaa</first" + ">" == "<first aa=\"bb\">aaa</first>";
  }

  lemma InnerEncoding()
    ensures EncodeNode(Inner) == Ok("<first aa=\"bb\">aaa</first>")
  {
    hide EncodeNode, EncodeContent, AttributesText;
    AttributeAA();
    PlainContent("aaa");
    ElementText("first", [AA], [Text(None, "aaa")], " aa=\"bb\"", "aaa");
    InnerJoin();
  }

  /** An element written around its content, with the opening and closing
      tags already joined. */
  lemma Framed(name: string, at: string, body: string, open: string, close: string)
    requires open == "<" + name + at + ">" && close == "</" + name + ">"
    ensures "<" + name + at + ">" + body + "</" + name + ">" == open + body + close
  {
  }

  /** The opening and closing tags of `top`. */
  lemma TopTags()
    ensures "<" + "top" + " one=\"1\" two=\"2\"" + ">" == "<top one=\"1\" two=\"2\">"
    ensures "</" + "top" + ">" == "</top>"
  {
    assert "<" + "top" == "<top";
    assert "<top" + " one=\"1\" two=\"2\"" == "<top one=\"1\" two=\"2\"";
  }

  const InnerText: string := "<first aa=\"bb\">aaa</first>"

  /** An element with no attributes and one child is the child's text
      between the element's tags. */
  lemma SingleChild(name: string, child: Node, ct: string, open: string, close: string)
    requires XmlString.Plain(name) && EncodeNode(child) == Ok(ct)
    requires open == "<" + name + ">" && close == "</" + name + ">"
    ensures EncodeNode(Element(Some(name), [], [child])) == Ok(open + ct + close)
  {
    SingleItem(child, ct);
    assert AttributesText([]) == [];
    ElementText(name, [], [child], [], ct);
    assert "<" + name + [] == "<" + name;
    Framed(name, [], ct, open, close);
  }

  /** The opening and closing tags of `first`. */
  lemma FirstTags()
    ensures "<" + "first" + ">" == "<first>" && "</" + "first" + ">" == "</first>"
  {
  }

  lemma FirstEncoding()
    ensures EncodeNode(First) == Ok("<first>" + InnerText + "</first>")
  {
    hide EncodeNode, EncodeContent, AttributesText;
    InnerEncoding();
    FirstTags();
    SingleChild("first", Inner, InnerText, "<first>", "</first>");
  }

  lemma SecondEncoding()
    ensures EncodeContent([Second]) == Ok("<second/>")
  {
    assert AttributesText([]) == [];
    EmptyElementText("second", [], []);
    assert "<" + "second" + [] == "<second";
    assert "<second" + "/>" == "<second/>";
    SingleItem(Second, "<second/>");
  }

  lemma TreeContent()
    ensures EncodeContent([First, Second]) == Ok("<first>" + InnerText + "</first>" + "<second/>")
  {
    FirstEncoding();
    SecondEncoding();
    ContentCons(First, [Second], "<first>" + InnerText + "</first>", "<second/>");
    assert [First] + [Second] == [First, Second];
  }

  /** The tree of `top`, `first` (holding another `first` with an attribute
      and text) and an empty `second`, written as one line: the expected
      text of the example, given as the opening tag, the content and the
      closing tag. */
  lemma TreeEncoding()
    ensures EncodeNode(Element(Some("top"), [One, Two], [First, Second]))
            == Ok("<top one=\"1\" two=\"2\">"
                  + ("<first>" + "<first aa=\"bb\">aaa</first>" + "</first>" + "<second/>")
                  + "</top>")
  {
    TreeContent();
    TopAttributes();
    var inner := "<first>" + InnerText + "</first>" + "<second/>";
    ElementText("top", [One, Two], [First, Second], " one=\"1\" two=\"2\"", inner);
    TopTags();
    Framed("top", " one=\"1\" two=\"2\"", inner, "<top one=\"1\" two=\"2\">", "</top>");
  }

  // ---------------------------------------------------------------------
  // Reading tags back

  /** Plain text decodes to itself. */
  lemma PlainText(s: string)
    requires XmlString.Plain(s)
    ensures XmlString.Decode(s) == Ok(s)
  {
    XmlString.EscapeUnchanged(s);
    XmlString.DecodeEncode(s);
  }

  /** A text without `?` holds no declaration. */
  lemma NoQuestionMark(s: string)
    requires '?' !in s
    ensures RemoveDeclarations(s) == Ok(s)
  {
    forall k: nat | k <= |s|
      ensures !MatchAt(s, "<?", k)
    {
      if k + 2 <= |s| {
        assert s[k + 1] in s;
        Mismatch(s, "<?", k, 1);
      }
    }
    NoDeclarationUnchanged(s);
  }

  const Nested: string := "<a><a>x</a></a>"

  /** The opening tag of `Nested`. */
  lemma NestedOpening()
    ensures RemoveDeclarations(Nested) == Ok(Nested)
    ensures FindChar(Nested, '<', 0) == Some(0) && FindChar(Nested, '>', 1) == Some(2)
    ensures Nested[1 .. 2] == "a"
  {
    hide RemoveDeclarations, FindChar;
    NoQuestionMark(Nested);
    assert Nested[0] == '<' && Nested[1] == 'a' && Nested[2] == '>';
    FindCharFirst(Nested, '<', 0, 0);
    FindCharFirst(Nested, '>', 1, 2);
  }

  /** The tag text `a`: a name and no attributes. */
  lemma NestedTag()
    ensures NameEnd("a", 0) == |"a"| && "a"[..|"a"|] == "a"
    ensures XmlString.Decode("a") == Ok("a")
    ensures TagAttributes("a", |"a"|) == Ok([])
  {
    PlainText("a");
  }

  /** The closing tag the reading finds in `Nested`: the inner one. */
  lemma NestedClose()
    ensures Find(Nested, "</" + "a", 3) == Some(7)
    ensures EndAfter(Nested, 7) == 11 && Nested[3 .. 7] == "<a>x"
  {
    var pat := "</" + "a";
    assert pat == "</a";
    Mismatch(Nested, pat, 3, 1);
    Mismatch(Nested, pat, 4, 0);
    Mismatch(Nested, pat, 5, 0);
    Mismatch(Nested, pat, 6, 0);
    assert Nested[7 .. 10] == pat;
    FindFirst(Nested, pat, 3, 7);
  }

  /** A nested element of the same name cuts the content short: the first
      `</a` ends it, so the outer element's content is `<a>x` and decoding
      stops after the inner closing tag, at 11 of 15. */
  lemma SameNameNesting()
    ensures CommonDecoder(Nested, 0) == Ok(OpeningTag("a", [], Some("<a>x"), 11))
  {
    NestedOpening();
    NestedTag();
    NestedClose();
    ContentDecoded(Nested, "a", "a", "a", [], "<a>x", 2, 3, 7, 11);
  }
}

=== FILE: xml_string.dfy ===
/** `XMLString` (XML/XMLString.cs): escaping text for XML with the five
    predefined entities of section 4.6 of XML 1.0 and hexadecimal character
    references (section 4.1) for control characters, and the reverse,
    after comments and declarations are taken out. */
module XmlString {
  import opened Common
  import opened Text
  import opened ParseNumbers
  import opened XmlBase

  /** `EscapeUnicode`: `&#x` and the lower-case hexadecimal code, with no
      terminating `;`. */
  function EscapeUnicode(c: char): string
  {
    "&#x" + ToHex(c as int)
  }

  /** The replacement of one character inside `Escape`. */
  function EscapeChar(c: char): string
  {
    match c
    case '<' => "&lt;"
    case '>' => "&gt;"
    case '\'' => "&apos;"
    case '"' => "&quot;"
    case '&' => "&amp;"
    case _ => if c < ' ' then EscapeUnicode(c) else [c]
  }

  /** No control characters: the strings `Escape` is meant for. */
  predicate NoControl(s: string)
  {
    forall k :: 0 <= k < |s| ==> s[k] >= ' '
  }

  /** `Escape` (also the static `Encode`): the replacements one after
      another. The result holds none of the four markup characters
      `<`, `>`, `'` and `"`. */
  function Escape(s: string): (r: string)
    ensures '<' !in r && '>' !in r && '\'' !in r && '"' !in r
  {
    if s == [] then [] else EscapeChar(s[0]) + Escape(s[1..])
  }

  /** The character a named entity stands for, if it is one of the five. */
  function NamedEntity(name: string): Option<char>
  {
    if name == "lt" then Some('<')
    else if name == "gt" then Some('>')
    else if name == "amp" then Some('&')
    else if name == "apos" then Some('\'')
    else if name == "quot" then Some('"')
    else None
  }

  /** The `(char)` cast of an `int`: its low 16 bits, refused when they are
      a surrogate code unit on its own. */
  function CodeUnit(v: Int32): (r: Result<char>)
    ensures r.Ok? ==> r.value as int == v % 0x1_0000
  {
    var u := v % 0x1_0000;
    if 0xD800 <= u < 0xE000 then Fail(LoneSurrogate) else Ok(u as char)
  }

  /** `UnescapeUnicode`: the character reference starting at `start`,
      hexadecimal after `&#x` and decimal after `&#`, and how many characters
      it takes, which always runs through the first `;` after `&#`. */
  function UnescapeUnicode(input: string, start: nat): (r: Result<(char, nat)>)
    ensures r.Ok? ==> r.value.1 >= 3
                      && FindChar(input, ';', start + 2) == Some(start + r.value.1 - 1)
  {
    if start + 2 < |input| then
      if input[start] == '&' && input[start + 1] == '#' then
        match FindChar(input, ';', start + 2)
        case None => Fail(ArgumentException)
        case Some(end) =>
          if input[start + 2] == 'x' then
            var hex := input[start + 3 .. end];
            var v :- StringToInt(hex, 16);
            var c :- CodeUnit(v);
            Ok((c, |hex| + 4))
          else
            var num := input[start + 2 .. end];
            var v :- StringToInt(num, 10);
            var c :- CodeUnit(v);
            Ok((c, |num| + 3))
      else Fail(ArgumentException)
    else Fail(ArgumentOutOfRange)
  }

  /** `Unescape`: each `&` starts a reference that runs to the next `;`; an
      empty one, an unknown name or a missing `;` are refused, and the text
      resumes after the `;`. */
  function Unescape(s: string): (r: Result<string>)
    decreases |s|
  {
    if s == [] then Ok([])
    else if s[0] != '&' then
      var rest :- Unescape(s[1..]);
      Ok([s[0]] + rest)
    else
      match FindChar(s, ';', 1)
      case None => Fail(ArgumentException)
      case Some(end) =>
        var name := s[1 .. end];
        if name == [] then Fail(IndexOutOfRange)
        else if name[0] == '#' then
          var reference :- UnescapeUnicode("&" + name + ";", 0);
          var rest :- Unescape(s[end + 1 ..]);
          Ok([reference.0] + rest)
        else
          match NamedEntity(name)
          case None => Fail(ArgumentException)
          case Some(c) =>
            var rest :- Unescape(s[end + 1 ..]);
            Ok([c] + rest)
  }

  /** The static `Decode`: comments, then declarations, removed, then the
      references resolved. */
  function Decode(input: string): Result<string>
  {
    var uncommented :- RemoveComments(input);
    var bare :- RemoveDeclarations(uncommented);
    Unescape(bare)
  }

  /** The instance `Decode(xml, start)`: decodes the whole text whatever
      `start` is, and reports the end of the text. */
  function DecodeAt(xml: string, start: int): (r: Result<(string, nat)>)
    ensures r.Ok? ==> r.value.1 == |xml| && Decode(xml) == Ok(r.value.0)
    ensures r.Fail? <==> Decode(xml).Fail?
  {
    var content :- Decode(xml);
    Ok((content, |xml|))
  }

  /** A piece of text without `&` comes through `Unescape` unchanged, in
      front of whatever follows. */
  lemma {:induction false} UnescapePlain(p: string, t: string)
    requires '&' !in p
    ensures Unescape(p + t) == (match Unescape(t) case Ok(u) => Ok(p + u) case Fail(e) => Fail(e))
  {
    if p == [] {
      assert p + t == t;
      if Unescape(t).Ok? {
        assert p + Unescape(t).value == Unescape(t).value;
      }
    } else {
      assert (p + t)[0] == p[0] && (p + t)[1..] == p[1..] + t;
      UnescapePlain(p[1..], t);
      if Unescape(t).Ok? {
        assert [p[0]] + (p[1..] + Unescape(t).value) == p + Unescape(t).value;
      }
    }
  }

  /** A named entity is replaced and the text resumes after its `;`. */
  lemma UnescapeNamed(name: string, c: char, t: string)
    requires NamedEntity(name) == Some(c)
    ensures Unescape("&" + name + ";" + t)
            == (match Unescape(t) case Ok(u) => Ok([c] + u) case Fail(e) => Fail(e))
  {
    var s := "&" + name + ";" + t;
    FindCharFirst(s, ';', 1, |name| + 1);
    assert s[1 .. |name| + 1] == name;
    assert s[|name| + 2 ..] == t;
  }

  /** A `&` with no `;` after it is refused. */
  lemma UnescapeUnterminated(p: string, rest: string)
    requires '&' !in p && ';' !in rest
    ensures Unescape(p + "&" + rest) == Fail(ArgumentException)
  {
    UnescapePlain(p, "&" + rest);
    assert p + "&" + rest == p + ("&" + rest);
    var s := "&" + rest;
    assert forall k :: 1 <= k < |s| ==> s[k] == rest[k - 1];
  }

  /** An entity name outside the five is refused. */
  lemma UnescapeUnknown(name: string, t: string)
    requires name != [] && name[0] != '#' && ';' !in name && NamedEntity(name).None?
    ensures Unescape("&" + name + ";" + t) == Fail(ArgumentException)
  {
    var s := "&" + name + ";" + t;
    assert forall k :: 1 <= k < |name| + 1 ==> s[k] == name[k - 1];
    FindCharFirst(s, ';', 1, |name| + 1);
    assert s[1 .. |name| + 1] == name;
  }

  /** A hexadecimal character reference becomes its character. */
  lemma UnescapeHex(hex: string, v: Int32, c: char, t: string)
    requires ';' !in hex && StringToInt(hex, 16) == Ok(v) && CodeUnit(v) == Ok(c)
    ensures Unescape("&#x" + hex + ";" + t)
            == (match Unescape(t) case Ok(u) => Ok([c] + u) case Fail(e) => Fail(e))
  {
    var s := "&#x" + hex + ";" + t;
    var end := |hex| + 3;
    assert forall k :: 3 <= k < end ==> s[k] == hex[k - 3];
    FindCharFirst(s, ';', 1, end);
    var name := s[1 .. end];
    assert name == "#x" + hex;
    var w := "&" + name + ";";
    assert w == "&#x" + hex + ";";
    assert forall k :: 3 <= k < end ==> w[k] == hex[k - 3];
    FindCharFirst(w, ';', 2, end);
    assert w[3 .. end] == hex;
    assert s[end + 1 ..] == t;
  }

  /** Every character other than a control character comes back from its
      replacement, in front of whatever follows. */
  lemma UnescapeStep(c: char, t: string, u: string)
    requires c >= ' ' && Unescape(t) == Ok(u)
    ensures Unescape(EscapeChar(c) + t) == Ok([c] + u)
  {
    match c
    case '<' => assert EscapeChar(c) == "&" + "lt" + ";"; UnescapeNamed("lt", c, t);
    case '>' => assert EscapeChar(c) == "&" + "gt" + ";"; UnescapeNamed("gt", c, t);
    case '\'' => assert EscapeChar(c) == "&" + "apos" + ";"; UnescapeNamed("apos", c, t);
    case '"' => assert EscapeChar(c) == "&" + "quot" + ";"; UnescapeNamed("quot", c, t);
    case '&' => assert EscapeChar(c) == "&" + "amp" + ";"; UnescapeNamed("amp", c, t);
    case _ =>
      assert ([c] + t)[1..] == t;
  }

  /** Round trip: `Unescape` undoes `Escape` on text without control
      characters. */
  lemma {:induction false} EscapeRoundTrip(s: string)
    requires NoControl(s)
    ensures Unescape(Escape(s)) == Ok(s)
  {
    if s != [] {
      EscapeRoundTrip(s[1..]);
      UnescapeStep(s[0], Escape(s[1..]), s[1..]);
      assert [s[0]] + s[1..] == s;
    }
  }

  /** Escaped text has nothing for comment or declaration removal to act
      on. */
  lemma EscapedIsBare(s: string)
    ensures !Contains(Escape(s), "<!--") && !Contains(Escape(s), "<?")
    ensures RemoveComments(Escape(s)) == Ok(Escape(s))
    ensures RemoveDeclarations(Escape(s)) == Ok(Escape(s))
  {
    AbsentLead(Escape(s), "<!--");
    AbsentLead(Escape(s), "<?");
    NoCommentUnchanged(Escape(s));
    NoDeclarationUnchanged(Escape(s));
  }

  /** Round trip through the public pair: `XMLString.Decode(XMLString.Encode(s))`
      is `s` for every `s` without control characters. */
  lemma DecodeEncode(s: string)
    requires NoControl(s)
    ensures Decode(Escape(s)) == Ok(s)
  {
    EscapedIsBare(s);
    EscapeRoundTrip(s);
  }

  /** Text without `<` decodes as `Unescape` alone reads it. */
  lemma DecodeWithoutMarkup(s: string)
    requires '<' !in s
    ensures Decode(s) == Unescape(s)
  {
    AbsentLead(s, "<!--");
    AbsentLead(s, "<?");
    NoCommentUnchanged(s);
    NoDeclarationUnchanged(s);
  }

  /** The escape of U+0001 as the source writes it. */
  lemma ControlEscape()
    ensures Escape(['\U{1}']) == "&#x1"
    ensures Escape(['\U{1}', ';']) == "&#x1;"
  {
    assert ToHex(1) == "1";
    assert EscapeChar('\U{1}') == "&#x1";
    assert Escape([';']) == [';'] + Escape([]);
  }

  /** Defect witness: a control character is written as `&#x1` with no
      `;`, so alone it cannot be read back, ... */
  lemma ControlCharacterLost()
    ensures Decode(Escape(['\U{1}'])) == Fail(ArgumentException)
    ensures Decode(Escape(['\U{1}', ';'])) == Ok(['\U{1}'])
  {
    ControlEscape();
    UnterminatedReference();
    SwallowedSemicolon();
  }

  lemma UnterminatedReference()
    ensures Decode("&#x1") == Fail(ArgumentException)
  {
    DecodeWithoutMarkup("&#x1");
    UnterminatedText();
  }

  lemma UnterminatedText()
    ensures Unescape("&#x1") == Fail(ArgumentException)
  {
    UnescapeUnterminated([], "#x1");
    assert [] + "&" + "#x1" == "&#x1";
  }

  /** ... and before a `;` it takes that `;` as its own. */
  lemma SwallowedSemicolon()
    ensures Decode("&#x1;") == Ok(['\U{1}'])
  {
    DecodeWithoutMarkup("&#x1;");
    ReferenceOne();
  }

  lemma ReferenceOne()
    ensures Unescape("&#x1;") == Ok(['\U{1}'])
  {
    var t: string := [];
    HexOne();
    UnescapeHex("1", 1, '\U{1}', t);
    assert "&#x" + "1" + ";" + t == "&#x1;";
    assert Unescape(t) == Ok([]);
    assert ['\U{1}'] + [] == ['\U{1}'];
  }

  lemma HexOne()
    ensures StringToInt("1", 16) == Ok(1) && CodeUnit(1) == Ok('\U{1}')
  {
    HexRoundTrip(1);
    assert ToHex(1) == "1";
  }

  /** The corrected escape of a control character: the reference closed by
      `;`, as section 4.1 of XML 1.0 requires. Other characters as before. */
  function EscapeCharFixed(c: char): (r: string)
    ensures '<' !in r && '>' !in r && '\'' !in r && '"' !in r
  {
    if c < ' ' then EscapeUnicode(c) + ";" else EscapeChar(c)
  }

  /** The corrected `Escape`. */
  function EscapeFixed(s: string): (r: string)
    ensures '<' !in r && '>' !in r && '\'' !in r && '"' !in r
  {
    if s == [] then [] else EscapeCharFixed(s[0]) + EscapeFixed(s[1..])
  }

  /** On text without control characters the correction changes nothing. */
  lemma {:induction false} EscapeFixedAgrees(s: string)
    requires NoControl(s)
    ensures EscapeFixed(s) == Escape(s)
  {
    if s != [] {
      EscapeFixedAgrees(s[1..]);
    }
  }

  /** A control character comes back from its corrected reference. */
  lemma UnescapeControl(c: char, t: string, u: string)
    requires c < ' ' && Unescape(t) == Ok(u)
    ensures Unescape(EscapeCharFixed(c) + t) == Ok([c] + u)
  {
    var hex := ToHex(c as int);
    HexRoundTrip(c as int);
    ControlUnit(c);
    HexAvoids(c as int, ';');
    UnescapeHex(hex, c as int, c, t);
    ControlReference(c, hex, t);
  }

  /** The code of a control character is its own code unit. */
  lemma ControlUnit(c: char)
    requires c < ' '
    ensures CodeUnit(c as int) == Ok(c)
  {
  }

  /** A character that is no hexadecimal digit is not in `ToHex(n)`. */
  lemma HexAvoids(n: nat, x: char)
    requires !IsDigit(x, 16)
    ensures x !in ToHex(n)
  {
  }

  /** The corrected escape of a control character, followed by `t`. */
  lemma ControlReference(c: char, hex: string, t: string)
    requires c < ' ' && hex == ToHex(c as int)
    ensures EscapeCharFixed(c) + t == "&#x" + hex + ";" + t
  {
  }

  /** Corrected round trip: every string, control characters included,
      comes back from its corrected escape. */
  lemma {:induction false} EscapeFixedRoundTrip(s: string)
    ensures Unescape(EscapeFixed(s)) == Ok(s)
  {
    if s != [] {
      EscapeFixedRoundTrip(s[1..]);
      if s[0] < ' ' {
        UnescapeControl(s[0], EscapeFixed(s[1..]), s[1..]);
      } else {
        UnescapeStep(s[0], EscapeFixed(s[1..]), s[1..]);
      }
      assert [s[0]] + s[1..] == s;
    }
  }

  /** ... and through the public `Decode` as well. */
  lemma DecodeEncodeFixed(s: string)
    ensures Decode(EscapeFixed(s)) == Ok(s)
  {
    DecodeWithoutMarkup(EscapeFixed(s));
    EscapeFixedRoundTrip(s);
  }

  /** Escaping works character by character. */
  lemma {:induction false} EscapeConcat(a: string, b: string)
    ensures Escape(a + b) == Escape(a) + Escape(b)
  {
    if a == [] {
      assert a + b == b;
    } else {
      assert (a + b)[0] == a[0] && (a + b)[1..] == a[1..] + b;
      EscapeConcat(a[1..], b);
    }
  }

  /** A character that is neither in the text nor among the characters
      of the five entities and their delimiters is not in the escape. */
  lemma {:induction false} EscapeAvoids(s: string, x: char)
    requires NoControl(s) && x !in s && x !in "&;agilmopqstu"
    ensures x !in Escape(s)
  {
    if s != [] {
      EscapeAvoids(s[1..], x);
    }
  }

  /** The escape starts with `&` or the first character, and ends with `;`
      or the last character. */
  lemma EscapeEnds(s: string)
    requires NoControl(s) && s != []
    ensures var r := Escape(s);
            r != [] && (r[0] == '&' || r[0] == s[0])
            && (r[|r| - 1] == ';' || r[|r| - 1] == s[|s| - 1])
  {
    var init, last := s[..|s| - 1], s[|s| - 1];
    EscapeConcat(init, [last]);
    assert init + [last] == s;
    assert Escape([last]) == EscapeChar(last) + Escape([]);
    CharEnds(s[0]);
    CharEnds(last);
    FirstOf(EscapeChar(s[0]), Escape(s[1..]));
    LastOf(Escape(init), EscapeChar(last));
  }

  /** The replacement of a character that is not a control character
      starts with `&` or the character and ends with `;` or the character. */
  lemma CharEnds(c: char)
    requires c >= ' '
    ensures var e := EscapeChar(c);
            e != [] && (e[0] == '&' || e[0] == c) && (e[|e| - 1] == ';' || e[|e| - 1] == c)
  {
  }

  lemma FirstOf(a: string, b: string)
    requires a != []
    ensures (a + b)[0] == a[0]
  {
  }

  lemma LastOf(a: string, b: string)
    requires b != []
    ensures (a + b)[|a + b| - 1] == b[|b| - 1]
  {
  }

  /** Characters `Escape` copies: neither markup, `&` nor control. */
  predicate PlainChar(c: char)
  {
    c >= ' ' && c != '<' && c != '>' && c != '\'' && c != '"' && c != '&'
  }

  /** A text of plain characters only. */
  predicate Plain(s: string)
  {
    forall k :: 0 <= k < |s| ==> PlainChar(s[k])
  }

  /** Escaping never shortens a text. */
  lemma {:induction false} EscapeNoShorter(s: string)
    ensures |Escape(s)| >= |s|
  {
    if s != [] {
      EscapeNoShorter(s[1..]);
    }
  }

  /** `Escape` leaves a text as it is exactly when every character is
      plain: each other character turns into an entity or reference of at
      least three characters. */
  lemma {:induction false} EscapeUnchanged(s: string)
    ensures Escape(s) == s <==> Plain(s)
  {
    if s != [] {
      var c, t := s[0], s[1..];
      EscapeUnchanged(t);
      EscapeNoShorter(t);
      assert s == [c] + t;
      if PlainChar(c) {
        assert EscapeChar(c) == [c];
        if Plain(t) {
          assert Plain(s);
        } else {
          assert Escape(s) == [c] + Escape(t);
          assert Escape(s)[1..] == Escape(t);
          var k :| 0 <= k < |t| && !PlainChar(t[k]);
          assert s[k + 1] == t[k];
        }
      } else {
        assert |EscapeChar(c)| >= 2;
        assert !PlainChar(s[0]);
      }
    }
  }
}
